=== FILE: README.md ===
# Advent of Code 2021 solutions, modelled in Dafny

This project models the puzzle rules inside a set of Rust solutions to Advent of Code 2021. One Dafny module covers each component of a day. The model leaves out the file reading and printing that surrounds each rule. Every rule is a function or method over sequences, maps and sets, with contracts that state what the code does. Where a contract promises less than the code, or the model differs from the code, "Left out" says so.

The main piece is the day 12 cave search (`Caves`, `CaveSearch`). The cave system is a sequence of named caves, each small or big with its list of connections. `find_paths` runs a depth-first search over an explicit list of navigators. `CaveSearch.FindPaths` proves the following:

- Every path reported is a walk from the start cave to the end cave. Such a walk stops at its first arrival at the end. It moves only along connections and never re-enters the start cave. It re-enters small caves at most `revisits` times in all.
- When the iteration cap is not reached, every such walk is reported.
- When no connection was recorded twice, no walk is reported twice.

The other days are modelled in the same way:

- day 1: the sliding-window count (`SonarSweep`);
- day 2: submarine commands (`Dive`);
- day 3: bit counters and the rating narrowing (`Diagnostic`, over `Bits` and `Tally`);
- day 4: bingo (`Bingo`, `BingoGame`);
- day 5: points, boxes, segments and the overlap map (`OceanPoint`, `OceanRect`, `OceanSegment`, `OceanMap`);
- day 6: the lanternfish buckets (`Lanternfish`);
- day 7: crab fuel (`CrabFuel`);
- day 8: seven-segment decoding (`SevenSegment`, `SignalInput`, `SegmentDecoder`, `LineDecoder`);
- day 9: the height map and its basins (`HeightMap`);
- day 10: bracket scanning over a stack (`Stacks`, `SyntaxScoring`);
- day 11: octopus flashes (`Octopi`, `OctopusGrid`);
- day 13: folding transparent paper (`TransparentPaper`, `Origami`);
- day 14: pair-count polymer growth (`Polymerization`, `PolymerResult`, `PolymerMain`).

Shared definitions live in `Common`. It provides the outcome type `Result` with `Ok`, `Err` and `Panic`, where `Panic` stands for a Rust panic: an `assert!`, an `unwrap` or `expect` on nothing, or an index out of bounds. `Common` also holds `Option`, splitting, trimming and Rust's integer parsing. A map iterated in hash order is modelled by a loop that takes any remaining key. Its contracts state only facts that hold whatever the order.

Where the code and its intended behaviour differ, the model follows the code:

- `find_paths` returns its paths as a success even when it stops at the iteration cap (day12/src/caves.rs:253).
- `connect` records a connection again when it is called twice for the same pair (day12/src/caves.rs:49-51).
- The day 11 unit test `flash_induced_flash` (day11/src/map.rs:182-189) expects the second octopus to end at energy 1. The code flashes it as well, and it ends at 0. `OctopusGrid.InducedFlash` proves what the code does.
- `Fold::from_str` reads the number from the third character after "fold along " on, so the character after the axis is never checked (day13/src/main.rs:21-22).

## Model

| member | source | states |
|---|---|---|
| SonarSweep.CountIncreases | day1/src/main.rs:4-43 | a window size of 0 fails the assertion and nothing else does; otherwise the count is the number of windows whose sum exceeds the sum of the window one reading earlier, and equally the number of readings that exceed the reading `wsize` places before them |
| SonarSweep.Shift | day1/src/main.rs:22-25 | after the shift the new reading is first and every other slot holds what the slot before it held |
| SonarSweep.SumWindow | day1/src/main.rs:32-35 | the sum computed is the sum of the window's readings |
| SonarSweep.WindowStep | day1/src/main.rs:37-39 | sliding a full window one reading on gains the reading that enters and loses the one that leaves, so the sum grows exactly when the entering reading exceeds the leaving one |
| SonarSweep.IncreasesAreRises | day1/src/main.rs:37-39 | the windows whose sum grows are exactly the readings that exceed the reading a window's length before them |
| SonarSweep.HoldsWindowSum | day1/src/main.rs:22-35 | a window kept newest first sums to the sum of the last `wsize` readings |
| SonarSweep.HoldsShift | day1/src/main.rs:22-25 | shifting in the next reading keeps the window equal to the last `wsize` readings, newest first |
| Dive.ParseCommand | day02/src/main.rs:29-39 | a line without a space panics with "Invalid command string" and every line with one does not; an unknown name is the error "Invalid command name"; the units of a command lie in the 64-bit signed range |
| Dive.ParseCommandOf | day02/src/main.rs:29-39 | for a name without a space: units that are not a 64-bit integer panic with "Invalid units in command"; otherwise forward, down and up give that command with those units and every other name gives the error |
| Dive.ParseShowCommand | day02/src/main.rs:29-39 | writing a command as its name, a space and its units and reading it back gives the command |
| Dive.CourseSums | day02/src/main.rs:50-54 | after part 1's moves the horizontal position is the sum of the forward units and the depth is the down units less the up units |
| Dive.CourseAppend | day02/src/main.rs:50-54 | the forward sum and the depth of two runs of commands add up |
| Dive.VoyageSums | day02/src/main.rs:69-76 | after part 2's moves the position is the forward sum, the aim is the down units less the up units, and the depth is the sum of each forward move times the aim before it; the position and aim equal part 1's position and depth |
| Dive.LevelVoyage | day02/src/main.rs:69-76 | commands that are all forward leave aim and depth at zero |
| Dive.PartOne | day02/src/main.rs:42-58 | the loop panics exactly when some line does not read as a command, and otherwise ends at the course of all the commands |
| Dive.PartTwo | day02/src/main.rs:60-80 | the loop panics exactly when some line does not read as a command, and otherwise ends at the aimed course of all the commands |
| Diagnostic.NewNumber | day3/src/main.rs:16-19 | a length of 64 or more aborts; otherwise the number has that length and every bit is 0 |
| Diagnostic.Bit | day3/src/main.rs:35-38 | reading a bit at or past the length aborts; otherwise the bit is 0 or 1 |
| Bits.BitOfDiv | day3/src/main.rs:37 | the bit read at `pos` is `(num >> pos) & 1`: the remainder by two of `num` divided by 2 to the power `pos` |
| Bits.Pow2Add | day3/src/main.rs:43-45 | the powers of two behind the shifted masks multiply by adding their exponents |
| Diagnostic.SetBit | day3/src/main.rs:40-49 | a position at or past the length, or a value other than 0 or 1, aborts; otherwise the bit at the position becomes the value and every other bit and the length stay as they were |
| Diagnostic.SetBitAsWritten | day3/src/main.rs:40-49 | below position 31 it agrees with the intended `set_bit`; at position 31 the 32-bit mask is sign-extended into bits 32 to 63; from position 32 on the shift overflows and aborts |
| Diagnostic.SetBitAsWrittenWrong | day3/src/main.rs:44-45 | setting bit 31 to 1 on a longer number whose bit 32 is clear sets bit 32 as well, where the intended operation leaves it clear |
| Diagnostic.SetBitAsWrittenAborts | day3/src/main.rs:43-45 | setting bit 35 of a 40-bit number aborts where the intended operation succeeds |
| Diagnostic.SignExtendedSpills | day3/src/main.rs:45 | OR-ing in the sign-extended mask of position `pos` sets bit `pos + 1` too |
| Diagnostic.ParseBinary | day3/src/main.rs:27 | radix-2 parsing succeeds exactly on a non-empty run of 0s and 1s after an optional plus sign |
| Diagnostic.BinaryValueBits | day3/src/main.rs:27 | bit i of a binary string's value is the i-th digit from the right |
| Diagnostic.FromBinaryStr | day3/src/main.rs:25-29 | a string of 64 or more characters aborts; a shorter one reads exactly when it parses, the length is the string's length, and bit i is the i-th digit from the right |
| Diagnostic.FromBinaryDigits | day3/src/main.rs:25-29 | writing a number as `len` binary digits and reading it back gives the number and the length |
| Diagnostic.NewCounter | day3/src/main.rs:69-75 | a size of 64 or more aborts; otherwise every count and the number of entries are zero |
| Diagnostic.CountMultiple | day3/src/main.rs:90-96 | a length that differs from the counter's size aborts; otherwise each position's count grows by the multiplicity when the number's bit there is set, and the entries grow by the multiplicity |
| Diagnostic.Count | day3/src/main.rs:86-88 | counting one number adds one entry and one to the count of each position where its bit is set |
| Diagnostic.MostLeastOpposite | day3/src/main.rs:98-112 | the most and least common bit are undecided together, and otherwise opposite |
| Diagnostic.OxygenBit | day3/src/main.rs:98-104 | the most common bit with ties going to 1 is 1 exactly when at least half of the entries have the bit set |
| Diagnostic.Co2Bit | day3/src/main.rs:106-112 | the least common bit with ties going to 0 is 1 exactly when fewer than half of the entries have the bit set |
| Diagnostic.CountAll | day3/src/main.rs:131-136 | counting every number aborts exactly when the size is too large or some number's length differs; otherwise each count is the number of numbers with that bit set |
| Diagnostic.Gamma | day3/src/main.rs:139-142 | every bit of gamma is the most common bit at that position |
| Diagnostic.Epsilon | day3/src/main.rs:144-147 | every bit of epsilon is the least common bit at that position |
| Diagnostic.GammaEpsilonComplement | day3/src/main.rs:139-148 | gamma and epsilon have opposite bits everywhere, so they add up to all ones |
| Diagnostic.RateAsWritten | day3/src/main.rs:138-147 | part 1's loop through `set_bit` as written finishes exactly when the size is below 64 and the loop stops by bit 32; up to 31 bits it builds the intended gamma or epsilon, and from 33 bits on the shift of bit 32 aborts |
| Diagnostic.RatesAsWrittenComplement | day3/src/main.rs:138-147 | with entries of at most 31 bits, the rates the code builds add up to all ones |
| Diagnostic.RatesAsWrittenSpill | day3/src/main.rs:138-147 | with 32-bit entries, the rates the code builds add up to more than 2^32 - 1: one of them has bit 31 set, and so bits 32 to 63 as well |
| Diagnostic.Keep | day3/src/main.rs:151-163 | the numbers kept are exactly those whose bit at the position has the value, with their multiplicities |
| Diagnostic.Filter | day3/src/main.rs:151-163 | filtering keeps exactly the numbers whose bit at the position has the value, and a position of 64 or more aborts |
| Diagnostic.TotalSplit | day3/src/main.rs:151-163 | the numbers with the bit clear and those with it set together make up all the entries |
| Diagnostic.KeepInsert | day3/src/main.rs:79-82 | a new number adds its multiplicity to the count of a position exactly when its bit there is set |
| Diagnostic.CountedStep | day3/src/main.rs:79-82 | counting one more number of the map keeps the counter equal to the totals of the numbers counted so far |
| Diagnostic.CounterFrom | day3/src/main.rs:77-84 | counting a map of numbers in any order gives the total multiplicity as entries and, at each position, the total multiplicity of the numbers with that bit set |
| Diagnostic.OxygenKeepsSome | day3/src/main.rs:181-184 | narrowing a non-empty map on the oxygen criterion never empties it |
| Diagnostic.SiftStep | day3/src/main.rs:181-185 | the bit chosen from the counter of the remaining numbers is the bit the rating criterion names, so one round is one step of the narrowing |
| Diagnostic.SieveRound | day3/src/main.rs:182-185 | one round counts the remaining numbers, keeps those whose bit has the chosen value and moves one position down, aborting only for a size of 64 or more |
| Diagnostic.Sieve | day3/src/main.rs:180-186 | the loop ends with the narrowing's result when that leaves at most one number, and aborts when it runs out of positions with more than one number left or the size is 64 or more |
| Diagnostic.SiftWithin | day3/src/main.rs:181-186 | narrowing only ever removes numbers |
| Diagnostic.FilterAgrees | day3/src/main.rs:184 | after keeping one value of the bit at a position, the remaining numbers agree on every bit from that position up |
| Diagnostic.OxygenSiftsOne | day3/src/main.rs:181-186 | numbers below 2^size that agree above the current position narrow down to exactly one on the oxygen criterion |
| Diagnostic.OxygenRatingFound | day3/src/main.rs:178-187 | for a size below 64 and any non-empty input of numbers below 2^size, the oxygen narrowing ends with exactly one number |
| Diagnostic.Rating | day3/src/main.rs:178-199 | either rating is found exactly when the size is positive, the narrowing from the highest position down ends with one number, and no counter of 64 or more positions is needed; the number is the one left and one of the numbers read |
| Bingo.NewBoard | day04/src/bingo.rs:28-33 | a new board has 25 cells, all holding 0 unmarked, and no winning number |
| Bingo.CellIndex | day04/src/bingo.rs:65-78 | a row or column of 5 or more fails the access assertion; otherwise the index lies on the board and its quotient and remainder by 5 give back the row and column |
| Bingo.CellIndexOnto | day04/src/bingo.rs:72 | every cell of the board is reached by exactly the coordinates of its index |
| Bingo.GetCell | day04/src/bingo.rs:70-73 | coordinates on the board give the cell at index row * 5 + col, and any other coordinates abort |
| Bingo.FindNumber | day04/src/bingo.rs:80-96 | the search finds nothing exactly when no cell holds the number, and otherwise finds the first cell that does |
| Bingo.CheckWinning | day04/src/bingo.rs:117-145 | the nested row and column loops report a win exactly when some row or some column is fully marked |
| Bingo.MarkIfPresent | day04/src/bingo.rs:98-107 | it reports success exactly when some cell holds the number; an absent number leaves the board unchanged; otherwise only the first such cell is marked, and the winning number becomes the drawn number when the board is now winning and stays as it was otherwise |
| Bingo.MarkKeepsMarks | day04/src/bingo.rs:98-107 | marking never unmarks a cell |
| Bingo.MarkKeepsWinning | day04/src/bingo.rs:98-145 | a board with a full row or column keeps it after any further mark |
| Bingo.NewBoardConsistent | day04/src/bingo.rs:28-33 | a new board has won exactly when it has a full row or column, which is never |
| Bingo.MarkKeepsConsistent | day04/src/bingo.rs:98-111 | a board that records a winning number exactly when it has a full row or column still does after a mark, and a board that has won stays won |
| Bingo.UnmarkedSumMark | day04/src/bingo.rs:147-160 | marking a cell takes its number out of the sum of unmarked numbers, once |
| Bingo.Score | day04/src/bingo.rs:147-160 | there is no score exactly when the board has not won; otherwise the score is the sum of the unmarked numbers times the winning number |
| BingoGame.ParseNumbers | day04/src/main.rs:8-25 | the drawn numbers are the comma-separated pieces of the trimmed line, in order, each read as a `u8`; any piece that is not one panics with "Could not read number" |
| BingoGame.ParseShowNumbers | day04/src/main.rs:20-23 | a non-empty list of `u8` values written with commas reads back as the same list |
| BingoGame.WinningDraw | day04/src/main.rs:51-61 | a board that wins with draw k without having won after the draws before it records draw k as its winning number |
| BingoGame.FindWinner | day04/src/main.rs:55-60 | the scan finds no winner exactly when no board has won, and otherwise the lowest-index board that has |
| BingoGame.FirstToWin | day04/src/main.rs:51-61 | with no winner every draw has been marked and no board won after any draw; with a winner the game stopped at the earliest draw after which some board has won, the winner is the lowest-index such board, and, when no board had won before the game, its winning number is that draw |
| BingoGame.Survivors | day04/src/main.rs:94 | the boards kept are exactly the boards that have not won |
| BingoGame.LastToWin | day04/src/main.rs:89-102 | the loop, with its break, ends as the draw-by-draw game does. Started from boards that have not won, the outcome is one of three. It is the board that wins last, first winning on draw k when every other board had won before draw k, with winning number (and so score factor) draw k. Or, when the draws run out, it is the first board never to have won. Or it is a panic, and then every board has won |
| BingoGame.SurvivorsMarkAll | day04/src/main.rs:90-94 | dropping the winners before a draw and again after it keeps the same boards as dropping them only after it, because a board that has won stays won |
| BingoGame.SoleSurvivor | day04/src/main.rs:95-99 | when a single board is left, it has not won and every other board has |
| BingoGame.SurvivorsStayEmpty | day04/src/main.rs:94-102 | once every board has won, every board has won after any later draw |
| BingoGame.LastGameFrom | day04/src/main.rs:89-102 | after t draws part 2 holds exactly the boards that have not won after those draws, in their order, and from there it ends with the last winner, the first board never to win, or a panic once all have won |
| BingoGame.LastGameOutcome | day04/src/main.rs:89-108 | from boards that have not won, part 2 ends with the board that wins last and the draw it wins on, or the first board never to win, or a panic when every board has won |
| BingoGame.MarkAllKeeps | day04/src/main.rs:91-93 | marking every board keeps each board's numbers and keeps each board's winning number consistent with its marks |
| BingoGame.LastGameFromInput | day04/src/main.rs:89-102 | the last board is one of the boards read, with the same numbers, and it records a winning number exactly when it has a full row or column |
| BingoGame.NoneSurvive | day04/src/main.rs:94 | when every board has won, none is kept |
| BingoGame.AllWinPanics | day04/src/main.rs:94-102 | when all of several boards win on the same draw the list empties and the game panics |
| BingoGame.LastGameEmpty | day04/src/main.rs:96-102 | with no boards left the game panics on `boards[0]` |
| BingoGame.SoloGame | day04/src/main.rs:96-99 | a single board that has not won ends the game as a board, and if it wins, its winning number is one of the draws |
| OceanPoint.AddSub | day05/src/oceanfloor/point.rs:48-75 | subtracting what was added, or adding what was subtracted, gives back the point |
| OceanPoint.AddLaws | day05/src/oceanfloor/point.rs:41-57 | component-wise addition is commutative and associative, with the origin as identity |
| OceanPoint.ParsePoint | day05/src/oceanfloor/point.rs:33-38 | the first comma-separated field that is not a 64-bit integer is the parse error; a valid first field with no second field panics on the index; otherwise the point is the two fields read as integers |
| OceanPoint.ParseShowPoint | day05/src/oceanfloor/point.rs:33-38 | a point of 64-bit coordinates written as `x,y` reads back as the same point |
| OceanRect.New | day05/src/oceanfloor/rect.rs:11-16 | the corners are sorted per axis; the rectangle holds exactly the points lying between the two given corners on both axes, so it holds both corners and lies inside every rectangle that holds them |
| OceanRect.NewSymmetric | day05/src/oceanfloor/rect.rs:11-16 | the order of the two corners does not matter |
| OceanRect.Union | day05/src/oceanfloor/rect.rs:18-23 | the union of two normal rectangles is normal, holds both, and lies inside every rectangle that holds both |
| OceanRect.UnionLaws | day05/src/oceanfloor/rect.rs:18-23 | union is commutative and a normal rectangle united with itself is itself |
| OceanRect.Width | day05/src/oceanfloor/rect.rs:25-27 | the width of a normal rectangle is the distance from its low to its high x |
| OceanRect.Height | day05/src/oceanfloor/rect.rs:29-31 | the height of a normal rectangle is the distance from its low to its high y |
| OceanRect.NewSize | day05/src/oceanfloor/rect.rs:11-31 | the box of two points is as wide and as high as the points are apart on each axis, whichever order they come in |
| OceanRect.InsideContains | day05/src/oceanfloor/rect.rs:33-35 | a point held by a rectangle is held by every rectangle holding both of its corners |
| OceanSegment.Sign | day05/src/oceanfloor/segment.rs:71-75 | dividing a coordinate by its absolute value gives -1, 0 or 1, zero exactly for zero, and the sign times the magnitude is the coordinate |
| OceanSegment.Step | day05/src/oceanfloor/segment.rs:69-81 | each coordinate of the step is -1, 0 or 1, and the step is zero exactly when the segment's ends coincide |
| OceanSegment.ParseSegment | day05/src/oceanfloor/segment.rs:51-56 | the line is split at "->" and each part trimmed; a bad first point is its error; a good first point with no second part panics on the index; otherwise the segment joins the two points read |
| OceanSegment.ParseShowSegment | day05/src/oceanfloor/segment.rs:36-56 | writing a segment as `a -> b` and reading it back gives the segment |
| OceanSegment.OnSegment | day05/src/oceanfloor/segment.rs:84-99 | on a straight segment of two distinct ends, the point i steps from the start is inside the bounding box exactly when 0 <= i <= the segment's length |
| OceanSegment.Points | day05/src/oceanfloor/segment.rs:69-99 | the points of a straight segment run from a to b in unit steps, one more than its length, all inside its box, none twice |
| OceanSegment.AtInjective | day05/src/oceanfloor/segment.rs:69-99 | distinct steps along a straight segment reach distinct points |
| OceanSegment.Next | day05/src/oceanfloor/segment.rs:84-99 | a call yields a point exactly when the current point lies in the box of the segment's ends; it yields that point and moves one step on, and otherwise yields nothing and leaves the iterator as it was |
| OceanSegment.IterateStraight | day05/src/oceanfloor/segment.rs:65-99 | for a straight segment with distinct ends the iterator yields exactly the segment's points, a to b, and then stops |
| OceanSegment.SinglePointNeverEnds | day05/src/oceanfloor/segment.rs:69-99 | for a segment whose ends coincide the step is zero and the iterator yields the same point for ever |
| OceanMap.Boxes | day5/src/oceanfloor/map.rs:36-39 | the accumulated union stays normal and never shrinks |
| OceanMap.BoxesCover | day5/src/oceanfloor/map.rs:36-39 | the union of the boxes holds every segment's box |
| OceanMap.BoxesLeast | day5/src/oceanfloor/map.rs:36-39 | any rectangle holding the start and every segment's box holds the union |
| OceanMap.RegionEnclosing | day5/src/oceanfloor/map.rs:30-43 | an empty segment list fails the assertion and nothing else does; otherwise the region is normal and, less its one-step margin, holds every segment's box |
| OceanMap.RegionLeast | day5/src/oceanfloor/map.rs:30-43 | the region less its margin lies inside every rectangle holding all segment boxes |
| OceanMap.RegionHoldsBoxes | day5/src/oceanfloor/map.rs:30-43 | every point of every segment's box lies in the region strictly below its high edges, so it has a cell |
| OceanMap.NewMap | day5/src/oceanfloor/map.rs:13-20 | a new map has width times height cells, all zero |
| OceanMap.CellOfInner | day5/src/oceanfloor/map.rs:53-61 | a point of the region strictly below its high edges has a cell index in range, and that cell maps back to the point |
| OceanMap.PointOfCell | day5/src/oceanfloor/map.rs:53-61 | every cell index is the index of exactly one point of the region |
| OceanMap.CellInjective | day5/src/oceanfloor/map.rs:53-61 | two points of the region with the same cell are the same point |
| OceanMap.AddSegment | day5/src/oceanfloor/map.rs:63-72 | a segment that is not horizontal, vertical or diagonal fails the assertion; otherwise the boundaries and size are kept |
| OceanMap.AddPointsCounts | day5/src/oceanfloor/map.rs:68-71 | adding points that lie in the map adds to each cell the number of times its point occurs |
| OceanMap.AddSegmentCounts | day5/src/oceanfloor/map.rs:63-72 | adding a straight segment inside the map adds exactly 1 to each cell the segment passes and nothing to the others |
| OceanMap.AddSegmentsCounts | day5/src/oceanfloor/map.rs:24-26 | adding placed segments one after another adds to each cell the number of segments passing it |
| OceanMap.FromSegmentsCounts | day5/src/oceanfloor/map.rs:22-28 | the map built from straight segments holds, in each cell, the number of segments passing its point |
| OceanMap.FromSegments | day5/src/oceanfloor/map.rs:22-28 | building fails exactly on an empty list or a segment that is not straight; otherwise the map covers the enclosing region and each cell counts the segments passing its point |
| OceanMap.CountOverlaps | day5/src/oceanfloor/map.rs:74-83 | the count is the number of cells whose value is at least the threshold |
| OceanMap.OverlapCells | day5/src/oceanfloor/map.rs:74-83 | in the map built from the segments, the cells with value at least 2 are exactly the cells of the points where segments cross |
| OceanMap.Covered | day5/src/oceanfloor/map.rs:63-72 | the points some segment passes are exactly the points of positive coverage |
| OceanMap.CrossingsAreCells | day5/src/oceanfloor/map.rs:53-83 | there are as many crossing points as cells holding 2 or more |
| OceanMap.Overlaps | day5/src/oceanfloor/map.rs:22-83 | building the map and counting values of 2 or more gives the number of points passed by two or more segments, and fails exactly on an empty list or a segment that is not straight |
| Lanternfish.New | day6/src/main.rs:14-16 | a new school has no fish |
| Lanternfish.AddFish | day6/src/main.rs:33-35 | a countdown past 8 panics on the index; otherwise only that bucket grows, by the number of fish added, and so does the size |
| Lanternfish.AdvanceDay | day6/src/main.rs:18-31 | the bucket-by-bucket loop never takes a bucket below zero and ends with bucket k holding the old bucket k + 1, except that bucket 6 also receives and bucket 8 holds the old bucket 0; the size grows by the old bucket 0 |
| Lanternfish.NextDaySize | day6/src/main.rs:18-31 | a day adds one fish for every fish whose countdown was zero |
| Lanternfish.TickBuckets | day6/src/main.rs:18-31 | advancing the buckets is the same as ageing every fish one by one (a zero restarts at 6 and spawns an 8, any other countdown drops by one) and counting again |
| Lanternfish.SizeBuckets | day6/src/main.rs:37-43 | the size of the buckets of a list of fish is the number of fish |
| Lanternfish.DaysBuckets | day6/src/main.rs:49-54 | n days of buckets are the buckets of n days of fish ageing one by one |
| Lanternfish.Simulate | day6/src/main.rs:49-54 | the size after n days is that of the school advanced n days, never smaller than at the start |
| Lanternfish.SimulateCountsFish | day6/src/main.rs:49-54 | the size after n days is the number of fish after n days of ageing every fish one by one |
| Lanternfish.AddPieces | day6/src/main.rs:64-67 | adding the comma-separated countdowns one by one succeeds exactly when every piece is a `u8` of at most 8, and each bucket then grows by the number of fish with that countdown; a bad piece panics with "Could not parse number of fish" and a countdown past 8 on the index |
| Lanternfish.AddPiecesBuckets | day6/src/main.rs:62-67 | starting from a new school, the fish added are the buckets of the countdowns read |
| Lanternfish.ReadSchool | day6/src/main.rs:61-67 | the line reads exactly when it is a comma-separated list of countdowns from 0 to 8, and the school is then their buckets |
| Lanternfish.ReadShowSchool | day6/src/main.rs:61-67 | countdowns written with commas read back as their buckets |
| Lanternfish.Part | day6/src/main.rs:56-89 | the answer exists exactly when the line reads, and is then the number of fish after the given number of days of ageing one by one |
| CrabFuel.FuelCost | day07/src/main.rs:26-32 | linear cost is the distance, quadratic cost is 1 + 2 + ... + distance; the cost is zero exactly when the crab is at the target and never less than the distance |
| CrabFuel.TriangleFormula | day07/src/main.rs:30 | the closed form `d * (d + 1) / 2` is the sum 1 + 2 + ... + d |
| CrabFuel.FuelCostSymmetric | day07/src/main.rs:26-32 | the cost of moving from a to b equals the cost of moving from b to a |
| CrabFuel.FuelCostMono | day07/src/main.rs:26-32 | a target no further away costs no more fuel |
| CrabFuel.TotalFuelCost | day07/src/main.rs:34-40 | the loop's cost is the sum over all crabs of each one's fuel cost |
| CrabFuel.TotalZero | day07/src/main.rs:34-40 | the total is zero exactly when every crab is already at the target |
| CrabFuel.TotalMono | day07/src/main.rs:34-40 | a target that is no further from every crab costs no more in total |
| CrabFuel.ClampNoWorse | day07/src/main.rs:45-50 | pulling a target into the range of the crabs' positions never raises the total |
| CrabFuel.RangeMinimumIsGlobal | day07/src/main.rs:45-52 | a cost no greater than the total of every target between the least and greatest position is no greater than the total of any target at all |
| CrabFuel.Least | day07/src/main.rs:45 | the least position is one of the positions and no position is smaller |
| CrabFuel.Greatest | day07/src/main.rs:46 | the greatest position is one of the positions and no position is larger |
| CrabFuel.MinimumCost | day07/src/main.rs:42-72 | no crabs panics on the empty minimum; otherwise the chosen position lies between the least and greatest position, its cost is its total, and no target anywhere costs less |
| SevenSegment.NewDigit | day08/src/display.rs:82-86 | a new digit has no segment lit |
| SevenSegment.FromBinary | day08/src/display.rs:88-94 | segment i is lit exactly when bit i of the byte is 1 |
| SevenSegment.ToByteBits | day08/src/display.rs:204-214 | bit i of the byte of a digit is 1 exactly when segment i is lit |
| SevenSegment.FromBinaryToByte | day08/src/display.rs:88-94 | reading back the byte of a digit gives the same digit |
| SevenSegment.ToByteFromBinary | day08/src/display.rs:204-214 | the byte of the digit read from a 7-bit byte is that byte |
| SevenSegment.FromNumber | day08/src/display.rs:96-98 | the digit of number n has the byte of the n-th entry of the segment table |
| SevenSegment.CountSeven | day08/src/display.rs:100-108 | the number of active segments is the number of the seven segments that are lit |
| SevenSegment.CountNot | day08/src/display.rs:100-108 | a digit and its complement have 7 active segments between them |
| SevenSegment.CountZero | day08/src/display.rs:100-108 | no segment is active exactly for the blank digit |
| SevenSegment.And | day08/src/display.rs:170-182 | a segment of the conjunction is lit exactly when it is lit in both digits |
| SevenSegment.AndAssign | day08/src/display.rs:184-190 | the in-place conjunction leaves the conjunction of the two digits |
| SevenSegment.AndByte | day08/src/display.rs:242-252 | the byte of the conjunction is the bitwise AND of the two bytes |
| SevenSegment.Not | day08/src/display.rs:192-202 | a segment of the complement is lit exactly when it is dark in the digit |
| SevenSegment.NotByte | day08/src/display.rs:192-202 | the byte of the complement is 127 less the byte of the digit |
| SevenSegment.NotNot | day08/src/display.rs:192-202 | complementing twice gives the digit back, and a digit shares no segment with its complement |
| SevenSegment.ParseFrom | day08/src/display.rs:137-148 | the letters are accepted exactly when all lie in a..g, and then segment i is lit when it was lit before or its letter occurs |
| SevenSegment.Parse | day08/src/display.rs:137-148 | a word parses exactly when all its letters lie in a..g, and segment i is lit exactly when its letter occurs; the error path is an error, never a panic |
| SevenSegment.Show | day08/src/display.rs:151-161 | the text of a digit lists the letters of its lit segments, in increasing order, one per active segment |
| SevenSegment.ParseShow | day08/src/display.rs:137-161 | parsing the text of any digit gives the digit back |
| SevenSegment.ShowParse | day08/src/display.rs:137-161 | a word of increasing letters a..g is the text of the digit it parses to |
| SevenSegment.WordLength | day08/src/display.rs:137-148 | a word without repeated letters has as many letters as active segments |
| SevenSegment.SameLetters | day08/src/display.rs:137-161 | a parsed word and the text of its digit hold the same letters |
| SevenSegment.CanonicalStrings | day08/src/display.rs:222-238 | each canonical string parses to the digit of its number, and that digit's text is the canonical string |
| SevenSegment.CanonicalLiteral | day08/src/display.rs:49-73 | the segment table and the string table describe the same ten digits, with 6, 2, 5, 5, 4, 5, 6, 3, 7, 6 active segments |
| SevenSegment.SegmentsDistinct | day08/src/display.rs:49-60 | the ten entries of the segment table differ |
| SevenSegment.AsNumber | day08/src/display.rs:123-131 | the number of a digit is the position of its byte in the segment table, and there is none exactly when the byte is not in the table |
| SevenSegment.AsNumberFromNumber | day08/src/display.rs:123-131 | the digit of number n reads back as n |
| SevenSegment.FromNumberAsNumber | day08/src/display.rs:96-98 | a digit that reads as a number is the digit of that number |
| SevenSegment.NewDisplay | day08/src/display.rs:11-13 | a new display holds four blank digits |
| SevenSegment.ApplyMapping | day08/src/display.rs:15-19 | every digit is replaced by its image; a digit missing from the mapping panics |
| SevenSegment.DigitsValue | day08/src/display.rs:21-31 | the digits have a value exactly when every digit reads as a number, and decimal place i of the value is digit i |
| SevenSegment.DisplayNumber | day08/src/display.rs:21-31 | the display reads as a number below 10000 exactly when all four digits do, digit i giving decimal place i |
| SevenSegment.DisplayOfNumber | day08/src/display.rs:21-31 | a display showing the decimal places of n reads as n |
| SignalInput.FillSlots | day08/src/input.rs:10-24 | the words fill the first slots of a fixed-size array and the rest stay empty; more words than slots index out of bounds and panic |
| SignalInput.ParseLine | day08/src/input.rs:30-38 | a line is malformed exactly when it does not have one bar; otherwise the words on either side fill ten patterns and four outputs, and too many words panic |
| SignalInput.ParseRender | day08/src/input.rs:30-38 | a line of ten patterns and four outputs written out with the bar parses back to itself |
| SegmentDecoder.ScrambleCount | day08/src/main.rs:61-71 | rewiring the segments keeps the number of active segments of every digit |
| SegmentDecoder.ScrambleDistinct | day08/src/main.rs:56-115 | rewired digits of different numbers differ |
| SegmentDecoder.ScramblesDecodable | day08/src/main.rs:56-115 | the patterns of any rewiring have the segment counts and overlaps the deduction relies on |
| SegmentDecoder.LastIndex | day08/src/main.rs:61-71 | the last digit with a given number of segments, the one whose assignment survives |
| SegmentDecoder.FirstPass | day08/src/main.rs:61-71 | the first pass fails exactly when some digit has 0, 1 or more than 7 active segments, and otherwise places the last digit of 2, 3, 4 and 7 segments and gathers those of 5 and 6 |
| SegmentDecoder.FindThree | day08/src/main.rs:74-79 | the 3 chosen is a five-segment digit with three segments outside the 1, when there is one; otherwise the slot keeps its old value |
| SegmentDecoder.SplitFives | day08/src/main.rs:84-93 | the remaining five-segment digits split into a 2 (three segments outside the 4) and a 5 (two outside); any other digit is an error |
| SegmentDecoder.FindZero | day08/src/main.rs:96-102 | the 0 chosen is a six-segment digit sharing two segments with the 3 less the 1, when there is one |
| SegmentDecoder.SplitSixes | day08/src/main.rs:106-113 | the remaining six-segment digits sharing two segments with the 1 go to 9 and the others to 6 |
| SegmentDecoder.CorrectFives | day08/src/main.rs:74-93 | the 3, 2 and 5 found satisfy their tests; when the 3 is missing or a digit fits neither test, no consistent wiring explains the patterns |
| SegmentDecoder.CorrectSixes | day08/src/main.rs:96-113 | the 0, 6 and 9 found satisfy their tests; when the 0 is missing, no consistent wiring explains the patterns |
| SegmentDecoder.CorrectDigits | day08/src/main.rs:56-115 | a digit of an invalid size is an error; the errors are the three messages of the source; whenever the ten patterns are the digits of a decodable wiring, the result is exactly those digits in number order |
| LineDecoder.MappingValue | day08/src/main.rs:117-123 | a later digit overrides an earlier equal one; a digit that occurs once maps to the digit of its position |
| LineDecoder.MappingOfDistinct | day08/src/main.rs:117-123 | for ten distinct digits the mapping sends the k-th digit to the digit of number k and has no other keys |
| LineDecoder.ParseAll | day08/src/main.rs:30 | all words parse, in order, or the parse panics with the message of the call site |
| LineDecoder.OutputDisplay | day08/src/main.rs:34-38 | output word i lands in display position 3 - i |
| LineDecoder.FinishOf | day08/src/main.rs:32-40 | outputs that are the corrected digits of the decimal places of n read as n |
| LineDecoder.FinishScrambled | day08/src/main.rs:32-40 | the outputs of a line scrambled by a wiring, decoded with that wiring's patterns, read as the line's number |
| LineDecoder.DecodeLine | day08/src/main.rs:29-40 | the value is below 10000, and on a line scrambled by any wiring it is the number the line shows |
| LineDecoder.SumLines | day08/src/main.rs:25-43 | on lines scrambled by any wirings the sum is the sum of the numbers they show |
| LineDecoder.CountEasyWords | day08/src/main.rs:14-20 | the count is at most the number of words and is zero exactly when no word has 2, 3, 4 or 7 letters |
| LineDecoder.EasyWordDigit | day08/src/main.rs:16-18 | a scrambled word without repeated letters has 2, 3, 4 or 7 letters exactly when its digit is 1, 7, 4 or 8 |
| LineDecoder.CountEasyScrambled | day08/src/main.rs:10-23 | on scrambled lines with plain outputs the count is the number of 1, 4, 7 and 8 digits shown |
| LineDecoder.ReadData | day08/src/main.rs:45-54 | the lines are read exactly when every line parses, in order, and every line read has ten patterns and four outputs |
| LineDecoder.ReadRendered | day08/src/main.rs:45-54 | reading the written-out lines gives them back |
| LineDecoder.Part1 | day08/src/main.rs:10-23 | an unreadable input panics; otherwise the count of easy output words |
| LineDecoder.Part2 | day08/src/main.rs:25-43 | an unreadable input panics, and on scrambled lines the answer is the sum of the numbers they show |
| HeightMap.NewMap | day09/src/mapping.rs:13-19 | a new map has the given width and height and every point is 0 |
| HeightMap.IndexToXYIndex | day09/src/mapping.rs:21-31 | turning a location on the map into its index and back gives the location |
| HeightMap.IndexIndexToXY | day09/src/mapping.rs:21-31 | every index into the points is the index of a location on the map |
| HeightMap.IndexInjective | day09/src/mapping.rs:29-35 | two locations on the map with the same index are the same location |
| HeightMap.SetPoint | day09/src/mapping.rs:33-35 | writing a location changes its height to the value and no other location's |
| HeightMap.PushDataRow | day09/src/mapping.rs:111-119 | the first row sets the width; a later row of another width aborts; otherwise the row is appended and the height grows by one |
| HeightMap.PushKeepsValid | day09/src/mapping.rs:111-119 | appending a non-empty row keeps every row the same width |
| HeightMap.EmptyFirstRow | day09/src/mapping.rs:112-113 | an empty first row leaves the width at 0, so a later row of width 1 is accepted and the points no longer fill width times height |
| HeightMap.PushLines | day09/src/mapping.rs:127-132 | appending lines adds one row per line, and succeeds only when every line is all digits |
| HeightMap.FromLines | day09/src/mapping.rs:125-134 | parsing gives one row per line and succeeds only when every line is all digits |
| HeightMap.FromGrid | day09/src/mapping.rs:125-134 | lines of digits all of the same positive width parse to a well-formed map of that width and of one row per line |
| HeightMap.FromLinesBadDigit | day09/src/mapping.rs:128-129 | a character that is not a decimal digit anywhere aborts |
| HeightMap.Neighbours | day09/src/mapping.rs:56-76 | the neighbours examined are exactly the in-bounds locations one step up, down, left or right |
| HeightMap.LowPointSpec | day09/src/mapping.rs:53-78 | a point is low exactly when it is strictly below every in-bounds orthogonal neighbour |
| HeightMap.LowNext | day09/src/mapping.rs:158-168 | the iterator's step returns the height of the first low point at or after the cursor and moves the cursor just past it, or reports the end when none is left |
| HeightMap.LowPoints | day09/src/mapping.rs:155-168 | the iterator yields exactly the low points, in increasing row-major index order, with their heights |
| HeightMap.LowsStep | day09/src/mapping.rs:160-165 | adding the low point just found keeps the list equal to the low points before the cursor |
| HeightMap.CollectBasin | day09/src/mapping.rs:80-109 | a point of height 9 or already visited adds nothing; otherwise the basin gains, once each and ending with the point itself, exactly the points newly marked, none of height 9, every one reached upward from the point, with every higher neighbour below 9 marked |
| HeightMap.BasinStep | day09/src/mapping.rs:86-107 | recursing into a strictly higher neighbour keeps the partial basin's promises and marks that neighbour when it is below 9 |
| HeightMap.BasinFinish | day09/src/mapping.rs:108 | pushing the point after its neighbours completes what `collect_basin` promises |
| HeightMap.Basins | day09/src/mapping.rs:189-208 | there is one basin per low point, in order; each basin repeats no point, holds no height 9, grows upward from its low point; no point belongs to two basins; and every higher neighbour below 9 of a basin point lies in some basin |
| HeightMap.BasinsStep | day09/src/mapping.rs:198-204 | adding the basin collected with the shared visited vector keeps the basins disjoint and every mark inside some basin |
| HeightMap.BasinsClosed | day09/src/mapping.rs:195-208 | when every mark lies in a basin, every higher neighbour below 9 of a basin point lies in some basin |
| Stacks.New | day10/src/stack.rs:8-12 | a new stack is empty |
| Stacks.Clear | day10/src/stack.rs:28-30 | clearing leaves an empty stack of length 0 |
| Stacks.Push | day10/src/stack.rs:32-34 | pushing adds the item on top of the previous items and grows the length by one |
| Stacks.Pop | day10/src/stack.rs:36-38 | popping an empty stack gives nothing and leaves it empty; otherwise it returns the top item and the rest of the stack |
| Stacks.Top | day10/src/stack.rs:40-42 | the top is nothing exactly on an empty stack, and otherwise the last item pushed |
| Stacks.PushPop | day10/src/stack.rs:32-38 | popping right after a push returns the pushed item and the previous stack |
| Stacks.PopPush | day10/src/stack.rs:32-38 | pushing back what was popped from a non-empty stack restores it |
| Stacks.TopPop | day10/src/stack.rs:36-42 | the top is what a pop would return |
| SyntaxScoring.Complementary | day10/src/main.rs:31-39 | the complement keeps the kind and flips the mode |
| SyntaxScoring.ComplementaryInvolution | day10/src/main.rs:31-39 | taking the complement twice gives the bracket back |
| SyntaxScoring.FromChar | day10/src/main.rs:42-55 | exactly the eight bracket characters convert, and any other character aborts |
| SyntaxScoring.CharRoundTrip | day10/src/main.rs:42-55 | each bracket has exactly one character, and converting a bracket character and writing it back gives the character |
| SyntaxScoring.ErrorScore | day10/src/main.rs:59-66 | an illegal closer scores 3, 57, 1197 or 25137 |
| SyntaxScoring.AutocompleteScore | day10/src/main.rs:68-75 | a completing bracket scores 1 to 4 |
| SyntaxScoring.ScoresDistinguishKinds | day10/src/main.rs:59-75 | both scores are equal exactly for brackets of the same kind |
| SyntaxScoring.Step | day10/src/main.rs:86-100 | a bracket is illegal exactly when it is a closer that does not complement the top of the stack; otherwise the stack stays made of openers |
| SyntaxScoring.ScanFrom | day10/src/main.rs:85-101 | a corrupted line is reported with a closing bracket, and an incomplete one leaves only openers on the stack |
| SyntaxScoring.ScanLine | day10/src/main.rs:113-129 | the per-line loop with its stack gives the outcome of the scan, an illegal closer stopping it |
| SyntaxScoring.ScanAppend | day10/src/main.rs:114-129 | scanning two pieces of a line one after the other is scanning the whole line |
| SyntaxScoring.CompletionCloses | day10/src/main.rs:131-137 | the closers of the open brackets, innermost first, empty the stack |
| SyntaxScoring.CompletedLine | day10/src/main.rs:131-137 | an incomplete line followed by its completion scans with nothing left open |
| SyntaxScoring.CompletionScoreSnoc | day10/src/main.rs:134-137 | a bracket deeper in the stack adds its score times a power of 5 |
| SyntaxScoring.Autocomplete | day10/src/main.rs:132-137 | popping the stack and computing score times 5 plus each complement's score gives the completion score |
| SyntaxScoring.CompletionScoreZero | day10/src/main.rs:131-138 | the score is 0 exactly when nothing is left open |
| SyntaxScoring.CompletionScoreInjective | day10/src/main.rs:131-138 | two stacks of openers with the same score are the same stack |
| SyntaxScoring.ErrorTotal | day10/src/main.rs:82-103 | the total aborts exactly on a character that is not a bracket, is at most 25137 per line, and is 0 exactly when no line is corrupted |
| SyntaxScoring.SumErrorsCons | day10/src/main.rs:82-103 | the line errors added from the last line back equal the same added from the first line on |
| SyntaxScoring.ErrorTotalSum | day10/src/main.rs:82-103 | the total equals the sum, over the lines, of the error score of each corrupted line's illegal closer, other lines adding nothing |
| SyntaxScoring.CompletionScores | day10/src/main.rs:111-140 | corrupted lines add no score; every score collected is positive and is the completion score of some incomplete line; none are collected only when no line is incomplete |
| SyntaxScoring.ScoresInOrder | day10/src/main.rs:111-140 | the list holds one score per incomplete line and no more, in line order: the score of an incomplete line sits at the number of incomplete lines before it |
| SyntaxScoring.Insert | day10/src/main.rs:141 | inserting into a sorted sequence keeps it sorted and adds exactly the one element |
| SyntaxScoring.Sort | day10/src/main.rs:141 | sorting gives a sorted permutation |
| SyntaxScoring.MiddleScore | day10/src/main.rs:141-142 | the middle of no scores aborts; otherwise it is one of the scores |
| SyntaxScoring.CountSort | day10/src/main.rs:141 | sorting keeps how many scores lie below and above any value |
| SyntaxScoring.MiddleIsMedian | day10/src/main.rs:141-142 | at most half the scores lie below the middle score and at most half lie above it |
| SyntaxScoring.Part2 | day10/src/main.rs:106-143 | the answer aborts exactly when some character is not a bracket or no line is incomplete; otherwise it is the positive completion score of some incomplete line, and a median of the list of scores: at most half of them lie below it and at most half above |
| Octopi.IncreaseEnergy | day11/src/octopus.rs:60-62 | only the energy changes, by the amount given |
| Octopi.ResetFlashStatus | day11/src/octopus.rs:72-74 | only the flashed flag changes, and it is cleared |
| Octopi.MaybeFlash | day11/src/octopus.rs:64-66 | an octopus flashes exactly when it has not flashed and its energy is above 9; flashing sets the flag and the energy to 0, and otherwise nothing changes |
| Octopi.FlashOnce | day11/src/octopus.rs:102-108 | after a flash no amount of energy makes the octopus flash again until its flag is reset |
| Octopi.ResetRearms | day11/src/octopus.rs:72-84 | once the flag is reset, an octopus above the threshold flashes again |
| OctopusGrid.IdxInjective | day11/src/map.rs:51-59 | two in-bounds positions with the same index are the same position |
| OctopusGrid.PosAt | day11/src/map.rs:51-59 | the octopus stored at a position's index sits at that position |
| OctopusGrid.NewMap | day11/src/map.rs:12-20 | a new map has the given size, its octopi lie in row-major order at their positions, and every energy is 0 with no flag set |
| OctopusGrid.EnergyRow | day11/src/map.rs:37-42 | the row's octopi carry the energies given, unflagged, at x from 0 upward on the row's y |
| OctopusGrid.PushRow | day11/src/map.rs:30-45 | the first row sets the width; a row of another width is an "Invalid row size" error; otherwise the row's octopi are appended and the height grows by one |
| OctopusGrid.PushKeepsPlaced | day11/src/map.rs:30-45 | appending a non-empty row keeps every octopus at the position its index names |
| OctopusGrid.PushLines | day11/src/map.rs:115-124 | reading lines adds one row per line and succeeds only when every line is all digits |
| OctopusGrid.FromLines | day11/src/map.rs:115-124 | parsing gives one row per line and succeeds only when every line is all digits |
| OctopusGrid.FromGrid | day11/src/map.rs:115-124 | lines of digits of equal width parse to a map holding those digits as energies, every octopus at its position |
| OctopusGrid.FromLinesBadDigit | day11/src/map.rs:118-120 | a character that is not a decimal digit anywhere makes parsing fail |
| OctopusGrid.OctopusAt | day11/src/map.rs:47-53 | only negative coordinates give nothing; an in-bounds position gives the octopus at that position |
| OctopusGrid.OctopusWraps | day11/src/map.rs:47-53 | `octopus` does not check the width: x equal to the width reads the first octopus of the next row |
| OctopusGrid.OctopusMut | day11/src/map.rs:55-61 | a position is found exactly when it lies inside the width and height, and then its octopus sits there |
| OctopusGrid.RankOffset | day11/src/map.rs:84-89 | each of the eight neighbours of a flash is reached by exactly one offset of the two nested loops |
| OctopusGrid.CountTrueFlip | day11/src/map.rs:76-78 | flagging one more octopus adds one to the count of flags |
| OctopusGrid.Raise | day11/src/map.rs:74-80 | after the first loop every octopus has one more energy or flashed, each flash is pending once and is listed in the order it happened, and with every energy below 9 nothing flashes |
| OctopusGrid.Propagate | day11/src/map.rs:82-102 | the flash loop ends with every flash handled, each octopus holding its energy plus one plus one per flashing neighbour unless it flashed, and the count equals the number of flashes; the flashes form a list in which each one took in more than 9 from its own energy, the step and the flashes before it |
| OctopusGrid.VisitRecorded | day11/src/map.rs:89-97 | a neighbour pushed by a flash took in more than 9 from the flashes already listed, so it can be listed after them |
| OctopusGrid.PokeStep | day11/src/map.rs:86-100 | visiting one offset of a flash gives one more energy to that in-bounds neighbour if it has not flashed, and pushes it if it now flashes |
| OctopusGrid.FlashDone | day11/src/map.rs:83-101 | once all eight offsets of a flash are visited, the flash counts as handled and the number handled grows by one |
| OctopusGrid.ResetAll | day11/src/map.rs:104-106 | the last loop clears every flag and changes nothing else |
| OctopusGrid.Update | day11/src/map.rs:71-109 | one step keeps the grid, leaves no flag set, returns the number of octopi that flashed (those at energy 0), at most width times height; an octopus flashed exactly when it took in more than 9, otherwise it holds its old energy plus one plus one per flashing neighbour; with every energy below 9 each energy rises by one and nothing flashes; and the flashes can be put in an order in which each one is caused by its own energy, the step and the flashes before it |
| OctopusGrid.CausedFlashes | day11/src/map.rs:82-102 | every flash of a caused list happens in any outcome that meets the step's rule for each octopus, so the flashes `update` makes are the fewest the rule allows |
| OctopusGrid.StepUnique | day11/src/map.rs:71-109 | two outcomes that both meet the step's rule for each octopus and have caused flashes are the same map with the same count, so the step's result is fully determined |
| OctopusGrid.CalmStep | day11/src/map.rs:155-163 | when no octopus flashes every energy rises by exactly one |
| OctopusGrid.PairMapBuilt | day11/src/map.rs:144-152 | the test map of width 2 is built from the row 8, 9 |
| OctopusGrid.InducedFlash | day11/src/map.rs:182-189 | from energies 8 and 9 one step makes both octopi flash and both end at energy 0, with a count of 2 |
| OctopusGrid.CrossMapBuilt | day11/src/map.rs:165-171 | the 3 by 3 test map with 10 in the middle is built from its three rows |
| OctopusGrid.Propagation | day11/src/map.rs:165-180 | from that map one step flashes only the middle octopus, which ends at 0, and every other octopus ends at 2 |
| Caves.NewCave | day12/src/caves.rs:24-35 | a new cave keeps its name, has no connections, and is small exactly when its name has no upper-case letter |
| Caves.KindOfUpper | day12/src/caves.rs:26-30 | a name equal to its lower-case form is exactly a name with no upper-case letter |
| Caves.Lowercase | day12/src/caves.rs:26 | lower-casing keeps the length and maps each character on its own |
| Caves.Position | day12/src/caves.rs:166-168 | the search by name finds the first cave with that name, and finds nothing only when no cave has it |
| Caves.CaveByName | day12/src/caves.rs:166-168 | a cave is found exactly when the system holds one of that name, and the cave found has that name |
| Caves.Insert | day12/src/caves.rs:182-185 | inserting adds one cave of that name and leaves every existing cave's connections as they were; a fresh cave has no neighbours |
| Caves.InsertPreserves | day12/src/caves.rs:182-185 | inserting a new name keeps the system well formed (unique names, kinds from names, connections to known caves only, none to itself) and symmetric |
| Caves.Connect | day12/src/caves.rs:191-204 | connecting a cave to itself is an error and nothing else is; otherwise each of the two caves gains the other at the end of its connections and every other cave is unchanged |
| Caves.ConnectShape | day12/src/caves.rs:191-204 | connecting keeps every name and kind, appends b to a's connections and a to b's, and changes nothing else |
| Caves.ConnectCount | day12/src/caves.rs:191-204 | connecting adds exactly one occurrence of b among a's connections and of a among b's, and no other occurrence anywhere |
| Caves.ConnectSymmetric | day12/src/caves.rs:191-204 | when every connection is recorded as often on both sides, it still is after connecting |
| Caves.ConnectWellFormed | day12/src/caves.rs:191-204 | connecting two different known caves keeps the system well formed |
| Caves.ConnectPreserves | day12/src/caves.rs:191-204 | connecting two different known caves keeps the system well formed and symmetric |
| Caves.Ensure | day12/src/main.rs:15-19 | inserting a part only when it is not yet known leaves a well-formed symmetric system that contains it; the only cave it can add is that part, and no cave's connections change |
| Caves.AddEdge | day12/src/main.rs:15-20 | a pair of names joins its two caves, or fails to connect when both name the same cave; the result is well formed and symmetric, its caves are the old ones plus the two ends, the first end's connections gain exactly the second end, the second's gain exactly the first, and every other cave's connections stay as they were |
| Caves.BuildExact | day12/src/main.rs:10-21 | the system built from a list of pairs holds exactly the caves the pairs name, and each cave's connections are exactly the caves the pairs join it to, in the order of the pairs |
| Caves.EdgeOf | day12/src/main.rs:13-14 | a line splits at '-' into exactly two parts or the `assert_eq!` aborts; the two parts joined by '-' give back the line |
| Caves.EdgeOfShow | day12/src/main.rs:13-14 | two names without '-', joined by '-', split back into the same two names |
| Caves.ReadCaves | day12/src/main.rs:10-21 | the reading loop never returns an error value: it yields a well-formed symmetric system or aborts |
| Caves.ReadCavesOk | day12/src/main.rs:10-21 | reading the lines succeeds exactly when every line splits at '-' into two parts that name different caves |
| Caves.ReadCavesBuild | day12/src/main.rs:10-21 | when every line splits into two different names, reading the lines gives the system built from those pairs, so `Caves.BuildExact` describes it |
| Caves.Build | day12/src/main.rs:10-21 | building from the lines' pairs of names succeeds exactly when no pair joins a cave to itself, and then every pair's caves list each other in a well-formed symmetric system |
| Caves.NewNavigator | day12/src/caves.rs:86-93 | a new navigator reports just its starting cave and has made no small-cave revisits |
| Caves.WalkIn | day12/src/caves.rs:110-118 | walking in appends the cave to the report, and the revisit count grows exactly when a small cave already in the report is entered again |
| Caves.WalkInCountsRevisits | day12/src/caves.rs:110-118 | the revisit count stays equal to the number of repeated small caves in the report |
| Caves.NoRevisitsNoRepeats | day12/src/caves.rs:95-118 | a report with no small-cave revisits repeats only big caves |
| Caves.RenderCollides | day12/src/caves.rs:128-136 | with a comma in a cave name two different walks print as the same line |
| Caves.RenderInjective | day12/src/caves.rs:128-136 | two reports of comma-free names that render to the same text are the same report |
| CaveSearch.InterestedIffExtends | day12/src/caves.rs:95-118 | a navigator is interested in a neighbour exactly when entering it extends its walk to a walk that respects the revisit budget, the start-cave rule and the small-cave rule |
| CaveSearch.WalkBudgetMonotone | day12/src/caves.rs:95-108 | every walk allowed by a revisit budget is allowed by a larger one |
| CaveSearch.NoBudgetSimple | day12/src/caves.rs:95-108 | with no revisits allowed a walk enters no small cave twice |
| CaveSearch.WalkMaximal | day12/src/caves.rs:221-225 | a walk stops at its first arrival at the end cave |
| CaveSearch.WalkContinues | day12/src/caves.rs:226-249 | every proper prefix of a walk not at the end continues along a connection into a cave the navigator may enter |
| CaveSearch.Candidates | day12/src/caves.rs:226-230 | the neighbours kept are the connections other than the start cave, each resolved to its cave, none missing |
| CaveSearch.CandidatesCover | day12/src/caves.rs:226-230 | putting the resolved first connection, unless it is the start cave, before the neighbours of the remaining connections leaves no connection other than the start cave without its neighbour |
| CaveSearch.NeighbourCaves | day12/src/caves.rs:226-230 | the neighbours of the current cave, with repeated names only when a connection was recorded twice |
| CaveSearch.CandidatesDistinct | day12/src/caves.rs:226-230 | connections without repeats give neighbours without repeats |
| CaveSearch.Children | day12/src/caves.rs:236-249 | the navigators spawned are exactly the current navigator walked into each interesting neighbour |
| CaveSearch.Successors | day12/src/caves.rs:236-249 | the spawning loop yields the current navigator walked into each interesting neighbour, clones for the rest and the navigator itself for the first |
| CaveSearch.ChildrenDistinct | day12/src/caves.rs:236-249 | distinct neighbours give navigators at distinct caves |
| CaveSearch.ChildrenTrack | day12/src/caves.rs:236-249 | every spawned navigator still follows a valid partial walk |
| CaveSearch.ChildrenCover | day12/src/caves.rs:236-249 | every complete walk that extends the current navigator's report extends some spawned navigator's report |
| CaveSearch.ExitKeepsCoverage | day12/src/caves.rs:221-225 | moving a navigator at the end cave to the exited list loses no walk |
| CaveSearch.BranchKeepsCoverage | day12/src/caves.rs:226-249 | replacing a navigator by navigators that cover its walks loses no walk |
| CaveSearch.ExitKeepsSeparate | day12/src/caves.rs:221-225 | after an exit no report is a prefix of another |
| CaveSearch.BranchKeepsSeparate | day12/src/caves.rs:236-249 | after branching into distinct caves no report is a prefix of another |
| CaveSearch.ExitStep | day12/src/caves.rs:221-225 | popping a navigator at the end cave onto the exited list keeps the search invariant |
| CaveSearch.BranchStep | day12/src/caves.rs:226-249 | replacing the last navigator, which is not at the end, by its spawned navigators keeps the search invariant |
| CaveSearch.BranchTracks | day12/src/caves.rs:226-249 | after branching every active navigator still follows a valid partial walk |
| CaveSearch.BranchSeparate | day12/src/caves.rs:236-249 | branching into neighbours with distinct names leaves no report a prefix of another |
| CaveSearch.SearchStep | day12/src/caves.rs:217-250 | one iteration keeps the search invariant: every navigator follows a partial walk, every exited one a complete walk, every walk is covered and no report is a prefix of another |
| CaveSearch.SearchStart | day12/src/caves.rs:212-214 | the single navigator at the start cave satisfies the search invariant: its report begins every walk |
| CaveSearch.SearchResults | day12/src/caves.rs:217-253 | the reports of the exited navigators are walks; once no navigator is active every walk is among them; with no connection recorded twice they are pairwise different |
| CaveSearch.RenderedDistinct | day12/src/caves.rs:128-136 | different walks through caves whose names hold no comma print as different lines |
| CaveSearch.FindPaths | day12/src/caves.rs:206-254 | an unknown start or end cave is an error and nothing else is; every path reported is a walk from start to end; if the iteration cap was not reached, every such walk is reported; with no connection recorded twice no path is reported twice, and when moreover no cave name holds a comma no two paths print alike |
| TransparentPaper.DotOrder | day13/src/paper.rs:37-48 | dots compare by x first and then by y, and compare equal exactly when they are the same dot |
| TransparentPaper.New | day13/src/paper.rs:27-31 | a new paper holds no dot |
| TransparentPaper.Bisect | day13/src/paper.rs:56-59 | the binary search, comparing the reference with each dot, finds the dot's index when the dot is there, and otherwise the index where inserting it keeps the dots strictly descending |
| TransparentPaper.IndexDot | day13/src/paper.rs:56-59 | the dot is found exactly when the paper holds it, at its index; otherwise the index given is where it belongs |
| TransparentPaper.AddDot | day13/src/paper.rs:50-54 | the paper afterwards holds its old dots and the new one, and grows by one only when the dot was new |
| TransparentPaper.HasDot | day13/src/paper.rs:61-63 | true exactly when the paper holds the dot |
| TransparentPaper.RemoveDot | day13/src/paper.rs:65-72 | true exactly when the dot was there; afterwards the paper holds every other dot and not this one |
| TransparentPaper.AddDots | day13/src/paper.rs:50-54 | adding dots one after another gives the old dots and the new ones |
| TransparentPaper.DescendingUnique | day13/src/paper.rs:50-59 | two strictly descending dot lists holding the same dots are the same list |
| TransparentPaper.AddDotIdempotent | day13/src/paper.rs:50-54 | adding a dot twice is adding it once |
| TransparentPaper.AddDotCommutes | day13/src/paper.rs:50-54 | the order in which dots are added does not matter |
| TransparentPaper.RemoveAdded | day13/src/paper.rs:50-72 | removing a dot just added reports it and gives the paper back |
| TransparentPaper.AddRemoved | day13/src/paper.rs:50-72 | adding back a dot just removed gives the paper back |
| TransparentPaper.FlipX | day13/src/paper.rs:78-81 | a dot right of the line is mirrored to the same distance left of it, and any other dot stays |
| TransparentPaper.FlipY | day13/src/paper.rs:90-93 | a dot below the line is mirrored to the same distance above it, and any other dot stays |
| TransparentPaper.FoldX | day13/src/paper.rs:74-84 | the folded paper holds exactly the mirrored images of the old dots, none right of the line, and never more dots than before |
| TransparentPaper.FoldY | day13/src/paper.rs:86-96 | the folded paper holds exactly the mirrored images of the old dots, none below the line, and never more dots than before |
| TransparentPaper.FoldXLeftOnly | day13/src/paper.rs:74-84 | folding a paper with no dot right of the line changes nothing |
| TransparentPaper.FoldYAboveOnly | day13/src/paper.rs:86-96 | folding a paper with no dot below the line changes nothing |
| TransparentPaper.FoldXTwice | day13/src/paper.rs:74-84 | folding twice along the same line is folding once |
| TransparentPaper.FoldYTwice | day13/src/paper.rs:86-96 | folding twice along the same line is folding once |
| Origami.ParseFold | day13/src/main.rs:15-28 | a line without the "fold along " prefix, with nothing after it, or with an axis other than x or y is an error; a bad number after the axis and the one character that follows it aborts; otherwise x gives a left fold and y an up fold on that number |
| Origami.ParseShowFold | day13/src/main.rs:15-28 | a fold written as "fold along x=n" or "fold along y=n" parses back to itself |
| Origami.ParseDot | day13/src/main.rs:50-53 | a dot line reads exactly when its first two comma-separated parts are 32-bit numbers, giving them as x and y, and aborts otherwise |
| Origami.ParseShowDot | day13/src/main.rs:50-53 | a dot written as "x,y" parses back to itself |
| Origami.FirstBlank | day13/src/main.rs:44-48 | the dots end at the first empty line |
| Origami.Parse | day13/src/main.rs:31-62 | parsing succeeds exactly when every line before the first empty one is a dot and every line after it a fold; the paper then holds exactly the dots read and the folds are kept in order |
| Origami.ParseShowInput | day13/src/main.rs:31-62 | the dot lines, an empty line and the fold lines of given dots and folds parse back to the paper of those dots and those folds |
| Origami.Apply | day13/src/main.rs:67-71 | an up fold folds along y and a left fold along x; no dot is left past the fold line and the dot count never grows |
| Origami.ApplyKeeps | day13/src/main.rs:78-83 | a fold keeps the paper within any earlier fold's line |
| Origami.ApplyAllBounded | day13/src/main.rs:78-83 | after all folds in order, no dot lies past any of the fold lines |
| Origami.FirstFold | day13/src/main.rs:64-73 | part 1 aborts on input that does not parse or has no fold, and otherwise counts the dots left after the first fold, never more than before |
| Origami.Part2 | day13/src/main.rs:75-85 | part 2 succeeds exactly when the input parses, and its paper has no more dots than were read and none past any fold line |
| Polymerization.Pairs | day14/src/main.rs:88-96 | every pair counted occurs in the string, with a positive count |
| Polymerization.PairsCount | day14/src/main.rs:88-96 | the count of each pair is the number of places where it occurs adjacent in the string |
| Polymerization.PairsTotal | day14/src/main.rs:88-96 | a non-empty string of length n has n - 1 pairs in all, and an empty one none |
| Polymerization.PassCounts | day14/src/main.rs:42-49 | handling one pair adds its quantity to the two pairs its rule creates, or to the pair itself when no rule applies, and to nothing else |
| Polymerization.PassTotal | day14/src/main.rs:42-49 | handling one pair adds its quantity once, or twice when a rule applies |
| Polymerization.RuledStep | day14/src/main.rs:43 | a new pair adds its quantity to the ruled total exactly when a rule applies to it |
| Polymerization.PassStep | day14/src/main.rs:42-50 | handling one more pair keeps the result equal to what the pairs handled so far produce |
| Polymerization.Extend | day14/src/main.rs:40-52 | every pair of the result counts what the old pairs produce, each ruled pair XY with element E giving XE and EY and every other pair itself; the total grows by the quantities of the ruled pairs |
| Polymerization.ExtendedUnique | day14/src/main.rs:40-52 | the result of `extend` does not depend on the order in which the map is visited |
| Polymerization.InsertStep | day14/src/main.rs:40-52 | inserting between every pair never shortens the string and keeps its first and last element |
| Polymerization.StepCounts | day14/src/main.rs:40-52 | the pairs of the string after one insertion step are counted exactly as the pairs the old string's pairs produce |
| Polymerization.ExtendIsInsertion | day14/src/main.rs:40-52 | extending the pair counts of a string gives the pair counts of the string after one insertion step |
| Polymerization.TestStep | day14/src/main.rs:115-118 | with the rules AB to B and BB to A, one step maps the counts of AB, BB and BA to AB+BB, AB and BB+BA and creates no other pair |
| Polymerization.ExtendTest | day14/src/main.rs:112-129 | from "AB" four steps give the pair counts of "ABB", "ABBAB", "ABBABABB" and "ABBABABBABBAB" |
| PolymerResult.Slot | day14/src/main.rs:99-102 | an element's slot is its low byte minus 65; an element below 'A' or at or past the end of the table aborts |
| PolymerResult.NoSlotForZ | day14/src/main.rs:99-102 | with 25 slots 'Z' has no slot and aborts, while every other upper-case letter gets the slot it would get in a table of 26 |
| PolymerResult.UppercaseSlots | day14/src/main.rs:99-102 | with 26 slots every upper-case letter has its own slot, its distance from 'A' |
| PolymerResult.SlotCountInsert | day14/src/main.rs:100-103 | tallying one more pair adds its quantity to the slot of its second element and nowhere else |
| PolymerResult.TalliedStep | day14/src/main.rs:100-103 | the tally loop keeps each slot equal to the total quantity of the pairs handled whose second element has that slot |
| PolymerResult.Tabulate | day14/src/main.rs:99-103 | tallying aborts exactly when some second element has no slot, and otherwise gives, per slot, the total quantity of the pairs ending in it |
| PolymerResult.Largest | day14/src/main.rs:104-106 | the largest tally is at least every tally and is one of them unless all are 0 |
| PolymerResult.Smallest | day14/src/main.rs:104-106 | the smallest non-zero tally is at most every non-zero tally and is one of them unless all are 0 |
| PolymerResult.Spread | day14/src/main.rs:104-106 | with no non-zero tally the unwrap aborts; otherwise the result is the largest tally minus the smallest non-zero one |
| PolymerResult.GetResult | day14/src/main.rs:98-107 | when every pair's second element has a slot among 25, the result is the spread of the tallies of second elements; it succeeds only then |
| PolymerResult.SlotCountPairs | day14/src/main.rs:100-103 | tallying the pairs of a string by second element counts every element but the first |
| PolymerResult.ElementCountsPairs | day14/src/main.rs:100-103 | adding the first element to the tallies of second elements counts every element of the string |
| PolymerResult.GetResultIntended | day14/src/main.rs:98-107 | with 26 slots and the first element counted as well, the result is the spread of the element counts |
| PolymerResult.FirstElementMissed | day14/src/main.rs:100-102 | for "AAB" the code's tally counts A and B once each and gives 0, while the element counts 2 and 1 give 1 |
| PolymerMain.ParseRule | day14/src/main.rs:75-81 | a line that does not split on "->" into exactly two parts is an error; an empty element or a pair of fewer than two characters aborts; otherwise the rule's pair and element are its first characters after trimming |
| PolymerMain.ParseShowRule | day14/src/main.rs:75-81 | a rule written as "XY -> E" parses back to itself |
| PolymerMain.RulesOf | day14/src/main.rs:81 | the rules map holds exactly the pairs of the rule lines, each with the element of its last line |
| PolymerMain.ReadData | day14/src/main.rs:54-86 | reading succeeds exactly when every line after the first two is a rule; the polymer is the pair count of the first line and the rules cover exactly the pairs of those lines |
| PolymerMain.ReadShowInput | day14/src/main.rs:54-86 | a template, a blank line and written rules read back to the template's pairs and those rules |
| PolymerMain.InsertSteps | day14/src/main.rs:20-22 | repeated insertion never shortens the string and keeps its first and last element |
| PolymerMain.Polymerize | day14/src/main.rs:14-22 | reading and extending the given number of times succeeds exactly when reading does, and gives the pair counts of the template after that many insertion steps |
| PolymerMain.Part | day14/src/main.rs:14-38 | each part aborts when the input does not read, and otherwise is the result of the 25-slot tally of the grown polymer's second elements |
| PolymerMain.PartIntended | day14/src/main.rs:14-38 | with the table and first element corrected, each part is the spread of the element counts of the grown polymer |

## Left out

- File and terminal I/O: every `main`, `part1` and `part2` shell, `read_data`, `read_segments` and `read_map`. The parsing and puzzle logic inside them is modelled over sequences of lines or values.
- `Board::read` (day04/src/bingo.rs:35-63) is not modelled: a board is given as its sequence of cells. Its error paths go with it. A number that is not a `u8` panics with "Could not parse number". A row of fewer than five numbers is the error "Not enough input numbers". A row of more than five numbers panics in `check_access` with "Invalid column". A failed read returns the I/O error.
- `get_reader_and_entry_size` (day3/src/main.rs:115-124) is not modelled: the entry size is a parameter of `Diagnostic.CountAll` and the ratings. The code takes it as the byte length of the trimmed first line and panics when the read or the seek fails.
- OceanMap.AddSegment: a segment whose two ends coincide is added as its single point, once. The code's iterator never ends on such a segment (`OceanSegment.SinglePointNeverEnds`), so `add_segment` never returns. The model uses the corrected iterator listed under "Findings".
- OceanMap.FromSegments: inherits the single-point divergence of `OceanMap.AddSegment`. Where the model returns a map, the code does not terminate on a list holding a segment with equal ends.
- OceanMap.Overlaps: inherits the same divergence. Where the model returns a count, the code does not terminate on such a list.
- OceanMap.AddSegmentCounts: states the counts of the corrected single-point behaviour, for the same reason.
- OceanMap.AddSegmentsCounts: states the counts of the corrected single-point behaviour, for the same reason.
- OceanMap.FromSegmentsCounts: states the counts of the corrected single-point behaviour, for the same reason.
- SyntaxScoring.CompletionScores: its own contract says only that each score listed belongs to an incomplete line. That there is exactly one score per incomplete line, in line order, is stated by `SyntaxScoring.ScoresInOrder`.
- HeightMap.LowNext: requires a rectangular map (`Valid`). A file whose first line is empty builds a map that is not rectangular (`HeightMap.EmptyFirstRow`): the width stays 0 while the height counts the line. The code then compares points against heights past the end of the list, and panics when it reaches one; the model does not follow such maps.
- HeightMap.LowPoints: requires a rectangular map, for the reason given for `HeightMap.LowNext`.
- HeightMap.Basins: requires a rectangular map, for the reason given for `HeightMap.LowNext`.
- OctopusGrid.Update: requires a placed map at rest. After an empty first line the day 11 map is not placed either: `push_row` fixes the width only at the next line, whose octopi get the y of the second row. A flash there makes `octopus_mut` reach the wrong octopus or index past the end and panic; the model does not follow it there.
- Diagnostic.FromBinaryStr: measures the string in characters. The code's `len()` counts UTF-8 bytes. A string of fewer than 64 characters but 64 bytes or more, which must hold a non-ASCII character, panics in the code and is an error here. Every string that parses is ASCII, and on those the two agree.
- LineDecoder.CountEasyWords: measures a word in characters, where `output.len()` counts UTF-8 bytes. A word with a non-ASCII character can be easy in one and not in the other. On words of the letters `a` to `g` the two agree.
- LineDecoder.Part1: counts easy words by their length in characters, as `LineDecoder.CountEasyWords` does.
- Common.IsSpace: knows the six ASCII white-space characters only. Rust's `trim` and `split_whitespace` also treat the other Unicode `White_Space` characters as white space, such as U+0085, U+00A0 and U+2003. So `Common.Trim`, `Common.Tokens` and every parser built on them keep such characters where the code removes them.
- Caves.LowerChar: lowers the ASCII letters `A` to `Z` only. The code's `to_lowercase` lowers every Unicode upper-case letter, and may change the length of the name.
- Caves.Lowercase: lowers ASCII letters only, as `Caves.LowerChar` does.
- Caves.KindOf: a name whose only upper-case letters are non-ASCII, such as "Ä", is small here and big in the code.
- Caves.KindOfUpper: speaks of the ASCII upper-case letters only, for the reason given for `Caves.KindOf`.
- Caves.NewCave: decides the kind from the ASCII letters only, for the reason given for `Caves.KindOf`.
- Origami.ParseFold: slices the text after the prefix by characters. The code's `s[2..]` slices by bytes. When the character after `x` or `y` is not ASCII, the code panics because byte 2 is not a character boundary, while the model reads the number from the third character on.
- The `println!` inside `Basins::next` (day09/src/mapping.rs:202), because it only prints.
- The drivers day11/src/main.rs, day09/src/main.rs and day05/src/main.rs, and the file reading and path counting of day12/src/main.rs. The cave-reading loop of day12/src/main.rs:10-21 is modelled (`Caves.ReadCaves`, `Caves.EdgeOf`, `Caves.Ensure`, `Caves.AddEdge`, `Caves.Build`). The day 9 risk sum and the product of the three largest basins are left out with them.
- The `Display`, `Debug` and `Binary` formatting impls and `Digit::print_large` (day08/src/display.rs:110-121), because they are presentation only.
- The `DefaultHasher` identity of caves (day12/src/caves.rs:31-33). Caves are identified by name, as if hashes never collided.
- Caves.Connect: requires both names to be known caves. The code unwraps the lookups there and panics otherwise.
- Hash-map and hash-set iteration order: the tie-break between equally cheap positions on day 7, which key `keys()[0]` picks on day 3 (day3/src/main.rs:187), and the order of `into_iter` on day 14. Loops over these collections take any remaining element, and their contracts state only what holds whatever the order.
- CrabFuel.MinimumCost: does not say which of several equally cheap positions is reported, because that depends on the order of the search loop only through ties.
- Machine-integer widths: `u8` energies and values, `i8` positions, `u32` and `u64` sums and counters, `usize` sizes, `i32` dot coordinates and `i64` positions, costs and sums are unbounded here. In a debug build Rust panics on any integer overflow, signed or unsigned, and the model does not follow those panics; the members concerned are listed below. The `as i8` conversions of day 11 wrap silently instead, and the model does not follow them either; the members concerned are also listed below. The model follows overflow in these places: the shifts of `set_bit` on day 3 (`Diagnostic.SetBitAsWritten`, and part 1's rates in `Diagnostic.RateAsWritten`), the subtraction below `'A'` on day 14, and the `wrapping_sub` of the day 3 rating loop (day3/src/main.rs:185). That subtraction turns position 0 into 255, so the next round indexes the counter out of bounds and panics; the model panics there too.
- Diagnostic.Rating: treats the line length as an unbounded number. The code narrows it with `size as u8` (day3/src/main.rs:178), so a length of 256 or more wraps, which the model does not follow.
- Diagnostic.Gamma: is the intended gamma rate, built with the corrected `set_bit`. Part 1 calls `set_bit` as written (day3/src/main.rs:139-142), and `Diagnostic.RateAsWritten` models that loop. The two agree for entries of up to 31 bits. At 32 bits, a 1 at bit 31 also sets bits 32 to 63 in the code; from 33 bits on, the code aborts.
- Diagnostic.Epsilon: is the intended epsilon rate, for the reason given for `Diagnostic.Gamma` (day3/src/main.rs:144-147).
- Diagnostic.GammaEpsilonComplement: holds of the intended rates. Of the rates the code builds, it holds for entries of up to 31 bits (`Diagnostic.RatesAsWrittenComplement`) and fails at 32 bits (`Diagnostic.RatesAsWrittenSpill`).
- SonarSweep.CountIncreases: sums a window's readings without the `u32` bound (day1/src/main.rs:32-35). A window whose sum passes 2^32 - 1 overflows and panics in the code.
- SyntaxScoring.Autocomplete: computes `score * 5 + …` without the `u64` bound (day10/src/main.rs:134-137). A line left with 28 unclosed `<` overflows it in the code.
- SyntaxScoring.CompletionScores: inherits the unbounded score of `SyntaxScoring.Autocomplete`.
- SyntaxScoring.Part2: inherits the unbounded score of `SyntaxScoring.Autocomplete`.
- Polymerization.Extend: adds the pair quantities without the `u64` bound (day14/src/main.rs:45-48).
- PolymerResult.Tabulate: sums the quantities per slot without the `u64` bound (day14/src/main.rs:102).
- PolymerMain.Polymerize: inherits the unbounded quantities of `Polymerization.Extend`.
- Lanternfish.AddFish: adds to a bucket without the `u64` bound (day6/src/main.rs:33-35).
- Lanternfish.AdvanceDay: moves bucket counts without the `u64` bound (day6/src/main.rs:18-31).
- Lanternfish.Simulate: sums the buckets without the `usize` bound (day6/src/main.rs:37-43), after the unbounded buckets of `Lanternfish.AdvanceDay`.
- OctopusGrid.NewMap: builds width * height octopi at unbounded positions. The code loops over `0..height as i8` and `0..width as i8` (day11/src/map.rs:14-15), which wrap silently: a width or height from 128 to 256 makes its range empty, so the code builds no octopi.
- OctopusGrid.EnergyRow: places the row's octopi at x and y without the `i8` bound. The code converts with `x as i8, y as i8` (day11/src/map.rs:39), which wraps silently: in a row of 129 digits the last octopus lands at x = -128.
- OctopusGrid.PushRow: inherits the unbounded positions of `OctopusGrid.EnergyRow`. In the code, rows of 129 or more digits, and every row from the 129th on, place octopi at wrapped positions.
- OctopusGrid.PushKeepsPlaced: holds of the model only. In the code, an octopus whose x or y is 128 or more is stored at a wrapped, negative position, so it is not at the position its index names.
- OctopusGrid.FromGrid: "every octopus at its position" holds in the code only for grids less than 128 wide and high, for the reason given for `OctopusGrid.EnergyRow`.
- TransparentPaper.FlipX: computes `x - (dot.x - x)` without the `i32` bound. "fold along x=-2" with a dot at x = 2147483647 overflows and panics in the code (day13/src/paper.rs:74-84).
- TransparentPaper.FlipY: computes `y - (dot.y - y)` without the `i32` bound, for the reason given for `TransparentPaper.FlipX` (day13/src/paper.rs:86-96).
- TransparentPaper.FoldX: inherits the unbounded reflection of `TransparentPaper.FlipX`.
- TransparentPaper.FoldY: inherits the unbounded reflection of `TransparentPaper.FlipY`.
- Dive.CourseSums: sums the units without the `i64` bound of `Pos` (day02/src/main.rs:11-14), where a large enough sum overflows and panics in the code.
- Dive.VoyageSums: computes `aim * units` and the depth without the `i64` bound (day02/src/main.rs:62-75).
- Dive.PartOne: multiplies the final coordinates without the `i64` bound.
- Dive.PartTwo: multiplies the final coordinates without the `i64` bound, after the unbounded sums of `Dive.VoyageSums`.
- OceanPoint.AddSub: adds and subtracts `i64` coordinates without their bound (day05/src/oceanfloor/point.rs:8-9).
- CrabFuel.FuelCost: computes `distance * (distance + 1) / 2` without the `i64` bound. Crabs at positions 0 and 2^32 overflow it in the code (day07/src/main.rs:26-32).
- CrabFuel.TotalFuelCost: sums the costs without the `i64` bound (day07/src/main.rs:34-40).
- CaveSearch.FindPaths: returns each path as its sequence of cave names, where the code returns the names joined with ',' (day12/src/caves.rs:128-136). Names come from `split('-')` and may hold a comma, and then two different walks can print alike: `Caves.RenderCollides` shows "start,b,c,end" for both [start, "b,c", end] and [start, b, c, end]. The contract promises distinct printed paths only when no name holds a comma.
- The kinds of `ParseIntError` are not told apart; a failed parse is one error value.
- Panic messages are kept where the code states them and are otherwise the standard library's wording.
- The day 1 readings are given as natural numbers; reading them from text is I/O.
- The cell of the day 5 map's one-cell margin added by `region_enclosing` (day5/src/oceanfloor/map.rs:41) is never counted, since no segment reaches it; `OceanMap.RegionLeast` states the box without it.
- The iteration cap of `find_paths` (1,000,000 iterations) is kept as a constant; nothing is claimed about which inputs reach it.

## Findings

| source | as written | input that shows it | evidently intended | confidence | as-written member | corrected member |
|---|---|---|---|---|---|---|
| day3/src/main.rs:44-45 | `(0x1 << pos) as u64` shifts a 32-bit signed one, so at position 31 the mask is negative and its conversion fills bits 32 to 63 | `set_bit(31, 1)` on the 40-bit number 0 also sets bit 32 | only bit `pos` changes | not executed | Diagnostic.SetBitAsWrittenWrong | Diagnostic.SetBit |
| day3/src/main.rs:43-45 | from position 32 on the 32-bit shift overflows and aborts, although the number may be up to 63 bits long | `set_bit(35, 1)` on the 40-bit number 0 aborts | the bit is set as for any position below the length | not executed | Diagnostic.SetBitAsWrittenAborts | Diagnostic.SetBit |
| day3/src/main.rs:139-147 | part 1 builds gamma and epsilon through the as-written `set_bit`, whose bit 31 is sign-extended | 32-bit entries: whichever rate has bit 31 set also gets bits 32 to 63, so gamma + epsilon exceeds 2^32 - 1 | gamma and epsilon are 32-bit complements adding up to 2^32 - 1 | not executed | Diagnostic.RatesAsWrittenSpill | Diagnostic.GammaEpsilonComplement |
| day14/src/main.rs:99 | the tally has `'Z' as u8 - 'A' as u8`, that is 25, slots | a polymer containing `Z` indexes slot 25 and aborts | one slot per upper-case letter, 26 in all | not executed | PolymerResult.NoSlotForZ | PolymerResult.UppercaseSlots |
| day14/src/main.rs:100-102 | each pair adds its count to its second element only, so the first element of the template is never counted | the template "AAB" with no growth gives counts 1 and 1 and the answer 0, while it holds two A and one B | every element counted, giving 1 for "AAB" | not executed | PolymerResult.FirstElementMissed | PolymerResult.GetResultIntended |
| day05/src/oceanfloor/segment.rs:69-99 | a segment whose ends coincide gets the step (0, 0), so its iterator yields the same point on every call and never ends | the line "5,5 -> 5,5" | the single point is yielded once and the iteration stops | not executed | OceanSegment.SinglePointNeverEnds | OceanSegment.Points |

=== FILE: bits.dfy ===
/** Bits of natural numbers, as the solutions' shifts and masks read
    them: bit `i` of `n` is `(n >> i) & 1`. */
module Bits {
  import opened Common

  function Pow2(n: nat): (r: nat)
    ensures r >= 1
  {
    if n == 0 then 1 else 2 * Pow2(n - 1)
  }

  /** Bit `pos` of `num`, that is `(num >> pos) & 1`. */
  function BitOf(num: nat, pos: nat): (b: nat)
    ensures b < 2
  {
    if pos == 0 then num % 2 else BitOf(num / 2, pos - 1)
  }

  /** Powers of two add their exponents when multiplied. */
  lemma {:induction false} Pow2Add(a: nat, b: nat)
    ensures Pow2(a + b) == Pow2(a) * Pow2(b)
    decreases a
  {
    if a > 0 {
      Pow2Add(a - 1, b);
      assert Pow2(a + b) == 2 * Pow2(a - 1 + b);
    }
  }

  /** Halving `n` halves its quotient-and-remainder split by `2 * d`. */
  lemma HalfSplit(n: nat, d: nat)
    requires d > 0
    ensures n / 2 == n / (2 * d) * d + n % (2 * d) / 2
  {
    var q, r := n / (2 * d), n % (2 * d);
    var m := d * q;
    assert q * (2 * d) == 2 * m;
    assert n == 2 * (m + r / 2) + r % 2;
    DivModUnique(n, 2, r % 2, m + r / 2);
    assert m == q * d;
  }

  /** Dividing by two and then by `d` is dividing by `2 * d`. */
  lemma DivTwice(n: nat, d: nat)
    requires d > 0
    ensures n / 2 / d == n / (2 * d)
  {
    HalfSplit(n, d);
    DivModUnique(n / 2, d, n % (2 * d) / 2, n / (2 * d));
  }

  /** Bit `pos` is the remainder by two of `num` shifted right by `pos`
      places, that is of `num` divided by 2 to the power `pos`. */
  lemma {:induction false} BitOfDiv(num: nat, pos: nat)
    ensures BitOf(num, pos) == num / Pow2(pos) % 2
    decreases pos
  {
    if pos > 0 {
      BitOfDiv(num / 2, pos - 1);
      DivTwice(num, Pow2(pos - 1));
    }
  }

  /** `num` with bit `pos` replaced by `v`. */
  function SetBitOf(num: nat, pos: nat, v: nat): nat
    requires v < 2
  {
    if pos == 0 then num - num % 2 + v else 2 * SetBitOf(num / 2, pos - 1, v) + num % 2
  }

  /** Setting a bit sets that bit and keeps all others. */
  lemma {:induction false} SetBitOfBits(num: nat, pos: nat, v: nat, j: nat)
    requires v < 2
    ensures BitOf(SetBitOf(num, pos, v), j) == if j == pos then v else BitOf(num, j)
    decreases pos
  {
    var r := SetBitOf(num, pos, v);
    if pos == 0 {
      if j > 0 {
        assert r / 2 == num / 2;
      }
    } else {
      assert r / 2 == SetBitOf(num / 2, pos - 1, v);
      assert r % 2 == num % 2;
      if j > 0 {
        SetBitOfBits(num / 2, pos - 1, v, j - 1);
      }
    }
  }

  /** Setting a bit below `n` keeps a number below 2^n. */
  lemma {:induction false} SetBitOfBound(num: nat, pos: nat, v: nat, n: nat)
    requires v < 2 && pos < n && num < Pow2(n)
    ensures SetBitOf(num, pos, v) < Pow2(n)
    decreases pos
  {
    var r := SetBitOf(num, pos, v);
    if pos == 0 {
      assert r <= num - num % 2 + 1;
      assert num - num % 2 + 1 < Pow2(n) by {
        assert Pow2(n) == 2 * Pow2(n - 1);
      }
    } else {
      assert Pow2(n) == 2 * Pow2(n - 1);
      assert num / 2 < Pow2(n - 1);
      SetBitOfBound(num / 2, pos - 1, v, n - 1);
      assert r == 2 * SetBitOf(num / 2, pos - 1, v) + num % 2;
    }
  }

  /** Numbers below 2^n are determined by their lowest n bits. */
  lemma {:induction false} BitsDetermine(a: nat, b: nat, n: nat)
    requires a < Pow2(n) && b < Pow2(n)
    requires forall i :: 0 <= i < n ==> BitOf(a, i) == BitOf(b, i)
    ensures a == b
    decreases n
  {
    if n == 0 {
    } else {
      assert BitOf(a, 0) == BitOf(b, 0);
      forall i | 0 <= i < n - 1
        ensures BitOf(a / 2, i) == BitOf(b / 2, i)
      {
        assert BitOf(a, i + 1) == BitOf(b, i + 1);
      }
      BitsDetermine(a / 2, b / 2, n - 1);
    }
  }

  /** Two numbers below 2^n with complementary bits add up to 2^n - 1. */
  lemma {:induction false} ComplementSum(a: nat, b: nat, n: nat)
    requires a < Pow2(n) && b < Pow2(n)
    requires forall i :: 0 <= i < n ==> BitOf(a, i) + BitOf(b, i) == 1
    ensures a + b == Pow2(n) - 1
    decreases n
  {
    if n > 0 {
      assert BitOf(a, 0) + BitOf(b, 0) == 1;
      forall i | 0 <= i < n - 1
        ensures BitOf(a / 2, i) + BitOf(b / 2, i) == 1
      {
        assert BitOf(a, i + 1) + BitOf(b, i + 1) == 1;
      }
      ComplementSum(a / 2, b / 2, n - 1);
    }
  }

  lemma {:induction false} ZeroBits(i: nat)
    ensures BitOf(0, i) == 0
  {
    if i > 0 {
      ZeroBits(i - 1);
    }
  }

  /** The bits of `q * 2^k + r`, `r` below 2^k, from position `k` on are
      the bits of `q`. */
  lemma {:induction false} BitOfMultiple(q: nat, r: nat, k: nat, j: nat)
    requires r < Pow2(k)
    ensures BitOf(q * Pow2(k) + r, k + j) == BitOf(q, j)
    decreases k
  {
    if k > 0 {
      var x := q * Pow2(k) + r;
      assert x == 2 * (q * Pow2(k - 1)) + r;
      assert x / 2 == q * Pow2(k - 1) + r / 2;
      BitOfMultiple(q, r / 2, k - 1, j);
    }
  }

  /** Every bit of 2^n - 1 below `n` is set. */
  lemma {:induction false} AllOnesBits(n: nat, i: nat)
    requires i < n
    ensures BitOf(Pow2(n) - 1, i) == 1
    decreases n
  {
    var p := Pow2(n - 1);
    assert Pow2(n) - 1 == 2 * (p - 1) + 1;
    assert (Pow2(n) - 1) % 2 == 1 && (Pow2(n) - 1) / 2 == p - 1;
    if i > 0 {
      AllOnesBits(n - 1, i - 1);
    }
  }

  /** Bitwise AND of two naturals, `x & y`. */
  function AndBits(x: nat, y: nat): (r: nat)
    ensures r <= x && r <= y
  {
    if x == 0 || y == 0 then 0 else 2 * AndBits(x / 2, y / 2) + (x % 2) * (y % 2)
  }

  /** Each bit of `x & y` is the product of the bits of `x` and `y`. */
  lemma {:induction false} AndBitsBits(x: nat, y: nat, i: nat)
    ensures BitOf(AndBits(x, y), i) == BitOf(x, i) * BitOf(y, i)
    decreases i
  {
    if x == 0 || y == 0 {
      ZeroBits(i);
    } else {
      var q := AndBits(x / 2, y / 2);
      var b := (x % 2) * (y % 2);
      assert b == (if x % 2 == 1 && y % 2 == 1 then 1 else 0);
      assert AndBits(x, y) == 2 * q + b;
      assert AndBits(x, y) % 2 == b && AndBits(x, y) / 2 == q;
      if i > 0 {
        AndBitsBits(x / 2, y / 2, i - 1);
      }
    }
  }
}

=== FILE: common.dfy ===
/** Shared vocabulary of the puzzle solutions: the outcome of an operation
    that may fail or abort, and the small string toolkit (split, trim,
    whitespace tokens, decimal numbers) the solutions use on their input
    lines. */
module Common {

  /** Rust's `Option`. */
  datatype Option<+T> = None | Some(value: T)

  /** The result of an operation of the solutions. `Ok` and `Err` are the
      values of Rust's `Result`; `Panic` stands for the program aborting
      (an `assert!`, a `panic!`, an `unwrap`/`expect` on a failure, an index
      out of range). */
  datatype Result<+T> = Ok(value: T) | Err(msg: string) | Panic(msg: string)

  // ---------------------------------------------------------------------
  // Substrings and splitting

  /** `sep` occurs in `s` starting at position `j`. */
  predicate OccursAt(s: string, sep: string, j: int)
  {
    0 <= j && j + |sep| <= |s| && s[j..j + |sep|] == sep
  }

  /** Position of the first occurrence of `sep` in `s`. */
  function IndexOf(s: string, sep: string): (r: Option<nat>)
    requires |sep| > 0
    ensures r.Some? ==> OccursAt(s, sep, r.value)
    ensures r.Some? ==> forall j :: 0 <= j < r.value ==> !OccursAt(s, sep, j)
    ensures r.None? ==> forall j :: 0 <= j ==> !OccursAt(s, sep, j)
    decreases |s|
  {
    if |s| < |sep| then None
    else if s[..|sep|] == sep then Some(0)
    else
      match IndexOf(s[1..], sep)
      case None =>
        assert forall j :: 1 <= j ==> (OccursAt(s, sep, j) <==> OccursAt(s[1..], sep, j - 1));
        None
      case Some(i) =>
        assert forall j :: 1 <= j ==> (OccursAt(s, sep, j) <==> OccursAt(s[1..], sep, j - 1));
        Some(i + 1)
  }

  /** Rust's `str::split` with a non-empty pattern: the pieces between the
      non-overlapping occurrences of `sep`, scanned left to right. There is
      always at least one piece. */
  function Split(s: string, sep: string): (parts: seq<string>)
    requires |sep| > 0
    ensures |parts| >= 1
    decreases |s|
  {
    match IndexOf(s, sep)
    case None => [s]
    case Some(i) => [s[..i]] + Split(s[i + |sep|..], sep)
  }

  /** The pieces glued back together with `sep` between them. */
  function Join(parts: seq<string>, sep: string): string
  {
    if |parts| == 0 then ""
    else if |parts| == 1 then parts[0]
    else parts[0] + sep + Join(parts[1..], sep)
  }

  /** Splitting loses nothing: joining the pieces gives back the text. */
  lemma {:induction false} JoinSplit(s: string, sep: string)
    requires |sep| > 0
    ensures Join(Split(s, sep), sep) == s
    decreases |s|
  {
    var parts := Split(s, sep);
    match IndexOf(s, sep)
    case None =>
      assert parts == [s];
    case Some(i) =>
      var rest := s[i + |sep|..];
      assert parts == [s[..i]] + Split(rest, sep);
      JoinSplit(rest, sep);
      JoinCons(s[..i], Split(rest, sep), sep);
      assert s[i..i + |sep|] == sep;
      assert s == s[..i] + s[i..i + |sep|] + rest;
  }

  lemma JoinCons(head: string, parts: seq<string>, sep: string)
    requires |parts| >= 1
    ensures Join([head] + parts, sep) == head + sep + Join(parts, sep)
  {
    assert ([head] + parts)[1..] == parts;
  }

  /** Splitting on a one-character separator undoes joining pieces that do
      not contain that character. */
  lemma {:induction false} SplitJoin(parts: seq<string>, c: char)
    requires |parts| >= 1
    requires forall k :: 0 <= k < |parts| ==> c !in parts[k]
    ensures Split(Join(parts, [c]), [c]) == parts
    decreases |parts|
  {
    var s := Join(parts, [c]);
    if |parts| == 1 {
      NoOccurrence(parts[0], c);
    } else {
      var head := parts[0];
      var tail := Join(parts[1..], [c]);
      assert s == head + [c] + tail;
      assert OccursAt(s, [c], |head|) by {
        assert s[|head|..|head| + 1] == [c];
      }
      forall j | 0 <= j < |head|
        ensures !OccursAt(s, [c], j)
      {
        assert s[j] == head[j];
      }
      assert IndexOf(s, [c]) == Some(|head|);
      assert s[..|head|] == head;
      assert s[|head| + 1..] == tail;
      SplitJoin(parts[1..], c);
    }
  }

  lemma NoOccurrence(s: string, c: char)
    requires c !in s
    ensures IndexOf(s, [c]) == None
  {
    forall j | 0 <= j && j + 1 <= |s|
      ensures !OccursAt(s, [c], j)
    {
      assert s[j..j + 1] == [s[j]];
      assert s[j] in s;
    }
  }

  /** Splitting on a two-character separator whose second character
      appears in neither side gives the two sides back. */
  lemma SplitTwo(x: string, sep: string, y: string)
    requires |sep| == 2 && sep[0] != sep[1]
    requires sep[1] !in x && sep[1] !in y
    ensures Split(x + sep + y, sep) == [x, y]
  {
    var s := x + sep + y;
    assert s[|x|..|x| + 2] == sep;
    forall j | 0 <= j < |x|
      ensures !OccursAt(s, sep, j)
    {
      if j + 1 < |x| {
        assert s[j + 1] == x[j + 1];
      } else {
        assert s[j + 1] == sep[0];
      }
    }
    assert OccursAt(s, sep, |x|);
    assert IndexOf(s, sep) == Some(|x|);
    assert s[..|x|] == x;
    assert s[|x| + 2..] == y;
    NoPairOccurrence(y, sep);
  }

  lemma NoPairOccurrence(y: string, sep: string)
    requires |sep| == 2 && sep[1] !in y
    ensures IndexOf(y, sep) == None
  {
    forall j | 0 <= j && j + 2 <= |y|
      ensures !OccursAt(y, sep, j)
    {
      assert y[j..j + 2][1] == y[j + 1];
      assert y[j + 1] in y;
    }
  }

  /** Trimming one space off either side of a text that has no white
      space at its ends. */
  lemma TrimPadded(w: string)
    requires |w| > 0 && !IsSpace(w[0]) && !IsSpace(w[|w| - 1])
    ensures Trim(w + " ") == w && Trim(" " + w) == w
  {
    assert TrimStart(w + " ") == w + " ";
    assert (w + " ")[..|w|] == w;
    assert TrimEnd(w + " ") == TrimEnd(w);
    assert (" " + w)[1..] == w;
    assert TrimStart(" " + w) == TrimStart(w);
  }

  /** Rust's `str::split_once` on a character: the text before and after
      its first occurrence. */
  function SplitOnce(s: string, c: char): (r: Option<(string, string)>)
    ensures r.None? <==> c !in s
    ensures r.Some? ==> s == r.value.0 + [c] + r.value.1 && c !in r.value.0
  {
    match IndexOf(s, [c])
    case None =>
      assert forall j :: 0 <= j < |s| ==> (OccursAt(s, [c], j) <==> s[j] == c) by {
        forall j | 0 <= j < |s| ensures OccursAt(s, [c], j) <==> s[j] == c {
          assert s[j..j + 1] == [s[j]];
        }
      }
      None
    case Some(i) =>
      assert s[i..i + 1] == [c];
      assert forall j :: 0 <= j < i ==> s[j] != c by {
        forall j | 0 <= j < i ensures s[j] != c {
          assert !OccursAt(s, [c], j);
          assert s[j..j + 1] == [s[j]];
        }
      }
      assert s == s[..i] + [c] + s[i + 1..];
      Some((s[..i], s[i + 1..]))
  }

  /** Splitting at the first `c` undoes joining two texts with `c` when
      the first holds none. */
  lemma SplitOnceOf(a: string, c: char, b: string)
    requires c !in a
    ensures SplitOnce(a + [c] + b, c) == Some((a, b))
  {
    var s := a + [c] + b;
    assert s[|a|] == c;
    var r := SplitOnce(s, c);
    var u := r.value.0;
    assert u == s[..|a|] == a;
    assert r.value.1 == s[|a| + 1..] == b;
  }

  /** Rust's `str::strip_prefix`. */
  function StripPrefix(s: string, prefix: string): (r: Option<string>)
    ensures r.Some? <==> prefix <= s
    ensures r.Some? ==> s == prefix + r.value
  {
    if prefix <= s then Some(s[|prefix|..]) else None
  }

  // ---------------------------------------------------------------------
  // Whitespace

  /** The ASCII white-space characters. */
  predicate IsSpace(c: char)
  {
    c == ' ' || c == '\t' || c == '\n' || c == '\r' || c == '\U{B}' || c == '\U{C}'
  }

  predicate NoSpace(s: string)
  {
    forall i :: 0 <= i < |s| ==> !IsSpace(s[i])
  }

  function TrimStart(s: string): (r: string)
    ensures |r| <= |s| && r == s[|s| - |r|..]
    ensures forall i :: 0 <= i < |s| - |r| ==> IsSpace(s[i])
    ensures |r| > 0 ==> !IsSpace(r[0])
    decreases |s|
  {
    if |s| > 0 && IsSpace(s[0]) then TrimStart(s[1..]) else s
  }

  function TrimEnd(s: string): (r: string)
    ensures |r| <= |s| && r == s[..|r|]
    ensures forall i :: |r| <= i < |s| ==> IsSpace(s[i])
    ensures |r| > 0 ==> !IsSpace(r[|r| - 1])
    decreases |s|
  {
    if |s| > 0 && IsSpace(s[|s| - 1]) then TrimEnd(s[..|s| - 1]) else s
  }

  /** The number of white-space characters `str::trim_start` removes. */
  function Leading(s: string): (n: nat)
    ensures n <= |s|
  {
    |s| - |TrimStart(s)|
  }

  /** Rust's `str::trim`: white space removed from both ends. */
  function Trim(s: string): (r: string)
    ensures var i := Leading(s);
      && i + |r| <= |s|
      && (forall k :: 0 <= k < i ==> IsSpace(s[k]))
      && (forall k :: i + |r| <= k < |s| ==> IsSpace(s[k]))
    ensures |r| > 0 ==> !IsSpace(r[0]) && !IsSpace(r[|r| - 1])
  {
    var t := TrimStart(s);
    var r := TrimEnd(t);
    TrimParts(s, t, r);
    r
  }

  /** Each character `str::trim` keeps is the one of the text at the same
      place after the leading white space. */
  lemma TrimAt(s: string, k: nat)
    requires k < |Trim(s)|
    ensures Leading(s) + k < |s| && Trim(s)[k] == s[Leading(s) + k]
  {
    var t := TrimStart(s);
    var r := TrimEnd(t);
    assert r[k] == t[k];
  }

  /** A suffix `t` of `s` that ends in white space past a prefix `r` of
      it: `r` sits in `s` where `t` starts, and everything after it in
      `s` is white space. */
  lemma TrimParts(s: string, t: string, r: string)
    requires |t| <= |s| && t == s[|s| - |t|..]
    requires forall i :: 0 <= i < |s| - |t| ==> IsSpace(s[i])
    requires |t| > 0 ==> !IsSpace(t[0])
    requires |r| <= |t| && r == t[..|r|]
    requires forall i :: |r| <= i < |t| ==> IsSpace(t[i])
    requires |r| > 0 ==> !IsSpace(r[|r| - 1])
    ensures var i := |s| - |t|;
      && i + |r| <= |s| && r == s[i..i + |r|]
      && (forall k :: 0 <= k < i ==> IsSpace(s[k]))
      && (forall k :: i + |r| <= k < |s| ==> IsSpace(s[k]))
    ensures |r| > 0 ==> !IsSpace(r[0]) && !IsSpace(r[|r| - 1])
  {
    var i := |s| - |t|;
    forall k | i + |r| <= k < |s|
      ensures IsSpace(s[k])
    {
      assert s[k] == t[k - i];
    }
    if |r| > 0 {
      assert r[0] == t[0];
    }
  }

  /** Trimming a text that neither starts nor ends with white space
      changes nothing. */
  lemma TrimNoEdges(s: string)
    requires |s| > 0 ==> !IsSpace(s[0]) && !IsSpace(s[|s| - 1])
    ensures Trim(s) == s
  {
  }

  /** Length of the leading run of non-space characters. */
  function TokenLength(s: string): (n: nat)
    ensures n <= |s| && NoSpace(s[..n])
    ensures n < |s| ==> IsSpace(s[n])
    decreases |s|
  {
    if |s| == 0 || IsSpace(s[0]) then 0 else 1 + TokenLength(s[1..])
  }

  /** Rust's `str::split_whitespace`: the maximal runs of non-space
      characters, in order. */
  function Tokens(s: string): (ts: seq<string>)
    ensures forall k :: 0 <= k < |ts| ==> |ts[k]| > 0 && NoSpace(ts[k])
    decreases |s|
  {
    if |s| == 0 then []
    else if IsSpace(s[0]) then Tokens(s[1..])
    else
      var n := TokenLength(s);
      [s[..n]] + Tokens(s[n..])
  }

  /** Tokenising words joined by single spaces gives back the words. */
  lemma {:induction false} TokensJoin(ws: seq<string>)
    requires forall k :: 0 <= k < |ws| ==> |ws[k]| > 0 && NoSpace(ws[k])
    ensures Tokens(Join(ws, " ")) == ws
    decreases |ws|
  {
    if |ws| == 0 {
    } else if |ws| == 1 {
      TokenOfWord(ws[0], "");
      assert ws[0] + "" == ws[0];
    } else {
      var rest := Join(ws[1..], " ");
      var s := Join(ws, " ");
      assert s == ws[0] + (" " + rest);
      TokenOfWord(ws[0], " " + rest);
      assert s[|ws[0]|..] == " " + rest;
      assert Tokens(" " + rest) == Tokens(rest) by {
        assert (" " + rest)[1..] == rest;
      }
      TokensJoin(ws[1..]);
    }
  }

  lemma {:induction false} TokenOfWord(w: string, rest: string)
    requires |w| > 0 && NoSpace(w)
    requires |rest| > 0 ==> IsSpace(rest[0])
    ensures TokenLength(w + rest) == |w|
    ensures Tokens(w + rest) == [w] + Tokens(rest)
  {
    TokenLengthWord(w, rest);
    assert (w + rest)[..|w|] == w;
    assert (w + rest)[|w|..] == rest;
  }

  lemma {:induction false} TokenLengthWord(w: string, rest: string)
    requires NoSpace(w)
    requires |rest| > 0 ==> IsSpace(rest[0])
    ensures TokenLength(w + rest) == |w|
    decreases |w|
  {
    if |w| == 0 {
      assert w + rest == rest;
    } else {
      assert (w + rest)[1..] == w[1..] + rest;
      TokenLengthWord(w[1..], rest);
    }
  }

  // ---------------------------------------------------------------------
  // Decimal numbers

  predicate IsDigit(c: char)
  {
    '0' <= c <= '9'
  }

  /** Rust's `char::to_digit(10)`. */
  function DigitValue(c: char): (d: Option<nat>)
    ensures d.Some? <==> IsDigit(c)
    ensures d.Some? ==> d.value < 10
  {
    if IsDigit(c) then Some((c - '0') as nat) else None
  }

  function DigitChar(d: nat): (c: char)
    requires d < 10
    ensures IsDigit(c) && DigitValue(c) == Some(d)
  {
    ('0' as int + d) as char
  }

  predicate AllDigits(s: string)
  {
    forall i :: 0 <= i < |s| ==> IsDigit(s[i])
  }

  /** The digits of one line, as `c.to_digit(10).expect("Cannot convert
      digit")` reads them: a panic on the first character that is not a
      decimal digit. */
  function DigitRow(line: string): (r: Result<seq<nat>>)
    ensures !r.Err?
    ensures r.Ok? <==> AllDigits(line)
    ensures r.Ok? ==> |r.value| == |line| && forall k :: 0 <= k < |line| ==> Some(r.value[k]) == DigitValue(line[k])
  {
    if AllDigits(line) then Ok(seq(|line|, k requires 0 <= k < |line| => DigitValue(line[k]).value))
    else Panic("Cannot convert digit")
  }

  /** The value of a string of decimal digits, most significant first. */
  function DigitsValue(s: string): nat
    requires AllDigits(s)
    decreases |s|
  {
    if |s| == 0 then 0
    else DigitsValue(s[..|s| - 1]) * 10 + (s[|s| - 1] - '0') as nat
  }

  /** Rust's `str::parse` for an unsigned type, width aside: an optional
      `+` followed by at least one decimal digit. */
  function ParseNat(s: string): (r: Option<nat>)
    ensures r.Some? <==> var t := if |s| > 0 && s[0] == '+' then s[1..] else s; |t| > 0 && AllDigits(t)
  {
    var t := if |s| > 0 && s[0] == '+' then s[1..] else s;
    if |t| > 0 && AllDigits(t) then Some(DigitsValue(t)) else None
  }

  /** Rust's `str::parse` for a signed type, width aside: an optional sign
      followed by at least one decimal digit. */
  function ParseInt(s: string): (r: Option<int>)
    ensures |s| > 0 && s[0] == '-' ==> (r.Some? <==> |s| > 1 && AllDigits(s[1..]))
    ensures (|s| == 0 || s[0] != '-') ==> (r.Some? <==> ParseNat(s).Some?)
    ensures r.Some? && r.value < 0 ==> s[0] == '-'
  {
    if |s| > 0 && s[0] == '-' then
      var t := s[1..];
      if |t| > 0 && AllDigits(t) then Some(-(DigitsValue(t) as int)) else None
    else
      match ParseNat(s)
      case Some(n) => Some(n as int)
      case None => None
  }

  /** The range of Rust's `i32` and `i64`: `lo <= v < hi`. */
  const I32Lo: int := -0x8000_0000
  const I32Hi: int := 0x8000_0000
  const I64Lo: int := -0x8000_0000_0000_0000
  const I64Hi: int := 0x8000_0000_0000_0000

  /** Rust's `str::parse` for a signed type of range `[lo, hi)`: a number
      outside the range is refused like a malformed one. */
  function ParseIntIn(s: string, lo: int, hi: int): (r: Option<int>)
    ensures r.Some? <==> ParseInt(s).Some? && lo <= ParseInt(s).value < hi
    ensures r.Some? ==> Some(r.value) == ParseInt(s)
  {
    match ParseInt(s)
    case Some(v) => if lo <= v < hi then Some(v) else None
    case None => None
  }

  /** Decimal rendering of a natural number, no leading zeros. */
  function ShowNat(n: nat): (s: string)
    ensures |s| > 0 && AllDigits(s)
    decreases n
  {
    if n < 10 then [DigitChar(n)] else ShowNat(n / 10) + [DigitChar(n % 10)]
  }

  /** Decimal rendering of an integer, with a `-` for negatives. */
  function ShowInt(i: int): (s: string)
    ensures |s| > 0 && forall k :: 0 <= k < |s| ==> IsDigit(s[k]) || s[k] == '-'
  {
    if i < 0 then "-" + ShowNat(-i) else ShowNat(i)
  }

  lemma {:induction false} DigitsValueShow(n: nat)
    ensures DigitsValue(ShowNat(n)) == n
    decreases n
  {
    if n >= 10 {
      var s := ShowNat(n);
      DigitsValueShow(n / 10);
      assert s[..|s| - 1] == ShowNat(n / 10);
    }
  }

  /** Parsing undoes rendering, for naturals. */
  lemma ParseShowNat(n: nat)
    ensures ParseNat(ShowNat(n)) == Some(n)
  {
    DigitsValueShow(n);
  }

  /** Parsing undoes rendering, for integers. */
  lemma ParseShowInt(i: int)
    ensures ParseInt(ShowInt(i)) == Some(i)
  {
    if i < 0 {
      ParseShowNegative(-i);
    } else {
      var s := ShowNat(i);
      assert ShowInt(i) == s;
      assert s[0] != '-' by {
        assert IsDigit(s[0]);
      }
      ParseShowNat(i);
    }
  }

  lemma ParseShowNegative(n: nat)
    requires n > 0
    ensures ParseInt("-" + ShowNat(n)) == Some(-(n as int))
  {
    var t := ShowNat(n);
    var s := "-" + t;
    assert s[0] == '-' && s[1..] == t;
    DigitsValueShow(n);
  }

  /** Parsing undoes rendering for any integer of the range. */
  lemma ParseShowIntIn(i: int, lo: int, hi: int)
    requires lo <= i < hi
    ensures ParseIntIn(ShowInt(i), lo, hi) == Some(i)
  {
    ParseShowInt(i);
  }

  // ---------------------------------------------------------------------
  // Multiplication and division facts the solver needs spelled out

  /** `y * w`, written as repeated addition so that the solver treats
      row offsets as opaque terms and proofs about indices stay linear;
      `MulIsProduct` links it back to `*`. */
  function Mul(y: nat, w: nat): nat
  {
    if y == 0 then 0 else Mul(y - 1, w) + w
  }

  lemma {:induction false} MulIsProduct(y: nat, w: nat)
    ensures Mul(y, w) == y * w
  {
    if y > 0 {
      MulIsProduct(y - 1, w);
    }
  }

  lemma MulMono(a: nat, b: nat, w: nat)
    requires a <= b
    ensures a * w <= b * w
  {
    assert b * w == a * w + (b - a) * w;
  }

  /** Quotient and remainder are unique. */
  lemma DivModUnique(i: nat, w: nat, x: nat, y: nat)
    requires w > 0 && x < w && i == y * w + x
    ensures i / w == y && i % w == x
  {
    var q, r := i / w, i % w;
    assert i == q * w + r && 0 <= r < w;
    if q > y {
      MulMono(y + 1, q, w);
      assert false;
    } else if q < y {
      MulMono(q + 1, y, w);
      assert false;
    }
  }

  // ---------------------------------------------------------------------
  // Sequences without repeats

  predicate NoRepeats<T(==)>(s: seq<T>)
  {
    forall k, l :: 0 <= k < l < |s| ==> s[k] != s[l]
  }

  /** A function that tells the members of a set apart maps it onto a
      set of the same size. */
  lemma {:induction false} InjectiveImageCard<A, B>(s: set<A>, f: A --> B)
    requires forall x :: x in s ==> f.requires(x)
    requires forall x, y :: x in s && y in s && f(x) == f(y) ==> x == y
    ensures |(set x | x in s :: f(x))| == |s|
    decreases |s|
  {
    if s != {} {
      var x :| x in s;
      var t := s - {x};
      InjectiveImageCard(t, f);
      assert (set y | y in s :: f(y)) == (set y | y in t :: f(y)) + {f(x)};
    }
  }

  /** Two sets that functions map onto each other, inverse to each
      other, are of the same size. */
  lemma BijectionCard<A, B>(s: set<A>, t: set<B>, f: A --> B, g: B --> A)
    requires forall x :: x in s ==> f.requires(x) && f(x) in t && g.requires(f(x)) && g(f(x)) == x
    requires forall y :: y in t ==> g.requires(y) && g(y) in s && f(g(y)) == y
    ensures |s| == |t|
  {
    InjectiveImageCard(s, f);
    assert (set x | x in s :: f(x)) == t;
  }

  /** The distinct entries of a sequence without repeats are as many as
      its length. */
  lemma {:induction false} NoRepeatsCard<T>(s: seq<T>)
    requires NoRepeats(s)
    ensures |set x | x in s| == |s|
  {
    if |s| > 0 {
      NoRepeatsCard(s[1..]);
      assert (set x | x in s) == {s[0]} + (set x | x in s[1..]);
      assert s[0] !in s[1..];
    }
  }

  /** Two sequences without repeats holding the same elements are
      equally long. */
  lemma SameElementsLength<T>(s: seq<T>, t: seq<T>)
    requires NoRepeats(s) && NoRepeats(t)
    requires forall x :: x in s <==> x in t
    ensures |s| == |t|
  {
    assert (set x | x in s) == (set x | x in t);
    NoRepeatsCard(s);
    NoRepeatsCard(t);
  }

  // ---------------------------------------------------------------------
  // Reading a file line by line

  /** Line `k` is the first line `parse` does not accept. */
  predicate FirstFailure<T>(lines: seq<string>, parse: string -> Result<T>, k: int)
  {
    0 <= k < |lines| && !parse(lines[k]).Ok? && forall j :: 0 <= j < k ==> parse(lines[j]).Ok?
  }

  /** Parsing every line with `?`: the values in order, or the error (or
      panic) of the first line that does not parse. */
  function ParseLines<T>(lines: seq<string>, parse: string -> Result<T>): (r: Result<seq<T>>)
    ensures r.Ok? <==> forall k :: 0 <= k < |lines| ==> parse(lines[k]).Ok?
    ensures r.Ok? ==> |r.value| == |lines| && forall k :: 0 <= k < |lines| ==> parse(lines[k]) == Ok(r.value[k])
    ensures !r.Ok? ==> exists k ::
      FirstFailure(lines, parse, k) && (r.Err? <==> parse(lines[k]).Err?) && r.msg == parse(lines[k]).msg
  {
    if |lines| == 0 then Ok([])
    else
      match parse(lines[0])
      case Ok(v) =>
        (match ParseLines(lines[1..], parse)
         case Ok(rest) => Ok([v] + rest)
         case Err(m) =>
           ghost var k :| FirstFailure(lines[1..], parse, k) && parse(lines[1..][k]).Err? && m == parse(lines[1..][k]).msg;
           assert FirstFailure(lines, parse, k + 1);
           Err(m)
         case Panic(m) =>
           ghost var k :| FirstFailure(lines[1..], parse, k) && parse(lines[1..][k]).Panic? && m == parse(lines[1..][k]).msg;
           assert FirstFailure(lines, parse, k + 1);
           Panic(m))
      case Err(m) => assert FirstFailure(lines, parse, 0); Err(m)
      case Panic(m) => assert FirstFailure(lines, parse, 0); Panic(m)
  }

  /** Lines that each read as the value at the same place read as all
      of them. */
  lemma ParseLinesOf<T>(lines: seq<string>, parse: string -> Result<T>, vs: seq<T>)
    requires |vs| == |lines| && forall k :: 0 <= k < |lines| ==> parse(lines[k]) == Ok(vs[k])
    ensures ParseLines(lines, parse) == Ok(vs)
  {
    assert forall k :: 0 <= k < |lines| ==> parse(lines[k]).Ok?;
    var r := ParseLines(lines, parse);
    assert r.Ok?;
    assert forall k :: 0 <= k < |lines| ==> r.value[k] == vs[k];
    assert r.value == vs;
  }

  /** The values read are the values the lines hold. */
  lemma ParsedValues<T>(lines: seq<string>, parse: string -> Result<T>, vs: seq<T>)
    requires ParseLines(lines, parse) == Ok(vs)
    ensures forall v :: v in vs <==> exists i :: 0 <= i < |lines| && parse(lines[i]) == Ok(v)
  {
    forall v | v in vs
      ensures exists i :: 0 <= i < |lines| && parse(lines[i]) == Ok(v)
    {
      var i :| 0 <= i < |vs| && vs[i] == v;
      assert parse(lines[i]) == Ok(vs[i]);
    }
    forall v, i | 0 <= i < |lines| && parse(lines[i]) == Ok(v)
      ensures v in vs
    {
      assert vs[i] in vs;
    }
  }

  // ---------------------------------------------------------------------
  // Comma-separated lists of `u8` values

  /** `t` reads as a `u8`. */
  predicate IsByte(t: string)
  {
    ParseNat(t).Some? && ParseNat(t).value < 256
  }

  predicate AllBytes(pieces: seq<string>)
  {
    forall k :: 0 <= k < |pieces| ==> IsByte(pieces[k])
  }

  /** The pieces read one by one as `u8`; the first bad piece panics with
      the caller's `expect` message. */
  function ParseBytes(pieces: seq<string>, msg: string): (r: Result<seq<nat>>)
    ensures !r.Err?
    ensures r.Ok? <==> AllBytes(pieces)
    ensures r.Panic? ==> r.msg == msg
    ensures r.Ok? ==> |r.value| == |pieces| && forall k :: 0 <= k < |pieces| ==> ParseNat(pieces[k]) == Some(r.value[k])
  {
    if |pieces| == 0 then Ok([])
    else if !IsByte(pieces[0]) then Panic(msg)
    else
      match ParseBytes(pieces[1..], msg)
      case Ok(rest) => Ok([ParseNat(pieces[0]).value] + rest)
      case Panic(m) =>
        assert !AllBytes(pieces[1..]);
        Panic(m)
      case Err(m) => Err(m)
  }

  /** A line such as `3,4,3,1,2`: trimmed, split at commas, and every
      piece a `u8`. */
  function ParseByteList(line: string, msg: string): (r: Result<seq<nat>>)
    ensures !r.Err?
    ensures r.Ok? <==> AllBytes(Split(Trim(line), ","))
    ensures r.Panic? ==> r.msg == msg
    ensures r.Ok? ==> var pieces := Split(Trim(line), ",");
      |r.value| == |pieces| && forall k :: 0 <= k < |pieces| ==> ParseNat(pieces[k]) == Some(r.value[k])
  {
    ParseBytes(Split(Trim(line), ","), msg)
  }

  /** A list led by a `u8` reads when the rest does, as that value and
      then the rest's. */
  lemma ParseBytesCons(pieces: seq<string>, msg: string)
    requires |pieces| > 0 && IsByte(pieces[0])
    ensures AllBytes(pieces) <==> AllBytes(pieces[1..])
    ensures AllBytes(pieces) ==> ParseBytes(pieces, msg).value == [ParseNat(pieces[0]).value] + ParseBytes(pieces[1..], msg).value
  {
    assert forall i :: 1 <= i < |pieces| ==> pieces[1..][i - 1] == pieces[i];
  }

  lemma ParseByteListPieces(line: string, msg: string)
    ensures ParseByteList(line, msg) == ParseBytes(Split(Trim(line), ","), msg)
  {
  }

  lemma {:induction false} JoinDigitEdges(ws: seq<string>)
    requires |ws| > 0
    requires forall k :: 0 <= k < |ws| ==> |ws[k]| > 0 && AllDigits(ws[k])
    ensures var s := Join(ws, ","); |s| > 0 && IsDigit(s[0]) && IsDigit(s[|s| - 1])
  {
    var s := Join(ws, ",");
    if |ws| > 1 {
      JoinDigitEdges(ws[1..]);
      var rest := Join(ws[1..], ",");
      assert s == ws[0] + "," + rest;
      assert s[0] == ws[0][0];
      assert s[|s| - 1] == rest[|rest| - 1];
    } else {
      assert s == ws[0];
    }
  }

  /** The decimal renderings of `ns`. */
  function Shown(ns: seq<nat>): (ws: seq<string>)
    ensures |ws| == |ns|
    ensures forall k :: 0 <= k < |ns| ==> |ws[k]| > 0 && AllDigits(ws[k]) && ',' !in ws[k]
  {
    seq(|ns|, k requires 0 <= k < |ns| => ShowNat(ns[k]))
  }

  lemma {:induction false} ParseShown(ns: seq<nat>, msg: string)
    requires forall k :: 0 <= k < |ns| ==> ns[k] < 256
    ensures ParseBytes(Shown(ns), msg) == Ok(ns)
  {
    if |ns| > 0 {
      ParseShowNat(ns[0]);
      assert Shown(ns)[1..] == Shown(ns[1..]);
      ParseShown(ns[1..], msg);
      assert [ns[0]] + ns[1..] == ns;
    }
  }

  /** Reading a written-out list of `u8` values gives the values back. */
  lemma ParseShowByteList(ns: seq<nat>, msg: string)
    requires |ns| > 0 && forall k :: 0 <= k < |ns| ==> ns[k] < 256
    ensures ParseByteList(Join(Shown(ns), ","), msg) == Ok(ns)
  {
    var ws := Shown(ns);
    JoinDigitEdges(ws);
    TrimNoEdges(Join(ws, ","));
    SplitJoin(ws, ',');
    ParseShown(ns, msg);
  }
}

=== FILE: day01_sonar.dfy ===
/** Day 1: counting how often the sum of a sliding window of depth
    readings grows. */
module SonarSweep {
  import opened Common

  /** The sum of the readings, the last one added last. */
  function Sum(s: seq<nat>): nat
  {
    if |s| == 0 then 0 else Sum(s[..|s| - 1]) + s[|s| - 1]
  }

  lemma {:induction false} SumCons(x: nat, s: seq<nat>)
    ensures Sum([x] + s) == x + Sum(s)
    decreases |s|
  {
    if |s| > 0 {
      var n := |s| - 1;
      assert ([x] + s)[..|s|] == [x] + s[..n];
      SumCons(x, s[..n]);
    } else {
      assert [x] + s == [x];
    }
  }

  /** The sum of the `w` readings up to, not including, reading `t`. */
  function WindowSum(values: seq<nat>, t: nat, w: nat): nat
    requires w <= t <= |values|
  {
    Sum(values[t - w..t])
  }

  /** The window after `t` readings, newest first: reading `t - 1 - k`
      sits at index `k`, and slots that no reading has reached yet hold
      0. */
  ghost predicate Holds(window: seq<nat>, values: seq<nat>, t: nat, w: nat)
    requires t <= |values|
  {
    |window| == w && forall k :: 0 <= k < w ==> window[k] == (if k < t then values[t - 1 - k] else 0)
  }

  /** A full window sums to the sum of the last `w` readings. */
  lemma {:induction false} HoldsSum(window: seq<nat>, values: seq<nat>, t: nat, w: nat, i: nat)
    requires w <= t <= |values| && Holds(window, values, t, w) && i <= w
    ensures Sum(window[..i]) == Sum(values[t - i..t])
    decreases i
  {
    if i > 0 {
      HoldsSum(window, values, t, w, i - 1);
      assert window[..i][..i - 1] == window[..i - 1];
      assert values[t - i..t] == [values[t - i]] + values[t - i + 1..t];
      SumCons(values[t - i], values[t - i + 1..t]);
    } else {
      assert values[t..t] == [];
    }
  }

  lemma HoldsWindowSum(window: seq<nat>, values: seq<nat>, t: nat, w: nat)
    requires w <= t <= |values| && Holds(window, values, t, w)
    ensures Sum(window) == WindowSum(values, t, w)
  {
    HoldsSum(window, values, t, w, w);
    assert window[..w] == window;
  }

  /** Shifting in the next reading keeps the window in step. */
  lemma HoldsShift(window: seq<nat>, r: seq<nat>, values: seq<nat>, t: nat, w: nat)
    requires t < |values| && Holds(window, values, t, w) && 0 < w
    requires |r| == w && r[0] == values[t] && forall k :: 0 < k < w ==> r[k] == window[k - 1]
    ensures Holds(r, values, t + 1, w)
  {
  }

  /** Sliding the window one reading on changes its sum by what enters
      less what leaves, so the sum grows exactly when the reading that
      enters exceeds the one that leaves. */
  lemma WindowStep(values: seq<nat>, t: nat, w: nat)
    requires 0 < w && w < t <= |values|
    ensures WindowSum(values, t, w) + values[t - 1 - w] == WindowSum(values, t - 1, w) + values[t - 1]
    ensures WindowSum(values, t, w) > WindowSum(values, t - 1, w) <==> values[t - 1] > values[t - 1 - w]
  {
    var mid := values[t - w..t - 1];
    assert values[t - w..t][..w - 1] == mid;
    assert values[t - 1 - w..t - 1] == [values[t - 1 - w]] + mid;
    SumCons(values[t - 1 - w], mid);
  }

  /** The readings, past the first window, that exceed the reading `w`
      before them. */
  function Rises(values: seq<nat>, w: nat, t: nat): set<nat>
    requires t <= |values|
  {
    set j: nat | w <= j < t && RisesAt(values, w, j)
  }

  predicate RisesAt(values: seq<nat>, w: nat, j: nat)
    requires w <= j < |values|
  {
    values[j] > values[j - w]
  }

  /** Reading `t` joins the rises exactly when it exceeds the reading
      `w` before it. */
  lemma RisesStep(values: seq<nat>, w: nat, t: nat)
    requires t < |values|
    ensures |Rises(values, w, t + 1)| == |Rises(values, w, t)| + (if w <= t && RisesAt(values, w, t) then 1 else 0)
  {
    if w <= t && RisesAt(values, w, t) {
      assert Rises(values, w, t + 1) == Rises(values, w, t) + {t};
    } else {
      assert Rises(values, w, t + 1) == Rises(values, w, t);
    }
  }

  /** The ends of the windows whose sum exceeds that of the window
      before them; the first full window has nothing before it. */
  function Increases(values: seq<nat>, w: nat, t: nat): set<nat>
    requires t <= |values|
  {
    set j: nat | w <= j < t && Grows(values, w, j)
  }

  predicate Grows(values: seq<nat>, w: nat, j: nat)
    requires w <= j < |values|
  {
    WindowSum(values, j + 1, w) > WindowSum(values, j, w)
  }

  /** A window sum grows exactly where the reading entering it exceeds
      the one leaving it. */
  lemma IncreasesAreRises(values: seq<nat>, w: nat)
    requires 0 < w
    ensures Increases(values, w, |values|) == Rises(values, w, |values|)
  {
    forall j: nat | w <= j < |values|
      ensures Grows(values, w, j) <==> RisesAt(values, w, j)
    {
      WindowStep(values, j + 1, w);
    }
  }

  /** The shift of `count_increases`: every slot takes the value of the
      slot before it, from the last slot down, then the new reading goes
      first. */
  method Shift(window: seq<nat>, value: nat) returns (r: seq<nat>)
    requires |window| > 0
    ensures |r| == |window| && r[0] == value
    ensures forall k :: 0 < k < |r| ==> r[k] == window[k - 1]
  {
    r := window;
    var i := |window| - 1;
    while i >= 1
      invariant 0 <= i < |window| && |r| == |window|
      invariant forall k :: 0 <= k <= i ==> r[k] == window[k]
      invariant forall k :: i < k < |r| ==> r[k] == window[k - 1]
    {
      r := r[i := r[i - 1]];
      i := i - 1;
    }
    r := r[0 := value];
  }

  /** The sum loop of `count_increases`. */
  method SumWindow(window: seq<nat>) returns (sum: nat)
    ensures sum == Sum(window)
  {
    sum := 0;
    for i := 0 to |window|
      invariant sum == Sum(window[..i])
    {
      assert window[..i + 1][..i] == window[..i];
      sum := sum + window[i];
    }
    assert window[..|window|] == window;
  }

  /** `count_increases` over the readings: a window of `wsize` zeros
      slides over the readings; once `wsize` of them have been read, each
      window's sum is compared with the last one, and the first full
      window only sets the sum to compare with. The count is the number
      of windows whose sum grew, which is the number of readings that
      exceed the reading `wsize` before them. A window of no readings
      fails the assertion. */
  method CountIncreases(values: seq<nat>, wsize: nat) returns (r: Result<nat>)
    ensures r.Panic? <==> wsize == 0
    ensures !r.Err?
    ensures r.Ok? ==> r.value == |Increases(values, wsize, |values|)|
    ensures r.Ok? ==> r.value == |Rises(values, wsize, |values|)|
  {
    if wsize == 0 {
      return Panic("Window size must be greater than 0");
    }
    var window := seq(wsize, _ => 0);
    var prev: Option<nat> := None;
    var iteration := 0;
    var increases := 0;
    for t := 0 to |values|
      invariant iteration == t
      invariant Holds(window, values, t, wsize)
      invariant t < wsize ==> prev.None?
      invariant t >= wsize ==> prev == Some(WindowSum(values, t, wsize))
      invariant increases == |Rises(values, wsize, t)|
    {
      var shifted := Shift(window, values[t]);
      HoldsShift(window, shifted, values, t, wsize);
      window := shifted;
      iteration := iteration + 1;
      RisesStep(values, wsize, t);
      if iteration < wsize {
        continue;
      }
      var sum := SumWindow(window);
      HoldsWindowSum(window, values, t + 1, wsize);
      if prev.Some? {
        WindowStep(values, t + 1, wsize);
      }
      if sum > (if prev.Some? then prev.value else sum) {
        increases := increases + 1;
      }
      prev := Some(sum);
    }
    IncreasesAreRises(values, wsize);
    r := Ok(increases);
  }
}

=== FILE: day02_dive.dfy ===
/** Day 2: steering the submarine with `forward`, `down` and `up`. */
module Dive {
  import opened Common

  /** `Command`: a direction and a number of units, an `i64`. */
  datatype Command = Forward(units: int) | Down(units: int) | Up(units: int)

  /** The command a name stands for, if any. */
  function Named(name: string, units: int): Option<Command>
  {
    if name == "forward" then Some(Forward(units))
    else if name == "down" then Some(Down(units))
    else if name == "up" then Some(Up(units))
    else None
  }

  function NameOf(c: Command): string
  {
    match c
    case Forward(_) => "forward"
    case Down(_) => "down"
    case Up(_) => "up"
  }

  /** A command as the puzzle writes it. */
  function ShowCommand(c: Command): string
  {
    NameOf(c) + " " + ShowInt(c.units)
  }

  /** `Command::from_string`: split at the first space, read the units
      as an `i64`, then look at the name. A line without a space or with
      bad units panics, even when the name is wrong too; only a known
      name with good units gives a command. */
  function ParseCommand(s: string): (r: Result<Command>)
    ensures ' ' !in s <==> r == Panic("Invalid command string")
    ensures r.Err? ==> r.msg == "Invalid command name"
    ensures r.Ok? ==> I64Lo <= r.value.units < I64Hi
  {
    match SplitOnce(s, ' ')
    case None => Panic("Invalid command string")
    case Some((name, rest)) =>
      match ParseIntIn(rest, I64Lo, I64Hi)
      case None => Panic("Invalid units in command")
      case Some(units) =>
        match Named(name, units)
        case Some(c) => Ok(c)
        case None => Err("Invalid command name")
  }

  /** What a line made of a name, a space and a text reads as, for every
      name without a space: bad units panic, and good units give the
      command of the name or the error of an unknown name. */
  lemma ParseCommandOf(name: string, rest: string)
    requires ' ' !in name
    ensures ParseIntIn(rest, I64Lo, I64Hi).None? ==> ParseCommand(name + " " + rest) == Panic("Invalid units in command")
    ensures ParseIntIn(rest, I64Lo, I64Hi).Some? ==>
      var units := ParseIntIn(rest, I64Lo, I64Hi).value;
      && (name in {"forward", "down", "up"} ==> ParseCommand(name + " " + rest) == Ok(Named(name, units).value))
      && (name !in {"forward", "down", "up"} ==> ParseCommand(name + " " + rest) == Err("Invalid command name"))
  {
    SplitOnceOf(name, ' ', rest);
  }

  /** A command written out reads back as itself. */
  lemma ParseShowCommand(c: Command)
    requires I64Lo <= c.units < I64Hi
    ensures ParseCommand(ShowCommand(c)) == Ok(c)
  {
    ParseShowIntIn(c.units, I64Lo, I64Hi);
    ParseCommandOf(NameOf(c), ShowInt(c.units));
  }

  // ---------------------------------------------------------------------
  // Part 1: the commands move the submarine directly

  /** `Pos`: the horizontal position and the depth. */
  datatype Pos = Pos(x: int, y: int)

  /** One command of `part1`. */
  function Move(p: Pos, c: Command): Pos
  {
    match c
    case Forward(u) => Pos(p.x + u, p.y)
    case Down(u) => Pos(p.x, p.y + u)
    case Up(u) => Pos(p.x, p.y - u)
  }

  /** The position after the commands, from the origin. */
  function Course(cmds: seq<Command>): Pos
  {
    if |cmds| == 0 then Pos(0, 0) else Move(Course(cmds[..|cmds| - 1]), cmds[|cmds| - 1])
  }

  /** The units of the `forward` commands, summed. */
  function Advance(cmds: seq<Command>): int
  {
    if |cmds| == 0 then 0
    else Advance(cmds[..|cmds| - 1]) + (if cmds[|cmds| - 1].Forward? then cmds[|cmds| - 1].units else 0)
  }

  /** The units of the `down` commands less those of the `up` commands. */
  function Descent(cmds: seq<Command>): int
  {
    if |cmds| == 0 then 0
    else
      var c := cmds[|cmds| - 1];
      Descent(cmds[..|cmds| - 1]) + (match c case Forward(_) => 0 case Down(u) => u case Up(u) => -u)
  }

  /** The final position of `part1` is how far the submarine went
      forward and how far down in total. */
  lemma {:induction false} CourseSums(cmds: seq<Command>)
    ensures Course(cmds) == Pos(Advance(cmds), Descent(cmds))
  {
    if |cmds| > 0 {
      CourseSums(cmds[..|cmds| - 1]);
    }
  }

  /** Only the sums count: the commands may be given in any order
      without changing where the submarine ends up. */
  lemma {:induction false} CourseAppend(a: seq<Command>, b: seq<Command>)
    ensures Advance(a + b) == Advance(a) + Advance(b)
    ensures Descent(a + b) == Descent(a) + Descent(b)
    decreases |b|
  {
    if |b| > 0 {
      var n := |b| - 1;
      assert (a + b)[..|a + b| - 1] == a + b[..n];
      CourseAppend(a, b[..n]);
    } else {
      assert a + b == a;
    }
  }

  // ---------------------------------------------------------------------
  // Part 2: `down` and `up` turn the aim instead

  /** The state of `part2`: the position and the aim. */
  datatype Sub = Sub(pos: Pos, aim: int)

  /** One command of `part2`. */
  function Steer(s: Sub, c: Command): Sub
  {
    match c
    case Forward(u) => Sub(Pos(s.pos.x + u, s.pos.y + s.aim * u), s.aim)
    case Down(u) => Sub(s.pos, s.aim + u)
    case Up(u) => Sub(s.pos, s.aim - u)
  }

  /** The state after the commands, from the origin with aim 0. */
  function Voyage(cmds: seq<Command>): Sub
  {
    if |cmds| == 0 then Sub(Pos(0, 0), 0) else Steer(Voyage(cmds[..|cmds| - 1]), cmds[|cmds| - 1])
  }

  /** Each `forward` goes down by its units times the aim it found: the
      sum of the descents of part 1 before it, weighted. */
  function Dived(cmds: seq<Command>): int
  {
    if |cmds| == 0 then 0
    else
      var n := |cmds| - 1;
      Dived(cmds[..n]) + (if cmds[n].Forward? then Descent(cmds[..n]) * cmds[n].units else 0)
  }

  /** In part 2 the submarine goes as far forward as in part 1, it aims
      where part 1 would have taken it down to, and its depth is the
      weighted sum of the forward moves. */
  lemma {:induction false} VoyageSums(cmds: seq<Command>)
    ensures Voyage(cmds) == Sub(Pos(Advance(cmds), Dived(cmds)), Descent(cmds))
    ensures Voyage(cmds).pos.x == Course(cmds).x && Voyage(cmds).aim == Course(cmds).y
  {
    if |cmds| > 0 {
      VoyageSums(cmds[..|cmds| - 1]);
    }
    CourseSums(cmds);
  }

  /** With no `down` or `up` the aim stays 0 and part 2 never leaves the
      surface. */
  lemma {:induction false} LevelVoyage(cmds: seq<Command>)
    requires forall k :: 0 <= k < |cmds| ==> cmds[k].Forward?
    ensures Voyage(cmds).aim == 0 && Voyage(cmds).pos.y == 0
  {
    if |cmds| > 0 {
      LevelVoyage(cmds[..|cmds| - 1]);
    }
  }

  // ---------------------------------------------------------------------
  // The line loops of `part1` and `part2`

  /** `cmds` are what the first lines read as, one for one. */
  ghost predicate Read(lines: seq<string>, cmds: seq<Command>)
  {
    |cmds| <= |lines| && forall k :: 0 <= k < |cmds| ==> ParseCommand(lines[k]) == Ok(cmds[k])
  }

  lemma ReadOneMore(lines: seq<string>, cmds: seq<Command>, c: Command)
    requires Read(lines, cmds) && |cmds| < |lines| && ParseCommand(lines[|cmds|]) == Ok(c)
    ensures Read(lines, cmds + [c])
  {
  }

  /** The loop of `part1` over the lines: each line is read and obeyed
      in turn. A line that does not read as a command panics, an unknown
      name included, since the driver expects a command. */
  method PartOne(lines: seq<string>) returns (r: Result<Pos>)
    ensures !r.Err?
    ensures r.Ok? <==> ParseLines(lines, ParseCommand).Ok?
    ensures r.Ok? ==> r.value == Course(ParseLines(lines, ParseCommand).value)
  {
    var pos := Pos(0, 0);
    ghost var cmds: seq<Command> := [];
    for i := 0 to |lines|
      invariant |cmds| == i && Read(lines, cmds)
      invariant pos == Course(cmds)
    {
      var c := ParseCommand(lines[i]);
      if !c.Ok? {
        return Panic("Invalid command string");
      }
      ReadOneMore(lines, cmds, c.value);
      cmds := cmds + [c.value];
      pos := Move(pos, c.value);
    }
    ParseLinesOf(lines, ParseCommand, cmds);
    r := Ok(pos);
  }

  /** The loop of `part2`, like `PartOne` with the aim. */
  method PartTwo(lines: seq<string>) returns (r: Result<Sub>)
    ensures !r.Err?
    ensures r.Ok? <==> ParseLines(lines, ParseCommand).Ok?
    ensures r.Ok? ==> r.value == Voyage(ParseLines(lines, ParseCommand).value)
  {
    var sub := Sub(Pos(0, 0), 0);
    ghost var cmds: seq<Command> := [];
    for i := 0 to |lines|
      invariant |cmds| == i && Read(lines, cmds)
      invariant sub == Voyage(cmds)
    {
      var c := ParseCommand(lines[i]);
      if !c.Ok? {
        return Panic("Invalid command string");
      }
      ReadOneMore(lines, cmds, c.value);
      cmds := cmds + [c.value];
      sub := Steer(sub, c.value);
    }
    ParseLinesOf(lines, ParseCommand, cmds);
    r := Ok(sub);
  }
}

=== FILE: day03_diagnostic.dfy ===
/** Day 3 (Binary Diagnostic): binary numbers of a fixed length, a counter
    of how many numbers have each bit set, the gamma and epsilon rates of
    part 1 and the oxygen / CO2 ratings of part 2, which repeatedly filter
    a multiset of numbers (a map from number to multiplicity) on one bit. */
module Diagnostic {
  import opened Common
  import opened Tally
  import opened Bits

  /** A number `num` read from a string of `len` binary digits. */
  datatype BinaryNumber = BinaryNumber(num: nat, len: nat)

  /** The per-position count of set bits over `entries` numbers. */
  datatype BitCounter = BitCounter(counts: seq<nat>, entries: nat)

  // ---------------------------------------------------------------------
  // BinaryNumber

  /** `BinaryNumber::new`: zero, of `len` bits; at most 63 bits. */
  function NewNumber(len: nat): (r: Result<BinaryNumber>)
    ensures r.Ok? <==> len < 64
    ensures r.Ok? ==> r.value.len == len && forall i :: 0 <= i < len ==> Bit(r.value, i) == Ok(0)
    ensures !r.Err?
  {
    if len < 64 then
      assert forall i :: 0 <= i < len ==> BitOf(0, i) == 0 by {
        forall i | 0 <= i < len ensures BitOf(0, i) == 0 {
          ZeroBits(i);
        }
      }
      Ok(BinaryNumber(0, len))
    else Panic("Maximum size is 64")
  }

  /** `BinaryNumber::bit`: positions at or above the length abort. */
  function Bit(n: BinaryNumber, pos: nat): (r: Result<nat>)
    ensures r.Ok? <==> pos < n.len
    ensures !r.Err?
    ensures r.Ok? ==> r.value < 2
  {
    if pos < n.len then Ok(BitOf(n.num, pos)) else Panic("Invalid bit position")
  }

  /** `BinaryNumber::set_bit` as the solution evidently means it: bit `pos`
      becomes `val`, every other bit stays; a position at or above the
      length, or a value other than 0 and 1, aborts. */
  function SetBit(n: BinaryNumber, pos: nat, val: nat): (r: Result<BinaryNumber>)
    ensures r.Ok? <==> pos < n.len && val < 2
    ensures !r.Err?
    ensures r.Ok? ==> r.value.len == n.len && Bit(r.value, pos) == Ok(val)
    ensures r.Ok? ==> forall j :: 0 <= j < n.len && j != pos ==> Bit(r.value, j) == Bit(n, j)
  {
    if pos >= n.len then Panic("Invalid bit position")
    else if val < 2 then
      SetBitOfBits(n.num, pos, val, pos);
      assert forall j :: j != pos ==> BitOf(SetBitOf(n.num, pos, val), j) == BitOf(n.num, j) by {
        forall j | j != pos ensures BitOf(SetBitOf(n.num, pos, val), j) == BitOf(n.num, j) {
          SetBitOfBits(n.num, pos, val, j);
        }
      }
      Ok(BinaryNumber(SetBitOf(n.num, pos, val), n.len))
    else Panic("Invalid bit value")
  }

  /** `BinaryNumber::set_bit` as written. The mask `0x1 << pos` is built on
      a 32-bit signed literal before the conversion to 64 bits: a shift by
      32 or more overflows and aborts, and for `pos == 31` the mask is
      sign-extended, so setting bit 31 sets bits 31 to 63 and clearing it
      clears them. */
  function SetBitAsWritten(n: BinaryNumber, pos: nat, val: nat): (r: Result<BinaryNumber>)
    ensures pos < 31 ==> r == SetBit(n, pos, val)
    ensures pos >= 32 ==> r.Panic?
    ensures !r.Err?
    ensures r.Ok? <==> pos < n.len && val < 2 && pos < 32
    ensures r.Ok? ==> r.value.len == n.len
  {
    if pos >= n.len then Panic("Invalid bit position")
    else if val >= 2 then Panic("Invalid bit value")
    else if pos >= 32 then Panic("attempt to shift left with overflow")
    else if pos == 31 then Ok(BinaryNumber(SignExtended(n.num, pos, val), n.len))
    else SetBit(n, pos, val)
  }

  /** On a 40-bit number, setting bit 35 aborts, though the position
      lies inside the number. */
  lemma SetBitAsWrittenAborts()
    ensures SetBitAsWritten(BinaryNumber(0, 40), 35, 1).Panic?
    ensures SetBit(BinaryNumber(0, 40), 35, 1).Ok?
  {
  }

  /** `num` under the sign-extended mask of bit `pos`: the bits below
      `pos` stay, and bits `pos` to 63 all become `val`. */
  function SignExtended(num: nat, pos: nat, val: nat): nat
    requires pos <= 64
  {
    var low := num % Pow2(pos);
    if val == 0 then low else (Pow2(64 - pos) - 1) * Pow2(pos) + low
  }

  /** Under a sign-extended mask, setting a bit also sets the bit above
      it. */
  lemma SignExtendedSpills(num: nat, pos: nat)
    requires pos + 1 < 64
    ensures BitOf(SignExtended(num, pos, 1), pos + 1) == 1
  {
    var low := num % Pow2(pos);
    var q := Pow2(64 - pos) - 1;
    BitOfMultiple(q, low, pos, 1);
    AllOnesBits(64 - pos, 1);
  }

  /** Setting bit 31 of a number longer than 32 bits also sets bit 32,
      where the intended operation leaves a clear bit 32 clear. */
  lemma SetBitAsWrittenWrong(num: nat, len: nat, pos: nat)
    requires pos == 31 && pos + 1 < len && BitOf(num, pos + 1) == 0
    ensures var r := SetBitAsWritten(BinaryNumber(num, len), pos, 1);
      r.Ok? && Bit(r.value, pos + 1) == Ok(1)
    ensures var r := SetBit(BinaryNumber(num, len), pos, 1);
      r.Ok? && Bit(r.value, pos + 1) == Ok(0)
  {
    SignExtendedSpills(num, pos);
  }

  // ---------------------------------------------------------------------
  // Parsing

  predicate IsBinaryDigit(c: char)
  {
    c == '0' || c == '1'
  }

  /** The value of a string of binary digits, most significant first. */
  function BinaryValue(s: string): (v: nat)
    requires forall i :: 0 <= i < |s| ==> IsBinaryDigit(s[i])
    ensures v < Pow2(|s|)
    decreases |s|
  {
    if |s| == 0 then 0
    else BinaryValue(s[..|s| - 1]) * 2 + (if s[|s| - 1] == '1' then 1 else 0)
  }

  /** Bit `i` of a binary string's value is the digit `i` places from the
      right. */
  lemma {:induction false} BinaryValueBits(s: string, i: nat)
    requires forall k :: 0 <= k < |s| ==> IsBinaryDigit(s[k])
    requires i < |s|
    ensures BitOf(BinaryValue(s), i) == if s[|s| - 1 - i] == '1' then 1 else 0
    decreases |s|
  {
    var init := s[..|s| - 1];
    if i > 0 {
      BinaryValueBits(init, i - 1);
      assert init[|init| - 1 - (i - 1)] == s[|s| - 1 - i];
    }
  }

  /** `from_str_radix(s, 2)` for a 64-bit unsigned: an optional `+`, then
      at least one binary digit (the length check keeps the value below
      2^64). */
  function ParseBinary(s: string): (r: Option<nat>)
    ensures r.Some? <==> var t := if |s| > 0 && s[0] == '+' then s[1..] else s;
      |t| > 0 && forall i :: 0 <= i < |t| ==> IsBinaryDigit(t[i])
  {
    var t := if |s| > 0 && s[0] == '+' then s[1..] else s;
    if |t| > 0 && forall i :: 0 <= i < |t| ==> IsBinaryDigit(t[i]) then Some(BinaryValue(t)) else None
  }

  /** `BinaryNumber::from_binary_str`: strings of 64 characters or more
      abort, strings that are not binary numerals are an error; the length
      is the string's length. For a string of binary digits, bit `i` is
      the digit `i` places from the right. */
  function FromBinaryStr(s: string): (r: Result<BinaryNumber>)
    ensures r.Panic? <==> |s| >= 64
    ensures r.Ok? <==> |s| < 64 && ParseBinary(s).Some?
    ensures r.Ok? ==> r.value.len == |s|
    ensures r.Ok? && (forall k :: 0 <= k < |s| ==> IsBinaryDigit(s[k])) ==>
      forall i :: 0 <= i < |s| ==> Bit(r.value, i) == Ok(if s[|s| - 1 - i] == '1' then 1 else 0)
  {
    if |s| >= 64 then Panic("Maximum size is 64")
    else
      match ParseBinary(s)
      case None => Err("invalid digit found in string")
      case Some(v) =>
        assert (forall k :: 0 <= k < |s| ==> IsBinaryDigit(s[k])) ==>
          forall i :: 0 <= i < |s| ==> BitOf(v, i) == if s[|s| - 1 - i] == '1' then 1 else 0 by {
          if forall k :: 0 <= k < |s| ==> IsBinaryDigit(s[k]) {
            forall i | 0 <= i < |s| ensures BitOf(v, i) == if s[|s| - 1 - i] == '1' then 1 else 0 {
              BinaryValueBits(s, i);
            }
          }
        }
        Ok(BinaryNumber(v, |s|))
  }

  /** The `len` lowest bits of `num`, most significant first. */
  function BinaryDigits(num: nat, len: nat): (s: string)
    ensures |s| == len && forall i :: 0 <= i < |s| ==> IsBinaryDigit(s[i])
  {
    if len == 0 then [] else BinaryDigits(num / 2, len - 1) + [if num % 2 == 1 then '1' else '0']
  }

  /** Parsing the digits of a number below 2^len gives back the number. */
  lemma {:induction false} FromBinaryDigits(num: nat, len: nat)
    requires 0 < len < 64 && num < Pow2(len)
    ensures FromBinaryStr(BinaryDigits(num, len)) == Ok(BinaryNumber(num, len))
  {
    BinaryValueDigits(num, len);
  }

  lemma {:induction false} BinaryValueDigits(num: nat, len: nat)
    requires num < Pow2(len)
    ensures BinaryValue(BinaryDigits(num, len)) == num
    decreases len
  {
    if len > 0 {
      var s := BinaryDigits(num, len);
      assert s[..|s| - 1] == BinaryDigits(num / 2, len - 1);
      BinaryValueDigits(num / 2, len - 1);
    }
  }

  // ---------------------------------------------------------------------
  // BitCounter

  /** `BitCounter::new`: `size` zero counts; at most 63 positions. */
  function NewCounter(size: nat): (r: Result<BitCounter>)
    ensures r.Ok? <==> size < 64
    ensures !r.Err?
    ensures r.Ok? ==> |r.value.counts| == size && r.value.entries == 0
    ensures r.Ok? ==> forall i :: 0 <= i < size ==> r.value.counts[i] == 0
  {
    if size < 64 then Ok(BitCounter(seq(size, _ => 0), 0)) else Panic("Maximum size is 64")
  }

  /** `BitCounter::count_multiple`: `cnt` more entries, each position
      counting `cnt` more when the number has that bit set. The number's
      length must be the counter's size. */
  function CountMultiple(c: BitCounter, num: BinaryNumber, cnt: nat): (r: Result<BitCounter>)
    ensures r.Ok? <==> num.len == |c.counts|
    ensures !r.Err?
    ensures r.Ok? ==> |r.value.counts| == |c.counts| && r.value.entries == c.entries + cnt
    ensures r.Ok? ==> forall i :: 0 <= i < |c.counts| ==>
      r.value.counts[i] == c.counts[i] + (if BitOf(num.num, i) == 1 then cnt else 0)
  {
    if num.len != |c.counts| then Panic("Size mismatch")
    else Ok(BitCounter(seq(|c.counts|, i requires 0 <= i < |c.counts| => c.counts[i] + BitOf(num.num, i) * cnt), c.entries + cnt))
  }

  /** `BitCounter::count`: one more entry, and one more at each position
      where the number has its bit set. */
  function Count(c: BitCounter, num: BinaryNumber): (r: Result<BitCounter>)
    ensures r.Ok? <==> num.len == |c.counts|
    ensures !r.Err?
    ensures r.Ok? ==> |r.value.counts| == |c.counts| && r.value.entries == c.entries + 1
    ensures r.Ok? ==> forall i :: 0 <= i < |c.counts| ==> r.value.counts[i] == c.counts[i] + BitOf(num.num, i)
  {
    CountMultiple(c, num, 1)
  }

  /** `BitCounter::most_common_bit`: compares the count with half the
      entries, rounded up; a tie gives `None`. */
  function MostCommonBit(c: BitCounter, pos: nat): Option<nat>
    requires pos < |c.counts|
  {
    var half := (c.entries + 1) / 2;
    if c.counts[pos] > half then Some(1) else if c.counts[pos] == half then None else Some(0)
  }

  /** `BitCounter::least_common_bit`. */
  function LeastCommonBit(c: BitCounter, pos: nat): Option<nat>
    requires pos < |c.counts|
  {
    var half := (c.entries + 1) / 2;
    if c.counts[pos] > half then Some(0) else if c.counts[pos] == half then None else Some(1)
  }

  function UnwrapOr(o: Option<nat>, d: nat): nat
  {
    if o.Some? then o.value else d
  }

  /** The two answers are opposite bits and tie together. */
  lemma MostLeastOpposite(c: BitCounter, pos: nat)
    requires pos < |c.counts|
    ensures MostCommonBit(c, pos).None? <==> LeastCommonBit(c, pos).None?
    ensures MostCommonBit(c, pos).Some? ==> MostCommonBit(c, pos).value + LeastCommonBit(c, pos).value == 1
  {
  }

  /** The bit the oxygen rating keeps: 1 exactly when set bits make up at
      least half of the entries. */
  function OxygenBit(c: BitCounter, pos: nat): (b: nat)
    requires pos < |c.counts|
    ensures b == 1 <==> 2 * c.counts[pos] >= c.entries
    ensures b < 2
  {
    UnwrapOr(MostCommonBit(c, pos), 1)
  }

  /** The bit the CO2 rating keeps: 1 exactly when set bits make up less
      than half of the entries. */
  function Co2Bit(c: BitCounter, pos: nat): (b: nat)
    requires pos < |c.counts|
    ensures b == 1 <==> 2 * c.counts[pos] < c.entries
    ensures b < 2
  {
    UnwrapOr(LeastCommonBit(c, pos), 0)
  }

  // ---------------------------------------------------------------------
  // Part 1

  /** The numbers of a sequence that have bit `pos` set. */
  function Ones(nums: seq<BinaryNumber>, pos: nat): nat
  {
    if |nums| == 0 then 0
    else Ones(nums[..|nums| - 1], pos) + BitOf(nums[|nums| - 1].num, pos)
  }

  /** Counting every number of the input, in order: afterwards each
      position counts the numbers with that bit set. */
  function CountAll(size: nat, nums: seq<BinaryNumber>): (r: Result<BitCounter>)
    ensures r.Ok? <==> size < 64 && forall j :: 0 <= j < |nums| ==> nums[j].len == size
    ensures !r.Err?
    ensures r.Ok? ==> |r.value.counts| == size && r.value.entries == |nums|
    ensures r.Ok? ==> forall i :: 0 <= i < size ==> r.value.counts[i] == Ones(nums, i)
  {
    if |nums| == 0 then NewCounter(size)
    else
      var init := nums[..|nums| - 1];
      assert forall j :: 0 <= j < |init| ==> init[j] == nums[j];
      match CountAll(size, init)
      case Ok(c) => Count(c, nums[|nums| - 1])
      case _ => Panic("Size mismatch")
  }

  /** Part 1's gamma rate over the `n` lowest positions: each bit is the
      most common one, ties going to 1. */
  function Gamma(c: BitCounter, n: nat): (g: nat)
    requires n <= |c.counts|
    ensures g < Pow2(n)
    ensures forall i :: 0 <= i < n ==> BitOf(g, i) == OxygenBit(c, i)
  {
    if n == 0 then 0
    else
      var g := SetBitOf(Gamma(c, n - 1), n - 1, OxygenBit(c, n - 1));
      SetBitOfBound(Gamma(c, n - 1), n - 1, OxygenBit(c, n - 1), n);
      assert forall i :: 0 <= i < n ==> BitOf(g, i) == OxygenBit(c, i) by {
        forall i | 0 <= i < n ensures BitOf(g, i) == OxygenBit(c, i) {
          SetBitOfBits(Gamma(c, n - 1), n - 1, OxygenBit(c, n - 1), i);
        }
      }
      g
  }

  /** Part 1's epsilon rate: each bit is the least common one, ties going
      to 0. */
  function Epsilon(c: BitCounter, n: nat): (e: nat)
    requires n <= |c.counts|
    ensures e < Pow2(n)
    ensures forall i :: 0 <= i < n ==> BitOf(e, i) == Co2Bit(c, i)
  {
    if n == 0 then 0
    else
      var e := SetBitOf(Epsilon(c, n - 1), n - 1, Co2Bit(c, n - 1));
      SetBitOfBound(Epsilon(c, n - 1), n - 1, Co2Bit(c, n - 1), n);
      assert forall i :: 0 <= i < n ==> BitOf(e, i) == Co2Bit(c, i) by {
        forall i | 0 <= i < n ensures BitOf(e, i) == Co2Bit(c, i) {
          SetBitOfBits(Epsilon(c, n - 1), n - 1, Co2Bit(c, n - 1), i);
        }
      }
      e
  }

  /** Gamma and epsilon are bitwise complements: they add up to
      2^size - 1. */
  lemma GammaEpsilonComplement(c: BitCounter)
    ensures Gamma(c, |c.counts|) + Epsilon(c, |c.counts|) == Pow2(|c.counts|) - 1
  {
    var n := |c.counts|;
    ComplementSum(Gamma(c, n), Epsilon(c, n), n);
  }

  /** The bit part 1 gives position `pos` of a rate: the most common bit
      for gamma, the least common one for epsilon. */
  function RateBit(c: BitCounter, pos: nat, most: bool): (b: nat)
    requires pos < |c.counts|
    ensures b < 2
    ensures most ==> b == OxygenBit(c, pos)
    ensures !most ==> b == Co2Bit(c, pos)
  {
    if most then OxygenBit(c, pos) else Co2Bit(c, pos)
  }

  /** Part 1's rate loop as written: the rate starts as a new number of
      the counter's size, and bits 0 to n - 1 are set one after the other
      through the as-written `set_bit` (gamma when `most`, epsilon
      otherwise). Up to 31 bits it builds the intended rate; from 33 bits
      on it aborts on the shift of bit 32. */
  function RateAsWritten(c: BitCounter, n: nat, most: bool): (r: Result<BinaryNumber>)
    requires n <= |c.counts|
    ensures !r.Err?
    ensures r.Ok? ==> r.value.len == |c.counts|
    ensures r.Ok? <==> |c.counts| < 64 && n <= 32
    ensures n <= 31 && |c.counts| < 64 ==>
      r == Ok(BinaryNumber(if most then Gamma(c, n) else Epsilon(c, n), |c.counts|))
    decreases n
  {
    if n == 0 then NewNumber(|c.counts|)
    else
      match RateAsWritten(c, n - 1, most)
      case Ok(g) => SetBitAsWritten(g, n - 1, RateBit(c, n - 1, most))
      case Panic(m) => Panic(m)
      case Err(e) => Err(e)
  }

  /** Up to 31-bit entries, part 1's rates as written are the intended
      ones, so they add up to 2^size - 1. */
  lemma RatesAsWrittenComplement(c: BitCounter)
    requires |c.counts| <= 31
    ensures RateAsWritten(c, |c.counts|, true).Ok? && RateAsWritten(c, |c.counts|, false).Ok?
    ensures RateAsWritten(c, |c.counts|, true).value.num + RateAsWritten(c, |c.counts|, false).value.num
      == Pow2(|c.counts|) - 1
  {
    GammaEpsilonComplement(c);
  }

  /** Setting bit `pos` under the sign-extended mask, below the top two
      bits, gives at least 2^(pos + 1). */
  lemma SignExtendedLarge(num: nat, pos: nat)
    requires pos <= 62
    ensures SignExtended(num, pos, 1) >= Pow2(pos + 1)
  {
    Pow2Add(2, 62 - pos);
    assert Pow2(2) == 4;
    MulMono(2, Pow2(64 - pos) - 1, Pow2(pos));
  }

  /** Setting bit 31 as written puts `num` under the sign-extended
      mask. */
  lemma SetBitAsWrittenTop(n: BinaryNumber, val: nat)
    requires 31 < n.len && val < 2
    ensures SetBitAsWritten(n, 31, val) == Ok(BinaryNumber(SignExtended(n.num, 31, val), n.len))
  {
  }

  /** With 32-bit entries, part 1's rates as written do not add up to
      2^32 - 1: whichever of them has bit 31 set gets bits 32 to 63 set
      too. */
  lemma RatesAsWrittenSpill(c: BitCounter)
    requires |c.counts| == 32
    ensures RateAsWritten(c, |c.counts|, true).Ok? && RateAsWritten(c, |c.counts|, false).Ok?
    ensures RateAsWritten(c, |c.counts|, true).value.num + RateAsWritten(c, |c.counts|, false).value.num
      > Pow2(|c.counts|) - 1
  {
    var g := RateAsWritten(c, 31, true).value;
    var e := RateAsWritten(c, 31, false).value;
    var gb, eb := OxygenBit(c, 31), Co2Bit(c, 31);
    assert RateAsWritten(c, |c.counts|, true) == SetBitAsWritten(g, 31, gb);
    assert RateAsWritten(c, |c.counts|, false) == SetBitAsWritten(e, 31, eb);
    SetBitAsWrittenTop(g, gb);
    SetBitAsWrittenTop(e, eb);
    var gs, es := SignExtended(g.num, 31, gb), SignExtended(e.num, 31, eb);
    if gb == 1 {
      SignExtendedLarge(g.num, 31);
      assert gs >= Pow2(32);
    } else {
      SignExtendedLarge(e.num, 31);
      assert es >= Pow2(32);
    }
  }

  // ---------------------------------------------------------------------
  // Part 2

  /** The numbers of `m` whose bit `pos` is `v`, with their
      multiplicities. */
  function Keep(m: map<nat, nat>, pos: nat, v: nat): (r: map<nat, nat>)
    ensures forall k :: k in r <==> k in m && BitOf(k, pos) == v
    ensures forall k :: k in r ==> r[k] == m[k]
  {
    map k | k in m && BitOf(k, pos) == v :: m[k]
  }

  /** `filter`: the numbers are read as 64-bit numbers, so positions from
      64 on abort; otherwise only the numbers with bit `pos` equal to
      `val` remain, with their multiplicities. */
  function Filter(m: map<nat, nat>, pos: nat, val: nat): (r: Result<map<nat, nat>>)
    ensures r.Ok? <==> pos < 64
    ensures !r.Err?
    ensures r.Ok? ==> r.value.Keys <= m.Keys && r.value == Keep(m, pos, val)
  {
    if pos < 64 then Ok(Keep(m, pos, val)) else Panic("Invalid bit position")
  }

  /** A multiset is split by any bit into the numbers having it clear and
      the numbers having it set. */
  lemma TotalSplit(m: map<nat, nat>, pos: nat)
    ensures Total(m) == Total(Keep(m, pos, 0)) + Total(Keep(m, pos, 1))
  {
    var ones := set k | k in m && BitOf(k, pos) == 1;
    assert Keep(m, pos, 1) == Within(m, ones);
    assert Keep(m, pos, 0) == Without(m, ones);
    TotalPartition(m, ones);
  }

  /** Adding a number adds its multiplicity to the count of its set bits. */
  lemma KeepInsert(done: map<nat, nat>, k: nat, c: nat, pos: nat)
    requires k !in done
    ensures Total(Keep(done[k := c], pos, 1)) == Total(Keep(done, pos, 1)) + (if BitOf(k, pos) == 1 then c else 0)
  {
    var ones := set j | j in done[k := c] && BitOf(j, pos) == 1;
    assert Keep(done[k := c], pos, 1) == Within(done[k := c], ones);
    assert Keep(done, pos, 1) == Within(done, ones);
    TotalWithinInsert(done, ones, k, c);
  }

  /** `c` counts the numbers of `done`, with their multiplicities. */
  ghost predicate Counted(c: BitCounter, done: map<nat, nat>, size: nat)
  {
    && |c.counts| == size
    && c.entries == Total(done)
    && forall pos :: 0 <= pos < size ==> c.counts[pos] == Total(Keep(done, pos, 1))
  }

  /** Counting one more number `n` times keeps the counter in step. */
  lemma CountedStep(c: BitCounter, done: map<nat, nat>, k: nat, n: nat, size: nat)
    requires Counted(c, done, size) && k !in done
    ensures CountMultiple(c, BinaryNumber(k, size), n).Ok?
    ensures Counted(CountMultiple(c, BinaryNumber(k, size), n).value, done[k := n], size)
  {
    var next := CountMultiple(c, BinaryNumber(k, size), n).value;
    TotalInsert(done, k, n);
    forall pos | 0 <= pos < size
      ensures next.counts[pos] == Total(Keep(done[k := n], pos, 1))
    {
      KeepInsert(done, k, n, pos);
    }
  }

  /** `BitCounter::from`: every number of the map is counted with its
      multiplicity, visiting the numbers in any order. Afterwards the
      entries are the total multiplicity and each position counts the
      multiplicity of the numbers with that bit set. */
  method CounterFrom(m: map<nat, nat>, size: nat) returns (r: Result<BitCounter>)
    ensures r.Ok? <==> size < 64
    ensures !r.Err?
    ensures r.Ok? ==> |r.value.counts| == size && r.value.entries == Total(m)
    ensures r.Ok? ==> forall pos :: 0 <= pos < size ==> r.value.counts[pos] == Total(Keep(m, pos, 1))
  {
    var start := NewCounter(size);
    if !start.Ok? {
      return start;
    }
    var counter := start.value;
    var todo := m.Keys;
    ghost var done: map<nat, nat> := map[];
    assert Counted(counter, done, size) by {
      forall pos | 0 <= pos < size
        ensures counter.counts[pos] == Total(Keep(done, pos, 1))
      {
        assert Keep(done, pos, 1) == map[];
      }
    }
    while todo != {}
      invariant todo <= m.Keys
      invariant forall k :: k in done <==> k in m && k !in todo
      invariant forall k :: k in done ==> done[k] == m[k]
      invariant Counted(counter, done, size)
      decreases |todo|
    {
      var k :| k in todo;
      CountedStep(counter, done, k, m[k], size);
      var next := CountMultiple(counter, BinaryNumber(k, size), m[k]);
      counter := next.value;
      done := done[k := m[k]];
      todo := todo - {k};
    }
    assert done == m;
    r := Ok(counter);
  }

  /** The bit a criterion keeps at `pos`, from the multiplicities alone:
      oxygen keeps 1 when set bits make up at least half of the numbers,
      CO2 keeps 1 when they make up less than half. */
  ghost function Criterion(m: map<nat, nat>, pos: nat, oxygen: bool): (b: nat)
    ensures b < 2
  {
    var ones := Total(Keep(m, pos, 1));
    if oxygen then (if 2 * ones >= Total(m) then 1 else 0)
    else (if 2 * ones < Total(m) then 1 else 0)
  }

  /** The bit-criteria sieve of part 2, stated without counters: while
      more than one number is left and positions remain, keep the numbers
      whose bit `i` is the one the criterion picks, then move one
      position down. */
  ghost function Sift(m: map<nat, nat>, i: int, oxygen: bool): map<nat, nat>
    decreases i + 1
  {
    if |m| <= 1 || i < 0 then m
    else Sift(Keep(m, i, Criterion(m, i, oxygen)), i - 1, oxygen)
  }

  /** The sieve stops once at most one number is left or the positions
      run out. */
  lemma SiftStop(m: map<nat, nat>, i: int, oxygen: bool)
    requires |m| <= 1 || i < 0
    ensures Sift(m, i, oxygen) == m
  {
  }

  /** One round of the rating's loop is one step of the sieve: the bit
      picked from a counter of `m` is the criterion's bit. */
  lemma SiftStep(m: map<nat, nat>, i: nat, oxygen: bool, c: BitCounter, bit: nat)
    requires |m| > 1 && i < |c.counts|
    requires c.entries == Total(m) && c.counts[i] == Total(Keep(m, i, 1))
    requires bit == if oxygen then OxygenBit(c, i) else Co2Bit(c, i)
    ensures Sift(Keep(m, i, bit), i - 1, oxygen) == Sift(m, i, oxygen)
  {
    assert bit == Criterion(m, i, oxygen);
  }

  /** Part 2's rating: starting from the most significant position, the
      numbers are filtered on the bit the oxygen (or CO2) criterion picks
      until at most one number is left, which is the rating. A length of
      zero aborts (the position counter underflows), so does running out
      of positions, and so does an empty map at the end. */
  method Rating(data: map<nat, nat>, size: nat, oxygen: bool) returns (r: Result<nat>)
    ensures !r.Err?
    ensures r.Ok? <==> size > 0 && |Sift(data, size - 1, oxygen)| == 1 && (size < 64 || |data| <= 1)
    ensures r.Ok? ==> r.value in Sift(data, size - 1, oxygen)
    ensures r.Ok? ==> r.value in data
  {
    if size == 0 {
      return Panic("attempt to subtract with overflow");
    }
    var sifted := Sieve(data, size, oxygen);
    if !sifted.Ok? {
      return Panic(sifted.msg);
    }
    var m := sifted.value;
    SiftWithin(data, size - 1, oxygen);
    if |m| == 0 {
      return Panic("index out of bounds");
    }
    var k :| k in m;
    r := Ok(k);
  }

  /** The loop of the rating: filtering from bit `size - 1` down while
      more than one number is left. Running out of positions aborts, and
      so does a counter of 64 positions or more. */
  method Sieve(data: map<nat, nat>, size: nat, oxygen: bool) returns (r: Result<map<nat, nat>>)
    requires size > 0
    ensures !r.Err?
    ensures r.Ok? ==> r.value == Sift(data, size - 1, oxygen) && |r.value| <= 1
    ensures r.Ok? ==> size < 64 || |data| <= 1
    ensures r.Panic? ==> |Sift(data, size - 1, oxygen)| > 1 || (size >= 64 && |data| > 1)
  {
    var m := data;
    var i: int := size - 1;
    while |m| > 1
      invariant -1 <= i < size
      invariant Sift(m, i, oxygen) == Sift(data, size - 1, oxygen)
      invariant size >= 64 ==> m == data
      decreases i + 1
    {
      if i < 0 {
        SiftStuck(data, size - 1, m, i, oxygen);
        return Panic("index out of bounds");
      }
      var next := SieveRound(m, i, size, oxygen);
      if !next.Ok? {
        return Panic(next.msg);
      }
      m := next.value;
      i := i - 1;
    }
    SiftDone(data, size - 1, m, i, oxygen);
    r := Ok(m);
  }

  /** A sieve that reached `m` with more than one number and no position
      left ends with more than one number. */
  lemma SiftStuck(data: map<nat, nat>, top: int, m: map<nat, nat>, i: int, oxygen: bool)
    requires |m| > 1 && i < 0
    requires Sift(m, i, oxygen) == Sift(data, top, oxygen)
    ensures |Sift(data, top, oxygen)| > 1
  {
    SiftStop(m, i, oxygen);
  }

  /** A sieve that reached `m` with at most one number ends there. */
  lemma SiftDone(data: map<nat, nat>, top: int, m: map<nat, nat>, i: int, oxygen: bool)
    requires |m| <= 1
    requires Sift(m, i, oxygen) == Sift(data, top, oxygen)
    ensures Sift(data, top, oxygen) == m
  {
    SiftStop(m, i, oxygen);
  }

  /** One round of the rating's loop: count the numbers left, pick the
      bit of the criterion and keep the numbers with that bit. */
  method SieveRound(m: map<nat, nat>, i: nat, size: nat, oxygen: bool) returns (r: Result<map<nat, nat>>)
    requires |m| > 1 && i < size
    ensures !r.Err?
    ensures r.Ok? <==> size < 64
    ensures r.Ok? ==> Sift(r.value, i - 1, oxygen) == Sift(m, i, oxygen)
  {
    var counter := CounterFrom(m, size);
    if !counter.Ok? {
      return Panic("Maximum size is 64");
    }
    var bit := if oxygen then OxygenBit(counter.value, i) else Co2Bit(counter.value, i);
    SiftStep(m, i, oxygen, counter.value, bit);
    r := Filter(m, i, bit);
  }

  /** The sieve only ever drops numbers. */
  lemma {:induction false} SiftWithin(m: map<nat, nat>, i: int, oxygen: bool)
    ensures Sift(m, i, oxygen).Keys <= m.Keys
    decreases i + 1
  {
    if |m| > 1 && i >= 0 {
      var kept := Keep(m, i, Criterion(m, i, oxygen));
      SiftWithin(kept, i - 1, oxygen);
    }
  }

  /** On numbers of `size` bits with positive multiplicities, the oxygen
      sieve always ends with exactly one number: the oxygen bit is never
      a bit no number has, and two numbers agreeing on every bit are
      equal. */
  lemma {:induction false} OxygenSiftsOne(m: map<nat, nat>, i: int, size: nat)
    requires |m| > 0 && i < size
    requires forall k :: k in m ==> 0 < m[k] && k < Pow2(size)
    requires Agree(m, i, size)
    ensures |Sift(m, i, true)| == 1
    decreases i + 1
  {
    if |m| > 1 {
      var a :| a in m;
      assert |m.Keys - {a}| >= 1;
      var b :| b in m.Keys - {a};
      if i < 0 {
        BitsDetermine(a, b, size);
      } else {
        var bit := Criterion(m, i, true);
        var kept := Keep(m, i, bit);
        OxygenKeepsSome(m, i);
        FilterAgrees(m, i, bit, size);
        OxygenSiftsOne(kept, i - 1, size);
      }
    }
  }

  /** The oxygen rating of numbers of `size` bits, with positive
      multiplicities and at least one number, never aborts. */
  lemma OxygenRatingFound(data: map<nat, nat>, size: nat)
    requires 0 < size < 64 && |data| > 0
    requires forall k :: k in data ==> 0 < data[k] && k < Pow2(size)
    ensures |Sift(data, size - 1, true)| == 1
  {
    OxygenSiftsOne(data, size - 1, size);
  }

  /** All numbers of `m` agree on the bits from `lo + 1` to `size - 1`. */
  predicate Agree(m: map<nat, nat>, lo: int, size: nat)
  {
    forall a, b, j: nat :: a in m && b in m && lo < j < size ==> BitOf(a, j) == BitOf(b, j)
  }

  /** Filtering on bit `pos` makes the numbers agree on that bit too. */
  lemma FilterAgrees(m: map<nat, nat>, pos: nat, v: nat, size: nat)
    requires Agree(m, pos, size)
    ensures Agree(Keep(m, pos, v), pos - 1, size)
  {
    var kept := Keep(m, pos, v);
    forall a, b, j: nat | a in kept && b in kept && pos - 1 < j < size
      ensures BitOf(a, j) == BitOf(b, j)
    {
      if j == pos {
        assert BitOf(a, j) == v == BitOf(b, j);
      }
    }
  }

  /** Filtering a multiset of positive multiplicities on the oxygen bit
      never empties it. */
  lemma OxygenKeepsSome(m: map<nat, nat>, pos: nat)
    requires |m| > 0 && forall k :: k in m ==> m[k] > 0
    ensures |Keep(m, pos, Criterion(m, pos, true))| > 0
  {
    TotalPositive(m);
    TotalSplit(m, pos);
    var kept := Keep(m, pos, Criterion(m, pos, true));
    assert Total(kept) > 0;
  }
}

=== FILE: day04_bingo.dfy ===
/** A day 4 bingo board: five rows of five numbered cells, each of which
    may be marked, and the number whose draw made the board win. */
module Bingo {
  import opened Common

  const Rows: nat := 5
  const Cols: nat := 5

  datatype Cell = Cell(number: nat, marked: bool)

  /** `cells[row * 5 + col]` is the cell at (`row`, `col`). */
  datatype Board = Board(cells: seq<Cell>, winningNumber: Option<nat>)

  predicate Valid(b: Board)
  {
    |b.cells| == Rows * Cols
  }

  /** `Board::new`: every cell holds 0, unmarked, and nobody has won. */
  function NewBoard(): (b: Board)
    ensures Valid(b) && b.winningNumber.None?
    ensures forall i :: 0 <= i < |b.cells| ==> b.cells[i] == Cell(0, false)
  {
    Board(seq(Rows * Cols, _ => Cell(0, false)), None)
  }

  // ---------------------------------------------------------------------
  // Cell access

  /** `check_access` followed by the index computation: coordinates
      outside the board fail the assertion (the column is checked against
      the number of rows, which is the same). */
  function CellIndex(row: nat, col: nat): (r: Result<nat>)
    ensures !r.Err?
    ensures r.Ok? <==> row < Rows && col < Cols
    ensures r.Ok? ==> r.value < Rows * Cols && r.value / Cols == row && r.value % Cols == col
  {
    if row >= Rows then Panic("Invalid row")
    else if col >= Rows then Panic("Invalid column")
    else Ok(row * 5 + col)
  }

  /** Distinct coordinates name distinct cells, and every cell is named. */
  lemma CellIndexOnto(i: nat)
    requires i < Rows * Cols
    ensures CellIndex(i / Cols, i % Cols) == Ok(i)
  {
  }

  /** The cell at (`row`, `col`), for coordinates already checked. */
  function At(cells: seq<Cell>, row: nat, col: nat): Cell
    requires |cells| == Rows * Cols && row < Rows && col < Cols
  {
    cells[row * 5 + col]
  }

  /** `get_cell`. */
  function GetCell(b: Board, row: nat, col: nat): (r: Result<Cell>)
    requires Valid(b)
    ensures !r.Err?
    ensures r.Ok? <==> row < Rows && col < Cols
    ensures r.Ok? ==> r.value == b.cells[CellIndex(row, col).value]
  {
    match CellIndex(row, col)
    case Ok(i) => Ok(b.cells[i])
    case Panic(msg) => Panic(msg)
    case Err(msg) => Err(msg)
  }

  // ---------------------------------------------------------------------
  // Finding and marking numbers

  /** Cell `i` is the first one holding `num`. */
  predicate FirstWith(cells: seq<Cell>, num: nat, i: int)
  {
    0 <= i < |cells| && cells[i].number == num && forall j :: 0 <= j < i ==> cells[j].number != num
  }

  predicate Holds(cells: seq<Cell>, num: nat)
  {
    exists i :: 0 <= i < |cells| && cells[i].number == num
  }

  /** `find_number`: the first cell, in storage order, holding `num`. */
  function FindNumber(cells: seq<Cell>, num: nat): (r: Option<nat>)
    ensures r.None? <==> !Holds(cells, num)
    ensures r.Some? ==> FirstWith(cells, num, r.value)
  {
    if |cells| == 0 then None
    else if cells[0].number == num then Some(0)
    else
      match FindNumber(cells[1..], num)
      case None =>
        assert forall i :: 1 <= i < |cells| ==> cells[i] == cells[1..][i - 1];
        None
      case Some(i) => Some(i + 1)
  }

  /** Every cell of row `row` is marked. */
  predicate RowDone(cells: seq<Cell>, row: nat)
    requires |cells| == Rows * Cols && row < Rows
  {
    forall c :: 0 <= c < Cols ==> At(cells, row, c).marked
  }

  /** Every cell of column `col` is marked. */
  predicate ColDone(cells: seq<Cell>, col: nat)
    requires |cells| == Rows * Cols && col < Cols
  {
    forall r :: 0 <= r < Rows ==> At(cells, r, col).marked
  }

  /** A complete row or a complete column. */
  predicate Winning(cells: seq<Cell>)
    requires |cells| == Rows * Cols
  {
    (exists r: nat :: r < Rows && RowDone(cells, r)) || (exists c: nat :: c < Cols && ColDone(cells, c))
  }

  /** `check_winning`: rows are scanned first, then columns, each one
      abandoned at its first unmarked cell. */
  method CheckWinning(b: Board) returns (w: bool)
    requires Valid(b)
    ensures w <==> Winning(b.cells)
  {
    var i: nat := 0;
    while i < Rows
      invariant i <= Rows
      invariant forall r: nat :: r < i ==> !RowDone(b.cells, r)
    {
      var rowMarked := true;
      var j: nat := 0;
      while j < Cols
        invariant j <= Cols
        invariant forall c :: 0 <= c < j ==> At(b.cells, i, c).marked
      {
        if !At(b.cells, i, j).marked {
          rowMarked := false;
          break;
        }
        j := j + 1;
      }
      if rowMarked {
        assert RowDone(b.cells, i);
        return true;
      }
      i := i + 1;
    }
    var j: nat := 0;
    while j < Cols
      invariant j <= Cols
      invariant forall c: nat :: c < j ==> !ColDone(b.cells, c)
    {
      var columnMarked := true;
      var i: nat := 0;
      while i < Rows
        invariant i <= Rows
        invariant forall r :: 0 <= r < i ==> At(b.cells, r, j).marked
      {
        if !At(b.cells, i, j).marked {
          columnMarked := false;
          break;
        }
        i := i + 1;
      }
      if columnMarked {
        assert ColDone(b.cells, j);
        return true;
      }
      j := j + 1;
    }
    return false;
  }

  /** The cells with cell `i` marked. */
  function Mark(cells: seq<Cell>, i: nat): (r: seq<Cell>)
    requires i < |cells|
    ensures |r| == |cells| && r[i].marked && r[i].number == cells[i].number
    ensures forall j :: 0 <= j < |cells| && j != i ==> r[j] == cells[j]
  {
    cells[i := cells[i].(marked := true)]
  }

  /** `mark_if_present`: marks the first cell holding `num`, if any, and
      records `num` as the winning number whenever the board is winning
      afterwards; an absent number leaves the board as it was. */
  function MarkIfPresent(b: Board, num: nat): (r: (Board, bool))
    requires Valid(b)
    ensures Valid(r.0)
    ensures r.1 <==> Holds(b.cells, num)
    ensures !r.1 ==> r.0 == b
    ensures r.1 ==> exists i :: FirstWith(b.cells, num, i) && r.0.cells == Mark(b.cells, i)
    ensures r.1 ==> r.0.winningNumber == if Winning(r.0.cells) then Some(num) else b.winningNumber
  {
    match FindNumber(b.cells, num)
    case None => (b, false)
    case Some(i) =>
      var cells := Mark(b.cells, i);
      (Board(cells, if Winning(cells) then Some(num) else b.winningNumber), true)
  }

  /** `wins`. */
  predicate Wins(b: Board)
  {
    b.winningNumber.Some?
  }

  /** Marking never unmarks a cell. */
  lemma MarkKeepsMarks(b: Board, num: nat, i: nat)
    requires Valid(b) && i < |b.cells| && b.cells[i].marked
    ensures MarkIfPresent(b, num).0.cells[i].marked
  {
  }

  /** Marking keeps a complete row or column complete. */
  lemma MarkKeepsWinning(b: Board, num: nat)
    requires Valid(b) && Winning(b.cells)
    ensures Winning(MarkIfPresent(b, num).0.cells)
  {
    var cells := MarkIfPresent(b, num).0.cells;
    if exists r: nat :: r < Rows && RowDone(b.cells, r) {
      var r: nat :| r < Rows && RowDone(b.cells, r);
      forall c | 0 <= c < Cols
        ensures At(cells, r, c).marked
      {
        assert At(b.cells, r, c).marked;
        MarkKeepsMarks(b, num, r * 5 + c);
      }
      assert RowDone(cells, r);
    } else {
      var c: nat :| c < Cols && ColDone(b.cells, c);
      forall r | 0 <= r < Rows
        ensures At(cells, r, c).marked
      {
        assert At(b.cells, r, c).marked;
        MarkKeepsMarks(b, num, r * 5 + c);
      }
      assert ColDone(cells, c);
    }
  }

  /** The winning number is recorded exactly when the board is winning. */
  predicate Consistent(b: Board)
  {
    Valid(b) && (Wins(b) <==> Winning(b.cells))
  }

  lemma NewBoardConsistent()
    ensures Consistent(NewBoard())
  {
    var cells := NewBoard().cells;
    forall r: nat | r < Rows
      ensures !RowDone(cells, r)
    {
      assert !At(cells, r, 0).marked;
    }
    forall c: nat | c < Cols
      ensures !ColDone(cells, c)
    {
      assert !At(cells, 0, c).marked;
    }
  }

  /** `mark_if_present` keeps the winning number in step with the marks,
      and once recorded it is never cleared. */
  lemma {:induction false} MarkKeepsConsistent(b: Board, num: nat)
    requires Consistent(b)
    ensures Consistent(MarkIfPresent(b, num).0)
    ensures Wins(b) ==> Wins(MarkIfPresent(b, num).0)
  {
    if Wins(b) {
      MarkKeepsWinning(b, num);
    }
  }

  // ---------------------------------------------------------------------
  // Scoring

  /** The sum of the numbers of the unmarked cells. */
  function UnmarkedSum(cells: seq<Cell>): nat
  {
    if |cells| == 0 then 0
    else UnmarkedSum(cells[..|cells| - 1]) + (if cells[|cells| - 1].marked then 0 else cells[|cells| - 1].number)
  }

  /** Marking cell `i` takes its number, if it was still counted, out of
      the unmarked sum. */
  lemma {:induction false} UnmarkedSumMark(cells: seq<Cell>, i: nat)
    requires i < |cells|
    ensures UnmarkedSum(Mark(cells, i)) + (if cells[i].marked then 0 else cells[i].number) == UnmarkedSum(cells)
  {
    var n := |cells|;
    var last := n - 1;
    if i < last {
      assert Mark(cells, i)[..last] == Mark(cells[..last], i);
      UnmarkedSumMark(cells[..last], i);
    } else {
      assert Mark(cells, i)[..last] == cells[..last];
    }
  }

  /** `score`: nothing before a win, otherwise the unmarked sum times the
      winning number. */
  method Score(b: Board) returns (s: Option<nat>)
    ensures s.None? <==> !Wins(b)
    ensures s.Some? ==> s.value == UnmarkedSum(b.cells) * b.winningNumber.value
  {
    match b.winningNumber {
      case None =>
        return None;
      case Some(w) =>
        var score: nat := 0;
        var i := 0;
        while i < |b.cells|
          invariant i <= |b.cells|
          invariant score == UnmarkedSum(b.cells[..i])
        {
          assert b.cells[..i + 1][..i] == b.cells[..i];
          if !b.cells[i].marked {
            score := score + b.cells[i].number;
          }
          i := i + 1;
        }
        assert b.cells[..i] == b.cells;
        return Some(score * w);
    }
  }
}

=== FILE: day04_game.dfy ===
/** The day 4 game: the list of drawn numbers, the first board to win and
    the last board to win. */
module BingoGame {
  import opened Common
  import opened Bingo

  // ---------------------------------------------------------------------
  // The drawn numbers

  /** `read_generated_numbers`: the trimmed first line split at commas,
      every piece a `u8`; a bad piece panics ("Could not read number"). */
  function ParseNumbers(line: string): (r: Result<seq<nat>>)
    ensures !r.Err?
    ensures r.Ok? <==> AllBytes(Split(Trim(line), ","))
    ensures r.Panic? ==> r.msg == "Could not read number"
    ensures r.Ok? ==> var pieces := Split(Trim(line), ",");
      |r.value| == |pieces| && forall k :: 0 <= k < |pieces| ==> ParseNat(pieces[k]) == Some(r.value[k])
  {
    ParseByteList(line, "Could not read number")
  }

  /** Reading a written-out list of `u8` values gives the values back. */
  lemma ParseShowNumbers(ns: seq<nat>)
    requires |ns| > 0 && forall k :: 0 <= k < |ns| ==> ns[k] < 256
    ensures ParseNumbers(Join(Shown(ns), ",")) == Ok(ns)
  {
    ParseShowByteList(ns, "Could not read number");
  }

  // ---------------------------------------------------------------------
  // Drawing numbers on every board

  predicate AllValid(bs: seq<Board>)
  {
    forall i :: 0 <= i < |bs| ==> Valid(bs[i])
  }

  /** `for board in &mut boards { board.mark_if_present(number) }`. */
  function MarkAll(bs: seq<Board>, num: nat): (r: seq<Board>)
    requires AllValid(bs)
    ensures |r| == |bs| && AllValid(r)
  {
    seq(|bs|, i requires 0 <= i < |bs| => MarkIfPresent(bs[i], num).0)
  }

  /** The boards after the first `k` numbers of `ns` have been drawn, in
      order. */
  function Drawn(bs: seq<Board>, ns: seq<nat>, k: nat): (r: seq<Board>)
    requires AllValid(bs) && k <= |ns|
    ensures |r| == |bs| && AllValid(r)
  {
    if k == 0 then bs else MarkAll(Drawn(bs, ns, k - 1), ns[k - 1])
  }

  predicate AnyWins(bs: seq<Board>)
  {
    exists i :: 0 <= i < |bs| && Wins(bs[i])
  }

  /** Board `i` wins and no board before it does. */
  predicate FirstWinner(bs: seq<Board>, i: int)
  {
    0 <= i < |bs| && Wins(bs[i]) && forall j :: 0 <= j < i ==> !Wins(bs[j])
  }

  /** After `k` draws some board wins, and after none of the earlier
      draws did any. */
  predicate EarliestWin(bs: seq<Board>, ns: seq<nat>, k: int)
    requires AllValid(bs)
  {
    && 1 <= k <= |ns|
    && AnyWins(Drawn(bs, ns, k))
    && forall k2 :: 1 <= k2 < k ==> !AnyWins(Drawn(bs, ns, k2))
  }

  /** A board that starts winning at a draw records that draw. */
  lemma WinningDraw(bs: seq<Board>, ns: seq<nat>, k: nat, i: nat)
    requires AllValid(bs) && 0 < k <= |ns| && i < |bs|
    requires !Wins(Drawn(bs, ns, k - 1)[i]) && Wins(Drawn(bs, ns, k)[i])
    ensures Drawn(bs, ns, k)[i].winningNumber == Some(ns[k - 1])
  {
  }

  /** The first board, in order, that wins. */
  method FindWinner(bs: seq<Board>) returns (w: Option<nat>)
    ensures w.None? <==> !AnyWins(bs)
    ensures w.Some? ==> FirstWinner(bs, w.value)
  {
    var i := 0;
    while i < |bs|
      invariant i <= |bs|
      invariant forall j :: 0 <= j < i ==> !Wins(bs[j])
    {
      if Wins(bs[i]) {
        return Some(i);
      }
      i := i + 1;
    }
    return None;
  }

  /** Part 1: every draw is marked on all boards before any board is
      checked, and the winner is the lowest-numbered board that wins at
      the earliest winning draw; it won with that draw's number. */
  method FirstToWin(boards: seq<Board>, numbers: seq<nat>) returns (winner: Option<nat>, final: seq<Board>)
    requires AllValid(boards)
    ensures winner.None? ==> final == Drawn(boards, numbers, |numbers|)
    ensures winner.None? ==> forall k :: 1 <= k <= |numbers| ==> !AnyWins(Drawn(boards, numbers, k))
    ensures winner.Some? ==> exists k ::
      && EarliestWin(boards, numbers, k)
      && final == Drawn(boards, numbers, k)
      && FirstWinner(final, winner.value)
      && (!AnyWins(boards) ==> final[winner.value].winningNumber == Some(numbers[k - 1]))
  {
    winner, final := None, boards;
    var k := 0;
    while k < |numbers|
      invariant k <= |numbers|
      invariant final == Drawn(boards, numbers, k)
      invariant forall k2 :: 1 <= k2 <= k ==> !AnyWins(Drawn(boards, numbers, k2))
    {
      var before := final;
      final := MarkAll(final, numbers[k]);
      var k1 := k + 1;
      assert final == Drawn(boards, numbers, k1);
      var w := FindWinner(final);
      if w.Some? {
        var i := w.value;
        winner := w;
        assert EarliestWin(boards, numbers, k1);
        if !AnyWins(boards) {
          assert !AnyWins(before) by {
            if k > 0 {
              assert !AnyWins(Drawn(boards, numbers, k));
            }
          }
          assert !Wins(before[i]);
          WinningDraw(boards, numbers, k1, i);
        }
        return;
      }
      k := k1;
    }
  }

  // ---------------------------------------------------------------------
  // The last board to win

  /** `boards.retain(|board| !board.wins())`. */
  function Survivors(bs: seq<Board>): (r: seq<Board>)
    ensures |r| <= |bs|
    ensures forall b :: b in r <==> b in bs && !Wins(b)
    ensures AllValid(bs) ==> AllValid(r)
    ensures AllConsistent(bs) ==> AllConsistent(r)
  {
    if |bs| == 0 then []
    else if Wins(bs[0]) then Survivors(bs[1..])
    else [bs[0]] + Survivors(bs[1..])
  }

  /** Part 2 followed draw by draw: while more than one board remains,
      the draw is marked on all of them and the winners are dropped; a
      single board is marked until it wins, which ends the game; the board
      left at the end is `boards[0]`, a panic when none is left. */
  function LastGame(boards: seq<Board>, ns: seq<nat>): Result<Board>
    requires AllValid(boards)
    decreases |ns|
  {
    if |ns| == 0 then
      if |boards| == 0 then Panic("index out of bounds") else Ok(boards[0])
    else if |boards| > 1 then
      LastGame(Survivors(MarkAll(boards, ns[0])), ns[1..])
    else if |boards| == 0 then
      Panic("index out of bounds")
    else
      var b := MarkIfPresent(boards[0], ns[0]).0;
      if Wins(b) then Ok(b) else LastGame([b], ns[1..])
  }

  /** No board has won yet, as for boards fresh from `Board::read`. */
  predicate NoneWon(bs: seq<Board>)
  {
    forall i :: 0 <= i < |bs| ==> !Wins(bs[i])
  }

  /** Board `i` wins with draw `k` (counted from 1), that is after the
      first `k` draws but not after the first `k - 1`, when every draw is
      marked on every board; every other board had already won after the
      first `k - 1` draws. */
  predicate LastWinner(boards: seq<Board>, ns: seq<nat>, i: int, k: int)
    requires AllValid(boards)
  {
    && 0 <= i < |boards| && 1 <= k <= |ns|
    && var before := Drawn(boards, ns, k - 1);
    && !Wins(before[i])
    && Wins(Drawn(boards, ns, k)[i])
    && forall j :: 0 <= j < |before| && j != i ==> Wins(before[j])
  }

  /** What part 2 can end with: the board that wins last, with the number
      of the draw it wins on; or, when the draws run out first, the first
      of the boards that never won; or a panic, and then every board has
      won. */
  ghost predicate LastOutcome(boards: seq<Board>, ns: seq<nat>, r: Result<Board>)
    requires AllValid(boards)
  {
    && !r.Err?
    && (r.Ok? && Wins(r.value) ==> exists i, k ::
         && LastWinner(boards, ns, i, k)
         && r.value == Drawn(boards, ns, k)[i]
         && r.value.winningNumber == Some(ns[k - 1]))
    && (r.Ok? && !Wins(r.value) ==>
         |Survivors(Drawn(boards, ns, |ns|))| > 0 && r.value == Survivors(Drawn(boards, ns, |ns|))[0])
    && (r.Panic? ==> Survivors(Drawn(boards, ns, |ns|)) == [])
  }

  /** Part 2 as a loop over the draws with an early exit. Started from
      boards that have not won, it ends as `LastOutcome` says. */
  method LastToWin(boards: seq<Board>, numbers: seq<nat>) returns (r: Result<Board>)
    requires AllValid(boards)
    ensures r == LastGame(boards, numbers)
    ensures NoneWon(boards) ==> LastOutcome(boards, numbers, r)
  {
    var bs := boards;
    var k := 0;
    while k < |numbers|
      invariant k <= |numbers| && AllValid(bs)
      invariant LastGame(bs, numbers[k..]) == LastGame(boards, numbers)
    {
      if |bs| > 1 {
        bs := Survivors(MarkAll(bs, numbers[k]));
      } else if |bs| == 0 {
        // `boards[0]` panics, as it does after the loop
        break;
      } else {
        var b := MarkIfPresent(bs[0], numbers[k]).0;
        bs := [b];
        if Wins(b) {
          break;
        }
      }
      assert numbers[k..][1..] == numbers[k + 1..];
      k := k + 1;
    }
    r := if |bs| == 0 then Panic("index out of bounds") else Ok(bs[0]);
    if NoneWon(boards) {
      LastGameOutcome(boards, numbers);
    }
  }

  lemma MarkAllCons(b: Board, bs: seq<Board>, num: nat)
    requires Valid(b) && AllValid(bs)
    ensures MarkAll([b] + bs, num) == [MarkIfPresent(b, num).0] + MarkAll(bs, num)
  {
    assert AllValid([b] + bs);
  }

  lemma SurvivorsCons(b: Board, bs: seq<Board>)
    ensures Survivors([b] + bs) == if Wins(b) then Survivors(bs) else [b] + Survivors(bs)
  {
    assert ([b] + bs)[1..] == bs;
  }

  /** A board that has won keeps winning, so dropping the winners before
      a draw or after it leaves the same boards. */
  lemma {:induction false} SurvivorsMarkAll(bs: seq<Board>, num: nat)
    requires AllValid(bs)
    ensures Survivors(MarkAll(Survivors(bs), num)) == Survivors(MarkAll(bs, num))
    decreases |bs|
  {
    if |bs| > 0 {
      var b, rest := bs[0], bs[1..];
      var m := MarkIfPresent(b, num).0;
      assert bs == [b] + rest;
      MarkAllCons(b, rest, num);
      SurvivorsCons(m, MarkAll(rest, num));
      SurvivorsCons(b, rest);
      SurvivorsMarkAll(rest, num);
      if !Wins(b) {
        MarkAllCons(b, Survivors(rest), num);
        SurvivorsCons(m, MarkAll(Survivors(rest), num));
      }
    }
  }

  /** When no board has won, none is dropped. */
  lemma {:induction false} SurvivorsNoneWon(bs: seq<Board>)
    requires NoneWon(bs)
    ensures Survivors(bs) == bs
  {
    if |bs| > 0 {
      SurvivorsNoneWon(bs[1..]);
    }
  }

  /** Two boards that have not won both survive. */
  lemma {:induction false} TwoSurvive(bs: seq<Board>, i: nat, j: nat)
    requires i < j < |bs| && !Wins(bs[i]) && !Wins(bs[j])
    ensures |Survivors(bs)| >= 2
  {
    if i == 0 {
      assert bs[1..][j - 1] in Survivors(bs[1..]);
    } else {
      TwoSurvive(bs[1..], i - 1, j - 1);
    }
  }

  /** When a single board has not won, every other board has. */
  lemma SoleSurvivor(bs: seq<Board>, i: nat)
    requires |Survivors(bs)| == 1 && i < |bs| && bs[i] == Survivors(bs)[0]
    ensures !Wins(bs[i])
    ensures forall j :: 0 <= j < |bs| && j != i ==> Wins(bs[j])
  {
    assert Survivors(bs)[0] in Survivors(bs);
    forall j | 0 <= j < |bs| && j != i
      ensures Wins(bs[j])
    {
      if !Wins(bs[j]) {
        if j < i {
          TwoSurvive(bs, j, i);
        } else {
          TwoSurvive(bs, i, j);
        }
      }
    }
  }

  /** Once every board has won, every board stays won. */
  lemma {:induction false} SurvivorsStayEmpty(boards: seq<Board>, ns: seq<nat>, t: nat)
    requires AllValid(boards) && t <= |ns| && Survivors(Drawn(boards, ns, t)) == []
    ensures Survivors(Drawn(boards, ns, |ns|)) == []
    decreases |ns| - t
  {
    if t < |ns| {
      SurvivorsMarkAll(Drawn(boards, ns, t), ns[t]);
      SurvivorsStayEmpty(boards, ns, t + 1);
    }
  }

  /** The sole board left, `d[i]`, wins on draw `t + 1`, and it is the
      last board to win. */
  lemma LastWinnerAt(boards: seq<Board>, ns: seq<nat>, t: nat, i: nat)
    requires AllValid(boards) && t < |ns|
    requires var d := Drawn(boards, ns, t);
      |Survivors(d)| == 1 && i < |d| && d[i] == Survivors(d)[0]
    requires Wins(MarkIfPresent(Drawn(boards, ns, t)[i], ns[t]).0)
    ensures LastWinner(boards, ns, i, t + 1)
    ensures Drawn(boards, ns, t + 1)[i] == MarkIfPresent(Drawn(boards, ns, t)[i], ns[t]).0
    ensures Drawn(boards, ns, t + 1)[i].winningNumber == Some(ns[t])
  {
    SoleSurvivor(Drawn(boards, ns, t), i);
    WinningDraw(boards, ns, t + 1, i);
  }

  /** One draw while several boards are left. */
  lemma ManyLeftStep(boards: seq<Board>, ns: seq<nat>, t: nat)
    requires AllValid(boards) && t < |ns| && |Survivors(Drawn(boards, ns, t))| > 1
    ensures LastGame(Survivors(Drawn(boards, ns, t)), ns[t..])
         == LastGame(Survivors(Drawn(boards, ns, t + 1)), ns[t + 1..])
  {
    var d := Drawn(boards, ns, t);
    assert ns[t..][0] == ns[t] && ns[t..][1..] == ns[t + 1..];
    SurvivorsMarkAll(d, ns[t]);
  }

  /** One draw while a single board is left and it does not win. */
  lemma OneLeftStep(boards: seq<Board>, ns: seq<nat>, t: nat)
    requires AllValid(boards) && t < |ns| && |Survivors(Drawn(boards, ns, t))| == 1
    requires !Wins(MarkIfPresent(Survivors(Drawn(boards, ns, t))[0], ns[t]).0)
    ensures LastGame(Survivors(Drawn(boards, ns, t)), ns[t..])
         == LastGame(Survivors(Drawn(boards, ns, t + 1)), ns[t + 1..])
  {
    var d := Drawn(boards, ns, t);
    var bs := Survivors(d);
    var b := MarkIfPresent(bs[0], ns[t]).0;
    assert ns[t..][0] == ns[t] && ns[t..][1..] == ns[t + 1..];
    SurvivorsMarkAll(d, ns[t]);
    assert MarkAll(bs, ns[t]) == [b];
    assert Survivors([b]) == [b] by {
      assert [b][1..] == [];
    }
  }

  /** The draw on which the single board left wins ends the game with
      that board. */
  lemma OneLeftWins(boards: seq<Board>, ns: seq<nat>, t: nat)
    requires AllValid(boards) && t < |ns| && |Survivors(Drawn(boards, ns, t))| == 1
    requires Wins(MarkIfPresent(Survivors(Drawn(boards, ns, t))[0], ns[t]).0)
    ensures LastOutcome(boards, ns, LastGame(Survivors(Drawn(boards, ns, t)), ns[t..]))
  {
    var d := Drawn(boards, ns, t);
    var bs := Survivors(d);
    assert ns[t..][0] == ns[t];
    assert LastGame(bs, ns[t..]) == Ok(MarkIfPresent(bs[0], ns[t]).0);
    assert bs[0] in bs;
    var i :| 0 <= i < |d| && d[i] == bs[0];
    LastWinnerAt(boards, ns, t, i);
  }

  /** Part 2 after `t` draws holds exactly the boards that have not won
      after those draws, in their order; from there it ends as
      `LastOutcome` says. */
  /** While two boards are left, or one that the next draw does not
      complete, part 2 simply moves on to the next draw. */
  lemma LastGameMovesOn(boards: seq<Board>, ns: seq<nat>, t: nat)
    requires AllValid(boards) && t < |ns|
    requires var bs := Survivors(Drawn(boards, ns, t));
      |bs| > 1 || (|bs| == 1 && !Wins(MarkIfPresent(bs[0], ns[t]).0))
    ensures LastGame(Survivors(Drawn(boards, ns, t)), ns[t..])
         == LastGame(Survivors(Drawn(boards, ns, t + 1)), ns[t + 1..])
  {
    if |Survivors(Drawn(boards, ns, t))| > 1 {
      ManyLeftStep(boards, ns, t);
    } else {
      OneLeftStep(boards, ns, t);
    }
  }

  /** Part 2 stops when the draws run out, when no board is left, or when
      the last board left wins; each stop is one `LastOutcome` allows. */
  lemma LastGameStops(boards: seq<Board>, ns: seq<nat>, t: nat)
    requires AllValid(boards) && t <= |ns|
    requires var bs := Survivors(Drawn(boards, ns, t));
      t == |ns| || |bs| == 0 || (|bs| == 1 && Wins(MarkIfPresent(bs[0], ns[t]).0))
    ensures LastOutcome(boards, ns, LastGame(Survivors(Drawn(boards, ns, t)), ns[t..]))
  {
    if t == |ns| {
      assert ns[t..] == [];
    } else if |Survivors(Drawn(boards, ns, t))| == 0 {
      SurvivorsStayEmpty(boards, ns, t);
    } else {
      OneLeftWins(boards, ns, t);
    }
  }

  lemma {:induction false} LastGameFrom(boards: seq<Board>, ns: seq<nat>, t: nat)
    requires AllValid(boards) && t <= |ns|
    ensures LastOutcome(boards, ns, LastGame(Survivors(Drawn(boards, ns, t)), ns[t..]))
    decreases |ns| - t
  {
    var bs := Survivors(Drawn(boards, ns, t));
    if t < |ns| && (|bs| > 1 || (|bs| == 1 && !Wins(MarkIfPresent(bs[0], ns[t]).0))) {
      LastGameMovesOn(boards, ns, t);
      LastGameFrom(boards, ns, t + 1);
    } else {
      LastGameStops(boards, ns, t);
    }
  }

  /** Part 2 started from boards that have not won ends as `LastOutcome`
      says: with the board that wins last and the number it wins on. */
  lemma LastGameOutcome(boards: seq<Board>, ns: seq<nat>)
    requires AllValid(boards) && NoneWon(boards)
    ensures LastOutcome(boards, ns, LastGame(boards, ns))
  {
    SurvivorsNoneWon(boards);
    assert ns[0..] == ns;
    LastGameFrom(boards, ns, 0);
  }

  /** The numbers on a board; marking does not change them. */
  function Numbers(b: Board): seq<nat>
  {
    seq(|b.cells|, i requires 0 <= i < |b.cells| => b.cells[i].number)
  }

  predicate AllConsistent(bs: seq<Board>)
  {
    forall i :: 0 <= i < |bs| ==> Consistent(bs[i])
  }

  lemma MarkAllKeeps(bs: seq<Board>, num: nat)
    requires AllConsistent(bs)
    ensures AllConsistent(MarkAll(bs, num))
    ensures forall i :: 0 <= i < |bs| ==> Numbers(MarkAll(bs, num)[i]) == Numbers(bs[i])
  {
    forall i | 0 <= i < |bs|
      ensures Consistent(MarkAll(bs, num)[i]) && Numbers(MarkAll(bs, num)[i]) == Numbers(bs[i])
    {
      MarkKeepsConsistent(bs[i], num);
    }
  }

  /** The board part 2 ends with is one of the boards it started with,
      marked, and its winning number is still in step with its marks. */
  lemma {:induction false} LastGameFromInput(boards: seq<Board>, ns: seq<nat>)
    requires AllConsistent(boards)
    ensures var r := LastGame(boards, ns);
      r.Ok? ==> Consistent(r.value) && exists i :: 0 <= i < |boards| && Numbers(r.value) == Numbers(boards[i])
    decreases |ns|
  {
    var r := LastGame(boards, ns);
    if |ns| == 0 || |boards| == 0 {
      if r.Ok? {
        assert Numbers(r.value) == Numbers(boards[0]);
      }
    } else if |boards| > 1 {
      var marked := MarkAll(boards, ns[0]);
      MarkAllKeeps(boards, ns[0]);
      var rest := Survivors(marked);
      assert AllConsistent(rest);
      LastGameFromInput(rest, ns[1..]);
      if r.Ok? {
        var j :| 0 <= j < |rest| && Numbers(r.value) == Numbers(rest[j]);
        assert rest[j] in marked;
        var i :| 0 <= i < |marked| && marked[i] == rest[j];
        assert Numbers(r.value) == Numbers(boards[i]);
      }
    } else {
      var b := MarkIfPresent(boards[0], ns[0]).0;
      MarkAllKeeps(boards, ns[0]);
      assert MarkAll(boards, ns[0])[0] == b;
      if !Wins(b) {
        LastGameFromInput([b], ns[1..]);
      }
    }
  }

  /** With no boards, or when every remaining board wins on the same draw,
      `boards[0]` finds nothing and part 2 panics. */
  lemma {:induction false} LastGameEmpty(ns: seq<nat>)
    ensures LastGame([], ns).Panic?
  {
  }

  lemma AllWinPanics(boards: seq<Board>, ns: seq<nat>)
    requires AllValid(boards) && |boards| > 1 && |ns| > 0
    requires forall i :: 0 <= i < |boards| ==> Wins(MarkAll(boards, ns[0])[i])
    ensures LastGame(boards, ns).Panic?
  {
    NoneSurvive(MarkAll(boards, ns[0]));
    assert LastGame(boards, ns) == LastGame([], ns[1..]);
    LastGameEmpty(ns[1..]);
  }

  /** When every board wins, none survives. */
  lemma {:induction false} NoneSurvive(bs: seq<Board>)
    requires forall i :: 0 <= i < |bs| ==> Wins(bs[i])
    ensures Survivors(bs) == []
  {
    if |bs| > 0 {
      NoneSurvive(bs[1..]);
    }
  }

  /** A single board is marked draw by draw until it wins: the game ends
      at the first draw that completes it, with that draw's number. */
  lemma {:induction false} SoloGame(b: Board, ns: seq<nat>)
    requires Consistent(b) && !Wins(b)
    ensures var r := LastGame([b], ns);
      r.Ok? && (Wins(r.value) ==> exists k :: 0 <= k < |ns| && r.value.winningNumber == Some(ns[k]))
    decreases |ns|
  {
    if |ns| > 0 {
      var b2 := MarkIfPresent(b, ns[0]).0;
      MarkKeepsConsistent(b, ns[0]);
      if !Wins(b2) {
        SoloGame(b2, ns[1..]);
        var r := LastGame([b2], ns[1..]);
        if Wins(r.value) {
          var k :| 0 <= k < |ns[1..]| && r.value.winningNumber == Some(ns[1..][k]);
          assert ns[k + 1] == ns[1..][k];
        }
      }
    }
  }
}

=== FILE: day05_map.dfy ===
/** Day 5: the map of the ocean floor, one counter per cell, counting the
    vent segments through each point. */
module OceanMap {
  import opened Common
  import opened OceanPoint
  import opened OceanRect
  import opened OceanSegment

  /** `Map`: the boundaries and the counters, row by row. */
  datatype Map = Map(boundaries: Rect, data: seq<nat>)

  /** The cells of `r` proper: its right column and bottom row are the
      margin that `region_enclosing` adds, which no cell stands for. */
  predicate Inner(r: Rect, p: Point)
  {
    r.a.x <= p.x < r.b.x && r.a.y <= p.y < r.b.y
  }

  /** Every segment's box lies inside `r`. */
  predicate Covers(r: Rect, segs: seq<Segment>)
  {
    forall i :: 0 <= i < |segs| ==> Inside(BBox(segs[i]), r)
  }

  /** The loop of `region_enclosing`: the running union of the boxes. */
  function Boxes(segs: seq<Segment>, acc: Rect): (r: Rect)
    requires Normal(acc)
    ensures Normal(r) && Inside(acc, r)
    decreases |segs|
  {
    if |segs| == 0 then acc
    else
      var u := Union(acc, BBox(segs[0]));
      var r := Boxes(segs[1..], u);
      InsideContains(u, r, acc.a);
      InsideContains(u, r, acc.b);
      r
  }

  /** The running union holds every box. */
  lemma {:induction false} BoxesCover(segs: seq<Segment>, acc: Rect)
    requires Normal(acc)
    ensures Covers(Boxes(segs, acc), segs)
    decreases |segs|
  {
    if |segs| > 0 {
      var u := Union(acc, BBox(segs[0]));
      var r := Boxes(segs[1..], u);
      BoxesCover(segs[1..], u);
      var b := BBox(segs[0]);
      InsideContains(u, r, b.a);
      InsideContains(u, r, b.b);
      forall i | 0 <= i < |segs|
        ensures Inside(BBox(segs[i]), r)
      {
        if i > 0 {
          assert segs[i] == segs[1..][i - 1];
        }
      }
    }
  }

  /** The running union lies inside every rectangle holding the start and
      every box. */
  lemma {:induction false} BoxesLeast(segs: seq<Segment>, acc: Rect, q: Rect)
    requires Normal(acc) && Inside(acc, q) && Covers(q, segs)
    ensures Inside(Boxes(segs, acc), q)
    decreases |segs|
  {
    if |segs| > 0 {
      assert Inside(BBox(segs[0]), q);
      forall i | 0 <= i < |segs| - 1
        ensures Inside(BBox(segs[1..][i]), q)
      {
        assert segs[1..][i] == segs[i + 1];
      }
      BoxesLeast(segs[1..], Union(acc, BBox(segs[0])), q);
    }
  }

  /** The box `region_enclosing` returns, before its margin. */
  function Shrink(r: Rect): Rect
  {
    Rect(r.a, Sub(r.b, Point(1, 1)))
  }

  /** `region_enclosing`: panics on an empty list; otherwise the union of
      the first box and every box in turn, with `b` moved one cell right
      and down. Without that margin it is the smallest rectangle holding
      every box. */
  function RegionEnclosing(segs: seq<Segment>): (r: Result<Rect>)
    ensures !r.Err?
    ensures r.Ok? <==> |segs| > 0
    ensures r.Panic? ==> r.msg == "Cannot create map from an empty Vec of Segments"
    ensures r.Ok? ==> Normal(r.value) && Covers(Shrink(r.value), segs)
  {
    if |segs| == 0 then Panic("Cannot create map from an empty Vec of Segments")
    else
      var r := Boxes(segs, BBox(segs[0]));
      BoxesCover(segs, BBox(segs[0]));
      assert Shrink(Rect(r.a, Add(r.b, Point(1, 1)))) == r;
      Ok(Rect(r.a, Add(r.b, Point(1, 1))))
  }

  /** Without its margin, the region lies inside every rectangle that
      holds all the boxes: it is the smallest such rectangle. */
  lemma RegionLeast(segs: seq<Segment>, q: Rect)
    requires |segs| > 0 && Covers(q, segs)
    ensures Inside(Shrink(RegionEnclosing(segs).value), q)
  {
    var first := BBox(segs[0]);
    assert Inside(first, q);
    BoxesLeast(segs, first, q);
    assert Shrink(RegionEnclosing(segs).value) == Boxes(segs, first);
  }

  /** Every point of every box is a cell of the region. */
  lemma RegionHoldsBoxes(segs: seq<Segment>, i: nat, p: Point)
    requires i < |segs| && Contains(BBox(segs[i]), p)
    ensures RegionEnclosing(segs).Ok? && Inner(RegionEnclosing(segs).value, p)
  {
    var r := RegionEnclosing(segs).value;
    InsideContains(BBox(segs[i]), Shrink(r), p);
  }

  // ---------------------------------------------------------------------
  // Cells

  /** A map whose counters match its boundaries. */
  predicate Valid(m: Map)
  {
    Normal(m.boundaries) && |m.data| == Width(m.boundaries) * Height(m.boundaries)
  }

  /** `Map::new`: one zero counter per cell. */
  function NewMap(r: Rect): (m: Map)
    ensures Normal(r) ==> Valid(m)
    ensures m.boundaries == r && |m.data| == Width(r) * Height(r)
    ensures forall c :: 0 <= c < |m.data| ==> m.data[c] == 0
  {
    Map(r, seq(Width(r) * Height(r), _ => 0))
  }

  /** `data`/`data_mut`: the index of the counter for `p`, row by row. */
  function Cell(r: Rect, p: Point): int
  {
    (p.x - r.a.x) + (p.y - r.a.y) * Width(r)
  }

  /** The point counter `c` stands for. */
  function PointOf(r: Rect, c: nat): Point
    requires Width(r) > 0
  {
    Point(r.a.x + c % Width(r), r.a.y + c / Width(r))
  }

  /** Every cell has a counter of its own, and knows its point back. */
  lemma CellOfInner(r: Rect, p: Point)
    requires Normal(r) && Inner(r, p)
    ensures Width(r) > 0 && 0 <= Cell(r, p) < Width(r) * Height(r)
    ensures PointOf(r, Cell(r, p)) == p
  {
    var w, h := Width(r), Height(r);
    var x, y := p.x - r.a.x, p.y - r.a.y;
    DivModUnique(Cell(r, p), w, x, y);
    MulMono(y + 1, h, w);
  }

  /** Every counter stands for a cell. */
  lemma PointOfCell(r: Rect, c: nat)
    requires Normal(r) && c < Width(r) * Height(r)
    ensures Width(r) > 0 && Inner(r, PointOf(r, c)) && Cell(r, PointOf(r, c)) == c
  {
    var w, h := Width(r), Height(r);
    assert w > 0;
    var y := c / w;
    if y >= h {
      MulMono(h, y, w);
      assert false;
    }
  }

  /** Two cells never share a counter. */
  lemma CellInjective(r: Rect, p: Point, q: Point)
    requires Normal(r) && Inner(r, p) && Inner(r, q) && Cell(r, p) == Cell(r, q)
    ensures p == q
  {
    CellOfInner(r, p);
    CellOfInner(r, q);
  }

  // ---------------------------------------------------------------------
  // Adding segments

  predicate AllInner(r: Rect, ps: seq<Point>)
  {
    forall k :: 0 <= k < |ps| ==> Inner(r, ps[k])
  }

  /** The loop of `add_segment` over the points: each point must be in
      the boundaries, and its counter goes up by one. A point outside
      panics, and so would an index past the counters. When every point
      is a cell of a valid map, each counter goes up by the number of
      times its point comes. */
  function AddPoints(m: Map, ps: seq<Point>): (r: Result<Map>)
    ensures !r.Err?
    ensures r.Ok? ==> r.value.boundaries == m.boundaries && |r.value.data| == |m.data|
    ensures r.Ok? ==> forall k :: 0 <= k < |ps| ==> Contains(m.boundaries, ps[k])
    decreases |ps|
  {
    if |ps| == 0 then Ok(m)
    else if !Contains(m.boundaries, ps[0]) then Panic("Map does not contain the point")
    else
      var c := Cell(m.boundaries, ps[0]);
      if !(0 <= c < |m.data|) then Panic("index out of bounds")
      else
        var m1 := m.(data := m.data[c := m.data[c] + 1]);
        var r := AddPoints(m1, ps[1..]);
        assert forall k :: 1 <= k < |ps| ==> ps[k] == ps[1..][k - 1];
        r
  }

  /** When every point is a cell of a valid map, the loop panics nowhere
      and each counter goes up by the number of times its point comes. */
  lemma {:induction false} AddPointsCounts(m: Map, ps: seq<Point>)
    requires Valid(m) && AllInner(m.boundaries, ps)
    ensures AddPoints(m, ps).Ok?
    ensures forall c :: 0 <= c < |m.data| ==> AddPoints(m, ps).value.data[c] == m.data[c] + multiset(ps)[PointOf(m.boundaries, c)]
    decreases |ps|
  {
    if |ps| > 0 {
      AddPointsStep(m, ps);
      var c0 := Cell(m.boundaries, ps[0]);
      var m1 := m.(data := m.data[c0 := m.data[c0] + 1]);
      AddPointsCounts(m1, ps[1..]);
    }
  }

  lemma AddPointsStep(m: Map, ps: seq<Point>)
    requires |ps| > 0 && Valid(m) && AllInner(m.boundaries, ps)
    ensures 0 <= Cell(m.boundaries, ps[0]) < |m.data|
    ensures AllInner(m.boundaries, ps[1..])
    ensures forall c :: 0 <= c < |m.data| ==>
      multiset(ps)[PointOf(m.boundaries, c)]
      == multiset(ps[1..])[PointOf(m.boundaries, c)] + (if c == Cell(m.boundaries, ps[0]) then 1 else 0)
  {
    var r := m.boundaries;
    assert Inner(r, ps[0]);
    CellOfInner(r, ps[0]);
    assert ps == [ps[0]] + ps[1..];
    assert multiset(ps) == multiset{ps[0]} + multiset(ps[1..]);
    forall c | 0 <= c < |m.data|
      ensures PointOf(r, c) == ps[0] <==> c == Cell(r, ps[0])
    {
      PointOfCell(r, c);
    }
  }

  /** A point comes at most once among points without repeats. */
  lemma {:induction false} CountNoRepeats(ps: seq<Point>, p: Point)
    requires NoRepeats(ps)
    ensures multiset(ps)[p] == if p in ps then 1 else 0
    decreases |ps|
  {
    if |ps| > 0 {
      var tail := ps[1..];
      assert ps == [ps[0]] + tail;
      assert multiset(ps) == multiset{ps[0]} + multiset(tail);
      assert forall j :: 0 <= j < |tail| ==> tail[j] == ps[j + 1];
      assert ps[0] !in tail;
      CountNoRepeats(tail, p);
    }
  }

  /** `add_segment`: a segment that is not horizontal, vertical or
      diagonal panics; otherwise every point of the segment adds one to
      its counter. The points are those `Points` lists: the iterator
      yields the same ones whenever the ends differ (see
      `IterateStraight`) and never stops when they coincide (see
      `SinglePointNeverEnds`). */
  function AddSegment(m: Map, s: Segment): (r: Result<Map>)
    ensures !r.Err?
    ensures r.Ok? ==> Straight(s) && r.value.boundaries == m.boundaries && |r.value.data| == |m.data|
    ensures !Straight(s) ==> r == Panic("Segment must be horizontal, vertical or diagonal")
  {
    if !Straight(s) then Panic("Segment must be horizontal, vertical or diagonal")
    else AddPoints(m, Points(s))
  }

  /** A straight segment whose points are all cells of a valid map adds
      one to the counter of each of its points and nothing elsewhere. */
  lemma AddSegmentCounts(m: Map, s: Segment)
    requires Straight(s) && Valid(m) && AllInner(m.boundaries, Points(s))
    ensures AddSegment(m, s).Ok?
    ensures forall c :: 0 <= c < |m.data| ==>
      AddSegment(m, s).value.data[c] == m.data[c] + (if PointOf(m.boundaries, c) in Points(s) then 1 else 0)
  {
    AddPointsCounts(m, Points(s));
    forall c | 0 <= c < |m.data|
      ensures multiset(Points(s))[PointOf(m.boundaries, c)] == if PointOf(m.boundaries, c) in Points(s) then 1 else 0
    {
      CountNoRepeats(Points(s), PointOf(m.boundaries, c));
    }
  }

  /** How many of the segments pass through `p`. */
  function Coverage(segs: seq<Segment>, p: Point): nat
  {
    if |segs| == 0 then 0
    else (if p in Points(segs[0]) then 1 else 0) + Coverage(segs[1..], p)
  }

  /** The loop of `Map::from`: each segment added once, in order. */
  function AddSegments(m: Map, segs: seq<Segment>): (r: Result<Map>)
    ensures !r.Err?
    ensures r.Ok? ==> r.value.boundaries == m.boundaries && |r.value.data| == |m.data|
    ensures r.Ok? ==> forall i :: 0 <= i < |segs| ==> Straight(segs[i])
    decreases |segs|
  {
    if |segs| == 0 then Ok(m)
    else
      match AddSegment(m, segs[0])
      case Ok(m1) =>
        var r := AddSegments(m1, segs[1..]);
        assert forall i :: 1 <= i < |segs| ==> segs[1..][i - 1] == segs[i];
        r
      case Panic(msg) => Panic(msg)
      case Err(msg) => Err(msg)
  }

  predicate Placed(r: Rect, segs: seq<Segment>)
  {
    forall i :: 0 <= i < |segs| ==> Straight(segs[i]) && AllInner(r, Points(segs[i]))
  }

  /** When every segment is straight and its points are cells of a valid
      map, every segment is added, and each counter goes up by the number
      of segments through its point. */
  lemma {:induction false} AddSegmentsCounts(m: Map, segs: seq<Segment>)
    requires Valid(m) && Placed(m.boundaries, segs)
    ensures AddSegments(m, segs).Ok?
    ensures forall c :: 0 <= c < |m.data| ==> AddSegments(m, segs).value.data[c] == m.data[c] + Coverage(segs, PointOf(m.boundaries, c))
    decreases |segs|
  {
    if |segs| > 0 {
      AddSegmentCounts(m, segs[0]);
      var m1 := AddSegment(m, segs[0]).value;
      assert Placed(m.boundaries, segs[1..]) by {
        assert forall i :: 0 <= i < |segs| - 1 ==> segs[1..][i] == segs[i + 1];
      }
      AddSegmentsCounts(m1, segs[1..]);
    }
  }

  /** Every point of a straight segment is a cell of the region around
      all the segments. */
  lemma SegmentsInner(segs: seq<Segment>, i: nat)
    requires i < |segs| && Straight(segs[i])
    ensures RegionEnclosing(segs).Ok? && AllInner(RegionEnclosing(segs).value, Points(segs[i]))
  {
    var ps := Points(segs[i]);
    forall k | 0 <= k < |ps|
      ensures Inner(RegionEnclosing(segs).value, ps[k])
    {
      RegionHoldsBoxes(segs, i, ps[k]);
    }
  }

  /** Once every segment is straight, adding them all to the empty map
      of their region succeeds and counts the segments through each
      cell. */
  lemma FromSegmentsCounts(segs: seq<Segment>)
    requires |segs| > 0
    ensures var region := RegionEnclosing(segs).value;
      (forall i :: 0 <= i < |segs| ==> Straight(segs[i])) ==>
      && AddSegments(NewMap(region), segs).Ok?
      && forall c :: 0 <= c < Width(region) * Height(region) ==>
           AddSegments(NewMap(region), segs).value.data[c] == Coverage(segs, PointOf(region, c))
  {
    var region := RegionEnclosing(segs).value;
    if forall i :: 0 <= i < |segs| ==> Straight(segs[i]) {
      forall i | 0 <= i < |segs|
        ensures Straight(segs[i]) && AllInner(region, Points(segs[i]))
      {
        SegmentsInner(segs, i);
      }
      AddSegmentsCounts(NewMap(region), segs);
    }
  }

  /** `Map::from`: the map of the region around the segments, each added
      once. It panics on an empty list or on a segment that is not
      horizontal, vertical or diagonal; otherwise the counter of every
      cell is the number of segments through its point. */
  function FromSegments(segs: seq<Segment>): (r: Result<Map>)
    ensures !r.Err?
    ensures r.Ok? <==> |segs| > 0 && forall i :: 0 <= i < |segs| ==> Straight(segs[i])
    ensures r.Ok? ==> Valid(r.value) && r.value.boundaries == RegionEnclosing(segs).value
    ensures r.Ok? ==> forall c :: 0 <= c < |r.value.data| ==> r.value.data[c] == Coverage(segs, PointOf(r.value.boundaries, c))
  {
    match RegionEnclosing(segs)
    case Ok(region) =>
      FromSegmentsCounts(segs);
      AddSegments(NewMap(region), segs)
    case Panic(msg) => Panic(msg)
    case Err(msg) => Err(msg)
  }

  // ---------------------------------------------------------------------
  // Overlaps

  /** The counters at least `threshold`. */
  function AtLeast(data: seq<nat>, threshold: nat, n: nat): set<nat>
    requires n <= |data|
  {
    set c: nat | c < n && data[c] >= threshold
  }

  /** `count_overlaps`: the number of counters at least `threshold`. */
  method CountOverlaps(m: Map, threshold: nat) returns (count: nat)
    ensures count == |AtLeast(m.data, threshold, |m.data|)|
  {
    count := 0;
    for i := 0 to |m.data|
      invariant count == |AtLeast(m.data, threshold, i)|
    {
      if m.data[i] >= threshold {
        assert AtLeast(m.data, threshold, i + 1) == AtLeast(m.data, threshold, i) + {i};
        count := count + 1;
      } else {
        assert AtLeast(m.data, threshold, i + 1) == AtLeast(m.data, threshold, i);
      }
    }
  }

  lemma OverlapCells(m: Map, segs: seq<Segment>)
    requires Valid(m)
    requires forall c :: 0 <= c < |m.data| ==> m.data[c] == Coverage(segs, PointOf(m.boundaries, c))
    requires |segs| > 0 && m.boundaries == RegionEnclosing(segs).value
    ensures AtLeast(m.data, 2, |m.data|) == CrossingCells(segs)
  {
  }

  /** The points the segments pass through. */
  function Covered(segs: seq<Segment>): (ps: set<Point>)
    ensures forall p :: p in ps <==> Coverage(segs, p) > 0
    decreases |segs|
  {
    if |segs| == 0 then {}
    else (set p | p in Points(segs[0])) + Covered(segs[1..])
  }

  /** A point some segment passes through lies on one of them. */
  lemma CoveredWitness(segs: seq<Segment>, p: Point) returns (i: nat)
    requires p in Covered(segs)
    ensures i < |segs| && p in Points(segs[i])
  {
    i := CoverageWitness(segs, p);
  }

  /** A point with positive coverage lies on one of the segments. */
  lemma {:induction false} CoverageWitness(segs: seq<Segment>, p: Point) returns (i: nat)
    requires Coverage(segs, p) > 0
    ensures i < |segs| && p in Points(segs[i])
    decreases |segs|
  {
    if p in Points(segs[0]) {
      i := 0;
    } else {
      var j := CoverageWitness(segs[1..], p);
      assert segs[1..][j] == segs[j + 1];
      i := j + 1;
    }
  }

  /** The points of the segments where at least two of them meet. */
  function Crossings(segs: seq<Segment>): set<Point>
  {
    set p | p in Covered(segs) && Coverage(segs, p) >= 2
  }

  /** The counters a map of all the segments would hold at two or more. */
  function CrossingCells(segs: seq<Segment>): set<nat>
    requires |segs| > 0
  {
    var region := RegionEnclosing(segs).value;
    set c: nat | c < Width(region) * Height(region) && Coverage(segs, PointOf(region, c)) >= 2
  }

  lemma CellToCrossing(segs: seq<Segment>, c: nat)
    requires |segs| > 0 && c in CrossingCells(segs)
    ensures var region := RegionEnclosing(segs).value;
      Width(region) > 0 && PointOf(region, c) in Crossings(segs) && Cell(region, PointOf(region, c)) == c
  {
    var region := RegionEnclosing(segs).value;
    PointOfCell(region, c);
  }

  /** A crossing lies in the region, strictly inside its high edges. */
  lemma CrossingInner(segs: seq<Segment>, p: Point)
    requires forall i :: 0 <= i < |segs| ==> Straight(segs[i])
    requires p in Crossings(segs)
    ensures RegionEnclosing(segs).Ok? && Inner(RegionEnclosing(segs).value, p)
  {
    var i := CoveredWitness(segs, p);
    SegmentsInner(segs, i);
    var ps := Points(segs[i]);
    var k :| 0 <= k < |ps| && ps[k] == p;
  }

  lemma CrossingToCell(segs: seq<Segment>, p: Point)
    requires |segs| > 0 && forall i :: 0 <= i < |segs| ==> Straight(segs[i])
    requires p in Crossings(segs)
    ensures var region := RegionEnclosing(segs).value;
      && Width(region) > 0 && 0 <= Cell(region, p)
      && Cell(region, p) in CrossingCells(segs) && PointOf(region, Cell(region, p)) == p
  {
    var region := RegionEnclosing(segs).value;
    CrossingInner(segs, p);
    CellOfInner(region, p);
    var c: nat := Cell(region, p);
    assert Coverage(segs, PointOf(region, c)) >= 2;
  }

  /** The crossings are the points of the cells counted twice or more,
      one for one. */
  lemma CrossingsAreCells(segs: seq<Segment>)
    requires |segs| > 0 && forall i :: 0 <= i < |segs| ==> Straight(segs[i])
    ensures |Crossings(segs)| == |CrossingCells(segs)|
  {
    var region := RegionEnclosing(segs).value;
    var cells := CrossingCells(segs);
    var crossings := Crossings(segs);
    forall c | c in cells
      ensures Width(region) > 0 && PointOf(region, c) in crossings && Cell(region, PointOf(region, c)) == c
    {
      CellToCrossing(segs, c);
    }
    forall p | p in crossings
      ensures Width(region) > 0 && 0 <= Cell(region, p) && Cell(region, p) in cells && PointOf(region, Cell(region, p)) == p
    {
      CrossingToCell(segs, p);
    }
    var f: nat --> Point := (c: nat) requires Width(region) > 0 => PointOf(region, c);
    var g: Point --> nat := (p: Point) requires 0 <= Cell(region, p) => Cell(region, p) as nat;
    BijectionCard(cells, crossings, f, g);
  }

  /** The answer of both parts: the number of points where at least two
      of the segments meet, counted as the cells of their map whose
      counter is two or more. */
  method Overlaps(segs: seq<Segment>) returns (r: Result<nat>)
    ensures !r.Err?
    ensures r.Ok? <==> |segs| > 0 && forall i :: 0 <= i < |segs| ==> Straight(segs[i])
    ensures r.Ok? ==> r.value == |Crossings(segs)|
  {
    var m := FromSegments(segs);
    if !m.Ok? {
      return Panic(m.msg);
    }
    var count := CountOverlaps(m.value, 2);
    OverlapCells(m.value, segs);
    CrossingsAreCells(segs);
    r := Ok(count);
  }
}

=== FILE: day05_point.dfy ===
/** Day 5: points of the ocean floor, with `i64` coordinates. */
module OceanPoint {
  import opened Common

  datatype Point = Point(x: int, y: int)

  /** `+` and `+=`: component-wise. */
  function Add(p: Point, q: Point): Point
  {
    Point(p.x + q.x, p.y + q.y)
  }

  /** `-` and `-=`: component-wise. */
  function Sub(p: Point, q: Point): Point
  {
    Point(p.x - q.x, p.y - q.y)
  }

  /** Subtracting undoes adding, and adding undoes subtracting. */
  lemma AddSub(p: Point, q: Point)
    ensures Sub(Add(p, q), q) == p
    ensures Add(Sub(p, q), q) == p
  {
  }

  /** Adding is commutative and associative, with the origin as unit. */
  lemma AddLaws(p: Point, q: Point, o: Point)
    ensures Add(p, q) == Add(q, p)
    ensures Add(Add(p, q), o) == Add(p, Add(q, o))
    ensures Add(p, Point(0, 0)) == p
  {
  }

  /** Both coordinates fit in an `i64`. */
  predicate InRange(p: Point)
  {
    I64Lo <= p.x < I64Hi && I64Lo <= p.y < I64Hi
  }

  /** The error of a number that is not an `i64`; its kind is not told
      apart. */
  const IntError := "invalid digit found in string"

  /** `Point::from_str`: split at commas; the first piece is read as an
      `i64` before the second piece is looked for, so a bad first number
      is an error even without a comma, and a lone number panics on the
      missing piece. Pieces past the second are ignored, and nothing is
      trimmed. */
  function ParsePoint(s: string): (r: Result<Point>)
    ensures var parts := Split(s, ",");
      && (r.Ok? <==> ParseIntIn(parts[0], I64Lo, I64Hi).Some? && |parts| >= 2 && ParseIntIn(parts[1], I64Lo, I64Hi).Some?)
      && (r.Panic? <==> ParseIntIn(parts[0], I64Lo, I64Hi).Some? && |parts| < 2)
    ensures r.Ok? ==> var parts := Split(s, ",");
      && ParseIntIn(parts[0], I64Lo, I64Hi) == Some(r.value.x)
      && ParseIntIn(parts[1], I64Lo, I64Hi) == Some(r.value.y)
      && InRange(r.value)
    ensures r.Err? ==> r.msg == IntError
  {
    var parts := Split(s, ",");
    match ParseIntIn(parts[0], I64Lo, I64Hi)
    case None => Err(IntError)
    case Some(x) =>
      if |parts| < 2 then Panic("index out of bounds")
      else
        match ParseIntIn(parts[1], I64Lo, I64Hi)
        case None => Err(IntError)
        case Some(y) => Ok(Point(x, y))
  }

  /** A point as the puzzle writes it: `x,y`. */
  function ShowPoint(p: Point): (s: string)
    ensures |s| > 0 && !IsSpace(s[0]) && !IsSpace(s[|s| - 1])
    ensures '>' !in s
  {
    var s := ShowInt(p.x) + "," + ShowInt(p.y);
    assert s[0] == ShowInt(p.x)[0];
    assert s[|s| - 1] == ShowInt(p.y)[|ShowInt(p.y)| - 1];
    assert forall k :: 0 <= k < |s| ==> s[k] == ',' || IsDigit(s[k]) || s[k] == '-';
    s
  }

  /** A point written out reads back as itself. */
  lemma ParseShowPoint(p: Point)
    requires InRange(p)
    ensures ParsePoint(ShowPoint(p)) == Ok(p)
  {
    var parts := [ShowInt(p.x), ShowInt(p.y)];
    assert ',' !in parts[0] && ',' !in parts[1];
    SplitJoin(parts, ',');
    assert Join(parts, ",") == ShowPoint(p);
    ParseShowIntIn(p.x, I64Lo, I64Hi);
    ParseShowIntIn(p.y, I64Lo, I64Hi);
  }
}

=== FILE: day05_rect.dfy ===
/** Day 5: axis-aligned rectangles of the ocean floor, edges included. */
module OceanRect {
  import opened OceanPoint

  /** `Rect`: the corners `a` and `b`; the operations below keep `a` at
      the low end of both axes. */
  datatype Rect = Rect(a: Point, b: Point)

  predicate Normal(r: Rect)
  {
    r.a.x <= r.b.x && r.a.y <= r.b.y
  }

  /** `contains`: inclusive on all four edges. */
  predicate Contains(r: Rect, p: Point)
  {
    r.a.x <= p.x <= r.b.x && r.a.y <= p.y <= r.b.y
  }

  /** Both corners of `r` lie in `q`; for a normal `r` that puts all of
      `r` in `q`. */
  predicate Inside(r: Rect, q: Rect)
  {
    Contains(q, r.a) && Contains(q, r.b)
  }

  lemma InsideContains(r: Rect, q: Rect, p: Point)
    requires Inside(r, q) && Contains(r, p)
    ensures Contains(q, p)
  {
  }

  /** `v` lies between `u` and `w`, whichever of them is larger. */
  predicate Between(u: int, v: int, w: int)
  {
    u <= v <= w || w <= v <= u
  }

  function Min(u: int, v: int): int { if u <= v then u else v }
  function Max(u: int, v: int): int { if u <= v then v else u }

  /** `Rect::new`: the corners sorted per axis. The rectangle holds
      exactly the points lying between the two corners on both axes, so
      it holds both corners and lies inside every rectangle that holds
      them. */
  function New(a: Point, b: Point): (r: Rect)
    ensures Normal(r)
    ensures forall p :: Contains(r, p) <==> Between(a.x, p.x, b.x) && Between(a.y, p.y, b.y)
    ensures Contains(r, a) && Contains(r, b)
    ensures forall q :: Contains(q, a) && Contains(q, b) ==> Inside(r, q)
  {
    Rect(Point(Min(a.x, b.x), Min(a.y, b.y)), Point(Max(a.x, b.x), Max(a.y, b.y)))
  }

  /** The order of the corners does not matter. */
  lemma NewSymmetric(a: Point, b: Point)
    ensures New(a, b) == New(b, a)
  {
  }

  /** `Rect::union`: the low corner of the low corners and the high
      corner of the high corners. Of normal rectangles it is the smallest
      rectangle holding both. */
  function Union(r1: Rect, r2: Rect): (r: Rect)
    ensures Normal(r1) && Normal(r2) ==> Normal(r)
    ensures Normal(r1) && Normal(r2) ==> Inside(r1, r) && Inside(r2, r)
    ensures forall q :: Inside(r1, q) && Inside(r2, q) ==> Inside(r, q)
  {
    Rect(Point(Min(r1.a.x, r2.a.x), Min(r1.a.y, r2.a.y)), Point(Max(r1.b.x, r2.b.x), Max(r1.b.y, r2.b.y)))
  }

  /** The union does not depend on the order of its operands, and adds
      nothing to a normal rectangle united with itself. */
  lemma UnionLaws(r1: Rect, r2: Rect)
    ensures Union(r1, r2) == Union(r2, r1)
    ensures Normal(r1) ==> Union(r1, r1) == r1
  {
  }

  /** `width`: the distance between the corners along x. */
  function Width(r: Rect): (w: nat)
    ensures Normal(r) ==> r.a.x + w == r.b.x
  {
    if r.a.x <= r.b.x then r.b.x - r.a.x else r.a.x - r.b.x
  }

  /** `height`: the distance between the corners along y. */
  function Height(r: Rect): (h: nat)
    ensures Normal(r) ==> r.a.y + h == r.b.y
  {
    if r.a.y <= r.b.y then r.b.y - r.a.y else r.a.y - r.b.y
  }

  /** The box of two points is as wide and as high as the points are far
      apart on each axis, in whichever order they come. */
  lemma NewSize(a: Point, b: Point)
    ensures Width(New(a, b)) == Width(Rect(a, b)) == Width(Rect(b, a))
    ensures Height(New(a, b)) == Height(Rect(a, b)) == Height(Rect(b, a))
  {
  }
}

=== FILE: day05_segment.dfy ===
/** Day 5: line segments of hydrothermal vents and the points they cover. */
module OceanSegment {
  import opened Common
  import opened OceanPoint
  import opened OceanRect

  datatype Segment = Segment(a: Point, b: Point)

  /** `bbox`: the box with the two ends as corners. */
  function BBox(s: Segment): Rect
  {
    New(s.a, s.b)
  }

  predicate IsHorizontal(s: Segment) { s.a.y == s.b.y }
  predicate IsVertical(s: Segment) { s.a.x == s.b.x }
  predicate IsDiagonal(s: Segment) { Abs(s.a.x - s.b.x) == Abs(s.a.y - s.b.y) }

  /** The segments `add_segment` accepts. */
  predicate Straight(s: Segment)
  {
    IsHorizontal(s) || IsVertical(s) || IsDiagonal(s)
  }

  function Abs(v: int): nat
  {
    if v < 0 then -v else v
  }

  /** `v / v.abs()` for a non-zero `v`, and zero for zero: the division is
      exact, so the sign times the magnitude gives `v` back. */
  function Sign(v: int): (r: int)
    ensures -1 <= r <= 1
    ensures r * Abs(v) == v
    ensures r == 0 <==> v == 0
  {
    if v > 0 then 1 else if v < 0 then -1 else 0
  }

  /** The iterator's step: the sign of `b - a` on each axis. */
  function Step(s: Segment): (d: Point)
    ensures -1 <= d.x <= 1 && -1 <= d.y <= 1
    ensures d == Point(0, 0) <==> s.a == s.b
  {
    Point(Sign(s.b.x - s.a.x), Sign(s.b.y - s.a.y))
  }

  // ---------------------------------------------------------------------
  // Reading and writing

  /** `Segment::from_str`: split at `->`; each side is trimmed and read as
      a point, the left one before the right side is looked for. An error
      in a point is passed on; a line without an arrow panics on the
      missing piece; text after a second arrow is ignored. */
  function ParseSegment(line: string): (r: Result<Segment>)
    ensures var parts := Split(line, "->");
      && (r.Ok? <==> ParsePoint(Trim(parts[0])).Ok? && |parts| >= 2 && ParsePoint(Trim(parts[1])).Ok?)
      && (ParsePoint(Trim(parts[0])).Ok? && |parts| < 2 ==> r == Panic("index out of bounds"))
      && (!ParsePoint(Trim(parts[0])).Ok? ==> r.msg == ParsePoint(Trim(parts[0])).msg)
    ensures r.Ok? ==> var parts := Split(line, "->");
      r.value == Segment(ParsePoint(Trim(parts[0])).value, ParsePoint(Trim(parts[1])).value)
  {
    var parts := Split(line, "->");
    match ParsePoint(Trim(parts[0]))
    case Err(m) => Err(m)
    case Panic(m) => Panic(m)
    case Ok(a) =>
      if |parts| < 2 then Panic("index out of bounds")
      else
        match ParsePoint(Trim(parts[1]))
        case Err(m) => Err(m)
        case Panic(m) => Panic(m)
        case Ok(b) => Ok(Segment(a, b))
  }

  /** A segment as the puzzle writes it: `x1,y1 -> x2,y2`. */
  function ShowSegment(s: Segment): string
  {
    ShowPoint(s.a) + " -> " + ShowPoint(s.b)
  }

  /** A segment written out reads back as itself. */
  lemma ParseShowSegment(s: Segment)
    requires InRange(s.a) && InRange(s.b)
    ensures ParseSegment(ShowSegment(s)) == Ok(s)
  {
    SplitShowSegment(s);
    TrimPadded(ShowPoint(s.a));
    TrimPadded(ShowPoint(s.b));
    ParseShowPoint(s.a);
    ParseShowPoint(s.b);
  }

  /** The arrow splits a written segment into its two ends, each padded
      with one space. */
  lemma SplitShowSegment(s: Segment)
    ensures Split(ShowSegment(s), "->") == [ShowPoint(s.a) + " ", " " + ShowPoint(s.b)]
  {
    var left := ShowPoint(s.a) + " ";
    var right := " " + ShowPoint(s.b);
    assert ShowSegment(s) == left + "->" + right;
    assert '>' !in left && '>' !in right;
    SplitTwo(left, "->", right);
  }

  // ---------------------------------------------------------------------
  // The points of a segment

  /** The number of steps from one end to the other. */
  function Length(s: Segment): nat
  {
    Max(Abs(s.b.x - s.a.x), Abs(s.b.y - s.a.y))
  }

  /** The point `i` steps from `a`. */
  function At(s: Segment, i: int): Point
  {
    var d := Step(s);
    Point(s.a.x + i * d.x, s.a.y + i * d.y)
  }

  /** One axis of a walk: from `u` in steps of the sign of `d`, the walk
      stays between `u` and `u + d` for exactly the first `|d|` steps,
      or for ever when `d` is zero. */
  lemma AxisWithin(u: int, d: int, i: int)
    ensures Between(u, u + i * Sign(d), u + d) <==> d == 0 || 0 <= i <= Abs(d)
  {
    if d > 0 {
      assert i * Sign(d) == i;
    } else if d < 0 {
      assert i * Sign(d) == -i;
    }
  }

  /** One axis of a walk reaches `u + d` after `n` steps when `d` is zero
      or `n` is its size. */
  lemma AxisEnd(u: int, d: int, n: nat)
    requires d == 0 || Abs(d) == n
    ensures u + n * Sign(d) == u + d
  {
    if d > 0 {
      assert n * Sign(d) == n;
    } else if d < 0 {
      assert n * Sign(d) + n == 0;
    }
  }

  /** On a straight segment with two distinct ends, the walk from `a` is
      in the box exactly for the first `Length` steps. */
  lemma OnSegment(s: Segment, i: int)
    requires Straight(s) && s.a != s.b
    ensures Contains(BBox(s), At(s, i)) <==> 0 <= i <= Length(s)
  {
    AxisWithin(s.a.x, s.b.x - s.a.x, i);
    AxisWithin(s.a.y, s.b.y - s.a.y, i);
  }

  /** The points a segment should cover: from `a` to `b` in steps of
      `Step`. For a straight segment there are `Length + 1` of them, all
      different, in the box, starting at `a` and ending at `b`; a segment
      whose ends coincide covers its one point. */
  function Points(s: Segment): (ps: seq<Point>)
    ensures |ps| == Length(s) + 1
    ensures forall i :: 0 <= i < |ps| ==> ps[i] == At(s, i)
    ensures ps[0] == s.a
    ensures Straight(s) ==> ps[|ps| - 1] == s.b
    ensures Straight(s) ==> forall i :: 0 <= i < |ps| ==> Contains(BBox(s), ps[i])
    ensures Straight(s) ==> NoRepeats(ps)
  {
    var ps := Walk(s, 0, Length(s) + 1);
    if Straight(s) then
      PointsEnd(s);
      PointsInBox(s);
      AtInjective(s);
      ps
    else ps
  }

  /** The points `i` to `j - 1` steps from `a`. */
  function Walk(s: Segment, i: int, j: int): (ps: seq<Point>)
    ensures |ps| == if i <= j then j - i else 0
    ensures forall k :: 0 <= k < |ps| ==> ps[k] == At(s, i + k)
    decreases j - i
  {
    if i >= j then [] else [At(s, i)] + Walk(s, i + 1, j)
  }

  lemma PointsEnd(s: Segment)
    requires Straight(s)
    ensures At(s, Length(s)) == s.b
  {
    AxisEnd(s.a.x, s.b.x - s.a.x, Length(s));
    AxisEnd(s.a.y, s.b.y - s.a.y, Length(s));
  }

  lemma PointsInBox(s: Segment)
    requires Straight(s)
    ensures forall i :: 0 <= i <= Length(s) ==> Contains(BBox(s), At(s, i))
  {
    if s.a != s.b {
      forall i | 0 <= i <= Length(s)
        ensures Contains(BBox(s), At(s, i))
      {
        OnSegment(s, i);
      }
    }
  }

  lemma AtInjective(s: Segment)
    requires Straight(s)
    ensures forall i, j :: 0 <= i < j <= Length(s) ==> At(s, i) != At(s, j)
  {
    forall i, j | 0 <= i < j <= Length(s)
      ensures At(s, i) != At(s, j)
    {
      var d := Step(s);
      assert d != Point(0, 0);
      if d.x != 0 {
        assert At(s, j).x - At(s, i).x == (j - i) * d.x;
      } else {
        assert At(s, j).y - At(s, i).y == (j - i) * d.y;
      }
    }
  }

  // ---------------------------------------------------------------------
  // The iterator as written

  /** `SegmentIterator`: the segment, the point to yield next, and the
      step. */
  datatype SegmentIterator = SegmentIterator(segment: Segment, current: Point, step: Point)

  /** `into_iter`: start at `a` with the segment's step. */
  function IntoIter(s: Segment): SegmentIterator
  {
    SegmentIterator(s, s.a, Step(s))
  }

  /** `next`: yield the current point and move one step on while the
      current point is in the segment's box; once it is not, yield nothing
      and stay. */
  function Next(it: SegmentIterator): (r: (Option<Point>, SegmentIterator))
    ensures r.0.Some? <==> Contains(BBox(it.segment), it.current)
    ensures r.0.Some? ==> r.0.value == it.current && r.1 == it.(current := Add(it.current, it.step))
    ensures r.0.None? ==> r.1 == it
  {
    if Contains(New(it.segment.a, it.segment.b), it.current) then
      (Some(it.current), it.(current := Add(it.current, it.step)))
    else (None, it)
  }

  /** Up to `n` calls of `next`: the points yielded, and whether a call
      yielded nothing (after which the loop over the iterator ends). */
  function Run(it: SegmentIterator, n: nat): (r: (seq<Point>, bool))
    ensures |r.0| <= n
    ensures r.1 ==> |r.0| < n
    decreases n
  {
    if n == 0 then ([], false)
    else
      match Next(it).0
      case None => ([], true)
      case Some(p) =>
        var rest := Run(Next(it).1, n - 1);
        ([p] + rest.0, rest.1)
  }

  lemma RunUnfold(it: SegmentIterator, n: nat)
    requires n > 0
    ensures Run(it, n) ==
      if Contains(BBox(it.segment), it.current) then
        var rest := Run(it.(current := Add(it.current, it.step)), n - 1);
        ([it.current] + rest.0, rest.1)
      else ([], true)
  {
  }

  lemma AtNext(s: Segment, i: int)
    ensures Add(At(s, i), Step(s)) == At(s, i + 1)
  {
    var d := Step(s);
    assert (i + 1) * d.x == i * d.x + d.x;
    assert (i + 1) * d.y == i * d.y + d.y;
  }

  /** From the `i`-th point on, the iterator of a straight segment with
      two distinct ends yields the remaining points in order and then
      stops. */
  lemma {:induction false} RunFrom(s: Segment, i: nat, n: nat)
    requires Straight(s) && s.a != s.b && i <= Length(s) + 1
    ensures Run(SegmentIterator(s, At(s, i), Step(s)), n) == (Walk(s, i, Min(i + n, Length(s) + 1)), i + n > Length(s) + 1)
    decreases n
  {
    var it := SegmentIterator(s, At(s, i), Step(s));
    if n > 0 {
      RunUnfold(it, n);
      OnSegment(s, i);
      if i <= Length(s) {
        AtNext(s, i);
        assert it.(current := Add(it.current, it.step)) == SegmentIterator(s, At(s, i + 1), Step(s));
        RunFrom(s, i + 1, n - 1);
      }
    }
  }

  /** The iterator of a straight segment with two distinct ends yields
      exactly its `Length + 1` points, from `a` to `b`, and then stops. */
  lemma IterateStraight(s: Segment, n: nat)
    requires Straight(s) && s.a != s.b
    ensures Run(IntoIter(s), n) == (Points(s)[..Min(n, Length(s) + 1)], n > Length(s) + 1)
    ensures Run(IntoIter(s), Length(s) + 2) == (Points(s), true)
  {
    assert At(s, 0) == s.a;
    RunFrom(s, 0, n);
    RunFrom(s, 0, Length(s) + 2);
    PointsPrefix(s, Min(n, Length(s) + 1));
  }

  lemma PointsPrefix(s: Segment, m: nat)
    requires m <= Length(s) + 1
    ensures Points(s)[..m] == Walk(s, 0, m)
  {
    var ps := Points(s)[..m];
    var ws := Walk(s, 0, m);
    assert |ps| == |ws|;
    forall k | 0 <= k < m
      ensures ps[k] == ws[k]
    {
      assert ps[k] == At(s, k);
    }
  }

  /** `n` copies of `p`. */
  function Repeat(p: Point, n: nat): (ps: seq<Point>)
    ensures |ps| == n && forall i :: 0 <= i < n ==> ps[i] == p
  {
    seq(n, _ => p)
  }

  lemma {:induction false} RunStuck(it: SegmentIterator, n: nat)
    requires it.step == Point(0, 0) && Contains(BBox(it.segment), it.current)
    ensures Run(it, n) == (Repeat(it.current, n), false)
    decreases n
  {
    if n > 0 {
      RunUnfold(it, n);
      assert it.(current := Add(it.current, it.step)) == it;
      RunStuck(it, n - 1);
      assert Repeat(it.current, n) == [it.current] + Repeat(it.current, n - 1);
    }
  }

  /** A segment whose two ends are the same point, such as `5,5 -> 5,5`,
      counts as horizontal, vertical and diagonal, and its iterator never
      ends: its step is zero, so every call of `next` yields `a` again. */
  lemma SinglePointNeverEnds(s: Segment, n: nat)
    requires s.a == s.b
    ensures Straight(s)
    ensures Run(IntoIter(s), n) == (Repeat(s.a, n), false)
  {
    RunStuck(IntoIter(s), n);
  }
}

=== FILE: day06_lanternfish.dfy ===
/** Day 6: a school of lanternfish kept as the number of fish at each
    countdown value, advanced one day at a time. */
module Lanternfish {
  import opened Common

  /** The countdown a fish restarts from after spawning. */
  const ResetCountdown: nat := 6
  /** The countdown of a newborn fish. */
  const NewFishCountdown: nat := 8
  /** One bucket per countdown value `0..=8`. */
  const CountdownMapSize: nat := NewFishCountdown + 1

  /** `School::fish`: bucket `k` holds the number of fish whose countdown
      is `k`. */
  type School = s: seq<nat> | |s| == CountdownMapSize witness [0, 0, 0, 0, 0, 0, 0, 0, 0]

  /** `School::new`: no fish at all. */
  function New(): (s: School)
    ensures Size(s) == 0
  {
    [0, 0, 0, 0, 0, 0, 0, 0, 0]
  }

  /** `size`: the number of fish, bucket by bucket. */
  function Size(s: School): nat
  {
    s[0] + s[1] + s[2] + s[3] + s[4] + s[5] + s[6] + s[7] + s[8]
  }

  /** `add_fish`: `nfish` more fish at `countdown`; a countdown past the
      last bucket panics on the array index. */
  function AddFish(s: School, countdown: nat, nfish: nat): (r: Result<School>)
    ensures !r.Err?
    ensures r.Ok? <==> countdown < CountdownMapSize
    ensures r.Ok? ==> forall k :: 0 <= k < CountdownMapSize ==> r.value[k] == s[k] + (if k == countdown then nfish else 0)
    ensures r.Ok? ==> Size(r.value) == Size(s) + nfish
  {
    if countdown < CountdownMapSize then
      Ok(s[countdown := s[countdown] + nfish])
    else Panic("index out of bounds")
  }

  // ---------------------------------------------------------------------
  // One day

  /** The school a day later: every countdown goes down by one; the fish
      at zero restart at six and each spawns a new fish at eight. */
  function NextDay(s: School): (r: School)
  {
    seq(CountdownMapSize, k requires 0 <= k < CountdownMapSize =>
      (if k < NewFishCountdown then s[k + 1] else 0)
      + (if k == ResetCountdown || k == NewFishCountdown then s[0] else 0))
  }

  /** After `countdown` buckets of the loop: what bucket `k` of the copy
      holds. Buckets not yet visited still hold their own fish, and every
      bucket has received the fish moved into it so far. */
  function Partial(s: School, countdown: nat, k: nat): int
    requires k < CountdownMapSize
  {
    (if k < countdown then 0 else s[k])
    + (if k + 1 < countdown && k + 1 < CountdownMapSize then s[k + 1] else 0)
    + (if 0 < countdown && (k == ResetCountdown || k == NewFishCountdown) then s[0] else 0)
  }

  /** `advance_day`: bucket by bucket, the fish of each countdown are
      taken out of a copy and put where they go. A bucket is emptied
      before any lower bucket is visited, and only lower buckets, the
      reset bucket and the newborn bucket receive fish, so the subtraction
      never goes below zero; the copy ends as the next day's school. */
  method AdvanceDay(s: School) returns (r: School)
    ensures r == NextDay(s)
    ensures Size(r) == Size(s) + s[0]
  {
    var next: seq<nat> := s;
    for countdown := 0 to CountdownMapSize
      invariant |next| == CountdownMapSize
      invariant forall k :: 0 <= k < CountdownMapSize ==> next[k] == Partial(s, countdown, k)
    {
      var current := s[countdown];
      next := next[countdown := next[countdown] - current];
      if countdown > 0 {
        next := next[countdown - 1 := next[countdown - 1] + current];
      } else {
        next := next[ResetCountdown := next[ResetCountdown] + current];
        next := next[NewFishCountdown := next[NewFishCountdown] + current];
      }
    }
    r := next;
    NextDaySize(s);
  }

  /** A day adds one fish for every fish whose countdown was zero. */
  lemma NextDaySize(s: School)
    ensures Size(NextDay(s)) == Size(s) + s[0]
  {
  }

  // ---------------------------------------------------------------------
  // Fish one by one

  /** How many of the timers are `k`. */
  function Count(ts: seq<nat>, k: nat): nat
  {
    if |ts| == 0 then 0 else Count(ts[..|ts| - 1], k) + (if ts[|ts| - 1] == k then 1 else 0)
  }

  lemma {:induction false} CountAppend(a: seq<nat>, b: seq<nat>, k: nat)
    ensures Count(a + b, k) == Count(a, k) + Count(b, k)
    decreases |b|
  {
    if |b| > 0 {
      assert (a + b)[..|a + b| - 1] == a + b[..|b| - 1];
      CountAppend(a, b[..|b| - 1], k);
    } else {
      assert a + b == a;
    }
  }

  predicate Timers(ts: seq<nat>)
  {
    forall i :: 0 <= i < |ts| ==> ts[i] <= NewFishCountdown
  }

  /** The school of a list of fish timers. */
  function Buckets(ts: seq<nat>): (s: School)
  {
    seq(CountdownMapSize, k requires 0 <= k < CountdownMapSize => Count(ts, k))
  }

  /** One fish a day later: its timer goes down, or it restarts at six
      and a new fish starts at eight. */
  function Age(t: nat): seq<nat>
  {
    if t == 0 then [ResetCountdown, NewFishCountdown] else [t - 1]
  }

  /** Every fish a day later, each followed by the fish it spawned. */
  function Tick(ts: seq<nat>): (r: seq<nat>)
    ensures Timers(ts) ==> Timers(r)
  {
    if |ts| == 0 then [] else Tick(ts[..|ts| - 1]) + Age(ts[|ts| - 1])
  }

  /** How many fish of `ts` have timer `k` a day later, counted from
      `ts`: those one above `k`, and at six and eight the fish at zero. */
  function NextCount(ts: seq<nat>, k: nat): nat
  {
    (if k < NewFishCountdown then Count(ts, k + 1) else 0)
    + (if k == ResetCountdown || k == NewFishCountdown then Count(ts, 0) else 0)
  }

  lemma CountAge(t: nat, k: nat)
    ensures Count(Age(t), k) == if t == 0 then (if k == ResetCountdown || k == NewFishCountdown then 1 else 0) else (if k == t - 1 then 1 else 0)
  {
    if t == 0 {
      var a := Age(t);
      assert a[..1] == [ResetCountdown];
      assert Count(a, k) == Count([ResetCountdown], k) + (if k == NewFishCountdown then 1 else 0);
      assert [ResetCountdown][..0] == [];
      assert Count([ResetCountdown], k) == Count([], k) + (if k == ResetCountdown then 1 else 0);
    } else {
      assert Age(t)[..0] == [];
    }
  }

  lemma {:induction false} TickCount(ts: seq<nat>, k: nat)
    requires Timers(ts)
    ensures Count(Tick(ts), k) == NextCount(ts, k)
    decreases |ts|
  {
    if |ts| > 0 {
      var init := ts[..|ts| - 1];
      var t := ts[|ts| - 1];
      TickCount(init, k);
      CountAppend(Tick(init), Age(t), k);
      CountAge(t, k);
    }
  }

  /** The buckets follow the fish: a day of the school is a day of every
      fish in it. */
  lemma TickBuckets(ts: seq<nat>)
    requires Timers(ts)
    ensures Buckets(Tick(ts)) == NextDay(Buckets(ts))
  {
    forall k | 0 <= k < CountdownMapSize
      ensures Buckets(Tick(ts))[k] == NextDay(Buckets(ts))[k]
    {
      TickCount(ts, k);
    }
  }

  /** The school holds one fish per timer. */
  lemma {:induction false} SizeBuckets(ts: seq<nat>)
    requires Timers(ts)
    ensures Size(Buckets(ts)) == |ts|
    decreases |ts|
  {
    if |ts| > 0 {
      SizeBuckets(ts[..|ts| - 1]);
    }
  }

  // ---------------------------------------------------------------------
  // Many days

  /** The school after `n` days. */
  function Days(s: School, n: nat): (r: School)
  {
    if n == 0 then s else NextDay(Days(s, n - 1))
  }

  /** The fish after `n` days. */
  function Ticks(ts: seq<nat>, n: nat): (r: seq<nat>)
    ensures Timers(ts) ==> Timers(r)
  {
    if n == 0 then ts else Tick(Ticks(ts, n - 1))
  }

  lemma {:induction false} DaysBuckets(ts: seq<nat>, n: nat)
    requires Timers(ts)
    ensures Days(Buckets(ts), n) == Buckets(Ticks(ts, n))
  {
    if n > 0 {
      DaysBuckets(ts, n - 1);
      TickBuckets(Ticks(ts, n - 1));
    }
  }

  /** `simulate`: `n` days of `advance_day`, then the size. */
  method Simulate(s: School, n: nat) returns (size: nat)
    ensures size == Size(Days(s, n))
    ensures size >= Size(s)
  {
    var school := s;
    for i := 0 to n
      invariant school == Days(s, i)
      invariant Size(school) >= Size(s)
    {
      school := AdvanceDay(school);
    }
    size := Size(school);
  }

  /** Counting the school after `n` days counts the fish after `n`
      days. */
  lemma SimulateCountsFish(ts: seq<nat>, n: nat)
    requires Timers(ts)
    ensures Size(Days(Buckets(ts), n)) == |Ticks(ts, n)|
  {
    DaysBuckets(ts, n);
    SizeBuckets(Ticks(ts, n));
  }

  // ---------------------------------------------------------------------
  // The input

  const FishMessage := "Could not parse number of fish"

  /** The loop of `part1` and `part2` over the comma-separated pieces:
      each piece is read as a `u8` and adds one fish at that countdown.
      A piece that is not a `u8` panics with the parse message before any
      later piece is looked at; a countdown past eight panics on the array
      index. */
  function AddPieces(s: School, pieces: seq<string>): (r: Result<School>)
    ensures !r.Err?
    ensures r.Ok? <==> AllBytes(pieces) && Timers(ParseBytes(pieces, FishMessage).value)
    ensures r.Ok? ==> forall k :: 0 <= k < CountdownMapSize ==> r.value[k] == s[k] + Count(ParseBytes(pieces, FishMessage).value, k)
    ensures r.Panic? ==> r.msg == FishMessage || r.msg == "index out of bounds"
    decreases |pieces|
  {
    if |pieces| == 0 then
      assert ParseBytes(pieces, FishMessage).value == [];
      Ok(s)
    else if !IsByte(pieces[0]) then Panic(FishMessage)
    else
      var t := ParseNat(pieces[0]).value;
      match AddFish(s, t, 1)
      case Ok(s1) =>
        var r := AddPieces(s1, pieces[1..]);
        AddPiecesStep(pieces, t);
        r
      case Panic(m) =>
        AddPiecesStep(pieces, t);
        Panic(m)
      case Err(m) => Err(m)
  }

  /** The timers of a list are its first timer and then the rest's. */
  lemma TimersCons(t: nat, ts: seq<nat>)
    ensures Timers([t] + ts) <==> t <= NewFishCountdown && Timers(ts)
  {
    assert ([t] + ts)[0] == t;
    assert forall i :: 1 <= i < |ts| + 1 ==> ([t] + ts)[i] == ts[i - 1];
    assert forall i :: 0 <= i < |ts| ==> ts[i] == ([t] + ts)[i + 1];
  }

  /** Counting a list counts its first timer and then the rest. */
  lemma CountCons(t: nat, ts: seq<nat>, k: nat)
    ensures Count([t] + ts, k) == (if t == k then 1 else 0) + Count(ts, k)
  {
    CountAppend([t], ts, k);
    assert [t][..0] == [];
  }

  /** One piece of the loop: a list led by the `u8` `t` reads when the
      rest does, its timers are `t` and then the rest's, and it counts
      `t` once more than the rest. */
  lemma AddPiecesStep(pieces: seq<string>, t: nat)
    requires |pieces| > 0 && ParseNat(pieces[0]) == Some(t) && t < 256
    ensures AllBytes(pieces) <==> AllBytes(pieces[1..])
    ensures AllBytes(pieces) ==>
      var ts := ParseBytes(pieces, FishMessage).value;
      var rest := ParseBytes(pieces[1..], FishMessage).value;
      && (Timers(ts) <==> t <= NewFishCountdown && Timers(rest))
      && forall k :: 0 <= k < CountdownMapSize ==> Count(ts, k) == (if t == k then 1 else 0) + Count(rest, k)
  {
    ParseBytesCons(pieces, FishMessage);
    if AllBytes(pieces) {
      var rest := ParseBytes(pieces[1..], FishMessage).value;
      TimersCons(t, rest);
      forall k | 0 <= k < CountdownMapSize
        ensures Count([t] + rest, k) == (if t == k then 1 else 0) + Count(rest, k)
      {
        CountCons(t, rest, k);
      }
    }
  }

  lemma SchoolOfCounts(s: School, ts: seq<nat>)
    requires forall k :: 0 <= k < CountdownMapSize ==> s[k] == New()[k] + Count(ts, k)
    ensures s == Buckets(ts)
  {
  }

  /** Into a new school, the loop adds exactly the buckets of the
      timers it read. */
  lemma AddPiecesBuckets(pieces: seq<string>)
    ensures AddPieces(New(), pieces).Ok? ==> AddPieces(New(), pieces).value == Buckets(ParseBytes(pieces, FishMessage).value)
  {
    var r := AddPieces(New(), pieces);
    if r.Ok? {
      var ts := ParseBytes(pieces, FishMessage).value;
      SchoolOfCounts(r.value, ts);
    }
  }

  /** `part1` and `part2` without the printing: the first line, trimmed
      and split on commas, read into a new school. When it reads, the
      school is the buckets of the timers on the line. */
  function ReadSchool(line: string): (r: Result<School>)
    ensures !r.Err?
    ensures r.Ok? <==> ParseByteList(line, FishMessage).Ok? && Timers(ParseByteList(line, FishMessage).value)
    ensures r.Ok? ==> r.value == Buckets(ParseByteList(line, FishMessage).value)
  {
    ParseByteListPieces(line, FishMessage);
    AddPiecesBuckets(Split(Trim(line), ","));
    AddPieces(New(), Split(Trim(line), ","))
  }

  /** Writing timers comma-separated and reading them back gives their
      school. */
  lemma ReadShowSchool(ts: seq<nat>)
    requires |ts| > 0 && Timers(ts)
    ensures ReadSchool(Join(Shown(ts), ",")) == Ok(Buckets(ts))
  {
    ParseShowByteList(ts, FishMessage);
  }

  /** The days simulated by `part1` and `part2`. */
  const PartOneDays: nat := 80
  const PartTwoDays: nat := 256

  /** A part: the school read from the line, `days` days simulated, and
      the number of fish counted. */
  method Part(line: string, days: nat) returns (r: Result<nat>)
    ensures !r.Err?
    ensures r.Ok? <==> ReadSchool(line).Ok?
    ensures r.Ok? ==> var ts := ParseByteList(line, FishMessage).value;
      r.value == |Ticks(ts, days)|
  {
    var school := ReadSchool(line);
    if !school.Ok? {
      return Panic(school.msg);
    }
    var size := Simulate(school.value, days);
    SimulateCountsFish(ParseByteList(line, FishMessage).value, days);
    r := Ok(size);
  }
}

=== FILE: day07_crabs.dfy ===
/** Day 7: crab submarines lining up at the position that costs the
    least fuel. */
module CrabFuel {
  import opened Common

  /** `CostMode`: how the fuel of one move grows with its distance. */
  datatype CostMode = Linear | Quadratic

  function Distance(pos: int, target: int): nat
  {
    if pos <= target then target - pos else pos - target
  }

  /** 1 + 2 + ... + d: the fuel of a move of `d` steps where each step
      costs one more than the last. */
  function Triangle(d: nat): nat
  {
    if d == 0 then 0 else Triangle(d - 1) + d
  }

  /** The closed form the source computes is the triangular number. */
  lemma {:induction false} TriangleFormula(d: nat)
    ensures Triangle(d) == d * (d + 1) / 2
  {
    if d > 0 {
      TriangleFormula(d - 1);
      assert (d - 1) * d + 2 * d == d * (d + 1);
      assert (d - 1) * d == 2 * ((d - 1) * d / 2) by {
        TriangleEven(d - 1);
      }
    }
  }

  /** The product of two consecutive numbers is even. */
  lemma {:induction false} TriangleEven(d: nat)
    ensures d * (d + 1) % 2 == 0
  {
    if d > 0 {
      TriangleEven(d - 1);
      assert d * (d + 1) == (d - 1) * d + 2 * d;
    }
  }

  /** `fuel_cost`: the distance itself, or the triangular number of the
      distance. Either way nothing is paid exactly when the crab is
      already there, and a quadratic move never costs less than a linear
      one. */
  function FuelCost(pos: int, target: int, mode: CostMode): (c: nat)
    ensures mode == Linear ==> c == Distance(pos, target)
    ensures mode == Quadratic ==> c == Triangle(Distance(pos, target))
    ensures c == 0 <==> pos == target
    ensures c >= Distance(pos, target)
  {
    var d := Distance(pos, target);
    TriangleFormula(d);
    TriangleAtLeast(d);
    match mode
    case Linear => d
    case Quadratic => d * (d + 1) / 2
  }

  lemma {:induction false} TriangleAtLeast(d: nat)
    ensures Triangle(d) >= d
    ensures Triangle(d) == 0 <==> d == 0
  {
    if d > 0 {
      TriangleAtLeast(d - 1);
    }
  }

  /** A crab moving to a target costs what the target's crab would pay
      to move to it. */
  lemma FuelCostSymmetric(pos: int, target: int, mode: CostMode)
    ensures FuelCost(pos, target, mode) == FuelCost(target, pos, mode)
  {
  }

  lemma {:induction false} TriangleMono(d: nat, e: nat)
    requires d <= e
    ensures Triangle(d) <= Triangle(e)
    decreases e
  {
    if d < e {
      TriangleMono(d, e - 1);
    }
  }

  /** A longer move never costs less. */
  lemma FuelCostMono(pos: int, t: int, u: int, mode: CostMode)
    requires Distance(pos, t) <= Distance(pos, u)
    ensures FuelCost(pos, t, mode) <= FuelCost(pos, u, mode)
  {
    TriangleMono(Distance(pos, t), Distance(pos, u));
  }

  /** The fuel of all crabs moving to `target`, as a sum. */
  function Total(positions: seq<int>, target: int, mode: CostMode): nat
  {
    if |positions| == 0 then 0
    else Total(positions[..|positions| - 1], target, mode) + FuelCost(positions[|positions| - 1], target, mode)
  }

  /** `total_fuel_cost`: the costs of the crabs one after another. */
  method TotalFuelCost(positions: seq<int>, target: int, mode: CostMode) returns (cost: nat)
    ensures cost == Total(positions, target, mode)
  {
    cost := 0;
    for i := 0 to |positions|
      invariant cost == Total(positions[..i], target, mode)
    {
      assert positions[..i + 1][..i] == positions[..i];
      cost := cost + FuelCost(positions[i], target, mode);
    }
    assert positions[..|positions|] == positions;
  }

  /** The total is zero exactly when every crab is already at the
      target. */
  lemma {:induction false} TotalZero(positions: seq<int>, target: int, mode: CostMode)
    ensures Total(positions, target, mode) == 0 <==> forall i :: 0 <= i < |positions| ==> positions[i] == target
  {
    if |positions| > 0 {
      var init := positions[..|positions| - 1];
      TotalZero(init, target, mode);
      assert forall i :: 0 <= i < |init| ==> init[i] == positions[i];
    }
  }

  /** Moving every crab no further costs no more in total. */
  lemma {:induction false} TotalMono(positions: seq<int>, t: int, u: int, mode: CostMode)
    requires forall i :: 0 <= i < |positions| ==> Distance(positions[i], t) <= Distance(positions[i], u)
    ensures Total(positions, t, mode) <= Total(positions, u, mode)
  {
    if |positions| > 0 {
      var n := |positions| - 1;
      var init := positions[..n];
      assert forall i :: 0 <= i < |init| ==> init[i] == positions[i];
      TotalMono(init, t, u, mode);
      FuelCostMono(positions[n], t, u, mode);
    }
  }

  /** Every position lies in `[lo, hi]`. */
  predicate Within(positions: seq<int>, lo: int, hi: int)
  {
    forall i :: 0 <= i < |positions| ==> lo <= positions[i] <= hi
  }

  /** Pulling a target into `[lo, hi]` brings it nearer to every crab
      there, so no target outside the range of the crabs beats the
      nearest one inside it. */
  lemma ClampNoWorse(positions: seq<int>, lo: int, hi: int, t: int, mode: CostMode)
    requires lo <= hi && Within(positions, lo, hi)
    ensures var c := if t < lo then lo else if t > hi then hi else t;
      Total(positions, c, mode) <= Total(positions, t, mode)
  {
    var c := if t < lo then lo else if t > hi then hi else t;
    TotalMono(positions, c, t, mode);
  }

  /** A cost no greater than the total of any target in `[lo, hi]`, the
      range of the crabs, is no greater than the total of any target at
      all. */
  lemma RangeMinimumIsGlobal(positions: seq<int>, lo: int, hi: int, cost: nat, mode: CostMode)
    requires lo <= hi && Within(positions, lo, hi)
    requires forall t :: lo <= t <= hi ==> cost <= Total(positions, t, mode)
    ensures forall t :: cost <= Total(positions, t, mode)
  {
    forall t
      ensures cost <= Total(positions, t, mode)
    {
      ClampNoWorse(positions, lo, hi, t, mode);
    }
  }

  /** `positions.iter().min()`: the least position. */
  function Least(positions: seq<int>): (m: int)
    requires |positions| > 0
    ensures (exists i :: 0 <= i < |positions| && positions[i] == m) && forall i :: 0 <= i < |positions| ==> m <= positions[i]
  {
    if |positions| == 1 then positions[0]
    else
      var m := Least(positions[1..]);
      assert forall i :: 1 <= i < |positions| ==> positions[1..][i - 1] == positions[i];
      if positions[0] <= m then positions[0] else m
  }

  /** `positions.iter().max()`: the greatest position. */
  function Greatest(positions: seq<int>): (m: int)
    requires |positions| > 0
    ensures (exists i :: 0 <= i < |positions| && positions[i] == m) && forall i :: 0 <= i < |positions| ==> positions[i] <= m
  {
    if |positions| == 1 then positions[0]
    else
      var m := Greatest(positions[1..]);
      assert forall i :: 1 <= i < |positions| ==> positions[1..][i - 1] == positions[i];
      if positions[0] >= m then positions[0] else m
  }

  /** The position chosen and the fuel it costs. */
  datatype Choice = Choice(pos: int, cost: nat)

  /** The search of `part1` and `part2`: the total of every target from
      the least to the greatest position, and the least of them. With no
      crabs the minimum is unwrapped from nothing and panics. The cost
      found is the least over all targets, inside the range or not; which
      of several equally cheap positions is reported is not promised. */
  method MinimumCost(positions: seq<int>, mode: CostMode) returns (r: Result<Choice>)
    ensures !r.Err?
    ensures r.Ok? <==> |positions| > 0
    ensures r.Ok? ==> Least(positions) <= r.value.pos <= Greatest(positions)
    ensures r.Ok? ==> r.value.cost == Total(positions, r.value.pos, mode)
    ensures r.Ok? ==> forall t :: r.value.cost <= Total(positions, t, mode)
  {
    if |positions| == 0 {
      return Panic("called `Option::unwrap()` on a `None` value");
    }
    var pmin := Least(positions);
    var pmax := Greatest(positions);
    var cost := TotalFuelCost(positions, pmin, mode);
    var best := Choice(pmin, cost);
    var pos := pmin + 1;
    while pos <= pmax
      invariant pmin < pos <= pmax + 1
      invariant pmin <= best.pos < pos && best.cost == Total(positions, best.pos, mode)
      invariant forall t :: pmin <= t < pos ==> best.cost <= Total(positions, t, mode)
      decreases pmax - pos
    {
      cost := TotalFuelCost(positions, pos, mode);
      if !(best.cost < cost) {
        best := Choice(pos, cost);
      }
      pos := pos + 1;
    }
    RangeMinimumIsGlobal(positions, pmin, pmax, best.cost, mode);
    return Ok(best);
  }
}

=== FILE: day08_decoder.dfy ===
/** Recovering the wiring of a scrambled display (day 8, part 2), and the
    two puzzle answers. */
module SegmentDecoder {
  import opened Common
  import opened SevenSegment
  import opened SignalInput

  // ---------------------------------------------------------------------
  // Wirings

  /** A wiring connects signal wire `j` to segment `to[j]`; `from` is its
      inverse. */
  datatype Wiring = Wiring(to: seq<nat>, from: seq<nat>)

  predicate ValidWiring(w: Wiring)
  {
    && |w.to| == 7 && |w.from| == 7
    && (forall j :: 0 <= j < 7 ==> w.to[j] < 7 && w.from[j] < 7)
    && (forall j :: 0 <= j < 7 ==> w.from[w.to[j]] == j)
    && (forall i :: 0 <= i < 7 ==> w.to[w.from[i]] == i)
  }

  /** What a miswired display shows for `d`: wire `j` is lit when the
      segment it drives is. */
  function Rewire(w: Wiring, d: Digit): (r: Digit)
    requires ValidWiring(w)
    ensures forall j :: 0 <= j < 7 ==> (r.segments[j] <==> d.segments[w.to[j]])
  {
    Digit(seq(7, j requires 0 <= j < 7 => d.segments[w.to[j]]))
  }

  lemma RewireAnd(w: Wiring, a: Digit, b: Digit)
    requires ValidWiring(w)
    ensures Rewire(w, And(a, b)) == And(Rewire(w, a), Rewire(w, b))
  {
    assert Rewire(w, And(a, b)).segments == And(Rewire(w, a), Rewire(w, b)).segments;
  }

  lemma RewireNot(w: Wiring, d: Digit)
    requires ValidWiring(w)
    ensures Rewire(w, Not(d)) == Not(Rewire(w, d))
  {
    assert Rewire(w, Not(d)).segments == Not(Rewire(w, d)).segments;
  }

  /** Different digits stay different on a miswired display. */
  lemma RewireInjective(w: Wiring, a: Digit, b: Digit)
    requires ValidWiring(w)
    requires Rewire(w, a) == Rewire(w, b)
    ensures a == b
  {
    forall i | 0 <= i < 7
      ensures a.segments[i] == b.segments[i]
    {
      assert w.to[w.from[i]] == i;
      assert Rewire(w, a).segments[w.from[i]] == Rewire(w, b).segments[w.from[i]];
    }
    assert a.segments == b.segments;
  }

  /** The positions of the `true` entries. */
  function LitSet(s: seq<bool>): set<nat>
  {
    set i | 0 <= i < |s| && s[i]
  }

  /** An injective image has as many elements as its source. */
  lemma {:induction false} CardMap(a: set<nat>, m: seq<nat>)
    requires forall x :: x in a ==> x < |m|
    requires forall x, y :: x in a && y in a && m[x] == m[y] ==> x == y
    ensures |set x | x in a :: m[x]| == |a|
    decreases |a|
  {
    if a != {} {
      var x :| x in a;
      var b := a - {x};
      CardMap(b, m);
      assert (set y | y in a :: m[y]) == (set y | y in b :: m[y]) + {m[x]};
      assert m[x] !in (set y | y in b :: m[y]);
    }
  }

  lemma {:induction false} CountLit(s: seq<bool>)
    ensures CountTrue(s) == |LitSet(s)|
  {
    if |s| > 0 {
      var tail := LitSet(s[1..]);
      var succ := seq(|s|, i => i + 1);
      CountLit(s[1..]);
      CardMap(tail, succ);
      var shifted := set i | i in tail :: succ[i];
      assert LitSet(s) == (if s[0] then {0} else {}) + shifted by {
        forall i | i in LitSet(s) && i > 0
          ensures i in shifted
        {
          assert i - 1 in tail;
        }
      }
      assert 0 !in shifted;
    }
  }

  /** The wires a miswired display lights are the images of the lit
      segments. */
  lemma RewireLit(w: Wiring, d: Digit)
    requires ValidWiring(w)
    ensures LitSet(Rewire(w, d).segments) == set i | i in LitSet(d.segments) :: w.from[i]
  {
    var r := Rewire(w, d);
    var lit := LitSet(d.segments);
    var image := set i | i in lit :: w.from[i];
    forall j | j in LitSet(r.segments)
      ensures j in image
    {
      assert w.to[j] in lit && w.from[w.to[j]] == j;
    }
    forall i | i in lit
      ensures w.from[i] in LitSet(r.segments)
    {
      assert r.segments[w.from[i]] == d.segments[w.to[w.from[i]]];
    }
  }

  lemma FromInjective(w: Wiring, a: set<nat>)
    requires ValidWiring(w)
    requires forall x :: x in a ==> x < 7
    ensures forall x, y :: x in a && y in a && w.from[x] == w.from[y] ==> x == y
  {
    forall x, y | x in a && y in a && w.from[x] == w.from[y]
      ensures x == y
    {
      assert w.to[w.from[x]] == x && w.to[w.from[y]] == y;
    }
  }

  /** A miswired display lights as many wires as the digit has segments. */
  lemma RewireCount(w: Wiring, d: Digit)
    requires ValidWiring(w)
    ensures CountActive(Rewire(w, d)) == CountActive(d)
  {
    CountLit(d.segments);
    CountLit(Rewire(w, d).segments);
    RewireLit(w, d);
    FromInjective(w, LitSet(d.segments));
    CardMap(LitSet(d.segments), w.from);
  }

  /** The pattern a miswired display shows for the decimal digit `n`. */
  function Scramble(w: Wiring, n: nat): Digit
    requires ValidWiring(w) && n < 10
  {
    Rewire(w, FromNumber(n))
  }

  /** The scrambled patterns of the ten digits, in digit order. */
  function Patterns(w: Wiring): (p: seq<Digit>)
    requires ValidWiring(w)
    ensures |p| == 10 && forall n :: 0 <= n < 10 ==> p[n] == Scramble(w, n)
  {
    seq(10, n requires 0 <= n < 10 => Scramble(w, n))
  }

  /** The ten patterns of a line are the ten digits as some wiring shows
      them, in some order. */
  predicate Scrambled(digits: seq<Digit>, w: Wiring)
  {
    ValidWiring(w) && Shows(digits, Patterns(w))
  }

  /** `digits` lists exactly the ten entries of `p`, in some order. */
  predicate Shows(digits: seq<Digit>, p: seq<Digit>)
  {
    && |digits| == 10 && |p| == 10
    && (forall k :: 0 <= k < 10 ==> digits[k] in p)
    && (forall n :: 0 <= n < 10 ==> p[n] in digits)
  }

  lemma ScrambleCount(w: Wiring, n: nat)
    requires ValidWiring(w) && n < 10
    ensures CountActive(Scramble(w, n)) == SEGMENT_COUNTS[n]
  {
    RewireCount(w, FromNumber(n));
    CanonicalLiteral(n);
  }

  lemma ScrambleDistinct(w: Wiring, a: nat, b: nat)
    requires ValidWiring(w) && a < 10 && b < 10 && a != b
    ensures Scramble(w, a) != Scramble(w, b)
  {
    if Scramble(w, a) == Scramble(w, b) {
      RewireInjective(w, FromNumber(a), FromNumber(b));
      SegmentsDistinct();
    }
  }

  // ---------------------------------------------------------------------
  // Facts about the canonical digits that the deduction relies on

  /** Among the five-segment digits only 3 keeps three segments outside 1. */
  lemma ThreeFacts()
    ensures CountActive(And(Digit(CANONICAL[2]), Not(Digit(CANONICAL[1])))) == 4
    ensures CountActive(And(Digit(CANONICAL[3]), Not(Digit(CANONICAL[1])))) == 3
    ensures CountActive(And(Digit(CANONICAL[5]), Not(Digit(CANONICAL[1])))) == 4
  {
    CountSeven(And(Digit(CANONICAL[2]), Not(Digit(CANONICAL[1]))));
    CountSeven(And(Digit(CANONICAL[3]), Not(Digit(CANONICAL[1]))));
    CountSeven(And(Digit(CANONICAL[5]), Not(Digit(CANONICAL[1]))));
  }

  /** Outside 4, digit 2 keeps three segments and digit 5 two. */
  lemma TwoFiveFacts()
    ensures CountActive(And(Digit(CANONICAL[2]), Not(Digit(CANONICAL[4])))) == 3
    ensures CountActive(And(Digit(CANONICAL[5]), Not(Digit(CANONICAL[4])))) == 2
  {
    CountSeven(And(Digit(CANONICAL[2]), Not(Digit(CANONICAL[4]))));
    CountSeven(And(Digit(CANONICAL[5]), Not(Digit(CANONICAL[4]))));
  }

  /** Among the six-segment digits only 0 shares exactly two segments with
      `3 & !1`. */
  lemma ZeroFacts()
    ensures CountActive(And(Digit(CANONICAL[0]), And(Digit(CANONICAL[3]), Not(Digit(CANONICAL[1]))))) == 2
    ensures CountActive(And(Digit(CANONICAL[6]), And(Digit(CANONICAL[3]), Not(Digit(CANONICAL[1]))))) == 3
    ensures CountActive(And(Digit(CANONICAL[9]), And(Digit(CANONICAL[3]), Not(Digit(CANONICAL[1]))))) == 3
  {
    CountSeven(And(Digit(CANONICAL[0]), And(Digit(CANONICAL[3]), Not(Digit(CANONICAL[1])))));
    CountSeven(And(Digit(CANONICAL[6]), And(Digit(CANONICAL[3]), Not(Digit(CANONICAL[1])))));
    CountSeven(And(Digit(CANONICAL[9]), And(Digit(CANONICAL[3]), Not(Digit(CANONICAL[1])))));
  }

  /** Digit 9 shares both segments of 1, digit 6 only one. */
  lemma NineFacts()
    ensures CountActive(And(Digit(CANONICAL[6]), Digit(CANONICAL[1]))) == 1
    ensures CountActive(And(Digit(CANONICAL[9]), Digit(CANONICAL[1]))) == 2
  {
    CountSeven(And(Digit(CANONICAL[6]), Digit(CANONICAL[1])));
    CountSeven(And(Digit(CANONICAL[9]), Digit(CANONICAL[1])));
  }

  /** The scrambled five-segment digits, compared with the scrambled 1. */
  lemma ScrambledThree(w: Wiring, n: nat)
    requires ValidWiring(w) && (n == 2 || n == 3 || n == 5)
    ensures CountActive(And(Scramble(w, n), Not(Scramble(w, 1)))) == if n == 3 then 3 else 4
  {
    RewireNot(w, FromNumber(1));
    RewireAnd(w, FromNumber(n), Not(FromNumber(1)));
    RewireCount(w, And(FromNumber(n), Not(FromNumber(1))));
    CanonicalLiteral(n);
    CanonicalLiteral(1);
    ThreeFacts();
  }

  /** The scrambled 2 and 5, compared with the scrambled 4. */
  lemma ScrambledTwoFive(w: Wiring, n: nat)
    requires ValidWiring(w) && (n == 2 || n == 5)
    ensures CountActive(And(Scramble(w, n), Not(Scramble(w, 4)))) == if n == 2 then 3 else 2
  {
    RewireNot(w, FromNumber(4));
    RewireAnd(w, FromNumber(n), Not(FromNumber(4)));
    RewireCount(w, And(FromNumber(n), Not(FromNumber(4))));
    CanonicalLiteral(n);
    CanonicalLiteral(4);
    TwoFiveFacts();
  }

  /** The scrambled six-segment digits, compared with the scrambled
      `3 & !1`. */
  lemma ScrambledZero(w: Wiring, n: nat)
    requires ValidWiring(w) && (n == 0 || n == 6 || n == 9)
    ensures CountActive(And(Scramble(w, n), And(Scramble(w, 3), Not(Scramble(w, 1))))) == if n == 0 then 2 else 3
  {
    RewireNot(w, FromNumber(1));
    RewireAnd(w, FromNumber(3), Not(FromNumber(1)));
    RewireAnd(w, FromNumber(n), And(FromNumber(3), Not(FromNumber(1))));
    RewireCount(w, And(FromNumber(n), And(FromNumber(3), Not(FromNumber(1)))));
    CanonicalLiteral(n);
    CanonicalLiteral(3);
    CanonicalLiteral(1);
    ZeroFacts();
  }

  /** The scrambled 6 and 9, compared with the scrambled 1. */
  lemma ScrambledNine(w: Wiring, n: nat)
    requires ValidWiring(w) && (n == 6 || n == 9)
    ensures CountActive(And(Scramble(w, n), Scramble(w, 1))) == if n == 9 then 2 else 1
  {
    RewireAnd(w, FromNumber(n), FromNumber(1));
    RewireCount(w, And(FromNumber(n), FromNumber(1)));
    CanonicalLiteral(n);
    CanonicalLiteral(1);
    NineFacts();
  }

  // ---------------------------------------------------------------------
  // correct_digits

  type Digits10 = s: seq<Digit> | |s| == 10 witness [Blank, Blank, Blank, Blank, Blank, Blank, Blank, Blank, Blank, Blank]

  /** The state after the first pass: the digits known by their segment
      count, and the five- and six-segment candidates. */
  datatype Sorted = Sorted(corrected: Digits10, fives: set<Digit>, sixes: set<Digit>)

  /** Segment counts that some digit has. */
  predicate ValidCount(c: nat)
  {
    2 <= c <= 7
  }

  /** The position of the last of the first `n` digits with `c` segments. */
  function LastIndex(digits: seq<Digit>, n: nat, c: nat): (r: Option<nat>)
    requires n <= |digits|
    ensures r.Some? ==> r.value < n && CountActive(digits[r.value]) == c
    ensures r.Some? ==> forall j :: r.value < j < n ==> CountActive(digits[j]) != c
    ensures r.None? ==> forall j :: 0 <= j < n ==> CountActive(digits[j]) != c
  {
    if n == 0 then None
    else if CountActive(digits[n - 1]) == c then Some(n - 1)
    else LastIndex(digits, n - 1, c)
  }

  /** The last of the first `n` digits with `c` segments, or blank when
      there is none: what the repeated assignments of the first loop
      leave in a slot. */
  function LastWithCount(digits: seq<Digit>, n: nat, c: nat): Digit
    requires n <= |digits|
  {
    match LastIndex(digits, n, c)
    case None => NewDigit()
    case Some(k) => digits[k]
  }

  /** The distinct digits among the first `n` with `c` segments. */
  function WithCount(digits: seq<Digit>, n: nat, c: nat): set<Digit>
    requires n <= |digits|
  {
    if n == 0 then {}
    else WithCount(digits, n - 1, c) + if CountActive(digits[n - 1]) == c then {digits[n - 1]} else {}
  }

  lemma {:induction false} WithCountIs(digits: seq<Digit>, n: nat, c: nat)
    requires n <= |digits|
    ensures forall d :: d in WithCount(digits, n, c) <==> exists k :: 0 <= k < n && digits[k] == d && CountActive(d) == c
  {
    if n > 0 {
      WithCountIs(digits, n - 1, c);
    }
  }

  /** The first pass over one digit. */
  function Place(st: Sorted, d: Digit): (r: Result<Sorted>)
  {
    var c := CountActive(d);
    if c == 2 then Ok(st.(corrected := st.corrected[1 := d]))
    else if c == 3 then Ok(st.(corrected := st.corrected[7 := d]))
    else if c == 4 then Ok(st.(corrected := st.corrected[4 := d]))
    else if c == 5 then Ok(st.(fives := st.fives + {d}))
    else if c == 6 then Ok(st.(sixes := st.sixes + {d}))
    else if c == 7 then Ok(st.(corrected := st.corrected[8 := d]))
    else Err("Invalid digit")
  }

  /** What the first pass knows after `n` digits. */
  predicate FirstPassState(digits: seq<Digit>, n: nat, st: Sorted)
    requires n <= |digits|
  {
    && (forall i :: 0 <= i < 10 && i != 1 && i != 4 && i != 7 && i != 8 ==> st.corrected[i] == NewDigit())
    && st.corrected[1] == LastWithCount(digits, n, 2)
    && st.corrected[7] == LastWithCount(digits, n, 3)
    && st.corrected[4] == LastWithCount(digits, n, 4)
    && st.corrected[8] == LastWithCount(digits, n, 7)
    && st.fives == WithCount(digits, n, 5)
    && st.sixes == WithCount(digits, n, 6)
  }

  /** The first loop of `correct_digits` over the first `n` digits: the
      first digit with a segment count no digit has is an error. */
  function FirstPass(digits: seq<Digit>, n: nat): (r: Result<Sorted>)
    requires n <= |digits|
    ensures !r.Panic?
    ensures r.Err? <==> exists k :: 0 <= k < n && !ValidCount(CountActive(digits[k]))
    ensures r.Ok? ==> FirstPassState(digits, n, r.value)
  {
    if n == 0 then
      Ok(Sorted([Blank, Blank, Blank, Blank, Blank, Blank, Blank, Blank, Blank, Blank], {}, {}))
    else
      match FirstPass(digits, n - 1)
      case Ok(st) =>
        PlaceKeeps(digits, n, st);
        Place(st, digits[n - 1])
      case Err(msg) => Err(msg)
      case Panic(msg) => Panic(msg)
  }

  lemma PlaceKeeps(digits: seq<Digit>, n: nat, st: Sorted)
    requires 0 < n <= |digits|
    requires FirstPassState(digits, n - 1, st)
    ensures var r := Place(st, digits[n - 1]);
      && !r.Panic?
      && (r.Err? <==> !ValidCount(CountActive(digits[n - 1])))
      && (r.Ok? ==> FirstPassState(digits, n, r.value))
  {
  }

  /** The loop that looks for 3 among the five-segment candidates, in hash
      set order, stopping at the first match. */
  method FindThree(fives: set<Digit>, one: Digit, init: Digit) returns (three: Digit)
    ensures (exists d :: d in fives && IsThree(d, one)) ==> three in fives && IsThree(three, one)
    ensures !(exists d :: d in fives && IsThree(d, one)) ==> three == init
  {
    three := init;
    var todo := fives;
    while todo != {}
      invariant todo <= fives
      invariant forall d :: d in fives - todo ==> !IsThree(d, one)
      decreases |todo|
    {
      var d :| d in todo;
      if IsThree(d, one) {
        three := d;
        return;
      }
      todo := todo - {d};
    }
  }

  /** 3 is the five-segment digit with three segments outside 1. */
  predicate IsThree(d: Digit, one: Digit)
  {
    CountActive(And(d, Not(one))) == 3
  }

  /** The segments of `d` outside 4: three for 2, two for 5. */
  function OutsideFour(d: Digit, four: Digit): nat
  {
    CountActive(And(d, Not(four)))
  }

  /** The loop that sorts the remaining five-segment candidates into 2 and
      5; any other count is an error. A later candidate of the same kind
      overwrites an earlier one. */
  method SplitFives(rest: set<Digit>, four: Digit, two0: Digit, five0: Digit) returns (r: Result<(Digit, Digit)>)
    ensures !r.Panic?
    ensures r.Err? <==> exists d :: d in rest && OutsideFour(d, four) != 2 && OutsideFour(d, four) != 3
    ensures r.Err? ==> r.msg == "Invalid digit"
    ensures r.Ok? ==> var (two, five) := r.value;
      && ((exists d :: d in rest && OutsideFour(d, four) == 3) ==> two in rest && OutsideFour(two, four) == 3)
      && (!(exists d :: d in rest && OutsideFour(d, four) == 3) ==> two == two0)
      && ((exists d :: d in rest && OutsideFour(d, four) == 2) ==> five in rest && OutsideFour(five, four) == 2)
      && (!(exists d :: d in rest && OutsideFour(d, four) == 2) ==> five == five0)
  {
    var two, five := two0, five0;
    var todo := rest;
    while todo != {}
      invariant todo <= rest
      invariant forall d :: d in rest - todo ==> OutsideFour(d, four) == 2 || OutsideFour(d, four) == 3
      invariant (exists d :: d in rest - todo && OutsideFour(d, four) == 3) ==> two in rest && OutsideFour(two, four) == 3
      invariant !(exists d :: d in rest - todo && OutsideFour(d, four) == 3) ==> two == two0
      invariant (exists d :: d in rest - todo && OutsideFour(d, four) == 2) ==> five in rest && OutsideFour(five, four) == 2
      invariant !(exists d :: d in rest - todo && OutsideFour(d, four) == 2) ==> five == five0
      decreases |todo|
    {
      var d :| d in todo;
      var len := OutsideFour(d, four);
      if len == 3 {
        two := d;
      } else if len == 2 {
        five := d;
      } else {
        return Err("Invalid digit");
      }
      todo := todo - {d};
    }
    assert rest - todo == rest;
    return Ok((two, five));
  }

  /** The loop that looks for 0 among the six-segment candidates: the last
      one sharing exactly two segments with `filter` wins. */
  method FindZero(sixes: set<Digit>, filter: Digit, init: Digit) returns (zero: Digit)
    ensures (exists d :: d in sixes && CountActive(And(d, filter)) == 2) ==> zero in sixes && CountActive(And(zero, filter)) == 2
    ensures !(exists d :: d in sixes && CountActive(And(d, filter)) == 2) ==> zero == init
  {
    zero := init;
    var todo := sixes;
    while todo != {}
      invariant todo <= sixes
      invariant (exists d :: d in sixes - todo && CountActive(And(d, filter)) == 2) ==> zero in sixes && CountActive(And(zero, filter)) == 2
      invariant !(exists d :: d in sixes - todo && CountActive(And(d, filter)) == 2) ==> zero == init
      decreases |todo|
    {
      var d :| d in todo;
      if CountActive(And(d, filter)) == 2 {
        zero := d;
      }
      todo := todo - {d};
    }
    assert sixes - todo == sixes;
  }

  /** The loop that sorts the remaining six-segment candidates: sharing
      both segments of 1 makes 9, anything else 6. */
  method SplitSixes(rest: set<Digit>, one: Digit, six0: Digit, nine0: Digit) returns (six: Digit, nine: Digit)
    ensures (exists d :: d in rest && CountActive(And(d, one)) == 2) ==> nine in rest && CountActive(And(nine, one)) == 2
    ensures !(exists d :: d in rest && CountActive(And(d, one)) == 2) ==> nine == nine0
    ensures (exists d :: d in rest && CountActive(And(d, one)) != 2) ==> six in rest && CountActive(And(six, one)) != 2
    ensures !(exists d :: d in rest && CountActive(And(d, one)) != 2) ==> six == six0
  {
    six, nine := six0, nine0;
    var todo := rest;
    while todo != {}
      invariant todo <= rest
      invariant (exists d :: d in rest - todo && CountActive(And(d, one)) == 2) ==> nine in rest && CountActive(And(nine, one)) == 2
      invariant !(exists d :: d in rest - todo && CountActive(And(d, one)) == 2) ==> nine == nine0
      invariant (exists d :: d in rest - todo && CountActive(And(d, one)) != 2) ==> six in rest && CountActive(And(six, one)) != 2
      invariant !(exists d :: d in rest - todo && CountActive(And(d, one)) != 2) ==> six == six0
      decreases |todo|
    {
      var d :| d in todo;
      if CountActive(And(d, one)) == 2 {
        nine := d;
      } else {
        six := d;
      }
      todo := todo - {d};
    }
    assert rest - todo == rest;
  }

  /** The properties of the ten patterns that `correct_digits` relies on:
      the segment counts of the digits, no two alike, and the overlaps it
      tests. */
  predicate Decodable(p: seq<Digit>)
  {
    CountsMatch(p) && Overlaps(p)
  }

  /** The ten patterns have the digits' segment counts and are distinct. */
  predicate CountsMatch(p: seq<Digit>)
  {
    SegmentCounts(p) && Distinct(p)
  }

  /** Pattern `n` lights as many segments as digit `n`. */
  predicate SegmentCounts(p: seq<Digit>)
  {
    |p| == 10 && forall n :: 0 <= n < 10 ==> CountActive(p[n]) == SEGMENT_COUNTS[n]
  }

  /** No two of the ten patterns are alike. */
  predicate Distinct(p: seq<Digit>)
    requires |p| == 10
  {
    forall a, b :: 0 <= a < b < 10 ==> p[a] != p[b]
  }

  /** The overlaps between patterns that the later passes test. */
  predicate Overlaps(p: seq<Digit>)
    requires |p| == 10
  {
    FivesOverlap(p) && SixesOverlap(p)
  }

  /** How 2, 3 and 5 are told apart. */
  predicate FivesOverlap(p: seq<Digit>)
    requires |p| == 10
  {
    && IsThree(p[3], p[1]) && !IsThree(p[2], p[1]) && !IsThree(p[5], p[1])
    && OutsideFour(p[2], p[4]) == 3 && OutsideFour(p[5], p[4]) == 2
  }

  /** How 0, 6 and 9 are told apart. */
  predicate SixesOverlap(p: seq<Digit>)
    requires |p| == 10
  {
    && CountActive(And(p[0], And(p[3], Not(p[1])))) == 2
    && CountActive(And(p[6], And(p[3], Not(p[1])))) != 2
    && CountActive(And(p[9], And(p[3], Not(p[1])))) != 2
    && CountActive(And(p[9], p[1])) == 2 && CountActive(And(p[6], p[1])) != 2
  }

  /** Whatever the wiring, the scrambled digits have those properties. */
  lemma ScramblesDecodable(w: Wiring)
    requires ValidWiring(w)
    ensures Decodable(Patterns(w))
  {
    ScramblesCount(w);
    ScramblesOverlap(w);
  }

  lemma ScramblesCount(w: Wiring)
    requires ValidWiring(w)
    ensures CountsMatch(Patterns(w))
  {
    ScramblesSegments(w);
    ScramblesDistinct(w);
  }

  lemma ScramblesSegments(w: Wiring)
    requires ValidWiring(w)
    ensures SegmentCounts(Patterns(w))
  {
    var p := Patterns(w);
    forall n | 0 <= n < 10
      ensures CountActive(p[n]) == SEGMENT_COUNTS[n]
    {
      ScrambleCount(w, n);
    }
  }

  lemma ScramblesDistinct(w: Wiring)
    requires ValidWiring(w)
    ensures Distinct(Patterns(w))
  {
    var p := Patterns(w);
    forall a, b | 0 <= a < b < 10
      ensures p[a] != p[b]
    {
      ScrambleDistinct(w, a, b);
    }
  }

  lemma ScramblesOverlap(w: Wiring)
    requires ValidWiring(w)
    ensures Overlaps(Patterns(w))
  {
    ScramblesFives(w);
    ScramblesSixes(w);
  }

  lemma ScramblesFives(w: Wiring)
    requires ValidWiring(w)
    ensures FivesOverlap(Patterns(w))
  {
    var p := Patterns(w);
    assert IsThree(p[3], p[1]) && !IsThree(p[2], p[1]) && !IsThree(p[5], p[1]) by {
      ScrambledThree(w, 2);
      ScrambledThree(w, 3);
      ScrambledThree(w, 5);
    }
    assert OutsideFour(p[2], p[4]) == 3 && OutsideFour(p[5], p[4]) == 2 by {
      ScrambledTwoFive(w, 2);
      ScrambledTwoFive(w, 5);
    }
  }

  lemma ScramblesSixes(w: Wiring)
    requires ValidWiring(w)
    ensures SixesOverlap(Patterns(w))
  {
    ScrambledZero(w, 0);
    ScrambledZero(w, 6);
    ScrambledZero(w, 9);
    ScrambledNine(w, 6);
    ScrambledNine(w, 9);
  }

  // ---------------------------------------------------------------------
  // What each pass finds when the patterns are decodable

  /** Each listed pattern is one of the ten, with that digit's segment
      count. */
  lemma ShownDigit(digits: seq<Digit>, p: seq<Digit>, k: nat) returns (n: nat)
    requires Shows(digits, p) && SegmentCounts(p) && k < 10
    ensures n < 10 && digits[k] == p[n]
    ensures CountActive(digits[k]) == SEGMENT_COUNTS[n]
  {
    n :| 0 <= n < 10 && digits[k] == p[n];
  }

  /** A slot filled by segment count holds the one digit with that count. */
  lemma ShownSlot(digits: seq<Digit>, p: seq<Digit>, m: nat)
    requires Shows(digits, p) && SegmentCounts(p)
    requires m == 1 || m == 4 || m == 7 || m == 8
    ensures LastWithCount(digits, 10, SEGMENT_COUNTS[m]) == p[m]
  {
    var c := SEGMENT_COUNTS[m];
    var k :| 0 <= k < 10 && digits[k] == p[m];
    match LastIndex(digits, 10, c)
    case Some(j) =>
      var n := ShownDigit(digits, p, j);
    case None =>
  }

  /** The candidates of `c` segments are the three digits with `c`
      segments. */
  lemma ShownCandidates(digits: seq<Digit>, p: seq<Digit>, c: nat, x: nat, y: nat, z: nat)
    requires Shows(digits, p) && SegmentCounts(p)
    requires x < 10 && y < 10 && z < 10
    requires forall n :: 0 <= n < 10 ==> (SEGMENT_COUNTS[n] == c <==> n == x || n == y || n == z)
    ensures WithCount(digits, 10, c) == {p[x], p[y], p[z]}
  {
    WithCountIs(digits, 10, c);
    forall d | d in WithCount(digits, 10, c)
      ensures d in {p[x], p[y], p[z]}
    {
      var k :| 0 <= k < 10 && digits[k] == d && CountActive(d) == c;
      var n := ShownDigit(digits, p, k);
    }
    forall n | n == x || n == y || n == z
      ensures p[n] in WithCount(digits, 10, c)
    {
      var k :| 0 <= k < 10 && digits[k] == p[n];
    }
  }

  /** No listed pattern has a segment count that no digit has. */
  lemma ShownCounts(digits: seq<Digit>, p: seq<Digit>)
    requires Shows(digits, p) && SegmentCounts(p)
    ensures FirstPass(digits, 10).Ok?
  {
    forall k | 0 <= k < 10
      ensures ValidCount(CountActive(digits[k]))
    {
      var n := ShownDigit(digits, p, k);
    }
  }

  /** What the first pass leaves when the patterns are `p`. */
  predicate Candidates(p: seq<Digit>, st: Sorted)
    requires |p| == 10
  {
    && st.corrected[1] == p[1] && st.corrected[4] == p[4]
    && st.corrected[7] == p[7] && st.corrected[8] == p[8]
    && st.fives == {p[2], p[3], p[5]}
    && st.sixes == {p[0], p[6], p[9]}
  }

  /** The first pass fills 1, 4, 7 and 8, and collects {2, 3, 5} and
      {0, 6, 9} as candidates. */
  lemma ShownState(digits: seq<Digit>, p: seq<Digit>, st: Sorted)
    requires Shows(digits, p) && SegmentCounts(p)
    requires FirstPassState(digits, 10, st)
    ensures Candidates(p, st)
  {
    ShownSlots(digits, p, st);
    ShownCandidates(digits, p, 5, 2, 3, 5);
    ShownCandidates(digits, p, 6, 0, 6, 9);
  }

  lemma ShownSlots(digits: seq<Digit>, p: seq<Digit>, st: Sorted)
    requires Shows(digits, p) && SegmentCounts(p)
    requires FirstPassState(digits, 10, st)
    ensures st.corrected[1] == p[1] && st.corrected[4] == p[4]
    ensures st.corrected[7] == p[7] && st.corrected[8] == p[8]
  {
    ShownSlot(digits, p, 1);
    ShownSlot(digits, p, 4);
    ShownSlot(digits, p, 7);
    ShownSlot(digits, p, 8);
  }

  /** Among the five-segment candidates, the one with three segments
      outside 1 is the pattern of 3. */
  lemma PickThree(p: seq<Digit>, three: Digit)
    requires |p| == 10 && !IsThree(p[2], p[1]) && !IsThree(p[5], p[1])
    requires three in {p[2], p[3], p[5]} && IsThree(three, p[1])
    ensures three == p[3]
  {
  }

  /** Removing 3 from the five-segment candidates leaves 2 and 5. */
  lemma PickFives(p: seq<Digit>)
    requires |p| == 10 && p[2] != p[3] && p[5] != p[3]
    ensures {p[2], p[3], p[5]} - {p[3]} == {p[2], p[5]}
  {
  }

  /** Removing 0 from the six-segment candidates leaves 6 and 9. */
  lemma PickSixes(p: seq<Digit>)
    requires |p| == 10 && p[6] != p[0] && p[9] != p[0]
    ensures {p[0], p[6], p[9]} - {p[0]} == {p[6], p[9]}
  {
  }

  /** The remaining five-segment candidates sort into 2 and 5 by their
      segments outside 4. */
  lemma PickTwoFive(p: seq<Digit>, two: Digit, five: Digit)
    requires |p| == 10 && OutsideFour(p[2], p[4]) == 3 && OutsideFour(p[5], p[4]) == 2
    requires two in {p[2], p[5]} && OutsideFour(two, p[4]) == 3
    requires five in {p[2], p[5]} && OutsideFour(five, p[4]) == 2
    ensures two == p[2] && five == p[5]
  {
  }

  /** Among the six-segment candidates, the one sharing two segments with
      3 outside 1 is the pattern of 0. */
  lemma PickZero(p: seq<Digit>, zero: Digit)
    requires |p| == 10
    requires CountActive(And(p[6], And(p[3], Not(p[1])))) != 2
    requires CountActive(And(p[9], And(p[3], Not(p[1])))) != 2
    requires zero in {p[0], p[6], p[9]} && CountActive(And(zero, And(p[3], Not(p[1])))) == 2
    ensures zero == p[0]
  {
  }

  /** The remaining six-segment candidates sort into 6 and 9 by the
      segments they share with 1. */
  lemma PickSixNine(p: seq<Digit>, six: Digit, nine: Digit)
    requires |p| == 10 && CountActive(And(p[9], p[1])) == 2 && CountActive(And(p[6], p[1])) != 2
    requires six in {p[6], p[9]} && CountActive(And(six, p[1])) != 2
    requires nine in {p[6], p[9]} && CountActive(And(nine, p[1])) == 2
    ensures six == p[6] && nine == p[9]
  {
  }

  /** When the patterns are decodable the search for 3 succeeds. */
  lemma NoThree(digits: seq<Digit>, st: Sorted, three: Digit)
    requires |digits| == 10 && FirstPassState(digits, 10, st)
    requires (exists d :: d in st.fives && IsThree(d, st.corrected[1])) ==> three in st.fives
    requires three !in st.fives
    ensures !exists p :: Decodable(p) && Shows(digits, p)
  {
    if exists p :: Decodable(p) && Shows(digits, p) {
      var p :| Decodable(p) && Shows(digits, p);
      ShownState(digits, p, st);
      assert false;
    }
  }

  /** Decodable patterns have 2 and 5 with three and two segments outside
      4. */
  lemma SplitAt(p: seq<Digit>, st: Sorted, three: Digit, d: Digit)
    requires |p| == 10 && p[2] != p[3] && p[5] != p[3] && Candidates(p, st)
    requires !IsThree(p[2], p[1]) && !IsThree(p[5], p[1])
    requires OutsideFour(p[2], p[4]) == 3 && OutsideFour(p[5], p[4]) == 2
    requires three in st.fives && IsThree(three, st.corrected[1])
    requires d in st.fives - {three}
    ensures OutsideFour(d, st.corrected[4]) == 2 || OutsideFour(d, st.corrected[4]) == 3
  {
    PickThree(p, three);
    PickFives(p);
    assert d in {p[2], p[5]};
  }

  /** When the patterns are decodable the split into 2 and 5 succeeds. */
  lemma NoSplit(digits: seq<Digit>, st: Sorted, three: Digit, d: Digit)
    requires |digits| == 10 && FirstPassState(digits, 10, st)
    requires three in st.fives && IsThree(three, st.corrected[1])
    requires d in st.fives - {three}
    requires OutsideFour(d, st.corrected[4]) != 2 && OutsideFour(d, st.corrected[4]) != 3
    ensures !exists p :: Decodable(p) && Shows(digits, p)
  {
    if exists p :: Decodable(p) && Shows(digits, p) {
      var p :| Decodable(p) && Shows(digits, p);
      ShownState(digits, p, st);
      SplitAt(p, st, three, d);
      assert false;
    }
  }

  /** Decodable patterns show a candidate for 0. */
  lemma ZeroShown(p: seq<Digit>, st: Sorted, three: Digit, filter: Digit)
    requires |p| == 10 && Candidates(p, st)
    requires !IsThree(p[2], p[1]) && !IsThree(p[5], p[1])
    requires CountActive(And(p[0], And(p[3], Not(p[1])))) == 2
    requires three in st.fives && IsThree(three, st.corrected[1])
    requires filter == And(three, Not(st.corrected[1]))
    ensures p[0] in st.sixes && CountActive(And(p[0], filter)) == 2
  {
    PickThree(p, three);
  }

  /** When the patterns are decodable the search for 0 succeeds. */
  lemma NoZero(digits: seq<Digit>, st: Sorted, three: Digit, filter: Digit, zero: Digit)
    requires |digits| == 10 && FirstPassState(digits, 10, st)
    requires three in st.fives && IsThree(three, st.corrected[1])
    requires filter == And(three, Not(st.corrected[1]))
    requires (exists d :: d in st.sixes && CountActive(And(d, filter)) == 2) ==> zero in st.sixes
    requires zero !in st.sixes
    ensures !exists p :: Decodable(p) && Shows(digits, p)
  {
    if exists p :: Decodable(p) && Shows(digits, p) {
      var p :| Decodable(p) && Shows(digits, p);
      ShownState(digits, p, st);
      ZeroShown(p, st, three, filter);
      assert false;
    }
  }

  /** The passes over the five-segment candidates find 3, 2 and 5. */
  lemma RecoverFives(p: seq<Digit>, st: Sorted, three: Digit, two: Digit, five: Digit)
    requires |p| == 10 && FivesOverlap(p) && Candidates(p, st)
    requires p[2] != p[3] && p[5] != p[3]
    requires three in st.fives && IsThree(three, st.corrected[1])
    requires FoundFives(st, three, two, five)
    ensures three == p[3] && two == p[2] && five == p[5]
  {
    PickThree(p, three);
    PickFives(p);
    assert p[2] in st.fives - {three} && p[5] in st.fives - {three};
    PickTwoFive(p, two, five);
  }

  /** The passes over the six-segment candidates find 0, 6 and 9. */
  lemma RecoverSixes(p: seq<Digit>, st: Sorted, three: Digit, zero: Digit, six: Digit, nine: Digit)
    requires |p| == 10 && SixesOverlap(p) && Candidates(p, st)
    requires p[6] != p[0] && p[9] != p[0]
    requires three == p[3]
    requires FoundSixes(st, three, zero, six, nine)
    ensures zero == p[0] && six == p[6] && nine == p[9]
  {
    var filter := And(three, Not(st.corrected[1]));
    assert filter == And(p[3], Not(p[1]));
    assert p[0] in st.sixes && CountActive(And(p[0], filter)) == 2;
    PickZero(p, zero);
    PickSixes(p);
    assert p[6] in st.sixes - {zero} && p[9] in st.sixes - {zero};
    PickSixNine(p, six, nine);
  }

  /** What the searches for 2 and 5 leave, as their loops guarantee. */
  predicate FoundFives(st: Sorted, three: Digit, two: Digit, five: Digit)
  {
    var rest := st.fives - {three};
    var four := st.corrected[4];
    && ((exists d :: d in rest && OutsideFour(d, four) == 3) ==> two in rest && OutsideFour(two, four) == 3)
    && ((exists d :: d in rest && OutsideFour(d, four) == 2) ==> five in rest && OutsideFour(five, four) == 2)
  }

  /** What the searches for 0, 6 and 9 leave, as their loops guarantee. */
  predicate FoundSixes(st: Sorted, three: Digit, zero: Digit, six: Digit, nine: Digit)
  {
    var filter := And(three, Not(st.corrected[1]));
    var rest := st.sixes - {zero};
    var one := st.corrected[1];
    && ((exists d :: d in st.sixes && CountActive(And(d, filter)) == 2) ==> zero in st.sixes && CountActive(And(zero, filter)) == 2)
    && ((exists d :: d in rest && CountActive(And(d, one)) == 2) ==> nine in rest && CountActive(And(nine, one)) == 2)
    && ((exists d :: d in rest && CountActive(And(d, one)) != 2) ==> six in rest && CountActive(And(six, one)) != 2)
  }

  /** The digits `correct_digits` returns on success. */
  function Assembled(st: Sorted, three: Digit, two: Digit, five: Digit, zero: Digit, six: Digit, nine: Digit): (r: Digits10)
    ensures r[0] == zero && r[2] == two && r[3] == three && r[5] == five && r[6] == six && r[9] == nine
    ensures r[1] == st.corrected[1] && r[4] == st.corrected[4] && r[7] == st.corrected[7] && r[8] == st.corrected[8]
  {
    st.corrected[3 := three][2 := two][5 := five][0 := zero][9 := nine][6 := six]
  }

  /** For one decodable `p`, the passes recover it. */
  lemma RecoveredAt(p: seq<Digit>, st: Sorted, three: Digit, two: Digit, five: Digit, zero: Digit, six: Digit, nine: Digit)
    requires |p| == 10 && FivesOverlap(p) && SixesOverlap(p) && Candidates(p, st)
    requires p[2] != p[3] && p[5] != p[3] && p[6] != p[0] && p[9] != p[0]
    requires three in st.fives && IsThree(three, st.corrected[1])
    requires FoundFives(st, three, two, five) && FoundSixes(st, three, zero, six, nine)
    ensures Assembled(st, three, two, five, zero, six, nine) == p
  {
    RecoverFives(p, st, three, two, five);
    RecoverSixes(p, st, three, zero, six, nine);
    var c := Assembled(st, three, two, five, zero, six, nine);
    assert forall n :: 0 <= n < 10 ==> c[n] == p[n];
  }

  /** Whatever order the hash sets hand out their elements in, decodable
      patterns are recovered in digit order. */
  lemma Recovered(digits: seq<Digit>, st: Sorted, three: Digit, two: Digit, five: Digit, zero: Digit, six: Digit, nine: Digit)
    requires |digits| == 10 && FirstPassState(digits, 10, st)
    requires three in st.fives && IsThree(three, st.corrected[1])
    requires FoundFives(st, three, two, five) && FoundSixes(st, three, zero, six, nine)
    ensures forall p :: Decodable(p) && Shows(digits, p) ==> Assembled(st, three, two, five, zero, six, nine) == p
  {
    forall p | Decodable(p) && Shows(digits, p)
      ensures Assembled(st, three, two, five, zero, six, nine) == p
    {
      assert p[2] != p[3] && p[5] != p[3] && p[6] != p[0] && p[9] != p[0];
      ShownState(digits, p, st);
      RecoveredAt(p, st, three, two, five, zero, six, nine);
    }
  }

  /** When the patterns are decodable the first pass succeeds. */
  lemma NoFirstPass(digits: seq<Digit>)
    requires |digits| == 10 && FirstPass(digits, 10).Err?
    ensures !exists p :: Decodable(p) && Shows(digits, p)
  {
    if exists p :: Decodable(p) && Shows(digits, p) {
      var p :| Decodable(p) && Shows(digits, p);
      ShownCounts(digits, p);
      assert false;
    }
  }

  /** The blank slots the first pass leaves are not among the candidates. */
  lemma BlankNotCandidate(digits: seq<Digit>, st: Sorted)
    requires |digits| == 10 && FirstPassState(digits, 10, st)
    ensures st.corrected[3] !in st.fives && st.corrected[0] !in st.sixes
  {
    WithCountIs(digits, 10, 5);
    WithCountIs(digits, 10, 6);
    CountZero(NewDigit());
  }

  /** The part of `correct_digits` that finds 3, then 2 and 5. */
  method CorrectFives(digits: seq<Digit>, st: Sorted) returns (r: Result<(Digit, Digit, Digit)>)
    requires |digits| == 10 && FirstPassState(digits, 10, st)
    ensures !r.Panic?
    ensures r.Ok? ==> var (three, two, five) := r.value;
      three in st.fives && IsThree(three, st.corrected[1]) && FoundFives(st, three, two, five)
    ensures r.Err? ==> r.msg == "Digit 3 not recognized" || r.msg == "Invalid digit"
    ensures r.Err? ==> !exists p :: Decodable(p) && Shows(digits, p)
  {
    BlankNotCandidate(digits, st);
    var three := FindThree(st.fives, st.corrected[1], st.corrected[3]);
    if three !in st.fives {
      NoThree(digits, st, three);
      return Err("Digit 3 not recognized");
    }
    var split := SplitFives(st.fives - {three}, st.corrected[4], st.corrected[2], st.corrected[5]);
    if split.Err? {
      var d :| d in st.fives - {three} && OutsideFour(d, st.corrected[4]) != 2 && OutsideFour(d, st.corrected[4]) != 3;
      NoSplit(digits, st, three, d);
      return Err("Invalid digit");
    }
    return Ok((three, split.value.0, split.value.1));
  }

  /** The part of `correct_digits` that finds 0, then 6 and 9. */
  method CorrectSixes(digits: seq<Digit>, st: Sorted, three: Digit) returns (r: Result<(Digit, Digit, Digit)>)
    requires |digits| == 10 && FirstPassState(digits, 10, st)
    requires three in st.fives && IsThree(three, st.corrected[1])
    ensures !r.Panic?
    ensures r.Ok? ==> var (zero, six, nine) := r.value;
      zero in st.sixes && FoundSixes(st, three, zero, six, nine)
    ensures r.Err? ==> r.msg == "Digit 0 not recognized"
    ensures r.Err? ==> !exists p :: Decodable(p) && Shows(digits, p)
  {
    var filter := And(three, Not(st.corrected[1]));
    var zero := FindZero(st.sixes, filter, st.corrected[0]);
    if zero !in st.sixes {
      NoZero(digits, st, three, filter, zero);
      return Err("Digit 0 not recognized");
    }
    var six, nine := SplitSixes(st.sixes - {zero}, st.corrected[1], st.corrected[6], st.corrected[9]);
    return Ok((zero, six, nine));
  }

  /** `correct_digits` after a successful first pass. */
  method CorrectFrom(digits: seq<Digit>, st: Sorted) returns (r: Result<Digits10>)
    requires |digits| == 10 && FirstPassState(digits, 10, st)
    ensures !r.Panic?
    ensures r.Err? ==> r.msg in {"Invalid digit", "Digit 3 not recognized", "Digit 0 not recognized"}
    ensures r.Ok? ==>
      && r.value[1] == st.corrected[1] && r.value[4] == st.corrected[4]
      && r.value[7] == st.corrected[7] && r.value[8] == st.corrected[8]
      && r.value[3] in st.fives && IsThree(r.value[3], r.value[1])
      && r.value[0] in st.sixes
    ensures forall p :: Decodable(p) && Shows(digits, p) ==> r == Ok(p)
  {
    var fives := CorrectFives(digits, st);
    if fives.Err? {
      return Err(fives.msg);
    }
    var (three, two, five) := fives.value;
    var sixes := CorrectSixes(digits, st, three);
    if sixes.Err? {
      return Err(sixes.msg);
    }
    var (zero, six, nine) := sixes.value;
    Recovered(digits, st, three, two, five, zero, six, nine);
    return Ok(Assembled(st, three, two, five, zero, six, nine));
  }

  /** `correct_digits`: sorts the ten patterns of a line into digit order.
      The passes look only at segment counts and at overlaps with digits
      already found. */
  method CorrectDigits(digits: seq<Digit>) returns (r: Result<Digits10>)
    requires |digits| == 10
    ensures !r.Panic?
    ensures (exists k :: 0 <= k < 10 && !ValidCount(CountActive(digits[k]))) ==> r == Err("Invalid digit")
    ensures r.Err? ==> r.msg in {"Invalid digit", "Digit 3 not recognized", "Digit 0 not recognized"}
    ensures r.Ok? ==> FirstPass(digits, 10).Ok?
    ensures r.Ok? ==> var st := FirstPass(digits, 10).value;
      && r.value[1] == st.corrected[1] && r.value[4] == st.corrected[4]
      && r.value[7] == st.corrected[7] && r.value[8] == st.corrected[8]
      && r.value[3] in st.fives && IsThree(r.value[3], r.value[1])
      && r.value[0] in st.sixes
    ensures forall p :: Decodable(p) && Shows(digits, p) ==> r == Ok(p)
  {
    var first := FirstPass(digits, 10);
    if first.Err? {
      NoFirstPass(digits);
      return Err("Invalid digit");
    }
    r := CorrectFrom(digits, first.value);
  }
}

=== FILE: day08_display.dfy ===
/** Seven-segment digits and four-digit displays (day 8). Segment `i` of a
    digit is the one the puzzle calls letter `'a' + i`; a digit's `u8`
    view sets bit `i` for each lit segment. */
module SevenSegment {
  import opened Common
  import opened Bits

  /** The lit state of segments a..g. */
  type Segments = s: seq<bool> | |s| == 7 witness [false, false, false, false, false, false, false]

  datatype Digit = Digit(segments: Segments)

  /** The `u8` patterns of the digits 0..9 (bit `i` is segment `'a' + i`). */
  const SEGMENTS: seq<nat> := [119, 36, 93, 109, 46, 107, 123, 37, 127, 111]

  /** The lit segments of the digits 0..9, as letters in order. */
  const STRINGS: seq<string> := ["abcefg", "cf", "acdeg", "acdfg", "bcdf", "abdfg", "abdefg", "acf", "abcdefg", "abcdfg"]

  const Blank: Digit := Digit([false, false, false, false, false, false, false])

  /** The letter naming segment `i`. */
  function SegmentChar(i: nat): (c: char)
    requires i < 7
    ensures 'a' <= c <= 'g'
  {
    ('a' as int + i) as char
  }

  /** The segment a letter in `'a'..='g'` names. */
  function SegmentIndex(c: char): (i: nat)
    requires 'a' <= c <= 'g'
    ensures i < 7 && SegmentChar(i) == c
  {
    c as int - 'a' as int
  }

  // ---------------------------------------------------------------------
  // Digit::new, from_binary, from_number and the u8 view

  /** `Digit::new`: nothing lit. */
  function NewDigit(): (d: Digit)
    ensures forall i :: 0 <= i < 7 ==> !d.segments[i]
  {
    Blank
  }

  /** `Digit::from_binary`: segment `i` is lit when bit `i` of `num` is set;
      bit 7 of the byte is ignored. */
  function FromBinary(num: nat): (d: Digit)
    requires num < 256
    ensures forall i :: 0 <= i < 7 ==> (d.segments[i] <==> BitOf(num, i) == 1)
  {
    Digit(seq(7, i requires 0 <= i < 7 => BitOf(num, i) == 1))
  }

  /** The weight of a segment list, segment `i` counting `2^i`. */
  function Weigh(s: seq<bool>): (n: nat)
    ensures n < Pow2(|s|)
  {
    if |s| == 0 then 0 else (if s[0] then 1 else 0) + 2 * Weigh(s[1..])
  }

  /** `u8::from(&Digit)`: the byte with bit `i` set for each lit segment. */
  function ToByte(d: Digit): (n: nat)
    ensures n < 128
  {
    Weigh(d.segments)
  }

  lemma {:induction false} WeighBits(s: seq<bool>, i: nat)
    requires i < |s|
    ensures BitOf(Weigh(s), i) == (if s[i] then 1 else 0)
    decreases i
  {
    if i > 0 {
      assert Weigh(s) / 2 == Weigh(s[1..]);
      WeighBits(s[1..], i - 1);
    }
  }

  /** Bit `i` of a digit's byte is segment `i`. */
  lemma ToByteBits(d: Digit, i: nat)
    requires i < 7
    ensures BitOf(ToByte(d), i) == (if d.segments[i] then 1 else 0)
  {
    WeighBits(d.segments, i);
  }

  /** Reading a digit's byte back gives the digit. */
  lemma FromBinaryToByte(d: Digit)
    ensures FromBinary(ToByte(d)) == d
  {
    var e := FromBinary(ToByte(d));
    forall i | 0 <= i < 7
      ensures e.segments[i] == d.segments[i]
    {
      ToByteBits(d, i);
    }
  }

  /** A byte below 128 survives the trip through a digit. */
  lemma ToByteFromBinary(num: nat)
    requires num < 128
    ensures ToByte(FromBinary(num)) == num
  {
    var d := FromBinary(num);
    forall i | 0 <= i < 7
      ensures BitOf(ToByte(d), i) == BitOf(num, i)
    {
      ToByteBits(d, i);
    }
    assert Pow2(7) == 128;
    BitsDetermine(ToByte(d), num, 7);
  }

  /** `Digit::from_number`: the canonical pattern of a decimal digit (an
      index past 9 panics in the source and is excluded here). */
  function FromNumber(n: nat): (d: Digit)
    requires n < 10
    ensures ToByte(d) == SEGMENTS[n]
  {
    ToByteFromBinary(SEGMENTS[n]);
    FromBinary(SEGMENTS[n])
  }

  // ---------------------------------------------------------------------
  // Counting, &, &= and !

  /** The number of `true` entries. */
  function CountTrue(s: seq<bool>): (n: nat)
    ensures n <= |s|
  {
    if |s| == 0 then 0 else (if s[0] then 1 else 0) + CountTrue(s[1..])
  }

  /** `Digit::count_active_segments`. */
  function CountActive(d: Digit): (n: nat)
    ensures n <= 7
  {
    CountTrue(d.segments)
  }

  function Lit(b: bool): nat
  {
    if b then 1 else 0
  }

  /** The count of a digit, segment by segment. */
  lemma CountSeven(d: Digit)
    ensures CountActive(d) == Lit(d.segments[0]) + Lit(d.segments[1]) + Lit(d.segments[2])
      + Lit(d.segments[3]) + Lit(d.segments[4]) + Lit(d.segments[5]) + Lit(d.segments[6])
  {
    var s := d.segments;
    assert CountTrue(s[6..]) == Lit(s[6]) by {
      assert s[6..][1..] == [];
    }
    assert CountTrue(s[5..]) == Lit(s[5]) + CountTrue(s[6..]) by {
      assert s[5..][1..] == s[6..];
    }
    assert CountTrue(s[4..]) == Lit(s[4]) + CountTrue(s[5..]) by {
      assert s[4..][1..] == s[5..];
    }
    assert CountTrue(s[3..]) == Lit(s[3]) + CountTrue(s[4..]) by {
      assert s[3..][1..] == s[4..];
    }
    assert CountTrue(s[2..]) == Lit(s[2]) + CountTrue(s[3..]) by {
      assert s[2..][1..] == s[3..];
    }
    assert CountTrue(s[1..]) == Lit(s[1]) + CountTrue(s[2..]) by {
      assert s[1..][1..] == s[2..];
    }
  }

  /** `Digit & Digit`: the segments lit in both. */
  function And(a: Digit, b: Digit): (r: Digit)
    ensures forall i :: 0 <= i < 7 ==> (r.segments[i] <==> a.segments[i] && b.segments[i])
  {
    Digit(seq(7, i requires 0 <= i < 7 => a.segments[i] && b.segments[i]))
  }

  /** `!Digit`: the segments not lit. */
  function Not(d: Digit): (r: Digit)
    ensures forall i :: 0 <= i < 7 ==> (r.segments[i] <==> !d.segments[i])
  {
    Digit(seq(7, i requires 0 <= i < 7 => !d.segments[i]))
  }

  /** `Digit &= Digit`, the in-place loop over the segments; it agrees with
      `&`. */
  method AndAssign(a: Digit, b: Digit) returns (r: Digit)
    ensures r == And(a, b)
  {
    var s := a.segments;
    var i := 0;
    while i < 7
      invariant 0 <= i <= 7 && |s| == 7
      invariant forall j :: 0 <= j < i ==> (s[j] <==> a.segments[j] && b.segments[j])
      invariant forall j :: i <= j < 7 ==> s[j] == a.segments[j]
    {
      s := s[i := s[i] && b.segments[i]];
      i := i + 1;
    }
    r := Digit(s);
  }

  /** The byte of `a & b` is the bitwise AND of the bytes. */
  lemma AndByte(a: Digit, b: Digit)
    ensures ToByte(And(a, b)) == AndBits(ToByte(a), ToByte(b))
  {
    var x, y := ToByte(a), ToByte(b);
    forall i | 0 <= i < 7
      ensures BitOf(ToByte(And(a, b)), i) == BitOf(AndBits(x, y), i)
    {
      ToByteBits(And(a, b), i);
      ToByteBits(a, i);
      ToByteBits(b, i);
      AndBitsBits(x, y, i);
    }
    assert Pow2(7) == 128;
    BitsDetermine(ToByte(And(a, b)), AndBits(x, y), 7);
  }

  /** The byte of `!d` is the seven-bit complement of the byte of `d`. */
  lemma NotByte(d: Digit)
    ensures ToByte(Not(d)) == 127 - ToByte(d)
  {
    forall i | 0 <= i < 7
      ensures BitOf(ToByte(Not(d)), i) + BitOf(ToByte(d), i) == 1
    {
      ToByteBits(Not(d), i);
      ToByteBits(d, i);
    }
    assert Pow2(7) == 128;
    ComplementSum(ToByte(Not(d)), ToByte(d), 7);
  }

  /** `!` is an involution, and `d & !d` lights nothing. */
  lemma NotNot(d: Digit)
    ensures Not(Not(d)) == d
    ensures And(d, Not(d)) == NewDigit()
  {
    assert Not(Not(d)).segments == d.segments;
    assert And(d, Not(d)).segments == NewDigit().segments;
  }

  lemma {:induction false} CountTrueComplement(s: seq<bool>, t: seq<bool>)
    requires |s| == |t|
    requires forall i :: 0 <= i < |s| ==> t[i] == !s[i]
    ensures CountTrue(s) + CountTrue(t) == |s|
  {
    if |s| > 0 {
      CountTrueComplement(s[1..], t[1..]);
    }
  }

  /** A digit and its complement light all seven segments between them. */
  lemma CountNot(d: Digit)
    ensures CountActive(Not(d)) == 7 - CountActive(d)
  {
    CountTrueComplement(d.segments, Not(d).segments);
  }

  lemma {:induction false} CountTrueZero(s: seq<bool>)
    ensures CountTrue(s) == 0 <==> forall i :: 0 <= i < |s| ==> !s[i]
  {
    if |s| > 0 {
      CountTrueZero(s[1..]);
      assert forall i :: 1 <= i < |s| ==> s[i] == s[1..][i - 1];
    }
  }

  /** Only the blank digit has no lit segment. */
  lemma CountZero(d: Digit)
    ensures CountActive(d) == 0 <==> d == NewDigit()
  {
    CountTrueZero(d.segments);
    if CountActive(d) == 0 {
      assert d.segments == NewDigit().segments;
    }
  }

  // ---------------------------------------------------------------------
  // Parsing and printing

  /** Lights the segments named by `s` on top of `d`; the first character
      outside `'a'..='g'` is an error. */
  function ParseFrom(d: Digit, s: string): (r: Result<Digit>)
    ensures !r.Panic?
    ensures r.Ok? <==> forall k :: 0 <= k < |s| ==> 'a' <= s[k] <= 'g'
    ensures r.Ok? ==> forall i :: 0 <= i < 7 ==> (r.value.segments[i] <==> d.segments[i] || SegmentChar(i) in s)
    decreases |s|
  {
    if |s| == 0 then Ok(d)
    else if 'a' <= s[0] <= 'g' then
      var i := SegmentIndex(s[0]);
      var r := ParseFrom(Digit(d.segments[i := true]), s[1..]);
      assert forall k :: 1 <= k < |s| ==> s[k] == s[1..][k - 1];
      assert forall c :: c in s <==> c == s[0] || c in s[1..];
      r
    else Err("Invalid character: `" + [s[0]] + "`")
  }

  /** `Digit::from_str`: each letter in `'a'..='g'` lights its segment; any
      other character is an error. */
  function Parse(s: string): (r: Result<Digit>)
    ensures !r.Panic?
    ensures r.Ok? <==> forall k :: 0 <= k < |s| ==> 'a' <= s[k] <= 'g'
    ensures r.Ok? ==> forall i :: 0 <= i < 7 ==> (r.value.segments[i] <==> SegmentChar(i) in s)
  {
    ParseFrom(NewDigit(), s)
  }

  /** The letters of the lit segments from `i` on, in order. */
  function ShowFrom(d: Digit, i: nat): (s: string)
    requires i <= 7
    ensures forall k :: 0 <= k < |s| ==> 'a' <= s[k] <= 'g'
    ensures forall k :: 0 <= k < |s| ==> SegmentIndex(s[k]) >= i
    ensures forall k, l :: 0 <= k < l < |s| ==> s[k] < s[l]
    ensures forall j :: i <= j < 7 ==> (d.segments[j] <==> SegmentChar(j) in s)
    ensures |s| == CountTrue(d.segments[i..])
    decreases 7 - i
  {
    if i == 7 then ""
    else
      var rest := ShowFrom(d, i + 1);
      assert d.segments[i..][1..] == d.segments[i + 1..];
      if d.segments[i] then [SegmentChar(i)] + rest else rest
  }

  /** `Display for Digit`: the letters of the lit segments, in order. */
  function Show(d: Digit): (s: string)
    ensures forall k :: 0 <= k < |s| ==> 'a' <= s[k] <= 'g'
    ensures forall k, l :: 0 <= k < l < |s| ==> s[k] < s[l]
    ensures forall i :: 0 <= i < 7 ==> (d.segments[i] <==> SegmentChar(i) in s)
    ensures |s| == CountActive(d)
  {
    assert d.segments[0..] == d.segments;
    ShowFrom(d, 0)
  }

  /** Printing a digit and parsing the text gives the digit back. */
  lemma ParseShow(d: Digit)
    ensures Parse(Show(d)) == Ok(d)
  {
    var r := Parse(Show(d));
    assert r.value.segments == d.segments;
  }

  predicate Increasing(s: string)
  {
    forall k, l :: 0 <= k < l < |s| ==> s[k] < s[l]
  }

  /** A word of distinct segment letters is as long as the number of
      segments it lights: what lets part 1 recognise 1, 4, 7 and 8 by the
      length of the word alone. */
  lemma WordLength(s: string)
    requires forall k :: 0 <= k < |s| ==> 'a' <= s[k] <= 'g'
    requires NoRepeats(s)
    ensures Parse(s).Ok? && |s| == CountActive(Parse(s).value)
  {
    var t := Show(Parse(s).value);
    SameLetters(s);
    IncreasingNoRepeats(t);
    SameElementsLength(s, t);
  }

  /** A word and the printing of the digit it reads as hold the same
      letters. */
  lemma SameLetters(s: string)
    requires forall k :: 0 <= k < |s| ==> 'a' <= s[k] <= 'g'
    ensures Parse(s).Ok? && forall c :: c in s <==> c in Show(Parse(s).value)
  {
    var d := Parse(s).value;
    var t := Show(d);
    forall c | c in s
      ensures c in t
    {
      assert SegmentChar(SegmentIndex(c)) == c;
    }
    forall c | c in t
      ensures c in s
    {
      assert SegmentChar(SegmentIndex(c)) == c;
    }
  }

  lemma IncreasingNoRepeats(t: string)
    requires forall k, l :: 0 <= k < l < |t| ==> t[k] < t[l]
    ensures NoRepeats(t)
  {
  }

  /** Two increasing strings with the same letters are equal. */
  lemma {:induction false} IncreasingUnique(s: string, t: string)
    requires Increasing(s) && Increasing(t)
    requires forall c :: c in s <==> c in t
    ensures s == t
  {
    if |s| > 0 {
      assert s[0] in t;
    }
    if |t| > 0 {
      assert t[0] in s;
    }
    if |s| > 0 && |t| > 0 {
      assert s[0] == t[0];
      forall c
        ensures c in s[1..] <==> c in t[1..]
      {
        if c in s[1..] {
          assert c in s && c != s[0];
        }
        if c in t[1..] {
          assert c in t && c != t[0];
        }
        if c in s && c != s[0] {
          var k :| 0 <= k < |s| && s[k] == c;
          assert s[1..][k - 1] == c;
        }
        if c in t && c != t[0] {
          var k :| 0 <= k < |t| && t[k] == c;
          assert t[1..][k - 1] == c;
        }
      }
      IncreasingUnique(s[1..], t[1..]);
    }
  }

  /** Text that names segments in increasing order is what printing the
      parsed digit gives back. */
  lemma ShowParse(s: string)
    requires forall k :: 0 <= k < |s| ==> 'a' <= s[k] <= 'g'
    requires Increasing(s)
    ensures Parse(s).Ok? && Show(Parse(s).value) == s
  {
    var t := Show(Parse(s).value);
    forall c
      ensures c in s <==> c in t
    {
      if c in s {
        var k :| 0 <= k < |s| && s[k] == c;
        assert SegmentChar(SegmentIndex(c)) == c;
      }
      if c in t {
        var k :| 0 <= k < |t| && t[k] == c;
        assert SegmentChar(SegmentIndex(c)) == c;
      }
    }
    IncreasingUnique(s, t);
  }

  /** The canonical letters of each decimal digit are in increasing order. */
  lemma StringsLetters(n: nat)
    requires n < 10
    ensures forall k :: 0 <= k < |STRINGS[n]| ==> 'a' <= STRINGS[n][k] <= 'g'
  {
  }

  lemma StringsIncreasing(n: nat)
    requires n < 10
    ensures Increasing(STRINGS[n])
  {
  }

  /** The canonical letters of each decimal digit parse to its canonical
      pattern. */
  lemma CanonicalParse(n: nat)
    requires n < 10
    ensures Parse(STRINGS[n]) == Ok(FromNumber(n))
  {
    StringsLetters(n);
    var d := Parse(STRINGS[n]).value;
    var e := FromNumber(n);
    forall i | 0 <= i < 7
      ensures d.segments[i] == e.segments[i]
    {
      CanonicalSegment(n, i);
    }
    assert d == e;
  }

  /** The canonical pattern of each decimal digit prints as its canonical
      letters, and they parse back to it. */
  lemma CanonicalStrings(n: nat)
    requires n < 10
    ensures Parse(STRINGS[n]) == Ok(FromNumber(n))
    ensures Show(FromNumber(n)) == STRINGS[n]
  {
    StringsIncreasing(n);
    ShowParse(STRINGS[n]);
    CanonicalParse(n);
  }

  /** The segments of the canonical digits, written out. */
  const CANONICAL: seq<Segments> := [
    [true, true, true, false, true, true, true],
    [false, false, true, false, false, true, false],
    [true, false, true, true, true, false, true],
    [true, false, true, true, false, true, true],
    [false, true, true, true, false, true, false],
    [true, true, false, true, false, true, true],
    [true, true, false, true, true, true, true],
    [true, false, true, false, false, true, false],
    [true, true, true, true, true, true, true],
    [true, true, true, true, false, true, true]
  ]

  /** The number of segments each canonical digit lights. */
  const SEGMENT_COUNTS: seq<nat> := [6, 2, 5, 5, 4, 5, 6, 3, 7, 6]

  /** `Digit::from_number` agrees with the written-out table. */
  lemma CanonicalLiteral(n: nat)
    requires n < 10
    ensures FromNumber(n) == Digit(CANONICAL[n])
    ensures CountActive(FromNumber(n)) == SEGMENT_COUNTS[n]
  {
    forall i | 0 <= i < 7
      ensures FromNumber(n).segments[i] == CANONICAL[n][i]
    {
      CanonicalBits(n, i);
    }
    assert FromNumber(n) == Digit(CANONICAL[n]);
    CanonicalCount(n);
  }

  lemma CanonicalCount(n: nat)
    requires n < 10
    ensures CountActive(Digit(CANONICAL[n])) == SEGMENT_COUNTS[n]
  {
    if n < 5 {
      CanonicalCountLow(n);
    } else {
      CanonicalCountHigh(n);
    }
  }

  lemma CanonicalCountLow(n: nat)
    requires n < 5
    ensures CountActive(Digit(CANONICAL[n])) == SEGMENT_COUNTS[n]
  {
    CountSeven(Digit(CANONICAL[n]));
  }

  lemma CanonicalCountHigh(n: nat)
    requires 5 <= n < 10
    ensures CountActive(Digit(CANONICAL[n])) == SEGMENT_COUNTS[n]
  {
    CountSeven(Digit(CANONICAL[n]));
  }

  /** Segment `i` is lit in the canonical pattern of `n` exactly when its
      letter appears in the canonical string of `n`. */
  lemma CanonicalSegment(n: nat, i: nat)
    requires n < 10 && i < 7
    ensures SegmentChar(i) in STRINGS[n] <==> FromNumber(n).segments[i]
  {
    CanonicalBits(n, i);
  }

  /** The pattern bits, the string letters and the table agree. */
  lemma CanonicalBits(n: nat, i: nat)
    requires n < 10 && i < 7
    ensures FromNumber(n).segments[i] <==> CANONICAL[n][i]
    ensures SegmentChar(i) in STRINGS[n] <==> CANONICAL[n][i]
  {
    assert FromNumber(n).segments[i] <==> BitOf(SEGMENTS[n], i) == 1;
    if n == 0 {
      CanonicalBits0(i);
    } else if n == 1 {
      CanonicalBits1(i);
    } else if n == 2 {
      CanonicalBits2(i);
    } else if n == 3 {
      CanonicalBits3(i);
    } else if n == 4 {
      CanonicalBits4(i);
    } else if n == 5 {
      CanonicalBits5(i);
    } else if n == 6 {
      CanonicalBits6(i);
    } else if n == 7 {
      CanonicalBits7(i);
    } else if n == 8 {
      CanonicalBits8(i);
    } else if n == 9 {
      CanonicalBits9(i);
    }
  }

  lemma CanonicalBits0(i: nat)
    requires i < 7
    ensures BitOf(SEGMENTS[0], i) == 1 <==> CANONICAL[0][i]
    ensures SegmentChar(i) in STRINGS[0] <==> CANONICAL[0][i]
  {
    assert STRINGS[0] == "abcefg" && SEGMENTS[0] == 119 && CANONICAL[0] == [true, true, true, false, true, true, true];
    if i == 0 {
      assert SegmentChar(0) == 'a';
    } else if i == 1 {
      assert SegmentChar(1) == 'b';
    } else if i == 2 {
      assert SegmentChar(2) == 'c';
    } else if i == 3 {
      assert SegmentChar(3) == 'd';
    } else if i == 4 {
      assert SegmentChar(4) == 'e';
    } else if i == 5 {
      assert SegmentChar(5) == 'f';
    } else if i == 6 {
      assert SegmentChar(6) == 'g';
    }
  }

  lemma CanonicalBits1(i: nat)
    requires i < 7
    ensures BitOf(SEGMENTS[1], i) == 1 <==> CANONICAL[1][i]
    ensures SegmentChar(i) in STRINGS[1] <==> CANONICAL[1][i]
  {
    assert STRINGS[1] == "cf" && SEGMENTS[1] == 36 && CANONICAL[1] == [false, false, true, false, false, true, false];
    if i == 0 {
      assert SegmentChar(0) == 'a';
    } else if i == 1 {
      assert SegmentChar(1) == 'b';
    } else if i == 2 {
      assert SegmentChar(2) == 'c';
    } else if i == 3 {
      assert SegmentChar(3) == 'd';
    } else if i == 4 {
      assert SegmentChar(4) == 'e';
    } else if i == 5 {
      assert SegmentChar(5) == 'f';
    } else if i == 6 {
      assert SegmentChar(6) == 'g';
    }
  }

  lemma CanonicalBits2(i: nat)
    requires i < 7
    ensures BitOf(SEGMENTS[2], i) == 1 <==> CANONICAL[2][i]
    ensures SegmentChar(i) in STRINGS[2] <==> CANONICAL[2][i]
  {
    assert STRINGS[2] == "acdeg" && SEGMENTS[2] == 93 && CANONICAL[2] == [true, false, true, true, true, false, true];
    if i == 0 {
      assert SegmentChar(0) == 'a';
    } else if i == 1 {
      assert SegmentChar(1) == 'b';
    } else if i == 2 {
      assert SegmentChar(2) == 'c';
    } else if i == 3 {
      assert SegmentChar(3) == 'd';
    } else if i == 4 {
      assert SegmentChar(4) == 'e';
    } else if i == 5 {
      assert SegmentChar(5) == 'f';
    } else if i == 6 {
      assert SegmentChar(6) == 'g';
    }
  }

  lemma CanonicalBits3(i: nat)
    requires i < 7
    ensures BitOf(SEGMENTS[3], i) == 1 <==> CANONICAL[3][i]
    ensures SegmentChar(i) in STRINGS[3] <==> CANONICAL[3][i]
  {
    assert STRINGS[3] == "acdfg" && SEGMENTS[3] == 109 && CANONICAL[3] == [true, false, true, true, false, true, true];
    if i == 0 {
      assert SegmentChar(0) == 'a';
    } else if i == 1 {
      assert SegmentChar(1) == 'b';
    } else if i == 2 {
      assert SegmentChar(2) == 'c';
    } else if i == 3 {
      assert SegmentChar(3) == 'd';
    } else if i == 4 {
      assert SegmentChar(4) == 'e';
    } else if i == 5 {
      assert SegmentChar(5) == 'f';
    } else if i == 6 {
      assert SegmentChar(6) == 'g';
    }
  }

  lemma CanonicalBits4(i: nat)
    requires i < 7
    ensures BitOf(SEGMENTS[4], i) == 1 <==> CANONICAL[4][i]
    ensures SegmentChar(i) in STRINGS[4] <==> CANONICAL[4][i]
  {
    assert STRINGS[4] == "bcdf" && SEGMENTS[4] == 46 && CANONICAL[4] == [false, true, true, true, false, true, false];
    if i == 0 {
      assert SegmentChar(0) == 'a';
    } else if i == 1 {
      assert SegmentChar(1) == 'b';
    } else if i == 2 {
      assert SegmentChar(2) == 'c';
    } else if i == 3 {
      assert SegmentChar(3) == 'd';
    } else if i == 4 {
      assert SegmentChar(4) == 'e';
    } else if i == 5 {
      assert SegmentChar(5) == 'f';
    } else if i == 6 {
      assert SegmentChar(6) == 'g';
    }
  }

  lemma CanonicalBits5(i: nat)
    requires i < 7
    ensures BitOf(SEGMENTS[5], i) == 1 <==> CANONICAL[5][i]
    ensures SegmentChar(i) in STRINGS[5] <==> CANONICAL[5][i]
  {
    assert STRINGS[5] == "abdfg" && SEGMENTS[5] == 107 && CANONICAL[5] == [true, true, false, true, false, true, true];
    if i == 0 {
      assert SegmentChar(0) == 'a';
    } else if i == 1 {
      assert SegmentChar(1) == 'b';
    } else if i == 2 {
      assert SegmentChar(2) == 'c';
    } else if i == 3 {
      assert SegmentChar(3) == 'd';
    } else if i == 4 {
      assert SegmentChar(4) == 'e';
    } else if i == 5 {
      assert SegmentChar(5) == 'f';
    } else if i == 6 {
      assert SegmentChar(6) == 'g';
    }
  }

  lemma CanonicalBits6(i: nat)
    requires i < 7
    ensures BitOf(SEGMENTS[6], i) == 1 <==> CANONICAL[6][i]
    ensures SegmentChar(i) in STRINGS[6] <==> CANONICAL[6][i]
  {
    assert STRINGS[6] == "abdefg" && SEGMENTS[6] == 123 && CANONICAL[6] == [true, true, false, true, true, true, true];
    if i == 0 {
      assert SegmentChar(0) == 'a';
    } else if i == 1 {
      assert SegmentChar(1) == 'b';
    } else if i == 2 {
      assert SegmentChar(2) == 'c';
    } else if i == 3 {
      assert SegmentChar(3) == 'd';
    } else if i == 4 {
      assert SegmentChar(4) == 'e';
    } else if i == 5 {
      assert SegmentChar(5) == 'f';
    } else if i == 6 {
      assert SegmentChar(6) == 'g';
    }
  }

  lemma CanonicalBits7(i: nat)
    requires i < 7
    ensures BitOf(SEGMENTS[7], i) == 1 <==> CANONICAL[7][i]
    ensures SegmentChar(i) in STRINGS[7] <==> CANONICAL[7][i]
  {
    assert STRINGS[7] == "acf" && SEGMENTS[7] == 37 && CANONICAL[7] == [true, false, true, false, false, true, false];
    if i == 0 {
      assert SegmentChar(0) == 'a';
    } else if i == 1 {
      assert SegmentChar(1) == 'b';
    } else if i == 2 {
      assert SegmentChar(2) == 'c';
    } else if i == 3 {
      assert SegmentChar(3) == 'd';
    } else if i == 4 {
      assert SegmentChar(4) == 'e';
    } else if i == 5 {
      assert SegmentChar(5) == 'f';
    } else if i == 6 {
      assert SegmentChar(6) == 'g';
    }
  }

  lemma CanonicalBits8(i: nat)
    requires i < 7
    ensures BitOf(SEGMENTS[8], i) == 1 <==> CANONICAL[8][i]
    ensures SegmentChar(i) in STRINGS[8] <==> CANONICAL[8][i]
  {
    assert STRINGS[8] == "abcdefg" && SEGMENTS[8] == 127 && CANONICAL[8] == [true, true, true, true, true, true, true];
    if i == 0 {
      assert SegmentChar(0) == 'a';
    } else if i == 1 {
      assert SegmentChar(1) == 'b';
    } else if i == 2 {
      assert SegmentChar(2) == 'c';
    } else if i == 3 {
      assert SegmentChar(3) == 'd';
    } else if i == 4 {
      assert SegmentChar(4) == 'e';
    } else if i == 5 {
      assert SegmentChar(5) == 'f';
    } else if i == 6 {
      assert SegmentChar(6) == 'g';
    }
  }

  lemma CanonicalBits9(i: nat)
    requires i < 7
    ensures BitOf(SEGMENTS[9], i) == 1 <==> CANONICAL[9][i]
    ensures SegmentChar(i) in STRINGS[9] <==> CANONICAL[9][i]
  {
    assert STRINGS[9] == "abcdfg" && SEGMENTS[9] == 111 && CANONICAL[9] == [true, true, true, true, false, true, true];
    if i == 0 {
      assert SegmentChar(0) == 'a';
    } else if i == 1 {
      assert SegmentChar(1) == 'b';
    } else if i == 2 {
      assert SegmentChar(2) == 'c';
    } else if i == 3 {
      assert SegmentChar(3) == 'd';
    } else if i == 4 {
      assert SegmentChar(4) == 'e';
    } else if i == 5 {
      assert SegmentChar(5) == 'f';
    } else if i == 6 {
      assert SegmentChar(6) == 'g';
    }
  }

  // ---------------------------------------------------------------------
  // Recognising digits

  /** The first index from `i` on whose pattern is `byte`. */
  function MatchFrom(byte: nat, i: nat): (r: Option<nat>)
    requires i <= 10
    ensures r.Some? ==> i <= r.value < 10 && SEGMENTS[r.value] == byte
    ensures r.Some? ==> forall j :: i <= j < r.value ==> SEGMENTS[j] != byte
    ensures r.None? <==> forall j :: i <= j < 10 ==> SEGMENTS[j] != byte
    decreases 10 - i
  {
    if i == 10 then None
    else if SEGMENTS[i] == byte then Some(i)
    else MatchFrom(byte, i + 1)
  }

  /** `Digit::as_number`: the decimal digit whose pattern the digit shows,
      if any. */
  function AsNumber(d: Digit): (r: Option<nat>)
    ensures r.Some? ==> r.value < 10 && ToByte(d) == SEGMENTS[r.value]
    ensures r.None? <==> forall j :: 0 <= j < 10 ==> ToByte(d) != SEGMENTS[j]
  {
    MatchFrom(ToByte(d), 0)
  }

  /** The ten patterns are distinct. */
  lemma SegmentsDistinct()
    ensures forall i, j :: 0 <= i < j < 10 ==> SEGMENTS[i] != SEGMENTS[j]
  {
  }

  /** Each decimal digit's canonical pattern is recognised as that digit. */
  lemma AsNumberFromNumber(n: nat)
    requires n < 10
    ensures AsNumber(FromNumber(n)) == Some(n)
  {
    SegmentsDistinct();
  }

  /** Recognition is the inverse of `FromNumber`: a recognised digit is the
      canonical pattern of its number. */
  lemma FromNumberAsNumber(d: Digit)
    requires AsNumber(d).Some?
    ensures FromNumber(AsNumber(d).value) == d
  {
    FromBinaryToByte(d);
  }

  // ---------------------------------------------------------------------
  // Four-digit displays

  /** `Display`: four digits, the least significant first. */
  type Digits4 = s: seq<Digit> | |s| == 4 witness [Blank, Blank, Blank, Blank]

  datatype Display = Display(digits: Digits4)

  /** `Display::new`. */
  function NewDisplay(): (r: Display)
    ensures forall i :: 0 <= i < 4 ==> r.digits[i] == NewDigit()
  {
    Display([Blank, Blank, Blank, Blank])
  }

  function Pow10(n: nat): (r: nat)
    ensures r >= 1
  {
    if n == 0 then 1 else 10 * Pow10(n - 1)
  }

  /** Decimal digit `i` of `n`. */
  function DecimalDigit(n: nat, i: nat): (r: nat)
    ensures r < 10
  {
    if i == 0 then n % 10 else DecimalDigit(n / 10, i - 1)
  }

  /** Prepending a decimal digit shifts the others up one place. */
  lemma DecimalShift(n: nat, v: nat, rest: nat, m: nat)
    requires v < 10 && n == v + 10 * rest && rest < m
    ensures n < 10 * m
    ensures DecimalDigit(n, 0) == v
    ensures forall i :: 1 <= i ==> DecimalDigit(n, i) == DecimalDigit(rest, i - 1)
  {
    assert n % 10 == v && n / 10 == rest;
  }

  /** The number the digits show, the first the least significant; `None`
      once any digit is not recognised. */
  function DigitsValue(ds: seq<Digit>): (r: Option<nat>)
    ensures r.Some? <==> forall i :: 0 <= i < |ds| ==> AsNumber(ds[i]).Some?
    ensures r.Some? ==> r.value < Pow10(|ds|)
    ensures r.Some? ==> forall i :: 0 <= i < |ds| ==> DecimalDigit(r.value, i) == AsNumber(ds[i]).value
  {
    if |ds| == 0 then Some(0)
    else
      match AsNumber(ds[0])
      case None => None
      case Some(v) =>
        match DigitsValue(ds[1..])
        case None => None
        case Some(rest) =>
          DigitsValueStep(ds, v, rest);
          Some(v + 10 * rest)
  }

  /** One more digit in front: the value shifts up one decimal place. */
  lemma DigitsValueStep(ds: seq<Digit>, v: nat, rest: nat)
    requires |ds| > 0 && AsNumber(ds[0]) == Some(v)
    requires forall i :: 0 <= i < |ds| - 1 ==> AsNumber(ds[1..][i]).Some?
    requires rest < Pow10(|ds| - 1)
    requires forall i :: 0 <= i < |ds| - 1 ==> DecimalDigit(rest, i) == AsNumber(ds[1..][i]).value
    ensures forall i :: 0 <= i < |ds| ==> AsNumber(ds[i]).Some?
    ensures v + 10 * rest < Pow10(|ds|)
    ensures forall i :: 0 <= i < |ds| ==> DecimalDigit(v + 10 * rest, i) == AsNumber(ds[i]).value
  {
    DecimalShift(v + 10 * rest, v, rest, Pow10(|ds| - 1));
    assert forall i :: 1 <= i < |ds| ==> ds[i] == ds[1..][i - 1];
  }

  /** `Display::as_number`: `Σ digit_i * 10^i`, `None` if a digit is not
      recognised. */
  function DisplayNumber(display: Display): (r: Option<nat>)
    ensures r.Some? <==> forall i :: 0 <= i < 4 ==> AsNumber(display.digits[i]).Some?
    ensures r.Some? ==> r.value < 10000
    ensures r.Some? ==> forall i :: 0 <= i < 4 ==> DecimalDigit(r.value, i) == AsNumber(display.digits[i]).value
  {
    DigitsValue(display.digits)
  }

  /** Numbers below 10^n are determined by their lowest n decimal digits. */
  lemma {:induction false} DecimalDetermine(a: nat, b: nat, n: nat)
    requires a < Pow10(n) && b < Pow10(n)
    requires forall i :: 0 <= i < n ==> DecimalDigit(a, i) == DecimalDigit(b, i)
    ensures a == b
  {
    if n > 0 {
      assert DecimalDigit(a, 0) == DecimalDigit(b, 0);
      forall i | 0 <= i < n - 1
        ensures DecimalDigit(a / 10, i) == DecimalDigit(b / 10, i)
      {
        assert DecimalDigit(a, i + 1) == DecimalDigit(b, i + 1);
      }
      DecimalDetermine(a / 10, b / 10, n - 1);
    }
  }

  /** A display showing the canonical digits of `n` reads as `n`. */
  lemma DisplayOfNumber(n: nat)
    requires n < 10000
    ensures DisplayNumber(Display(seq(4, i requires 0 <= i < 4 => FromNumber(DecimalDigit(n, i))))) == Some(n)
  {
    var display := Display(seq(4, i requires 0 <= i < 4 => FromNumber(DecimalDigit(n, i))));
    forall i | 0 <= i < 4
      ensures AsNumber(display.digits[i]) == Some(DecimalDigit(n, i))
    {
      AsNumberFromNumber(DecimalDigit(n, i));
    }
    var r := DisplayNumber(display);
    assert Pow10(4) == 10000;
    DecimalDetermine(r.value, n, 4);
  }

  /** `Display::apply_digit_mapping`: every digit is replaced by its image;
      a digit missing from the mapping panics (`HashMap` indexing). */
  function ApplyMapping(display: Display, mapping: map<Digit, Digit>): (r: Result<Display>)
    ensures !r.Err?
    ensures r.Ok? <==> forall i :: 0 <= i < 4 ==> display.digits[i] in mapping
    ensures r.Ok? ==> forall i :: 0 <= i < 4 ==> r.value.digits[i] == mapping[display.digits[i]]
  {
    if forall i :: 0 <= i < 4 ==> display.digits[i] in mapping then
      Ok(Display(seq(4, i requires 0 <= i < 4 => mapping[display.digits[i]])))
    else Panic("key not found in digit mapping")
  }
}

=== FILE: day08_input.dfy ===
/** One line of the day 8 input: ten signal patterns, a `|`, and the four
    output patterns, each a word of segment letters. */
module SignalInput {
  import opened Common

  datatype InputLine = InputLine(patterns: seq<string>, output: seq<string>)

  /** `parse_patterns` / `parse_output`: the words go into `n` slots in
      order, unused slots stay empty, and a word beyond the last slot
      panics on the array index. */
  function FillSlots(words: seq<string>, n: nat): (r: Result<seq<string>>)
    ensures !r.Err?
    ensures r.Ok? <==> |words| <= n
    ensures r.Ok? ==> |r.value| == n && r.value[..|words|] == words
    ensures r.Ok? ==> forall k :: |words| <= k < n ==> r.value[k] == ""
  {
    if |words| > n then Panic("index out of bounds")
    else Ok(words + seq(n - |words|, _ => ""))
  }

  /** `InputLine::from_str`: exactly one `|` is required; each side is
      trimmed and split at white space. */
  function ParseLine(s: string): (r: Result<InputLine>)
    ensures r.Err? <==> |Split(s, "|")| != 2
    ensures r.Ok? ==> |r.value.patterns| == 10 && |r.value.output| == 4
    ensures var parts := Split(s, "|");
      r.Panic? <==> |parts| == 2 && (|Tokens(Trim(parts[0]))| > 10 || |Tokens(Trim(parts[1]))| > 4)
    ensures r.Ok? ==> var parts := Split(s, "|");
      && |Tokens(Trim(parts[0]))| <= 10 && |Tokens(Trim(parts[1]))| <= 4
      && r.value.patterns[..|Tokens(Trim(parts[0]))|] == Tokens(Trim(parts[0]))
      && r.value.output[..|Tokens(Trim(parts[1]))|] == Tokens(Trim(parts[1]))
  {
    var parts := Split(s, "|");
    if |parts| != 2 then Err("Malformed input")
    else
      match FillSlots(Tokens(Trim(parts[0])), 10)
      case Ok(patterns) =>
        (match FillSlots(Tokens(Trim(parts[1])), 4)
         case Ok(output) => Ok(InputLine(patterns, output))
         case Panic(msg) => Panic(msg)
         case Err(msg) => Err(msg))
      case Panic(msg) => Panic(msg)
      case Err(msg) => Err(msg)
  }

  /** Words fit for a line: non-empty, without white space or `|`. */
  predicate IsWord(w: string)
  {
    |w| > 0 && NoSpace(w) && '|' !in w
  }

  /** A line of ten pattern words and four output words. */
  predicate WordLine(line: InputLine)
  {
    && |line.patterns| == 10 && |line.output| == 4
    && (forall k :: 0 <= k < 10 ==> IsWord(line.patterns[k]))
    && (forall k :: 0 <= k < 4 ==> IsWord(line.output[k]))
  }

  /** The text of a line as the puzzle writes it. */
  function Render(line: InputLine): string
  {
    Join(line.patterns, " ") + " | " + Join(line.output, " ")
  }

  lemma {:induction false} JoinAvoids(ws: seq<string>, c: char)
    requires forall k :: 0 <= k < |ws| ==> c !in ws[k]
    requires c != ' '
    ensures c !in Join(ws, " ")
  {
    if |ws| > 1 {
      JoinAvoids(ws[1..], c);
    }
  }

  lemma {:induction false} JoinEdges(ws: seq<string>)
    requires |ws| > 0
    requires forall k :: 0 <= k < |ws| ==> |ws[k]| > 0 && NoSpace(ws[k])
    ensures var s := Join(ws, " "); |s| > 0 && !IsSpace(s[0]) && !IsSpace(s[|s| - 1])
  {
    var s := Join(ws, " ");
    if |ws| > 1 {
      JoinEdges(ws[1..]);
      var rest := Join(ws[1..], " ");
      assert s == ws[0] + " " + rest;
      assert s[0] == ws[0][0];
      assert s[|s| - 1] == rest[|rest| - 1];
    } else {
      assert s == ws[0];
    }
  }

  /** Trimming one trailing or one leading space off words joined by
      spaces gives the joined words. */
  lemma TrimPadded(a: string)
    requires |a| > 0 && !IsSpace(a[0]) && !IsSpace(a[|a| - 1])
    ensures Trim(a + " ") == a
    ensures Trim(" " + a) == a
  {
    assert TrimStart(a + " ") == a + " ";
    assert (a + " ")[..|a|] == a;
    assert TrimEnd(a + " ") == TrimEnd(a) == a;
    assert (" " + a)[1..] == a;
    assert TrimStart(" " + a) == TrimStart(a) == a;
  }

  /** The `|` of a rendered line is its only one. */
  lemma SplitRender(line: InputLine)
    requires |line.patterns| > 0 && |line.output| > 0
    requires forall k :: 0 <= k < |line.patterns| ==> IsWord(line.patterns[k])
    requires forall k :: 0 <= k < |line.output| ==> IsWord(line.output[k])
    ensures Split(Render(line), "|") == [Join(line.patterns, " ") + " ", " " + Join(line.output, " ")]
  {
    var a := Join(line.patterns, " ");
    var b := Join(line.output, " ");
    JoinAvoids(line.patterns, '|');
    JoinAvoids(line.output, '|');
    var parts := [a + " ", " " + b];
    assert Join(parts, "|") == Render(line);
    SplitJoin(parts, '|');
  }

  /** Each side of a rendered line tokenises back to its words. */
  lemma TokensPadded(ws: seq<string>)
    requires |ws| > 0
    requires forall k :: 0 <= k < |ws| ==> IsWord(ws[k])
    ensures Tokens(Trim(Join(ws, " ") + " ")) == ws
    ensures Tokens(Trim(" " + Join(ws, " "))) == ws
  {
    JoinEdges(ws);
    TrimPadded(Join(ws, " "));
    TokensJoin(ws);
  }

  /** A line whose two sides tokenise to ten and four words parses to
      those words. */
  lemma ParseExact(s: string, patterns: seq<string>, output: seq<string>)
    requires |Split(s, "|")| == 2
    requires Tokens(Trim(Split(s, "|")[0])) == patterns && |patterns| == 10
    requires Tokens(Trim(Split(s, "|")[1])) == output && |output| == 4
    ensures ParseLine(s) == Ok(InputLine(patterns, output))
  {
    assert patterns + seq(0, _ => "") == patterns;
    assert output + seq(0, _ => "") == output;
  }

  /** Rendering a line of words and parsing the text gives the line back. */
  lemma ParseRender(line: InputLine)
    requires WordLine(line)
    ensures ParseLine(Render(line)) == Ok(line)
  {
    SplitRender(line);
    TokensPadded(line.patterns);
    TokensPadded(line.output);
    ParseExact(Render(line), line.patterns, line.output);
  }
}

=== FILE: day08_main.dfy ===
/** Decoding whole input lines (day 8): the digit mapping, the output
    display, and the two puzzle answers. */
module LineDecoder {
  import opened Common
  import opened SevenSegment
  import opened SignalInput
  import opened SegmentDecoder

  // ---------------------------------------------------------------------
  // create_mapping

  /** The map built from the first `n` corrected digits: one key per
      digit. */
  function MappingUpTo(c: seq<Digit>, n: nat): (m: map<Digit, Digit>)
    requires n <= |c| && n <= 10
    ensures m.Keys == set k | 0 <= k < n :: c[k]
  {
    if n == 0 then map[]
    else MappingUpTo(c, n - 1)[c[n - 1] := FromNumber(n - 1)]
  }

  /** Digit `k` maps to the canonical pattern of `k` unless a later
      digit is equal to it and overwrites the entry. */
  lemma {:induction false} MappingValue(c: seq<Digit>, n: nat, k: nat)
    requires n <= |c| && n <= 10 && k < n
    requires forall j :: k < j < n ==> c[j] != c[k]
    ensures c[k] in MappingUpTo(c, n) && MappingUpTo(c, n)[c[k]] == FromNumber(k)
  {
    var m := MappingUpTo(c, n - 1);
    assert MappingUpTo(c, n) == m[c[n - 1] := FromNumber(n - 1)];
    if k < n - 1 {
      MappingValue(c, n - 1, k);
      assert c[n - 1] != c[k];
    }
  }

  /** `create_mapping`. */
  function CreateMapping(c: Digits10): map<Digit, Digit>
  {
    MappingUpTo(c, 10)
  }

  /** For ten distinct patterns the mapping sends pattern `k` to the
      canonical `k`, and has no other keys. */
  lemma MappingOfDistinct(c: Digits10)
    requires Distinct(c)
    ensures CreateMapping(c).Keys == set k | 0 <= k < 10 :: c[k]
    ensures forall k :: 0 <= k < 10 ==> c[k] in CreateMapping(c) && CreateMapping(c)[c[k]] == FromNumber(k)
  {
    forall k | 0 <= k < 10
      ensures c[k] in CreateMapping(c) && CreateMapping(c)[c[k]] == FromNumber(k)
    {
      MappingValue(c, 10, k);
    }
  }

  // ---------------------------------------------------------------------
  // part 2 of main

  /** Parsing every word with `expect`: the first word that is not a digit
      panics with `msg`. */
  function ParseAll(ws: seq<string>, msg: string): (r: Result<seq<Digit>>)
    ensures !r.Err?
    ensures r.Ok? <==> forall k :: 0 <= k < |ws| ==> Parse(ws[k]).Ok?
    ensures r.Ok? ==> |r.value| == |ws| && forall k :: 0 <= k < |ws| ==> Parse(ws[k]) == Ok(r.value[k])
    ensures r.Panic? ==> r.msg == msg
  {
    if |ws| == 0 then Ok([])
    else
      match Parse(ws[0])
      case Ok(d) =>
        (match ParseAll(ws[1..], msg)
         case Ok(ds) => Ok([d] + ds)
         case Panic(m) => Panic(m)
         case Err(m) => Err(m))
      case _ => Panic(msg)
  }

  /** The display of an output: `display[3 - i] = output[i]`, so the first
      output word is the most significant digit. */
  function OutputDisplay(outs: seq<Digit>): (display: Display)
    requires |outs| == 4
    ensures forall i :: 0 <= i < 4 ==> display.digits[3 - i] == outs[i]
  {
    Display(seq(4, j requires 0 <= j < 4 => outs[3 - j]))
  }

  /** Everything after `correct_digits`: map the parsed outputs through the
      mapping and read the number. */
  function Finish(c: Digits10, output: seq<string>): (r: Result<nat>)
    requires |output| == 4
    ensures !r.Err?
    ensures r.Ok? ==> r.value < 10000
  {
    var mapping := CreateMapping(c);
    match ParseAll(output, "Could not parse output digit")
    case Ok(outs) =>
      (match ApplyMapping(OutputDisplay(outs), mapping)
       case Ok(display) =>
         (match DisplayNumber(display)
          case Some(v) => Ok(v)
          case None => Panic("Could not convert to number"))
       case Panic(m) => Panic(m)
       case Err(m) => Err(m))
    case Panic(m) => Panic(m)
    case Err(m) => Err(m)
  }

  /** A line the puzzle can produce: its ten words show the ten digits
      through the wiring `w`, and its four output words show the decimal
      digits of `n`, most significant first. */
  predicate ScrambledLine(line: InputLine, w: Wiring, n: nat)
  {
    && |line.patterns| == 10 && |line.output| == 4
    && ValidWiring(w) && n < 10000
    && ParseAll(line.patterns, "Could not parse digit").Ok?
    && Scrambled(ParseAll(line.patterns, "Could not parse digit").value, w)
    && forall i :: 0 <= i < 4 ==> Parse(line.output[i]) == Ok(Scramble(w, DecimalDigit(n, 3 - i)))
  }

  /** The display the mapping produces for `n`. */
  function NumberDisplay(n: nat): Display
  {
    Display(seq(4, i requires 0 <= i < 4 => FromNumber(DecimalDigit(n, i))))
  }

  /** Output words that show the corrected patterns of the digits of `n`
      read as `n`. */
  lemma FinishOf(c: Digits10, output: seq<string>, n: nat)
    requires |output| == 4 && Distinct(c) && n < 10000
    requires forall i :: 0 <= i < 4 ==> Parse(output[i]) == Ok(c[DecimalDigit(n, 3 - i)])
    ensures Finish(c, output) == Ok(n)
  {
    MappingOfDistinct(c);
    var mapping := CreateMapping(c);
    var outs := ParseAll(output, "Could not parse output digit").value;
    var display := OutputDisplay(outs);
    forall j | 0 <= j < 4
      ensures display.digits[j] == c[DecimalDigit(n, j)]
    {
      assert display.digits[j] == outs[3 - j];
      assert 3 - (3 - j) == j;
    }
    assert ApplyMapping(display, mapping).value.digits == NumberDisplay(n).digits;
    DisplayOfNumber(n);
  }

  /** With the right corrected digits, the outputs of a scrambled line read
      as its number. */
  lemma FinishScrambled(line: InputLine, w: Wiring, n: nat)
    requires ScrambledLine(line, w, n)
    ensures Finish(Patterns(w), line.output) == Ok(n)
  {
    ScramblesDistinct(w);
    FinishOf(Patterns(w), line.output, n);
  }

  /** The patterns of a scrambled line are decodable. */
  lemma ScrambledLineDecodable(line: InputLine)
    ensures forall w: Wiring, n: nat :: ScrambledLine(line, w, n) ==>
      Decodable(Patterns(w)) && Shows(ParseAll(line.patterns, "Could not parse digit").value, Patterns(w))
  {
    forall w: Wiring, n: nat | ScrambledLine(line, w, n)
      ensures Decodable(Patterns(w))
    {
      ScramblesDecodable(w);
    }
  }

  /** Corrected digits that agree with every decodable reading of the
      patterns finish every scrambled line with its number. */
  lemma FinishCorrected(line: InputLine, digits: seq<Digit>, corrected: Result<Digits10>)
    requires |line.patterns| == 10 && |line.output| == 4
    requires ParseAll(line.patterns, "Could not parse digit") == Ok(digits)
    requires forall p :: Decodable(p) && Shows(digits, p) ==> corrected == Ok(p)
    ensures forall w: Wiring, n: nat :: ScrambledLine(line, w, n) ==>
      corrected.Ok? && Finish(corrected.value, line.output) == Ok(n)
  {
    forall w: Wiring, n: nat | ScrambledLine(line, w, n)
      ensures corrected.Ok? && Finish(corrected.value, line.output) == Ok(n)
    {
      ScramblesDecodable(w);
      assert Shows(digits, Patterns(w));
      assert corrected == Ok(Patterns(w));
      FinishScrambled(line, w, n);
    }
  }

  /** One iteration of `part2`: the number an input line shows; every
      `expect` on the way panics. */
  method DecodeLine(line: InputLine) returns (r: Result<nat>)
    requires |line.patterns| == 10 && |line.output| == 4
    ensures !r.Err?
    ensures r.Ok? ==> r.value < 10000
    ensures forall w: Wiring, n: nat :: ScrambledLine(line, w, n) ==> r == Ok(n)
  {
    var patterns := ParseAll(line.patterns, "Could not parse digit");
    if !patterns.Ok? {
      return Panic("Could not parse digit");
    }
    var corrected := CorrectDigits(patterns.value);
    FinishCorrected(line, patterns.value, corrected);
    if !corrected.Ok? {
      return Panic("Could not correct digits");
    }
    r := Finish(corrected.value, line.output);
  }

  // ---------------------------------------------------------------------
  // part 2: the sum over all lines

  /** The sum of a list of numbers. */
  function Sum(ns: seq<nat>): nat
  {
    if |ns| == 0 then 0 else Sum(ns[..|ns| - 1]) + ns[|ns| - 1]
  }

  /** Every line `k` is the scrambled display of `ns[k]` under `ws[k]`. */
  predicate AllScrambled(inputs: seq<InputLine>, ws: seq<Wiring>, ns: seq<nat>)
  {
    |ws| == |inputs| && |ns| == |inputs| &&
    forall k :: 0 <= k < |inputs| ==> ScrambledLine(inputs[k], ws[k], ns[k])
  }

  /** Lines of the shape `InputLine` guarantees: ten patterns, four outputs. */
  predicate Shaped(inputs: seq<InputLine>)
  {
    forall k :: 0 <= k < |inputs| ==> |inputs[k].patterns| == 10 && |inputs[k].output| == 4
  }

  /** The loop of `part2`: the numbers of all lines added up; the first
      line that cannot be decoded panics. On scrambled lines the sum is the
      sum of the numbers the lines show. */
  method SumLines(inputs: seq<InputLine>) returns (r: Result<nat>)
    requires Shaped(inputs)
    ensures !r.Err?
    ensures forall ws, ns :: AllScrambled(inputs, ws, ns) ==> r == Ok(Sum(ns))
  {
    var sum := 0;
    var i := 0;
    while i < |inputs|
      invariant 0 <= i <= |inputs|
      invariant forall ws, ns :: AllScrambled(inputs, ws, ns) ==> sum == Sum(ns[..i])
    {
      var v := DecodeLine(inputs[i]);
      SumStep(inputs, i, sum, v);
      if !v.Ok? {
        return Panic(v.msg);
      }
      sum := sum + v.value;
      i := i + 1;
    }
    SumDone(inputs, sum);
    return Ok(sum);
  }

  /** Line `i` decodes to its own number, and adding it extends the
      running sum by one line; a line that does not decode shows that the
      lines are not all scrambled. */
  lemma SumStep(inputs: seq<InputLine>, i: nat, sum: nat, v: Result<nat>)
    requires i < |inputs|
    requires forall ws, ns :: AllScrambled(inputs, ws, ns) ==> sum == Sum(ns[..i])
    requires forall w: Wiring, n: nat :: ScrambledLine(inputs[i], w, n) ==> v == Ok(n)
    ensures v.Ok? ==> forall ws, ns :: AllScrambled(inputs, ws, ns) ==> sum + v.value == Sum(ns[..i + 1])
    ensures !v.Ok? ==> forall ws, ns :: !AllScrambled(inputs, ws, ns)
  {
    forall ws, ns | AllScrambled(inputs, ws, ns)
      ensures v == Ok(ns[i]) && sum + ns[i] == Sum(ns[..i + 1])
    {
      assert ScrambledLine(inputs[i], ws[i], ns[i]);
      assert ns[..i + 1][..i] == ns[..i];
    }
  }

  lemma SumDone(inputs: seq<InputLine>, sum: nat)
    requires forall ws, ns :: AllScrambled(inputs, ws, ns) ==> sum == Sum(ns[..|inputs|])
    ensures forall ws, ns :: AllScrambled(inputs, ws, ns) ==> sum == Sum(ns)
  {
    forall ws, ns | AllScrambled(inputs, ws, ns)
      ensures sum == Sum(ns)
    {
      assert ns[..|inputs|] == ns;
    }
  }

  // ---------------------------------------------------------------------
  // part 1: words of a unique length

  /** Words as long as only 1 (2 letters), 7 (3), 4 (4) or 8 (7) are. */
  predicate EasyWord(w: string)
  {
    |w| == 2 || |w| == 3 || |w| == 4 || |w| == 7
  }

  function CountEasyWords(ws: seq<string>): (r: nat)
    ensures r <= |ws|
    ensures r == 0 <==> forall k :: 0 <= k < |ws| ==> !EasyWord(ws[k])
  {
    if |ws| == 0 then 0 else (if EasyWord(ws[0]) then 1 else 0) + CountEasyWords(ws[1..])
  }

  /** The count of `part1`: easy output words over all lines. */
  function CountEasy(inputs: seq<InputLine>): (r: nat)
    ensures Shaped(inputs) ==> r <= 4 * |inputs|
  {
    if |inputs| == 0 then 0
    else CountEasy(inputs[..|inputs| - 1]) + CountEasyWords(inputs[|inputs| - 1].output)
  }

  /** The digits with a segment count no other digit has. */
  predicate EasyDigit(d: nat)
  {
    d == 1 || d == 4 || d == 7 || d == 8
  }

  function CountEasyDigits(ds: seq<nat>): nat
  {
    if |ds| == 0 then 0 else (if EasyDigit(ds[0]) then 1 else 0) + CountEasyDigits(ds[1..])
  }

  /** The decimal digits of a four-digit number, most significant first, as
      the output words show them. */
  function OutputDigits(n: nat): (ds: seq<nat>)
    ensures |ds| == 4 && forall i :: 0 <= i < 4 ==> ds[i] == DecimalDigit(n, 3 - i)
  {
    [DecimalDigit(n, 3), DecimalDigit(n, 2), DecimalDigit(n, 1), DecimalDigit(n, 0)]
  }

  lemma {:induction false} CountEasyPairs(ws: seq<string>, ds: seq<nat>)
    requires |ws| == |ds|
    requires forall k :: 0 <= k < |ws| ==> (EasyWord(ws[k]) <==> EasyDigit(ds[k]))
    ensures CountEasyWords(ws) == CountEasyDigits(ds)
  {
    if |ws| > 0 {
      CountEasyPairs(ws[1..], ds[1..]);
    }
  }

  /** A digit's segment count is unique exactly for 1, 4, 7 and 8. */
  lemma EasyCount(d: nat)
    requires d < 10
    ensures EasyDigit(d) <==> SEGMENT_COUNTS[d] in {2, 3, 4, 7}
  {
  }

  /** An output word without repeated letters that shows the digit `d` is
      easy exactly when `d` is 1, 4, 7 or 8. */
  lemma EasyWordDigit(word: string, w: Wiring, d: nat)
    requires ValidWiring(w) && d < 10
    requires Parse(word) == Ok(Scramble(w, d)) && NoRepeats(word)
    ensures EasyWord(word) <==> EasyDigit(d)
  {
    WordLength(word);
    ScrambleCount(w, d);
    EasyCount(d);
  }

  /** On a scrambled line whose words repeat no letter, the part 1 count
      of the line is the number of digits 1, 4, 7, 8 in its number. */
  lemma EasyLine(line: InputLine, w: Wiring, n: nat)
    requires ScrambledLine(line, w, n)
    requires forall i :: 0 <= i < 4 ==> NoRepeats(line.output[i])
    ensures CountEasyWords(line.output) == CountEasyDigits(OutputDigits(n))
  {
    var ds := OutputDigits(n);
    forall i | 0 <= i < 4
      ensures EasyWord(line.output[i]) <==> EasyDigit(ds[i])
    {
      EasyWordDigit(line.output[i], w, ds[i]);
    }
    CountEasyPairs(line.output, ds);
  }

  /** The digits 1, 4, 7, 8 over all the numbers. */
  function EasyTotal(ns: seq<nat>): nat
  {
    if |ns| == 0 then 0 else EasyTotal(ns[..|ns| - 1]) + CountEasyDigits(OutputDigits(ns[|ns| - 1]))
  }

  /** Output words with no repeated letter, as the puzzle writes them. */
  predicate PlainOutputs(inputs: seq<InputLine>)
  {
    forall k, i :: 0 <= k < |inputs| && 0 <= i < |inputs[k].output| ==> NoRepeats(inputs[k].output[i])
  }

  /** Part 1 counts the digits 1, 4, 7 and 8 in the numbers of scrambled
      lines. */
  lemma CountEasyScrambled(inputs: seq<InputLine>, ws: seq<Wiring>, ns: seq<nat>)
    requires AllScrambled(inputs, ws, ns) && PlainOutputs(inputs)
    ensures CountEasy(inputs) == EasyTotal(ns)
  {
    forall k | 0 <= k < |inputs|
      ensures CountEasyWords(inputs[k].output) == CountEasyDigits(OutputDigits(ns[k]))
    {
      EasyLine(inputs[k], ws[k], ns[k]);
    }
    CountEasySum(inputs, ns);
  }

  /** Line-by-line agreement of the counts adds up. */
  lemma {:induction false} CountEasySum(inputs: seq<InputLine>, ns: seq<nat>)
    requires |ns| == |inputs|
    requires forall k :: 0 <= k < |inputs| ==> CountEasyWords(inputs[k].output) == CountEasyDigits(OutputDigits(ns[k]))
    ensures CountEasy(inputs) == EasyTotal(ns)
  {
    if |inputs| > 0 {
      var m := |inputs| - 1;
      CountEasySum(inputs[..m], ns[..m]);
    }
  }

  // ---------------------------------------------------------------------
  // read_data and the two parts

  /** `read_data` over the lines of the file. */
  function ReadData(lines: seq<string>): (r: Result<seq<InputLine>>)
    ensures r.Ok? ==> Shaped(r.value)
    ensures r.Ok? <==> forall k :: 0 <= k < |lines| ==> ParseLine(lines[k]).Ok?
    ensures r.Ok? ==> |r.value| == |lines| && forall k :: 0 <= k < |lines| ==> ParseLine(lines[k]) == Ok(r.value[k])
  {
    ReadShaped(lines);
    ParseLines(lines, ParseLine)
  }

  lemma ReadShaped(lines: seq<string>)
    ensures ParseLines(lines, ParseLine).Ok? ==> Shaped(ParseLines(lines, ParseLine).value)
  {
    var r := ParseLines(lines, ParseLine);
    if r.Ok? {
      forall k | 0 <= k < |lines|
        ensures |r.value[k].patterns| == 10 && |r.value[k].output| == 4
      {
        assert ParseLine(lines[k]) == Ok(r.value[k]);
      }
    }
  }

  /** Rendering lines of words and reading them back gives the lines. */
  lemma ReadRendered(inputs: seq<InputLine>)
    requires forall k :: 0 <= k < |inputs| ==> WordLine(inputs[k])
    ensures ReadData(seq(|inputs|, k requires 0 <= k < |inputs| => Render(inputs[k]))) == Ok(inputs)
  {
    var lines := seq(|inputs|, k requires 0 <= k < |inputs| => Render(inputs[k]));
    forall k | 0 <= k < |inputs|
      ensures ParseLine(lines[k]) == Ok(inputs[k])
    {
      ParseRender(inputs[k]);
    }
    var r := ReadData(lines);
    assert r.Ok?;
    assert forall k :: 0 <= k < |inputs| ==> Ok(r.value[k]) == Ok(inputs[k]);
    assert r.value == inputs;
  }

  /** `part1`: the count of easy words; a file that does not read
      panics. */
  function Part1(lines: seq<string>): (r: Result<nat>)
    ensures !r.Err?
    ensures r.Ok? <==> ReadData(lines).Ok?
    ensures r.Ok? ==> r.value == CountEasy(ReadData(lines).value)
  {
    match ReadData(lines)
    case Ok(inputs) => Ok(CountEasy(inputs))
    case Err(_) => Panic("Could not read data")
    case Panic(m) => Panic(m)
  }

  /** `part2`: the sum of the decoded numbers; a file that does not read
      panics. */
  method Part2(lines: seq<string>) returns (r: Result<nat>)
    ensures !r.Err?
    ensures !ReadData(lines).Ok? ==> r.Panic?
    ensures forall ws, ns :: ReadData(lines).Ok? && AllScrambled(ReadData(lines).value, ws, ns) ==> r == Ok(Sum(ns))
  {
    match ReadData(lines)
    case Ok(inputs) => r := SumLines(inputs);
    case Err(_) => r := Panic("Could not read data");
    case Panic(m) => r := Panic(m);
  }
}

=== FILE: day09_mapping.dfy ===
/** The height map of day 9: heights in row-major order, its low points and
    the basins around them. */
module HeightMap {
  import opened Common

  /** `Map`: `points[x + y * width]` is the height at `(x, y)`. */
  datatype Map = Map(width: nat, height: nat, points: seq<nat>)

  type Pos = (nat, nat)

  /** The points fill the `width × height` rectangle. */
  predicate Valid(m: Map)
  {
    |m.points| == m.width * m.height
  }

  /** `Map::new`: a map of zeros. */
  function NewMap(width: nat, height: nat): (m: Map)
    ensures Valid(m) && m.width == width && m.height == height
    ensures forall k :: 0 <= k < |m.points| ==> m.points[k] == 0
  {
    Map(width, height, seq(width * height, _ => 0))
  }

  /** `location_valid`. */
  predicate LocationValid(m: Map, p: Pos)
  {
    p.0 < m.width && p.1 < m.height
  }

  /** The place of `(x, y)` in the row-major list. */
  function Index(m: Map, p: Pos): nat
  {
    p.0 + Mul(p.1, m.width)
  }

  /** `index_to_xy`. */
  function IndexToXY(m: Map, i: nat): Pos
    requires m.width > 0
  {
    (i % m.width, i / m.width)
  }

  lemma IndexInRange(m: Map, p: Pos)
    requires Valid(m) && LocationValid(m, p)
    ensures Index(m, p) < |m.points|
  {
    var w := m.width;
    MulIsProduct(p.1, w);
    MulMono(p.1, m.height - 1, w);
    assert (m.height - 1) * w + w == m.height * w;
  }

  /** `index_to_xy` inverts the index of every point of the map... */
  lemma IndexToXYIndex(m: Map, p: Pos)
    requires LocationValid(m, p)
    ensures IndexToXY(m, Index(m, p)) == p
  {
    MulIsProduct(p.1, m.width);
    DivModUnique(Index(m, p), m.width, p.0, p.1);
  }

  /** ...and the index inverts `index_to_xy` on every index of the map. */
  lemma IndexIndexToXY(m: Map, i: nat)
    requires Valid(m) && i < |m.points|
    ensures m.width > 0 && LocationValid(m, IndexToXY(m, i)) && Index(m, IndexToXY(m, i)) == i
  {
    var w := m.width;
    assert w > 0;
    var q := i / w;
    MulIsProduct(q, w);
    assert i == q * w + i % w;
    if q >= m.height {
      MulMono(m.height, q, w);
      assert false;
    }
  }

  /** Distinct points of the map have distinct indices. */
  lemma IndexInjective(m: Map, p: Pos, q: Pos)
    requires LocationValid(m, p) && LocationValid(m, q)
    requires Index(m, p) == Index(m, q)
    ensures p == q
  {
    IndexToXYIndex(m, p);
    IndexToXYIndex(m, q);
  }

  /** `Map::point`. */
  function Point(m: Map, p: Pos): nat
    requires Valid(m) && LocationValid(m, p)
  {
    IndexInRange(m, p);
    m.points[Index(m, p)]
  }

  /** `Map::point_mut`, as an update of one height. */
  function SetPoint(m: Map, p: Pos, v: nat): (r: Map)
    requires Valid(m) && LocationValid(m, p)
    ensures Valid(r) && r.width == m.width && r.height == m.height
    ensures Point(r, p) == v
    ensures forall q :: LocationValid(m, q) && q != p ==> Point(r, q) == Point(m, q)
  {
    IndexInRange(m, p);
    var r := m.(points := m.points[Index(m, p) := v]);
    forall q | LocationValid(m, q) && q != p
      ensures Point(r, q) == Point(m, q)
    {
      SetPointOther(m, r, p, q);
    }
    r
  }

  /** A map that differs from `m` only at the index of `p` agrees with it
      at every other point. */
  lemma SetPointOther(m: Map, r: Map, p: Pos, q: Pos)
    requires Valid(m) && LocationValid(m, p) && LocationValid(m, q) && q != p
    requires r.width == m.width && r.height == m.height && |r.points| == |m.points|
    requires forall i :: 0 <= i < |m.points| && i != Index(m, p) ==> r.points[i] == m.points[i]
    ensures Valid(r) && Point(r, q) == Point(m, q)
  {
    IndexInRange(m, q);
    if Index(m, q) == Index(m, p) {
      IndexInjective(m, p, q);
    }
  }

  // ---------------------------------------------------------------------
  // Building the map: push_data_row and from_str

  /** `push_data_row`: the first row (while `width` is 0) fixes the width,
      a later row of another length panics; the row is appended and the
      height goes up by one. */
  function PushDataRow(m: Map, row: seq<nat>): (r: Result<Map>)
    ensures !r.Err?
    ensures r.Panic? <==> m.width != 0 && |row| != m.width
    ensures r.Ok? ==> r.value.points == m.points + row && r.value.height == m.height + 1
    ensures r.Ok? ==> r.value.width == |row|
  {
    if m.width == 0 then Ok(Map(|row|, m.height + 1, m.points + row))
    else if |row| != m.width then Panic("Row size incompatible with map size")
    else Ok(Map(m.width, m.height + 1, m.points + row))
  }

  /** A map still waiting for its first row, or one whose width is fixed. */
  predicate Building(m: Map)
  {
    Valid(m) && (m.width == 0 ==> m.height == 0)
  }

  /** A non-empty row keeps the map rectangular. */
  lemma PushKeepsValid(m: Map, row: seq<nat>)
    requires Building(m) && |row| > 0
    ensures PushDataRow(m, row).Ok? ==> Building(PushDataRow(m, row).value)
  {
    var r := PushDataRow(m, row);
    if r.Ok? {
      assert |m.points + row| == |m.points| + |row|;
      assert (m.height + 1) * |row| == m.height * |row| + |row|;
    }
  }

  /** An empty first row leaves the width unset while the height counts
      it, so the next row makes a map that is not rectangular. */
  lemma EmptyFirstRow()
    ensures var m1 := PushDataRow(NewMap(0, 0), []);
      m1.Ok? && m1.value.width == 0 && m1.value.height == 1 && Valid(m1.value)
    ensures var m2 := PushDataRow(Map(0, 1, []), [1]);
      m2.Ok? && m2.value.width == 1 && m2.value.height == 2 && !Valid(m2.value)
  {
  }

  /** The rows of `lines`, pushed one after the other onto `m`. */
  function PushLines(m: Map, lines: seq<string>): (r: Result<Map>)
    ensures !r.Err?
    ensures r.Ok? ==> r.value.height == m.height + |lines|
    ensures r.Ok? ==> forall k :: 0 <= k < |lines| ==> AllDigits(lines[k])
    decreases |lines|
  {
    if |lines| == 0 then Ok(m)
    else
      match DigitRow(lines[0])
      case Ok(row) =>
        (match PushDataRow(m, row)
         case Ok(m') =>
           PushLines(m', lines[1..])
         case Panic(msg) => Panic(msg)
         case Err(msg) => Err(msg))
      case Panic(msg) => Panic(msg)
      case Err(msg) => Err(msg)
  }

  /** `Map::from_str` over the lines of the text. */
  function FromLines(lines: seq<string>): (r: Result<Map>)
    ensures !r.Err?
    ensures r.Ok? ==> r.value.height == |lines|
    ensures r.Ok? ==> forall k :: 0 <= k < |lines| ==> AllDigits(lines[k])
  {
    PushLines(NewMap(0, 0), lines)
  }

  /** Lines of digits, all of the same positive length. */
  predicate Grid(lines: seq<string>, w: nat)
  {
    w > 0 && forall k :: 0 <= k < |lines| ==> |lines[k]| == w && AllDigits(lines[k])
  }

  lemma {:induction false} PushGrid(m: Map, lines: seq<string>, w: nat)
    requires Grid(lines, w) && Valid(m) && m.width == w
    ensures PushLines(m, lines).Ok?
    ensures Valid(PushLines(m, lines).value) && PushLines(m, lines).value.width == w
    decreases |lines|
  {
    if |lines| > 0 {
      var row := DigitRow(lines[0]).value;
      PushKeepsValid(m, row);
      var m' := PushDataRow(m, row).value;
      assert Grid(lines[1..], w);
      PushGrid(m', lines[1..], w);
    }
  }

  /** Lines of digits of one length read as a rectangular map of that
      width. */
  lemma FromGrid(lines: seq<string>, w: nat)
    requires Grid(lines, w) && |lines| > 0
    ensures FromLines(lines).Ok?
    ensures Valid(FromLines(lines).value) && FromLines(lines).value.width == w
    ensures FromLines(lines).value.height == |lines|
  {
    var row := DigitRow(lines[0]).value;
    var m := PushDataRow(NewMap(0, 0), row).value;
    PushKeepsValid(NewMap(0, 0), row);
    assert Grid(lines[1..], w);
    PushGrid(m, lines[1..], w);
  }

  /** A line that is not all digits makes `from_str` panic. */
  lemma FromLinesBadDigit(lines: seq<string>, k: nat)
    requires k < |lines| && !AllDigits(lines[k])
    ensures FromLines(lines).Panic?
  {
  }

  // ---------------------------------------------------------------------
  // Neighbours and low points

  /** The in-bounds orthogonal neighbours, in the order the source visits
      them: above, below, left, right. */
  function Neighbours(m: Map, p: Pos): (ns: seq<Pos>)
    requires LocationValid(m, p)
    ensures forall k :: 0 <= k < |ns| ==> LocationValid(m, ns[k])
    ensures forall q :: q in ns <==> LocationValid(m, q) && Adjacent(p, q)
  {
    var (x, y) := p;
    (if y > 0 then [(x, y - 1)] else [])
    + (if y + 1 < m.height then [(x, y + 1)] else [])
    + (if x > 0 then [(x - 1, y)] else [])
    + (if x + 1 < m.width then [(x + 1, y)] else [])
  }

  /** One step up, down, left or right. */
  predicate Adjacent(p: Pos, q: Pos)
  {
    (p.0 == q.0 && (p.1 == q.1 + 1 || q.1 == p.1 + 1))
    || (p.1 == q.1 && (p.0 == q.0 + 1 || q.0 == p.0 + 1))
  }

  /** `is_low_point`: each in-bounds neighbour is checked in turn and any
      one at least as low rejects the point. */
  function IsLowPoint(m: Map, p: Pos): bool
    requires Valid(m) && LocationValid(m, p)
  {
    var (x, y) := p;
    var h := Point(m, p);
    if y > 0 && h >= Point(m, (x, y - 1)) then false
    else if y + 1 < m.height && h >= Point(m, (x, y + 1)) then false
    else if x > 0 && h >= Point(m, (x - 1, y)) then false
    else if x + 1 < m.width && h >= Point(m, (x + 1, y)) then false
    else true
  }

  /** A low point is strictly below each of its in-bounds neighbours. */
  lemma LowPointSpec(m: Map, p: Pos)
    requires Valid(m) && LocationValid(m, p)
    ensures IsLowPoint(m, p) <==> forall q :: q in Neighbours(m, p) ==> Point(m, p) < Point(m, q)
  {
  }

  /** The point with index `i` is a low point. */
  predicate LowAt(m: Map, i: nat)
    requires Valid(m) && i < |m.points|
  {
    IndexIndexToXY(m, i);
    IsLowPoint(m, IndexToXY(m, i))
  }

  /** `LowPoints::next` from position `i`: the height of the first low
      point at index `i` or later, and the position after it; `None` and
      the end once none is left. */
  function LowNext(m: Map, i: nat): (r: (Option<nat>, nat))
    requires Valid(m)
    ensures r.0.Some? ==> i < r.1 <= |m.points| && LowAt(m, r.1 - 1) && r.0.value == m.points[r.1 - 1]
    ensures r.0.Some? ==> forall j :: i <= j < r.1 - 1 ==> !LowAt(m, j)
    ensures r.0.None? ==> r.1 >= |m.points| && forall j :: i <= j < |m.points| ==> !LowAt(m, j)
    decreases |m.points| - i
  {
    if i >= |m.points| then (None, i)
    else if LowAt(m, i) then
      IndexIndexToXY(m, i);
      (Some(Point(m, IndexToXY(m, i))), i + 1)
    else LowNext(m, i + 1)
  }

  /** The whole `LowPoints` iteration: the indices and heights of the low
      points, in row-major order. */
  method LowPoints(m: Map) returns (lows: seq<nat>, heights: seq<nat>)
    requires Valid(m)
    ensures forall i: nat :: i in lows <==> i < |m.points| && LowAt(m, i)
    ensures forall a :: 0 <= a < |lows| ==> lows[a] < |m.points|
    ensures forall a, b :: 0 <= a < b < |lows| ==> lows[a] < lows[b]
    ensures |heights| == |lows| && forall k :: 0 <= k < |lows| ==> heights[k] == m.points[lows[k]]
  {
    lows, heights := [], [];
    var i := 0;
    while i < |m.points|
      invariant i <= |m.points|
      invariant forall j: nat :: j in lows <==> j < i && LowAt(m, j)
      invariant forall a, b :: 0 <= a < b < |lows| ==> lows[a] < lows[b]
      invariant forall a :: 0 <= a < |lows| ==> lows[a] < i
      invariant |heights| == |lows| && forall k :: 0 <= k < |lows| ==> heights[k] == m.points[lows[k]]
      decreases |m.points| - i
    {
      var next := LowNext(m, i);
      if next.0.None? {
        break;
      }
      LowsStep(m, lows, i, next.1);
      lows, heights := lows + [next.1 - 1], heights + [next.0.value];
      i := next.1;
    }
  }

  lemma LowsStep(m: Map, lows: seq<nat>, i: nat, j: nat)
    requires Valid(m) && i < j <= |m.points|
    requires forall x: nat :: x in lows <==> x < i && LowAt(m, x)
    requires LowAt(m, j - 1) && forall x :: i <= x < j - 1 ==> !LowAt(m, x)
    ensures forall x: nat :: x in lows + [j - 1] <==> x < j && LowAt(m, x)
  {
  }

  // ---------------------------------------------------------------------
  // Basins: collect_basin and the Basins iterator

  /** The points not yet visited. */
  function Unvisited(v: seq<bool>): (n: nat)
    ensures n <= |v|
  {
    if |v| == 0 then 0 else (if v[0] then 0 else 1) + Unvisited(v[1..])
  }

  /** `v2` marks everything `v` marks. */
  predicate Grows(v: seq<bool>, v2: seq<bool>)
  {
    |v2| == |v| && forall i :: 0 <= i < |v| && v[i] ==> v2[i]
  }

  /** Marking more points leaves fewer unvisited; strictly fewer when one
      more is marked. */
  lemma {:induction false} UnvisitedGrows(v: seq<bool>, v2: seq<bool>, i: nat)
    requires Grows(v, v2) && i < |v| && !v[i] && v2[i]
    ensures Unvisited(v2) < Unvisited(v)
  {
    if i == 0 {
      UnvisitedMono(v[1..], v2[1..]);
    } else {
      assert v[1..][i - 1] == v[i];
      UnvisitedGrows(v[1..], v2[1..], i - 1);
    }
  }

  lemma {:induction false} UnvisitedMono(v: seq<bool>, v2: seq<bool>)
    requires Grows(v, v2)
    ensures Unvisited(v2) <= Unvisited(v)
  {
    if |v| > 0 {
      UnvisitedMono(v[1..], v2[1..]);
    }
  }

  /** Every point of `qs` is on the map, was unvisited in `v`, is marked in
      `v2` and is not of height 9. */
  predicate Fresh(m: Map, v: seq<bool>, v2: seq<bool>, qs: seq<Pos>)
    requires Valid(m) && |v| == |m.points| && |v2| == |m.points|
  {
    forall q :: q in qs ==>
      LocationValid(m, q) && Point(m, q) != 9 && (IndexInRange(m, q); !v[Index(m, q)] && v2[Index(m, q)])
  }

  /** Every point `v2` marks beyond `v` is in `qs`, or is `extra`. */
  predicate Covered(m: Map, v: seq<bool>, v2: seq<bool>, qs: seq<Pos>, extra: set<nat>)
    requires |v2| == |v|
  {
    forall i :: 0 <= i < |v| && v2[i] && !v[i] ==> i in extra || exists q :: q in qs && Index(m, q) == i
  }

  /** From every point of `qs`, every higher neighbour below 9 is marked in
      `v`. */
  predicate Closed(m: Map, v: seq<bool>, qs: seq<Pos>)
    requires Valid(m) && |v| == |m.points|
    requires forall q :: q in qs ==> LocationValid(m, q)
  {
    forall q, n :: q in qs && n in Neighbours(m, q) && Point(m, q) < Point(m, n) && Point(m, n) != 9 ==>
      (IndexInRange(m, n); v[Index(m, n)])
  }

  /** Every point of `qs` but `root` has a lower neighbour in `qs`: the
      basin grows upwards from its root. */
  predicate Rooted(m: Map, qs: seq<Pos>, root: Pos)
    requires Valid(m)
    requires forall q :: q in qs ==> LocationValid(m, q)
  {
    forall q :: q in qs ==> q == root || LowerIn(m, qs, q)
  }

  /** `q` has a strictly lower neighbour among `qs`. */
  predicate LowerIn(m: Map, qs: seq<Pos>, q: Pos)
    requires Valid(m)
    requires forall n :: n in qs ==> LocationValid(m, n)
    requires LocationValid(m, q)
  {
    exists n :: n in qs && Adjacent(q, n) && Point(m, n) < Point(m, q)
  }

  /** A lower neighbour stays one when the points are extended. */
  lemma LowerInAppend(m: Map, olds: seq<Pos>, news: seq<Pos>, q: Pos)
    requires Valid(m) && LocationValid(m, q)
    requires forall n :: n in olds + news ==> LocationValid(m, n)
    requires LowerIn(m, olds, q) || LowerIn(m, news, q)
    ensures LowerIn(m, olds + news, q)
  {
    if LowerIn(m, olds, q) {
      var n :| n in olds && Adjacent(q, n) && Point(m, n) < Point(m, q);
      assert n in olds + news;
    } else {
      var n :| n in news && Adjacent(q, n) && Point(m, n) < Point(m, q);
      assert n in olds + news;
    }
  }

  /** Every point of `qs` is a higher neighbour of `p` or has a lower
      neighbour in `qs`. */
  predicate AboveRoot(m: Map, qs: seq<Pos>, p: Pos)
    requires Valid(m) && LocationValid(m, p)
    requires forall q :: q in qs ==> LocationValid(m, q)
  {
    forall q :: q in qs ==>
      (Adjacent(p, q) && Point(m, p) < Point(m, q)) || LowerIn(m, qs, q)
  }

  /** What `collect_basin` promises: `b` extends `basin` by points that
      were unvisited, are marked now, are all the newly marked points,
      appear once each, leave no higher neighbour below 9 unmarked, and
      grow upwards from `p`. */
  predicate Collected(m: Map, p: Pos, visited: seq<bool>, v: seq<bool>, basin: seq<Pos>, b: seq<Pos>)
    requires Valid(m) && |visited| == |m.points|
  {
    && Grows(visited, v) && |basin| <= |b| && b[..|basin|] == basin
    && Fresh(m, visited, v, b[|basin|..])
    && Covered(m, visited, v, b[|basin|..], {})
    && NoRepeats(b[|basin|..])
    && Closed(m, v, b[|basin|..])
    && Rooted(m, b[|basin|..], p)
  }

  /** The state inside `collect_basin` after some neighbours: `p` is
      marked but not yet added. */
  predicate Partial(m: Map, p: Pos, visited: seq<bool>, v: seq<bool>, basin: seq<Pos>, b: seq<Pos>)
    requires Valid(m) && LocationValid(m, p) && |visited| == |m.points|
  {
    && Grows(visited, v) && (IndexInRange(m, p); v[Index(m, p)])
    && |basin| <= |b| && b[..|basin|] == basin
    && Fresh(m, visited, v, b[|basin|..])
    && p !in b[|basin|..]
    && Covered(m, visited, v, b[|basin|..], {Index(m, p)})
    && NoRepeats(b[|basin|..])
    && Closed(m, v, b[|basin|..])
    && AboveRoot(m, b[|basin|..], p)
  }

  /** The first `k` neighbours of `p` that are higher and below 9 are
      marked. */
  predicate Processed(m: Map, p: Pos, ns: seq<Pos>, k: nat, v: seq<bool>)
    requires Valid(m) && LocationValid(m, p) && |v| == |m.points|
    requires ns == Neighbours(m, p) && k <= |ns|
  {
    forall j :: 0 <= j < k && Point(m, p) < Point(m, ns[j]) && Point(m, ns[j]) != 9 ==>
      (IndexInRange(m, ns[j]); v[Index(m, ns[j])])
  }

  /** `collect_basin`: from an unvisited point below 9, mark it, recurse
      into each strictly higher neighbour in turn, then add the point to
      the basin. Returns the new marks and the extended basin. */
  method CollectBasin(m: Map, p: Pos, visited: seq<bool>, basin: seq<Pos>)
    returns (visited': seq<bool>, basin': seq<Pos>)
    requires Valid(m) && LocationValid(m, p) && |visited| == |m.points|
    ensures Collected(m, p, visited, visited', basin, basin')
    ensures (IndexInRange(m, p); Point(m, p) == 9 || visited[Index(m, p)]) <==> basin' == basin
    ensures basin' != basin ==> basin'[|basin'| - 1] == p
    decreases Unvisited(visited)
  {
    IndexInRange(m, p);
    var h := Point(m, p);
    var idx := Index(m, p);
    if h == 9 || visited[idx] {
      assert basin[|basin|..] == [];
      return visited, basin;
    }
    visited' := visited[idx := true];
    basin' := basin;
    var ns := Neighbours(m, p);
    var k := 0;
    assert basin'[|basin|..] == [];
    while k < |ns|
      invariant k <= |ns| && |visited'| == |visited|
      invariant Partial(m, p, visited, visited', basin, basin')
      invariant Processed(m, p, ns, k, visited')
    {
      var n := ns[k];
      if h < Point(m, n) {
        UnvisitedGrows(visited, visited', idx);
        var v2, b2 := CollectBasin(m, n, visited', basin');
        BasinStep(m, p, ns, k, visited, visited', basin, basin', v2, b2);
        visited', basin' := v2, b2;
      }
      k := k + 1;
    }
    BasinFinish(m, p, ns, visited, visited', basin, basin');
    basin' := basin' + [p];
  }

  lemma BasinStep(m: Map, p: Pos, ns: seq<Pos>, k: nat, visited: seq<bool>, v1: seq<bool>,
                  basin: seq<Pos>, b1: seq<Pos>, v2: seq<bool>, b2: seq<Pos>)
    requires Valid(m) && LocationValid(m, p) && |visited| == |m.points| && |v1| == |m.points|
    requires ns == Neighbours(m, p) && k < |ns|
    requires Partial(m, p, visited, v1, basin, b1) && Processed(m, p, ns, k, v1)
    requires Point(m, p) < Point(m, ns[k])
    requires Collected(m, ns[k], v1, v2, b1, b2)
    requires (IndexInRange(m, ns[k]); Point(m, ns[k]) == 9 || v1[Index(m, ns[k])]) <==> b2 == b1
    requires b2 != b1 ==> b2[|b2| - 1] == ns[k]
    ensures Partial(m, p, visited, v2, basin, b2) && Processed(m, p, ns, k + 1, v2)
  {
    var olds := b1[|basin|..];
    var news := b2[|b1|..];
    assert b2[|basin|..] == olds + news;
    StepFresh(m, visited, v1, v2, olds, news);
    StepCovered(m, visited, v1, v2, olds, news, {Index(m, p)});
    StepNoRepeats(m, visited, v1, v2, olds, news);
    StepClosed(m, v1, v2, olds, news);
    StepAbove(m, p, ns[k], olds, news);
    IndexInRange(m, p);
    assert p !in news;
    assert Grows(visited, v2) && v2[Index(m, p)];
    assert |basin| <= |b2| && b2[..|basin|] == basin;
    assert Fresh(m, visited, v2, b2[|basin|..]);
    assert p !in b2[|basin|..];
    assert Covered(m, visited, v2, b2[|basin|..], {Index(m, p)});
    assert NoRepeats(b2[|basin|..]);
    assert Closed(m, v2, b2[|basin|..]);
    assert AboveRoot(m, b2[|basin|..], p);
    StepProcessed(m, p, ns, k, v1, v2, b1, b2);
  }

  lemma StepProcessed(m: Map, p: Pos, ns: seq<Pos>, k: nat, v1: seq<bool>, v2: seq<bool>, b1: seq<Pos>, b2: seq<Pos>)
    requires Valid(m) && LocationValid(m, p) && |v1| == |m.points|
    requires ns == Neighbours(m, p) && k < |ns|
    requires Processed(m, p, ns, k, v1) && Grows(v1, v2)
    requires |b1| <= |b2| && b2[..|b1|] == b1 && Fresh(m, v1, v2, b2[|b1|..])
    requires (IndexInRange(m, ns[k]); Point(m, ns[k]) == 9 || v1[Index(m, ns[k])]) <==> b2 == b1
    requires b2 != b1 ==> b2[|b2| - 1] == ns[k]
    ensures Processed(m, p, ns, k + 1, v2)
  {
    IndexInRange(m, ns[k]);
    var i := Index(m, ns[k]);
    if Point(m, ns[k]) != 9 && !v1[i] {
      assert |b2| > |b1|;
      assert b2[|b1|..][|b2| - |b1| - 1] == ns[k];
      assert v2[i];
    }
    forall j | 0 <= j < k + 1 && Point(m, p) < Point(m, ns[j]) && Point(m, ns[j]) != 9
      ensures (IndexInRange(m, ns[j]); v2[Index(m, ns[j])])
    {
      IndexInRange(m, ns[j]);
      if j < k {
        assert v1[Index(m, ns[j])];
      }
    }
  }

  lemma StepFresh(m: Map, visited: seq<bool>, v1: seq<bool>, v2: seq<bool>, olds: seq<Pos>, news: seq<Pos>)
    requires Valid(m) && |visited| == |m.points| && Grows(visited, v1) && Grows(v1, v2)
    requires Fresh(m, visited, v1, olds) && Fresh(m, v1, v2, news)
    ensures Fresh(m, visited, v2, olds + news)
  {
    forall q | q in olds + news
      ensures LocationValid(m, q) && Point(m, q) != 9 && (IndexInRange(m, q); !visited[Index(m, q)] && v2[Index(m, q)])
    {
      IndexInRange(m, q);
      var i := Index(m, q);
      if q in olds {
        assert !visited[i] && v1[i];
      } else {
        assert !v1[i] && v2[i];
      }
    }
  }

  lemma StepCovered(m: Map, visited: seq<bool>, v1: seq<bool>, v2: seq<bool>, olds: seq<Pos>, news: seq<Pos>, extra: set<nat>)
    requires Grows(visited, v1) && Grows(v1, v2)
    requires Covered(m, visited, v1, olds, extra) && Covered(m, v1, v2, news, {})
    ensures Covered(m, visited, v2, olds + news, extra)
  {
    forall i | 0 <= i < |visited| && v2[i] && !visited[i]
      ensures i in extra || exists q :: q in olds + news && Index(m, q) == i
    {
      if v1[i] {
        if i !in extra {
          var q :| q in olds && Index(m, q) == i;
          assert q in olds + news;
        }
      } else {
        var q :| q in news && Index(m, q) == i;
        assert q in olds + news;
      }
    }
  }

  lemma StepNoRepeats(m: Map, visited: seq<bool>, v1: seq<bool>, v2: seq<bool>, olds: seq<Pos>, news: seq<Pos>)
    requires Valid(m) && |visited| == |m.points| && Grows(visited, v1) && Grows(v1, v2)
    requires Fresh(m, visited, v1, olds) && Fresh(m, v1, v2, news)
    requires NoRepeats(olds) && NoRepeats(news)
    ensures NoRepeats(olds + news)
  {
    var all := olds + news;
    forall a, b | 0 <= a < b < |all|
      ensures all[a] != all[b]
    {
      if a < |olds| <= b {
        assert all[a] in olds && all[b] in news;
      }
    }
  }

  lemma StepClosed(m: Map, v1: seq<bool>, v2: seq<bool>, olds: seq<Pos>, news: seq<Pos>)
    requires Valid(m) && |v1| == |m.points| && Grows(v1, v2)
    requires forall q :: q in olds + news ==> LocationValid(m, q)
    requires Closed(m, v1, olds) && Closed(m, v2, news)
    ensures Closed(m, v2, olds + news)
  {
    forall q, n | q in olds + news && n in Neighbours(m, q) && Point(m, q) < Point(m, n) && Point(m, n) != 9
      ensures (IndexInRange(m, n); v2[Index(m, n)])
    {
      IndexInRange(m, n);
      if q in olds {
        assert v1[Index(m, n)];
      }
    }
  }

  lemma StepAbove(m: Map, p: Pos, r: Pos, olds: seq<Pos>, news: seq<Pos>)
    requires Valid(m) && LocationValid(m, p) && LocationValid(m, r)
    requires forall q :: q in olds + news ==> LocationValid(m, q)
    requires Adjacent(p, r) && Point(m, p) < Point(m, r)
    requires AboveRoot(m, olds, p) && Rooted(m, news, r)
    ensures AboveRoot(m, olds + news, p)
  {
    forall q | q in olds + news
      ensures (Adjacent(p, q) && Point(m, p) < Point(m, q)) || LowerIn(m, olds + news, q)
    {
      if q in olds {
        if !(Adjacent(p, q) && Point(m, p) < Point(m, q)) {
          LowerInAppend(m, olds, news, q);
        }
      } else if q != r {
        LowerInAppend(m, olds, news, q);
      }
    }
  }

  lemma BasinFinish(m: Map, p: Pos, ns: seq<Pos>, visited: seq<bool>, v1: seq<bool>, basin: seq<Pos>, b1: seq<Pos>)
    requires Valid(m) && LocationValid(m, p) && |visited| == |m.points| && |v1| == |m.points|
    requires ns == Neighbours(m, p)
    requires (IndexInRange(m, p); Point(m, p) != 9 && !visited[Index(m, p)])
    requires Partial(m, p, visited, v1, basin, b1) && Processed(m, p, ns, |ns|, v1)
    ensures Collected(m, p, visited, v1, basin, b1 + [p])
  {
    var added := b1[|basin|..];
    assert (b1 + [p])[|basin|..] == added + [p];
    assert (b1 + [p])[..|basin|] == basin;
    FinishFresh(m, p, visited, v1, added);
    FinishCovered(m, p, visited, v1, added);
    FinishNoRepeats(added, p);
    FinishClosed(m, p, ns, v1, added);
    FinishRooted(m, p, added);
  }

  lemma FinishFresh(m: Map, p: Pos, visited: seq<bool>, v1: seq<bool>, added: seq<Pos>)
    requires Valid(m) && LocationValid(m, p) && |visited| == |m.points| && |v1| == |m.points|
    requires (IndexInRange(m, p); Point(m, p) != 9 && !visited[Index(m, p)] && v1[Index(m, p)])
    requires Fresh(m, visited, v1, added)
    ensures Fresh(m, visited, v1, added + [p])
  {
    forall q | q in added + [p]
      ensures LocationValid(m, q) && Point(m, q) != 9 && (IndexInRange(m, q); !visited[Index(m, q)] && v1[Index(m, q)])
    {
      IndexInRange(m, q);
      if q != p {
        assert q in added;
      }
    }
  }

  lemma FinishCovered(m: Map, p: Pos, visited: seq<bool>, v1: seq<bool>, added: seq<Pos>)
    requires |v1| == |visited|
    requires Covered(m, visited, v1, added, {Index(m, p)})
    ensures Covered(m, visited, v1, added + [p], {})
  {
    forall i | 0 <= i < |visited| && v1[i] && !visited[i]
      ensures exists q :: q in added + [p] && Index(m, q) == i
    {
      if i == Index(m, p) {
        assert p in added + [p];
      } else {
        var q :| q in added && Index(m, q) == i;
        assert q in added + [p];
      }
    }
  }

  lemma FinishNoRepeats(added: seq<Pos>, p: Pos)
    requires NoRepeats(added) && p !in added
    ensures NoRepeats(added + [p])
  {
    var all := added + [p];
    forall a, b | 0 <= a < b < |all|
      ensures all[a] != all[b]
    {
      if b == |added| {
        assert all[a] in added;
      }
    }
  }

  lemma FinishClosed(m: Map, p: Pos, ns: seq<Pos>, v1: seq<bool>, added: seq<Pos>)
    requires Valid(m) && LocationValid(m, p) && |v1| == |m.points|
    requires ns == Neighbours(m, p)
    requires forall q :: q in added ==> LocationValid(m, q)
    requires Closed(m, v1, added) && Processed(m, p, ns, |ns|, v1)
    ensures Closed(m, v1, added + [p])
  {
    forall q, n | q in added + [p] && n in Neighbours(m, q) && Point(m, q) < Point(m, n) && Point(m, n) != 9
      ensures (IndexInRange(m, n); v1[Index(m, n)])
    {
      IndexInRange(m, n);
      if q == p {
        var j :| 0 <= j < |ns| && ns[j] == n;
      } else {
        assert q in added;
      }
    }
  }

  lemma FinishRooted(m: Map, p: Pos, added: seq<Pos>)
    requires Valid(m) && LocationValid(m, p)
    requires forall q :: q in added ==> LocationValid(m, q)
    requires AboveRoot(m, added, p)
    ensures Rooted(m, added + [p], p)
  {
    forall q | q in added + [p]
      ensures q == p || LowerIn(m, added + [p], q)
    {
      if q != p {
        assert q in added;
        if Adjacent(p, q) && Point(m, p) < Point(m, q) {
          assert p in [p] && Adjacent(q, p);
          assert LowerIn(m, [p], q);
        }
        LowerInAppend(m, added, [p], q);
      }
    }
  }

  // ---------------------------------------------------------------------
  // The Basins iterator

  /** Every point of every basin is on the map, below 9 and marked in `v`,
      and each basin's higher neighbours below 9 are marked too. */
  predicate BasinsMarked(m: Map, v: seq<bool>, bs: seq<seq<Pos>>)
    requires Valid(m) && |v| == |m.points|
  {
    forall k, q :: 0 <= k < |bs| && q in bs[k] ==>
      LocationValid(m, q) && Point(m, q) != 9 && (IndexInRange(m, q); v[Index(m, q)])
  }

  /** Every mark of `v` is a point of some basin. */
  predicate MarksInBasins(m: Map, v: seq<bool>, bs: seq<seq<Pos>>)
  {
    forall i :: 0 <= i < |v| && v[i] ==> exists k, q :: 0 <= k < |bs| && q in bs[k] && Index(m, q) == i
  }

  /** No point belongs to two basins. */
  predicate Disjoint(bs: seq<seq<Pos>>)
  {
    forall a, b, q :: 0 <= a < b < |bs| && q in bs[a] ==> q !in bs[b]
  }

  /** `Basins::next`, run to the end: for each low point in row-major
      order, `collect_basin` from it with one `visited` vector shared by
      all basins. Returns the low points' indices and their basins. */
  method Basins(m: Map) returns (lows: seq<nat>, basins: seq<seq<Pos>>)
    requires Valid(m)
    ensures forall i: nat :: i in lows <==> i < |m.points| && LowAt(m, i)
    ensures |basins| == |lows|
    ensures forall k :: 0 <= k < |basins| ==> NoRepeats(basins[k])
    ensures forall k, q :: 0 <= k < |basins| && q in basins[k] ==> LocationValid(m, q) && Point(m, q) != 9
    ensures forall k :: 0 <= k < |basins| ==>
      lows[k] < |m.points| && (IndexIndexToXY(m, lows[k]); Rooted(m, basins[k], IndexToXY(m, lows[k])))
    ensures Disjoint(basins)
    ensures forall k, q, n ::
      (0 <= k < |basins| && q in basins[k] && n in Neighbours(m, q) && Point(m, q) < Point(m, n) && Point(m, n) != 9) ==>
      exists k2 :: 0 <= k2 < |basins| && n in basins[k2]
  {
    var heights;
    lows, heights := LowPoints(m);
    var visited := seq(|m.points|, _ => false);
    basins := [];
    var k := 0;
    while k < |lows|
      invariant k <= |lows| && |basins| == k && |visited| == |m.points|
      invariant BasinsMarked(m, visited, basins) && MarksInBasins(m, visited, basins)
      invariant Disjoint(basins)
      invariant forall j :: 0 <= j < k ==> NoRepeats(basins[j])
      invariant forall j :: 0 <= j < k ==> (forall q :: q in basins[j] ==> LocationValid(m, q)) && Closed(m, visited, basins[j])
      invariant forall j :: 0 <= j < k ==> (IndexIndexToXY(m, lows[j]); Rooted(m, basins[j], IndexToXY(m, lows[j])))
    {
      IndexIndexToXY(m, lows[k]);
      var p := IndexToXY(m, lows[k]);
      var v2, b := CollectBasin(m, p, visited, []);
      assert b[0..] == b;
      BasinsStep(m, visited, v2, basins, b);
      ClosedAll(m, visited, v2, basins);
      visited, basins := v2, basins + [b];
      k := k + 1;
    }
    BasinsClosed(m, visited, basins);
  }

  /** Adding a basin collected from fresh marks keeps the basins marked,
      every mark in some basin, and the basins disjoint. */
  lemma BasinsStep(m: Map, v1: seq<bool>, v2: seq<bool>, bs: seq<seq<Pos>>, b: seq<Pos>)
    requires Valid(m) && |v1| == |m.points| && Grows(v1, v2)
    requires BasinsMarked(m, v1, bs) && MarksInBasins(m, v1, bs) && Disjoint(bs)
    requires Fresh(m, v1, v2, b) && Covered(m, v1, v2, b, {})
    ensures BasinsMarked(m, v2, bs + [b]) && MarksInBasins(m, v2, bs + [b]) && Disjoint(bs + [b])
  {
    var all := bs + [b];
    forall k, q | 0 <= k < |all| && q in all[k]
      ensures LocationValid(m, q) && Point(m, q) != 9 && (IndexInRange(m, q); v2[Index(m, q)])
    {
      IndexInRange(m, q);
      if k < |bs| {
        assert q in bs[k];
      }
    }
    forall i | 0 <= i < |v2| && v2[i]
      ensures exists k, q :: 0 <= k < |all| && q in all[k] && Index(m, q) == i
    {
      if v1[i] {
        var k, q :| 0 <= k < |bs| && q in bs[k] && Index(m, q) == i;
        assert all[k] == bs[k];
      } else {
        var q :| q in b && Index(m, q) == i;
        assert all[|bs|] == b;
      }
    }
    forall x, y, q | 0 <= x < y < |all| && q in all[x]
      ensures q !in all[y]
    {
      if y == |bs| {
        assert q in bs[x];
        IndexInRange(m, q);
        assert v1[Index(m, q)];
      }
    }
  }

  /** Closed basins stay closed as more points are marked. */
  lemma ClosedAll(m: Map, v1: seq<bool>, v2: seq<bool>, bs: seq<seq<Pos>>)
    requires Valid(m) && |v1| == |m.points| && Grows(v1, v2)
    requires forall j :: 0 <= j < |bs| ==> (forall q :: q in bs[j] ==> LocationValid(m, q)) && Closed(m, v1, bs[j])
    ensures forall j :: 0 <= j < |bs| ==> Closed(m, v2, bs[j])
  {
    forall j, q, n | 0 <= j < |bs| && q in bs[j] && n in Neighbours(m, q) && Point(m, q) < Point(m, n) && Point(m, n) != 9
      ensures (IndexInRange(m, n); v2[Index(m, n)])
    {
      IndexInRange(m, n);
      assert v1[Index(m, n)];
    }
  }

  /** Closed basins whose marks all lie in basins: every higher neighbour
      below 9 of a basin point is itself in a basin. */
  lemma BasinsClosed(m: Map, v: seq<bool>, bs: seq<seq<Pos>>)
    requires Valid(m) && |v| == |m.points| && MarksInBasins(m, v, bs)
    requires forall j :: 0 <= j < |bs| ==> (forall q :: q in bs[j] ==> LocationValid(m, q)) && Closed(m, v, bs[j])
    ensures forall k, q, n ::
      (0 <= k < |bs| && q in bs[k] && n in Neighbours(m, q) && Point(m, q) < Point(m, n) && Point(m, n) != 9) ==>
      exists k2 :: 0 <= k2 < |bs| && n in bs[k2]
  {
    forall k, q, n | 0 <= k < |bs| && q in bs[k] && n in Neighbours(m, q) && Point(m, q) < Point(m, n) && Point(m, n) != 9
      ensures exists k2 :: 0 <= k2 < |bs| && n in bs[k2]
    {
      IndexInRange(m, n);
      assert v[Index(m, n)];
      var k2, r :| 0 <= k2 < |bs| && r in bs[k2] && Index(m, r) == Index(m, n);
      IndexInjective(m, r, n);
    }
  }
}

=== FILE: day10_stack.dfy ===
/** The generic last-in, first-out stack of day 10, a thin wrapper around a
    growable list whose end is the top. */
module Stacks {
  import opened Common

  datatype Stack<T> = Stack(items: seq<T>)

  /** `Stack::new` and `Stack::with_capacity`; the capacity is only an
      allocation hint. */
  function New<T>(): (s: Stack<T>)
    ensures IsEmpty(s)
  {
    Stack([])
  }

  /** `len`. */
  function Len<T>(s: Stack<T>): nat
  {
    |s.items|
  }

  /** `is_empty`. */
  predicate IsEmpty<T>(s: Stack<T>)
  {
    |s.items| == 0
  }

  /** `clear`. */
  function Clear<T>(s: Stack<T>): (r: Stack<T>)
    ensures IsEmpty(r) && Len(r) == 0
  {
    Stack([])
  }

  /** `push`: the item goes on top, above everything that was there. */
  function Push<T>(s: Stack<T>, item: T): (r: Stack<T>)
    ensures Len(r) == Len(s) + 1 && !IsEmpty(r)
    ensures r.items[..Len(s)] == s.items && r.items[Len(s)] == item
  {
    Stack(s.items + [item])
  }

  /** `pop`: the top item and the stack below it; nothing, and no change,
      when the stack is empty. */
  function Pop<T>(s: Stack<T>): (r: (Stack<T>, Option<T>))
    ensures IsEmpty(s) <==> r.1.None?
    ensures IsEmpty(s) ==> r.0 == s
    ensures !IsEmpty(s) ==> Len(r.0) == Len(s) - 1 && s.items == r.0.items + [r.1.value]
  {
    if |s.items| == 0 then (s, None)
    else (Stack(s.items[..|s.items| - 1]), Some(s.items[|s.items| - 1]))
  }

  /** `top`: the item at index `len - 1`, or index 0 when the subtraction
      would underflow, which on an empty list finds nothing. */
  function Top<T>(s: Stack<T>): (r: Option<T>)
    ensures r.None? <==> IsEmpty(s)
    ensures r.Some? ==> r.value == s.items[|s.items| - 1]
  {
    var i := if |s.items| >= 1 then |s.items| - 1 else 0;
    if i < |s.items| then Some(s.items[i]) else None
  }

  /** Popping right after a push gives the pushed item back and restores
      the stack as it was. */
  lemma PushPop<T>(s: Stack<T>, item: T)
    ensures Pop(Push(s, item)) == (s, Some(item))
  {
    assert (s.items + [item])[..|s.items|] == s.items;
  }

  /** Pushing and then popping what was popped puts the stack back. */
  lemma PopPush<T>(s: Stack<T>)
    requires !IsEmpty(s)
    ensures Push(Pop(s).0, Pop(s).1.value) == s
  {
  }

  /** The top is the item the next pop returns. */
  lemma TopPop<T>(s: Stack<T>)
    ensures Top(s) == Pop(s).1
  {
  }
}

=== FILE: day10_syntax.dfy ===
/** Day 10: lines of brackets checked with a stack of the brackets still
    open; a corrupted line is scored by its first illegal closer, an
    incomplete one by the closers that would complete it. */
module SyntaxScoring {
  import opened Common
  import opened Stacks

  datatype Kind = Round | Square | Angle | Curly
  datatype Mode = Open | Close
  datatype Bracket = Bracket(kind: Kind, mode: Mode)

  /** `Bracket::complementary`: the same kind, facing the other way. */
  function Complementary(b: Bracket): (r: Bracket)
    ensures r.kind == b.kind && r.mode != b.mode
  {
    Bracket(b.kind, if b.mode == Open then Close else Open)
  }

  /** Complementing twice gives the bracket back. */
  lemma ComplementaryInvolution(b: Bracket)
    ensures Complementary(Complementary(b)) == b
  {
  }

  /** `Bracket::from`: the eight bracket characters; any other panics. */
  function FromChar(c: char): (r: Result<Bracket>)
    ensures !r.Err?
    ensures r.Ok? <==> c in "()[]{}<>"
  {
    match c
    case '(' => Ok(Bracket(Round, Open))
    case ')' => Ok(Bracket(Round, Close))
    case '[' => Ok(Bracket(Square, Open))
    case ']' => Ok(Bracket(Square, Close))
    case '{' => Ok(Bracket(Curly, Open))
    case '}' => Ok(Bracket(Curly, Close))
    case '<' => Ok(Bracket(Angle, Open))
    case '>' => Ok(Bracket(Angle, Close))
    case _ => Panic("Invalid character")
  }

  /** The character of a bracket. */
  function ToChar(b: Bracket): char
  {
    match b
    case Bracket(Round, Open) => '('
    case Bracket(Round, Close) => ')'
    case Bracket(Square, Open) => '['
    case Bracket(Square, Close) => ']'
    case Bracket(Curly, Open) => '{'
    case Bracket(Curly, Close) => '}'
    case Bracket(Angle, Open) => '<'
    case Bracket(Angle, Close) => '>'
  }

  /** Reading undoes writing, and writing undoes reading. */
  lemma CharRoundTrip(b: Bracket, c: char)
    ensures FromChar(ToChar(b)) == Ok(b)
    ensures FromChar(c).Ok? ==> ToChar(FromChar(c).value) == c
  {
  }

  /** `error_score`. */
  function ErrorScore(b: Bracket): (s: nat)
    ensures s in {3, 57, 1197, 25137}
  {
    match b.kind
    case Round => 3
    case Square => 57
    case Curly => 1197
    case Angle => 25137
  }

  /** `autocomplete_score`. */
  function AutocompleteScore(b: Bracket): (s: nat)
    ensures 1 <= s <= 4
  {
    match b.kind
    case Round => 1
    case Square => 2
    case Curly => 3
    case Angle => 4
  }

  /** The two score tables tell the four kinds apart. */
  lemma ScoresDistinguishKinds(a: Bracket, b: Bracket)
    ensures ErrorScore(a) == ErrorScore(b) <==> a.kind == b.kind
    ensures AutocompleteScore(a) == AutocompleteScore(b) <==> a.kind == b.kind
  {
  }

  // ---------------------------------------------------------------------
  // Scanning a line

  predicate Openers(st: seq<Bracket>)
  {
    forall k :: 0 <= k < |st| ==> st[k].mode == Open
  }

  /** One bracket against the stack of open brackets: it closes the top,
      or opens a new one, or, being a closer that matches nothing, is
      illegal (`None`). */
  function Step(st: seq<Bracket>, b: Bracket): (r: Option<seq<Bracket>>)
    ensures r.None? <==> b.mode == Close && (|st| == 0 || Complementary(st[|st| - 1]) != b)
    ensures Openers(st) && r.Some? ==> Openers(r.value)
  {
    if |st| > 0 && Complementary(st[|st| - 1]) == b then Some(st[..|st| - 1])
    else if b.mode == Open then Some(st + [b])
    else
      assert b.mode == Close;
      None
  }

  /** How a line ends: at its first illegal closer, or with the brackets
      still open (none, for a complete line). */
  datatype Outcome = Corrupted(illegal: Bracket) | Incomplete(open: seq<Bracket>)

  /** The line read left to right from the stack `st`; characters after the
      first illegal closer are never converted. */
  function ScanFrom(st: seq<Bracket>, line: string): (r: Result<Outcome>)
    ensures !r.Err?
    ensures r.Ok? && r.value.Corrupted? ==> r.value.illegal.mode == Close
    ensures Openers(st) && r.Ok? && r.value.Incomplete? ==> Openers(r.value.open)
    decreases |line|
  {
    if |line| == 0 then Ok(Incomplete(st))
    else
      match FromChar(line[0])
      case Ok(b) =>
        (match Step(st, b)
         case None => Ok(Corrupted(b))
         case Some(st2) => ScanFrom(st2, line[1..]))
      case Panic(msg) => Panic(msg)
      case Err(msg) => Err(msg)
  }

  /** The per-line loop of parts 1 and 2 on the `Stack` type: pop when the
      bracket complements the top, push an opener, stop at anything else. */
  method ScanLine(line: string) returns (r: Result<Outcome>)
    ensures r == ScanFrom([], line)
  {
    var stack: Stack<Bracket> := New();
    var j := 0;
    while j < |line|
      invariant j <= |line|
      invariant ScanFrom(stack.items, line[j..]) == ScanFrom([], line)
    {
      assert line[j..][1..] == line[j + 1..];
      var c := FromChar(line[j]);
      if !c.Ok? {
        return Panic(c.msg);
      }
      var bracket := c.value;
      if !IsEmpty(stack) && Complementary(Top(stack).value) == bracket {
        stack := Pop(stack).0;
      } else if bracket.mode == Open {
        stack := Push(stack, bracket);
      } else {
        return Ok(Corrupted(bracket));
      }
      j := j + 1;
    }
    return Ok(Incomplete(stack.items));
  }

  /** Scanning two pieces one after the other is scanning their
      concatenation. */
  lemma {:induction false} ScanAppend(st: seq<Bracket>, a: string, b: string)
    ensures ScanFrom(st, a + b) ==
      match ScanFrom(st, a)
      case Ok(Incomplete(st2)) => ScanFrom(st2, b)
      case other => other
    decreases |a|
  {
    if |a| > 0 {
      assert (a + b)[0] == a[0];
      assert (a + b)[1..] == a[1..] + b;
      match FromChar(a[0])
      case Ok(x) =>
        match Step(st, x) {
          case None =>
          case Some(st2) => ScanAppend(st2, a[1..], b);
        }
      case Panic(_) =>
      case Err(_) =>
    } else {
      assert a + b == b;
    }
  }

  /** The closers that complete the open brackets `st`, innermost first:
      the complements of the brackets in the order they are popped. */
  function Completion(st: seq<Bracket>): (s: string)
    ensures |s| == |st|
  {
    if |st| == 0 then ""
    else [ToChar(Complementary(st[|st| - 1]))] + Completion(st[..|st| - 1])
  }

  /** Appending the completion closes every open bracket. */
  lemma {:induction false} CompletionCloses(st: seq<Bracket>)
    requires Openers(st)
    ensures ScanFrom(st, Completion(st)) == Ok(Incomplete([]))
    decreases |st|
  {
    if |st| > 0 {
      var top := st[|st| - 1];
      var s := Completion(st);
      CharRoundTrip(Complementary(top), ' ');
      assert s[0] == ToChar(Complementary(top));
      assert s[1..] == Completion(st[..|st| - 1]);
      assert Step(st, Complementary(top)) == Some(st[..|st| - 1]);
      CompletionCloses(st[..|st| - 1]);
    }
  }

  /** An incomplete line followed by its completion is a complete line. */
  lemma CompletedLine(line: string)
    requires ScanFrom([], line).Ok? && ScanFrom([], line).value.Incomplete?
    ensures ScanFrom([], line + Completion(ScanFrom([], line).value.open)) == Ok(Incomplete([]))
  {
    var st := ScanFrom([], line).value.open;
    ScanAppend([], line, Completion(st));
    CompletionCloses(st);
  }

  // ---------------------------------------------------------------------
  // Scores

  /** The autocomplete score of the open brackets `st`: in pop order, the
      score so far times 5 plus the score of the next closer, so the closer
      for `st[0]` is the last, least significant base-5 digit. */
  function CompletionScore(st: seq<Bracket>): nat
  {
    if |st| == 0 then 0
    else AutocompleteScore(Complementary(st[0])) + 5 * CompletionScore(st[1..])
  }

  lemma {:induction false} CompletionScoreSnoc(st: seq<Bracket>, b: Bracket, p: nat)
    requires p == Pow5(|st|)
    ensures CompletionScore(st + [b]) == CompletionScore(st) + p * AutocompleteScore(Complementary(b))
    decreases |st|
  {
    if |st| == 0 {
      assert st + [b] == [b];
      assert ([b])[1..] == [];
    } else {
      assert (st + [b])[1..] == st[1..] + [b];
      CompletionScoreSnoc(st[1..], b, Pow5(|st| - 1));
    }
  }

  function Pow5(n: nat): (p: nat)
    ensures p >= 1
  {
    if n == 0 then 1 else 5 * Pow5(n - 1)
  }

  /** The autocomplete loop: pop every open bracket, multiplying the score
      by 5 and adding the score of the popped bracket's complement. */
  method Autocomplete(stack: Stack<Bracket>) returns (score: nat)
    ensures score == CompletionScore(stack.items)
  {
    var s := stack;
    score := 0;
    while !IsEmpty(s)
      invariant CompletionScore(stack.items) == CompletionScore(s.items) + Pow5(|s.items|) * score
      decreases |s.items|
    {
      var popped := Pop(s);
      var current := popped.1.value;
      var d := AutocompleteScore(Complementary(current));
      var p := Pow5(|popped.0.items|);
      CompletionScoreSnoc(popped.0.items, current, p);
      assert s.items == popped.0.items + [current];
      assert Pow5(|s.items|) == 5 * p;
      Regroup(CompletionScore(popped.0.items), p, d, score);
      s := popped.0;
      score := score * 5 + d;
    }
  }

  lemma Regroup(a: nat, p: nat, d: nat, score: nat)
    ensures a + p * d + (5 * p) * score == a + p * (score * 5 + d)
  {
  }

  /** No open bracket scores 0, and any other stack scores more. */
  lemma CompletionScoreZero(st: seq<Bracket>)
    ensures CompletionScore(st) == 0 <==> |st| == 0
  {
  }

  /** The score of the open brackets gives them back: its base-5 digits
      are all 1 to 4, so equal scores mean equal stacks. */
  lemma {:induction false} CompletionScoreInjective(a: seq<Bracket>, b: seq<Bracket>)
    requires Openers(a) && Openers(b)
    requires CompletionScore(a) == CompletionScore(b)
    ensures a == b
    decreases |a|
  {
    CompletionScoreZero(a);
    CompletionScoreZero(b);
    if |a| > 0 {
      var da := AutocompleteScore(Complementary(a[0]));
      var db := AutocompleteScore(Complementary(b[0]));
      DivModUnique5(CompletionScore(a), da - 1, CompletionScore(a[1..]), db - 1, CompletionScore(b[1..]));
      ScoresDistinguishKinds(Complementary(a[0]), Complementary(b[0]));
      assert a[0] == b[0];
      CompletionScoreInjective(a[1..], b[1..]);
      assert a == [a[0]] + a[1..];
      assert b == [b[0]] + b[1..];
    }
  }

  lemma DivModUnique5(n: nat, r1: nat, q1: nat, r2: nat, q2: nat)
    requires r1 < 4 && r2 < 4
    requires n == r1 + 1 + 5 * q1 && n == r2 + 1 + 5 * q2
    ensures r1 == r2 && q1 == q2
  {
  }

  /** What one line adds to part 1: the error score of its illegal closer
      when it is corrupted, nothing otherwise. */
  function LineError(line: string): nat
  {
    var o := ScanFrom([], line);
    if o.Ok? && o.value.Corrupted? then ErrorScore(o.value.illegal) else 0
  }

  /** The line errors of `lines` added up, from the last line back. */
  function SumErrors(lines: seq<string>): nat
  {
    if |lines| == 0 then 0 else SumErrors(lines[..|lines| - 1]) + LineError(lines[|lines| - 1])
  }

  /** Adding up from the front gives the same sum. */
  lemma {:induction false} SumErrorsCons(lines: seq<string>)
    requires |lines| > 0
    ensures SumErrors(lines) == LineError(lines[0]) + SumErrors(lines[1..])
    decreases |lines|
  {
    if |lines| > 1 {
      var init := lines[..|lines| - 1];
      SumErrorsCons(init);
      assert init[1..] == lines[1..][..|lines[1..]| - 1];
    }
  }

  /** Part 1: the error scores of the corrupted lines added up, line by
      line; a bad character reached before a line's end panics. */
  function ErrorTotal(lines: seq<string>): (r: Result<nat>)
    ensures !r.Err?
    ensures r.Ok? <==> forall k :: 0 <= k < |lines| ==> ScanFrom([], lines[k]).Ok?
    ensures r.Ok? ==> r.value <= 25137 * |lines|
    ensures r.Ok? ==> (r.value == 0 <==> forall k :: 0 <= k < |lines| ==> ScanFrom([], lines[k]).value.Incomplete?)
  {
    if |lines| == 0 then Ok(0)
    else
      var o := ScanFrom([], lines[0]);
      if o.Panic? then Panic(o.msg)
      else
        var rest := ErrorTotal(lines[1..]);
        if rest.Panic? then
          var k :| 0 <= k < |lines[1..]| && !ScanFrom([], lines[1..][k]).Ok?;
          assert !ScanFrom([], lines[k + 1]).Ok?;
          Panic(rest.msg)
        else
          assert forall k :: 1 <= k < |lines| ==> lines[k] == lines[1..][k - 1];
          Ok((if o.value.Corrupted? then ErrorScore(o.value.illegal) else 0) + rest.value)
  }

  /** Line `k` is incomplete and `v` is its autocomplete score. */
  predicate ScoredAt(lines: seq<string>, k: int, v: nat)
  {
    0 <= k < |lines| && var o := ScanFrom([], lines[k]); o.Ok? && IsIncomplete(o.value) && v == CompletionScore(o.value.open)
  }

  predicate ScoreOfLine(lines: seq<string>, v: nat)
  {
    exists k :: 0 <= k < |lines| && ScoredAt(lines, k, v)
  }

  /** The line still has brackets open and no illegal closer. */
  predicate IsIncomplete(o: Outcome)
  {
    o.Incomplete? && |o.open| > 0
  }

  /** Part 1 is the sum of the line errors: the error scores of the
      corrupted lines. */
  lemma {:induction false} ErrorTotalSum(lines: seq<string>)
    ensures ErrorTotal(lines).Ok? ==> ErrorTotal(lines).value == SumErrors(lines)
  {
    if |lines| > 0 && ErrorTotal(lines).Ok? {
      ErrorTotalSum(lines[1..]);
      SumErrorsCons(lines);
    }
  }

  /** The line scans to an incomplete outcome. */
  predicate IncompleteLine(line: string)
  {
    var o := ScanFrom([], line);
    o.Ok? && IsIncomplete(o.value)
  }

  /** How many of `lines` are incomplete. */
  function CountIncomplete(lines: seq<string>): nat
  {
    if |lines| == 0 then 0 else (if IncompleteLine(lines[0]) then 1 else 0) + CountIncomplete(lines[1..])
  }

  /** Counting the incomplete lines among the first `k` starts with the
      first line. */
  lemma CountIncompletePrefix(lines: seq<string>, k: nat)
    requires 1 <= k <= |lines|
    ensures CountIncomplete(lines[..k])
      == (if IncompleteLine(lines[0]) then 1 else 0) + CountIncomplete(lines[1..][..k - 1])
  {
    assert lines[..k][1..] == lines[1..][..k - 1];
  }

  /** Part 2's list of scores: one per incomplete line, in order; corrupted
      lines have their stack cleared and complete lines have none, so
      neither contributes. */
  function CompletionScores(lines: seq<string>): (r: Result<seq<nat>>)
    ensures !r.Err?
    ensures r.Ok? <==> forall k :: 0 <= k < |lines| ==> ScanFrom([], lines[k]).Ok?
    ensures r.Ok? ==> |r.value| <= |lines| && forall k :: 0 <= k < |r.value| ==> r.value[k] > 0 && ScoreOfLine(lines, r.value[k])
    ensures r.Ok? && |r.value| == 0 ==> forall k :: 0 <= k < |lines| ==> !IsIncomplete(ScanFrom([], lines[k]).value)
  {
    if |lines| == 0 then Ok([])
    else
      var o := ScanFrom([], lines[0]);
      if o.Panic? then Panic(o.msg)
      else
        var rest := CompletionScores(lines[1..]);
        if rest.Panic? then
          var k :| 0 <= k < |lines[1..]| && !ScanFrom([], lines[1..][k]).Ok?;
          assert !ScanFrom([], lines[k + 1]).Ok?;
          Panic(rest.msg)
        else
          assert forall k :: 1 <= k < |lines| ==> lines[k] == lines[1..][k - 1];
          assert forall v :: ScoreOfLine(lines[1..], v) ==> ScoreOfLine(lines, v) by {
            forall v | ScoreOfLine(lines[1..], v)
              ensures ScoreOfLine(lines, v)
            {
              var k :| 0 <= k < |lines[1..]| && ScoredAt(lines[1..], k, v);
              assert ScoredAt(lines, k + 1, v);
            }
          }
          if IsIncomplete(o.value) then
            CompletionScoreZero(o.value.open);
            assert ScoredAt(lines, 0, CompletionScore(o.value.open));
            Ok([CompletionScore(o.value.open)] + rest.value)
          else
            Ok(rest.value)
  }

  /** The completion score of an incomplete line. */
  function IncompleteScore(line: string): nat
    requires IncompleteLine(line)
  {
    CompletionScore(ScanFrom([], line).value.open)
  }

  /** The list starts with the first line's score when that line is
      incomplete, and goes on with the scores of the other lines. */
  lemma ScoresCons(lines: seq<string>)
    requires |lines| > 0 && CompletionScores(lines).Ok?
    ensures CompletionScores(lines[1..]).Ok?
    ensures CompletionScores(lines).value
      == (if IncompleteLine(lines[0]) then [IncompleteScore(lines[0])] else []) + CompletionScores(lines[1..]).value
  {
  }

  /** The list of scores holds exactly one score per incomplete line, in
      the order of the lines: the score of incomplete line `k` comes after
      those of the incomplete lines before it. */
  lemma {:induction false} ScoresInOrder(lines: seq<string>)
    ensures var r := CompletionScores(lines);
      r.Ok? ==> && |r.value| == CountIncomplete(lines)
                && forall k :: 0 <= k < |lines| && IncompleteLine(lines[k]) ==>
                     && CountIncomplete(lines[..k]) < |r.value|
                     && r.value[CountIncomplete(lines[..k])] == IncompleteScore(lines[k])
  {
    var r := CompletionScores(lines);
    if |lines| > 0 && r.Ok? {
      var rest := lines[1..];
      ScoresCons(lines);
      ScoresInOrder(rest);
      forall k | 0 <= k < |lines| && IncompleteLine(lines[k])
        ensures CountIncomplete(lines[..k]) < |r.value|
        ensures r.value[CountIncomplete(lines[..k])] == IncompleteScore(lines[k])
      {
        if k == 0 {
          assert lines[..0] == [];
        } else {
          CountIncompletePrefix(lines, k);
          assert lines[k] == rest[k - 1];
        }
      }
    }
  }

  // ---------------------------------------------------------------------
  // The middle score

  predicate Sorted(s: seq<nat>)
  {
    forall i, j :: 0 <= i < j < |s| ==> s[i] <= s[j]
  }

  function Insert(x: nat, s: seq<nat>): (r: seq<nat>)
    requires Sorted(s)
    ensures |r| == |s| + 1 && Sorted(r) && multiset(r) == multiset(s) + multiset{x}
    ensures r[0] == x || (|s| > 0 && r[0] == s[0])
  {
    if |s| == 0 then [x]
    else if x <= s[0] then [x] + s
    else
      var rest := Insert(x, s[1..]);
      assert s == [s[0]] + s[1..];
      assert s[0] <= rest[0];
      [s[0]] + rest
  }

  /** `sort`: the same scores in ascending order. */
  function Sort(s: seq<nat>): (r: seq<nat>)
    ensures |r| == |s| && Sorted(r) && multiset(r) == multiset(s)
  {
    if |s| == 0 then []
    else
      assert s == [s[0]] + s[1..];
      Insert(s[0], Sort(s[1..]))
  }

  /** `scores[scores.len() / 2]` after sorting, which panics on an empty
      list. */
  function MiddleScore(scores: seq<nat>): (r: Result<nat>)
    ensures !r.Err?
    ensures r.Panic? <==> |scores| == 0
    ensures r.Ok? ==> r.value in scores
  {
    if |scores| == 0 then Panic("index out of bounds")
    else
      var sorted := Sort(scores);
      assert sorted[|scores| / 2] in multiset(sorted);
      Ok(sorted[|scores| / 2])
  }

  /** How many of `s` are below `m`. */
  function CountBelow(s: seq<nat>, m: nat): (n: nat)
    ensures n <= |s|
  {
    if |s| == 0 then 0 else (if s[0] < m then 1 else 0) + CountBelow(s[1..], m)
  }

  /** How many of `s` are above `m`. */
  function CountAbove(s: seq<nat>, m: nat): (n: nat)
    ensures n <= |s|
  {
    if |s| == 0 then 0 else (if s[0] > m then 1 else 0) + CountAbove(s[1..], m)
  }

  lemma {:induction false} CountInsert(x: nat, s: seq<nat>, m: nat)
    requires Sorted(s)
    ensures CountBelow(Insert(x, s), m) == CountBelow(s, m) + (if x < m then 1 else 0)
    ensures CountAbove(Insert(x, s), m) == CountAbove(s, m) + (if x > m then 1 else 0)
  {
    if |s| == 0 {
      assert Insert(x, s) == [x] && [x][1..] == [];
    } else if x <= s[0] {
      assert Insert(x, s) == [x] + s && ([x] + s)[1..] == s;
    } else {
      var r := Insert(x, s[1..]);
      assert Insert(x, s) == [s[0]] + r && ([s[0]] + r)[1..] == r;
      CountInsert(x, s[1..], m);
    }
  }

  /** Sorting keeps the counts. */
  lemma {:induction false} CountSort(s: seq<nat>, m: nat)
    ensures CountBelow(Sort(s), m) == CountBelow(s, m)
    ensures CountAbove(Sort(s), m) == CountAbove(s, m)
  {
    if |s| > 0 {
      CountSort(s[1..], m);
      CountInsert(s[0], Sort(s[1..]), m);
    }
  }

  /** In a list whose entries from `h` on are at least `m`, at most `h`
      are below `m`. */
  lemma {:induction false} CountBelowTail(s: seq<nat>, m: nat, h: nat)
    requires forall i :: h <= i < |s| ==> s[i] >= m
    ensures CountBelow(s, m) <= h
  {
    if |s| > 0 {
      CountBelowTail(s[1..], m, if h > 0 then h - 1 else 0);
    }
  }

  /** In a list whose first `h` entries are at most `m`, at most
      `|s| - h` are above `m`. */
  lemma {:induction false} CountAboveHead(s: seq<nat>, m: nat, h: nat)
    requires h <= |s|
    requires forall i :: 0 <= i < h ==> s[i] <= m
    ensures CountAbove(s, m) <= |s| - h
  {
    if |s| > 0 && h > 0 {
      CountAboveHead(s[1..], m, h - 1);
    }
  }

  /** The middle score has at most half of the scores below it and at
      most half above it: it is a median. */
  lemma MiddleIsMedian(scores: seq<nat>)
    requires |scores| > 0
    ensures var m := MiddleScore(scores).value;
      CountBelow(scores, m) <= |scores| / 2 && CountAbove(scores, m) <= |scores| - |scores| / 2 - 1
  {
    var sorted := Sort(scores);
    var h := |scores| / 2;
    var m := sorted[h];
    CountSort(scores, m);
    forall i | h <= i < |sorted|
      ensures sorted[i] >= m
    {
      if i > h {
        assert sorted[h] <= sorted[i];
      }
    }
    CountBelowTail(sorted, m, h);
    forall i | 0 <= i < h + 1
      ensures sorted[i] <= m
    {
      if i < h {
        assert sorted[i] <= sorted[h];
      }
    }
    CountAboveHead(sorted, m, h + 1);
  }

  /** Part 2: the middle score of the incomplete lines, a median of the
      scores listed one per incomplete line. */
  function Part2(lines: seq<string>): (r: Result<nat>)
    ensures !r.Err?
    ensures r.Panic? <==> (exists k :: 0 <= k < |lines| && ScanFrom([], lines[k]).Panic?) || (forall k :: 0 <= k < |lines| ==> !IsIncomplete(ScanFrom([], lines[k]).value))
    ensures r.Ok? ==> r.value > 0 && ScoreOfLine(lines, r.value)
    ensures r.Ok? ==> CompletionScores(lines).Ok? && var s := CompletionScores(lines).value;
      r.value in s && CountBelow(s, r.value) <= |s| / 2 && CountAbove(s, r.value) <= |s| - |s| / 2 - 1
  {
    match CompletionScores(lines)
    case Ok(scores) =>
      if |scores| == 0 then MiddleScore(scores)
      else
        MiddleIsMedian(scores);
        MiddleScore(scores)
    case Panic(msg) => Panic(msg)
    case Err(msg) => Err(msg)
  }
}

=== FILE: day11_map.dfy ===
/** The day 11 grid of octopi, stored row by row, and one step of the
    flash simulation. */
module OctopusGrid {
  import opened Common
  import opened Octopi

  /** `Map`: `octopi[x + y * width]` is the octopus at `(x, y)`. */
  datatype Map = Map(width: nat, height: nat, octopi: seq<Octopus>)

  predicate InBounds(m: Map, q: Pos)
  {
    0 <= q.x < m.width && 0 <= q.y < m.height
  }

  /** The place of `q` in the row-major list. */
  function Idx(m: Map, q: Pos): nat
    requires 0 <= q.x && 0 <= q.y
  {
    q.x as nat + Mul(q.y as nat, m.width)
  }

  /** The octopi fill the `width × height` rectangle and each one's
      position is the place where it is stored. */
  predicate Placed(m: Map)
  {
    && |m.octopi| == Mul(m.height, m.width)
    && forall j :: 0 <= j < |m.octopi| ==> InBounds(m, m.octopi[j].pos) && Idx(m, m.octopi[j].pos) == j
  }

  /** No flag is left set, as after every step. */
  predicate Resting(m: Map)
  {
    forall j :: 0 <= j < |m.octopi| ==> !m.octopi[j].flashed
  }

  lemma IdxInRange(m: Map, q: Pos)
    requires |m.octopi| == Mul(m.height, m.width) && InBounds(m, q)
    ensures Idx(m, q) < |m.octopi|
  {
    var w := m.width;
    MulIsProduct(q.y as nat, w);
    MulIsProduct(m.height, w);
    MulMono(q.y as nat, m.height - 1, w);
    assert (m.height - 1) * w + w == m.height * w;
  }

  lemma IdxInjective(m: Map, p: Pos, q: Pos)
    requires InBounds(m, p) && InBounds(m, q) && Idx(m, p) == Idx(m, q)
    ensures p == q
  {
    MulIsProduct(p.y as nat, m.width);
    MulIsProduct(q.y as nat, m.width);
    DivModUnique(Idx(m, p), m.width, p.x as nat, p.y as nat);
    DivModUnique(Idx(m, q), m.width, q.x as nat, q.y as nat);
  }

  /** On a placed map the octopus stored at the place of `q` sits at `q`. */
  lemma PosAt(m: Map, q: Pos)
    requires Placed(m) && InBounds(m, q)
    ensures Idx(m, q) < |m.octopi| && m.octopi[Idx(m, q)].pos == q
  {
    IdxInRange(m, q);
    IdxInjective(m, m.octopi[Idx(m, q)].pos, q);
  }

  // ---------------------------------------------------------------------
  // Building the map: new, push_row and from_str

  /** Rows `0 .. h` of fresh octopi, `w` to a row. */
  function NewRows(w: nat, h: nat): seq<Octopus>
  {
    if h == 0 then [] else NewRows(w, h - 1) + seq(w, x => New(x, h - 1))
  }

  /** One more row at `y = m.height` keeps a placed map placed. */
  lemma PlacedAppend(m: Map, row: seq<Octopus>)
    requires Placed(m) && |row| == m.width
    requires forall x :: 0 <= x < |row| ==> row[x].pos == Pos(x, m.height)
    ensures Placed(Map(m.width, m.height + 1, m.octopi + row))
  {
    var m2 := Map(m.width, m.height + 1, m.octopi + row);
    forall j | 0 <= j < |m2.octopi|
      ensures InBounds(m2, m2.octopi[j].pos) && Idx(m2, m2.octopi[j].pos) == j
    {
      if j >= |m.octopi| {
        assert m2.octopi[j] == row[j - |m.octopi|];
      }
    }
  }

  lemma {:induction false} NewRowsPlaced(w: nat, h: nat)
    ensures Placed(Map(w, h, NewRows(w, h)))
    ensures forall j :: 0 <= j < |NewRows(w, h)| ==> NewRows(w, h)[j].energy == 0 && !NewRows(w, h)[j].flashed
  {
    if h > 0 {
      NewRowsPlaced(w, h - 1);
      PlacedAppend(Map(w, h - 1, NewRows(w, h - 1)), seq(w, x => New(x, h - 1)));
    }
  }

  /** `Map::new`: a `width × height` grid of octopi at rest, each at its
      place. */
  function NewMap(width: nat, height: nat): (m: Map)
    ensures m.width == width && m.height == height
    ensures Placed(m) && Resting(m)
    ensures forall j :: 0 <= j < |m.octopi| ==> m.octopi[j].energy == 0
  {
    NewRowsPlaced(width, height);
    Map(width, height, NewRows(width, height))
  }

  /** The octopi of row `y` with the given energies. */
  function EnergyRow(energies: seq<nat>, y: nat): (row: seq<Octopus>)
    ensures |row| == |energies|
    ensures forall x :: 0 <= x < |row| ==> row[x] == Octopus(energies[x], false, Pos(x, y))
  {
    seq(|energies|, x requires 0 <= x < |energies| => Octopus(energies[x], false, Pos(x, y)))
  }

  /** `push_row`: the first row fixes the width; a row of another length
      is refused with `Err` before anything changes; otherwise the row is
      appended at `y = height` and the height goes up by one. */
  function PushRow(m: Map, energies: seq<nat>): (r: Result<Map>)
    ensures !r.Panic?
    ensures r.Err? <==> m.width != 0 && |energies| != m.width
    ensures r.Err? ==> r.msg == "Invalid row size"
    ensures r.Ok? ==> r.value.width == |energies| && r.value.height == m.height + 1
    ensures r.Ok? ==> r.value.octopi == m.octopi + EnergyRow(energies, m.height)
  {
    var width := if m.width == 0 then |energies| else m.width;
    if width != |energies| then Err("Invalid row size")
    else Ok(Map(width, m.height + 1, m.octopi + EnergyRow(energies, m.height)))
  }

  /** A map waiting for its first row, or one whose width is fixed. */
  predicate Building(m: Map)
  {
    Placed(m) && Resting(m) && (m.width == 0 ==> m.height == 0)
  }

  /** A non-empty row keeps a map placed and at rest. */
  lemma PushKeepsPlaced(m: Map, energies: seq<nat>)
    requires Building(m) && |energies| > 0
    ensures PushRow(m, energies).Ok? ==> Building(PushRow(m, energies).value)
  {
    var r := PushRow(m, energies);
    if r.Ok? {
      PlacedAppend(m.(width := |energies|), EnergyRow(energies, m.height));
    }
  }

  /** The rows of `lines`, pushed one after the other onto `m`. */
  function PushLines(m: Map, lines: seq<string>): (r: Result<Map>)
    ensures r.Ok? ==> r.value.height == m.height + |lines|
    ensures r.Ok? ==> forall k :: 0 <= k < |lines| ==> AllDigits(lines[k])
    decreases |lines|
  {
    if |lines| == 0 then Ok(m)
    else
      match DigitRow(lines[0])
      case Ok(row) =>
        (match PushRow(m, row)
         case Ok(m') => PushLines(m', lines[1..])
         case Panic(msg) => Panic(msg)
         case Err(msg) => Err(msg))
      case Panic(msg) => Panic(msg)
      case Err(msg) => Err(msg)
  }

  /** `Map::from_str` over the lines of the text: a character that is not
      a digit panics, a row of the wrong length is an `Err`. */
  function FromLines(lines: seq<string>): (r: Result<Map>)
    ensures r.Ok? ==> r.value.height == |lines|
    ensures r.Ok? ==> forall k :: 0 <= k < |lines| ==> AllDigits(lines[k])
  {
    PushLines(NewMap(0, 0), lines)
  }

  /** Lines of digits, all of the same positive length. */
  predicate Grid(lines: seq<string>, w: nat)
  {
    w > 0 && forall k :: 0 <= k < |lines| ==> |lines[k]| == w && AllDigits(lines[k])
  }

  /** The octopus at `(x, y)` has the energy of the digit at column `x` of
      line `y`. */
  predicate Holds(m: Map, lines: seq<string>, y0: nat)
    requires Placed(m)
  {
    forall x: nat, y: nat :: x < m.width && y0 <= y < m.height && y - y0 < |lines| && x < |lines[y - y0]| ==>
      (PosAt(m, Pos(x, y)); Some(m.octopi[Idx(m, Pos(x, y))].energy) == DigitValue(lines[y - y0][x]))
  }

  lemma {:induction false} PushGrid(m: Map, lines: seq<string>, w: nat, all: seq<string>)
    requires Grid(lines, w) && Building(m) && m.width == w
    requires |all| == m.height + |lines| && all[m.height..] == lines
    requires Holds(m, all, 0)
    ensures PushLines(m, lines).Ok?
    ensures Building(PushLines(m, lines).value) && PushLines(m, lines).value.width == w
    ensures Holds(PushLines(m, lines).value, all, 0)
    decreases |lines|
  {
    if |lines| > 0 {
      var row := DigitRow(lines[0]).value;
      PushKeepsPlaced(m, row);
      var m' := PushRow(m, row).value;
      PushHolds(m, row, all);
      assert Grid(lines[1..], w);
      assert all[m'.height..] == lines[1..];
      PushGrid(m', lines[1..], w, all);
    }
  }

  lemma PushHolds(m: Map, row: seq<nat>, all: seq<string>)
    requires Building(m) && m.width == |row| > 0 && m.height < |all|
    requires DigitRow(all[m.height]) == Ok(row)
    requires Holds(m, all, 0)
    ensures PushRow(m, row).Ok? && Building(PushRow(m, row).value)
    ensures Holds(PushRow(m, row).value, all, 0)
  {
    PushKeepsPlaced(m, row);
    var m' := PushRow(m, row).value;
    forall x: nat, y: nat | x < m'.width && y < m'.height && y < |all| && x < |all[y]|
      ensures (PosAt(m', Pos(x, y)); Some(m'.octopi[Idx(m', Pos(x, y))].energy) == DigitValue(all[y][x]))
    {
      PosAt(m', Pos(x, y));
      if y < m.height {
        PosAt(m, Pos(x, y));
        assert Idx(m', Pos(x, y)) == Idx(m, Pos(x, y));
      } else {
        assert Idx(m', Pos(x, y)) == |m.octopi| + x;
      }
    }
  }

  /** Lines of digits of one length read as a placed map at rest, of that
      width and as many rows as lines, each octopus charged with its
      digit. */
  lemma FromGrid(lines: seq<string>, w: nat)
    requires Grid(lines, w)
    ensures FromLines(lines).Ok?
    ensures var m := FromLines(lines).value;
      Building(m) && m.height == |lines| && (|lines| > 0 ==> m.width == w) && Holds(m, lines, 0)
  {
    var m0 := NewMap(0, 0);
    if |lines| > 0 {
      var row := DigitRow(lines[0]).value;
      PushKeepsPlaced(m0, row);
      var m1 := PushRow(m0, row).value;
      assert Holds(m0.(width := w), lines, 0);
      PushHolds(m0.(width := w), row, lines);
      assert m1 == PushRow(m0.(width := w), row).value;
      assert Grid(lines[1..], w);
      assert lines[m1.height..] == lines[1..];
      PushGrid(m1, lines[1..], w, lines);
    }
  }

  /** A line that is not all digits makes `from_str` fail. */
  lemma FromLinesBadDigit(lines: seq<string>, k: nat)
    requires k < |lines| && !AllDigits(lines[k])
    ensures !FromLines(lines).Ok?
  {
  }

  // ---------------------------------------------------------------------
  // Looking octopi up

  /** `octopus`: negative coordinates give `None`; any other pair is
      looked up at `x + y * width` without checking `x` against the
      width, and an index past the end panics. */
  function OctopusAt(m: Map, x: int, y: int): (r: Result<Option<Octopus>>)
    ensures !r.Err?
    ensures r == Ok(None) <==> x < 0 || y < 0
    ensures Placed(m) && InBounds(m, Pos(x, y)) ==> r.Ok? && r.value.Some? && r.value.value.pos == Pos(x, y)
  {
    if x < 0 || y < 0 then Ok(None)
    else
      var i := Idx(m, Pos(x, y));
      assert Placed(m) && InBounds(m, Pos(x, y)) ==> i < |m.octopi| && m.octopi[i].pos == Pos(x, y) by {
        if Placed(m) && InBounds(m, Pos(x, y)) {
          PosAt(m, Pos(x, y));
        }
      }
      if i < |m.octopi| then Ok(Some(m.octopi[i])) else Panic("index out of bounds")
  }

  /** `octopus` only rejects negative coordinates: one column past the
      right edge it wraps to the first octopus of the next row. */
  lemma OctopusWraps(m: Map, y: nat)
    requires Placed(m) && m.width > 0 && y + 1 < m.height
    ensures OctopusAt(m, m.width, y) == OctopusAt(m, 0, y + 1)
    ensures OctopusAt(m, m.width, y).value.value.pos == Pos(0, y + 1)
  {
    assert Idx(m, Pos(m.width, y)) == Idx(m, Pos(0, y + 1));
  }

  /** `octopus_mut`: the place of an in-bounds position, `None` for any
      other. */
  function OctopusMut(m: Map, x: int, y: int): (r: Option<nat>)
    ensures r.Some? <==> InBounds(m, Pos(x, y))
    ensures Placed(m) && r.Some? ==> r.value < |m.octopi| && m.octopi[r.value].pos == Pos(x, y)
  {
    if x < 0 || y < 0 || x >= m.width || y >= m.height then None
    else
      var i := Idx(m, Pos(x, y));
      if Placed(m) then PosAt(m, Pos(x, y)); Some(i) else Some(i)
  }

  // ---------------------------------------------------------------------
  // One step: update

  /** Two distinct positions among each other's eight neighbours. */
  predicate Adjacent(p: Pos, q: Pos)
  {
    p != q && -1 <= p.x - q.x <= 1 && -1 <= p.y - q.y <= 1
  }

  /** The `k`-th offset the step visits around a flash: `dy` from -1 to 1,
      and inside it `dx` from -1 to 1. */
  function Offset(k: nat): (d: Pos)
    requires k < 9
    ensures -1 <= d.x <= 1 && -1 <= d.y <= 1
  {
    Pos(k % 3 - 1, k / 3 - 1)
  }

  /** The visiting order of a neighbour offset. */
  function Rank(d: Pos): int
  {
    (d.y + 1) * 3 + (d.x + 1)
  }

  lemma RankOffset(f: Pos, p: Pos, k: nat)
    requires k < 9 && Adjacent(f, p) && Rank(Pos(p.x - f.x, p.y - f.y)) == k
    ensures p == Pos(f.x + Offset(k).x, f.y + Offset(k).y)
  {
  }

  /** The neighbour `p` of the flash at `f` has had its share once the
      offsets before `k` have been visited. */
  predicate Handled(f: Pos, k: nat, p: Pos)
  {
    Adjacent(f, p) && Rank(Pos(p.x - f.x, p.y - f.y)) < k
  }

  function CountTrue(s: seq<bool>): (c: nat)
    ensures c <= |s|
    ensures c == 0 <==> forall j :: 0 <= j < |s| ==> !s[j]
  {
    if |s| == 0 then 0 else (if s[|s| - 1] then 1 else 0) + CountTrue(s[..|s| - 1])
  }

  lemma {:induction false} CountTrueFlip(s: seq<bool>, i: nat)
    requires i < |s| && !s[i]
    ensures CountTrue(s[i := true]) == CountTrue(s) + 1
  {
    var t := s[i := true];
    if i < |s| - 1 {
      assert t[..|t| - 1] == s[..|s| - 1][i := true];
      CountTrueFlip(s[..|s| - 1], i);
    } else {
      assert t[..|t| - 1] == s[..|s| - 1];
    }
  }

  /** How many of the first `n` octopi are flagged in `flags` and next to
      `p`: the flashes that reached `p`. */
  function Received(os: seq<Octopus>, flags: seq<bool>, p: Pos, n: nat): (c: nat)
    requires n <= |os| && n <= |flags|
    ensures c <= n
  {
    if n == 0 then 0
    else Received(os, flags, p, n - 1) + (if flags[n - 1] && Adjacent(os[n - 1].pos, p) then 1 else 0)
  }

  lemma {:induction false} ReceivedFlip(os: seq<Octopus>, flags: seq<bool>, p: Pos, n: nat, i: nat)
    requires n <= |os| && n <= |flags| && i < |flags| && !flags[i]
    ensures Received(os, flags[i := true], p, n)
      == Received(os, flags, p, n) + (if i < n && Adjacent(os[i].pos, p) then 1 else 0)
  {
    if n > 0 {
      ReceivedFlip(os, flags, p, n - 1, i);
    }
  }

  lemma {:induction false} ReceivedNone(os: seq<Octopus>, flags: seq<bool>, p: Pos, n: nat)
    requires n <= |os| && n <= |flags|
    requires forall j :: 0 <= j < n ==> !flags[j]
    ensures Received(os, flags, p, n) == 0
  {
    if n > 0 {
      ReceivedNone(os, flags, p, n - 1);
    }
  }

  /** Which octopi are at energy 0. */
  function Zeros(os: seq<Octopus>): (z: seq<bool>)
    ensures |z| == |os| && forall j :: 0 <= j < |os| ==> (z[j] <==> os[j].energy == 0)
  {
    seq(|os|, j requires 0 <= j < |os| => os[j].energy == 0)
  }

  /** What octopus `j` has taken in so far: its energy before the step,
      one for the step, one for each fully handled flash next to it, and
      one if the flash in hand has reached it already. */
  function Got(m: Map, proc: seq<bool>, f: Pos, k: nat, j: nat): nat
    requires |proc| == |m.octopi| && j < |m.octopi|
  {
    var p := m.octopi[j].pos;
    m.octopi[j].energy + 1 + Received(m.octopi, proc, p, |m.octopi|) + (if Handled(f, k, p) then 1 else 0)
  }

  /** Octopus `j` has flashed, at energy 0, with more than the threshold
      taken in; or it holds exactly what it took in, at most the
      threshold. */
  predicate ChargeOk(m: Map, os: seq<Octopus>, proc: seq<bool>, f: Pos, k: nat, j: nat)
    requires |proc| == |m.octopi| && j < |m.octopi| && j < |os|
  {
    if os[j].flashed then os[j].energy == 0 && Got(m, proc, f, k, j) > EnergyThreshold
    else os[j].energy == Got(m, proc, f, k, j) && Got(m, proc, f, k, j) <= EnergyThreshold
  }

  predicate Charged(m: Map, os: seq<Octopus>, proc: seq<bool>, f: Pos, k: nat, upto: nat)
    requires |proc| == |m.octopi| && |os| == |m.octopi| && upto <= |os|
  {
    forall j :: 0 <= j < upto ==> ChargeOk(m, os, proc, f, k, j)
  }

  /** The octopi keep their positions. */
  predicate Shape(m: Map, os: seq<Octopus>)
  {
    |os| == |m.octopi| && forall j :: 0 <= j < |os| ==> os[j].pos == m.octopi[j].pos
  }

  /** The bookkeeping of flashes: the pending ones on `stack` appear once
      each, are flagged and not yet handled, as is the one in hand `cur`;
      an octopus is flagged exactly when its flash is handled, pending or
      in hand. */
  predicate Tracked(m: Map, os: seq<Octopus>, proc: seq<bool>, stack: seq<Pos>, cur: Option<Pos>)
    requires Placed(m) && |os| == |m.octopi| && |proc| == |m.octopi|
  {
    && NoRepeats(stack)
    && (forall q :: q in stack ==>
          InBounds(m, q) && cur != Some(q) && (IdxInRange(m, q); os[Idx(m, q)].flashed && !proc[Idx(m, q)]))
    && (cur.Some? ==>
          InBounds(m, cur.value) && (IdxInRange(m, cur.value); os[Idx(m, cur.value)].flashed && !proc[Idx(m, cur.value)]))
    && (forall j :: 0 <= j < |os| ==>
          (os[j].flashed <==> proc[j] || m.octopi[j].pos in stack || cur == Some(m.octopi[j].pos)))
  }

  /** `maybe_flash` after one more energy on the unflagged octopus `i`
      keeps the bookkeeping, with its position pushed if it flashed. */
  lemma TouchTracked(m: Map, os: seq<Octopus>, proc: seq<bool>, stack: seq<Pos>, cur: Option<Pos>, i: nat)
    requires Placed(m) && Shape(m, os) && |proc| == |m.octopi| && i < |os|
    requires Tracked(m, os, proc, stack, cur) && !os[i].flashed
    ensures var (o, fl) := MaybeFlash(IncreaseEnergy(os[i], 1));
      Tracked(m, os[i := o], proc, if fl then stack + [o.pos] else stack, cur)
  {
    var (o, fl) := MaybeFlash(IncreaseEnergy(os[i], 1));
    var os2 := os[i := o];
    var stack2 := if fl then stack + [o.pos] else stack;
    var q := m.octopi[i].pos;
    assert o.pos == q && Idx(m, q) == i && InBounds(m, q);
    assert !proc[i];
    forall s | s in stack
      ensures Idx(m, s) != i
    {
      IdxInRange(m, s);
    }
    if cur.Some? {
      IdxInRange(m, cur.value);
      assert Idx(m, cur.value) != i;
    }
    if fl {
      assert q !in stack;
      assert cur != Some(q);
      forall a, b | 0 <= a < b < |stack2|
        ensures stack2[a] != stack2[b]
      {
        if b == |stack| {
          assert stack2[a] in stack;
        }
      }
    }
    forall j | 0 <= j < |os2|
      ensures os2[j].flashed <==> proc[j] || m.octopi[j].pos in stack2 || cur == Some(m.octopi[j].pos)
    {
      if j != i && m.octopi[j].pos == q {
        assert false;
      }
    }
    assert NoRepeats(stack2);
    forall s | s in stack2
      ensures InBounds(m, s) && cur != Some(s) && (IdxInRange(m, s); os2[Idx(m, s)].flashed && !proc[Idx(m, s)])
    {
      IdxInRange(m, s);
    }
    assert cur.Some? ==>
      InBounds(m, cur.value) && (IdxInRange(m, cur.value); os2[Idx(m, cur.value)].flashed && !proc[Idx(m, cur.value)]);
  }

  /** The update of one neighbour `q` of a flash (`update`, the body of
      the two inner loops): `octopus_mut` finds it, a flagged one is
      skipped, any other gains one energy and may flash. Returns the
      octopi and, if it flashed, its position to push. */
  function Poke(m: Map, os: seq<Octopus>, q: Pos): (r: (seq<Octopus>, Option<Pos>))
    requires Placed(m) && |os| == |m.octopi|
    ensures |r.0| == |os|
  {
    match OctopusMut(m, q.x, q.y)
    case None => (os, None)
    case Some(i) =>
      if os[i].flashed then (os, None)
      else
        var (o, fl) := MaybeFlash(IncreaseEnergy(os[i], 1));
        (os[i := o], if fl then Some(o.pos) else None)
  }

  /** Offset `k` around the flash at `f`: the centre is skipped, any
      other position is poked. */
  function Visit(m: Map, os: seq<Octopus>, f: Pos, k: nat): (r: (seq<Octopus>, Option<Pos>))
    requires Placed(m) && |os| == |m.octopi| && k < 9
    ensures |r.0| == |os|
  {
    var d := Offset(k);
    if d == Pos(0, 0) then (os, None) else Poke(m, os, Pos(f.x + d.x, f.y + d.y))
  }

  /** Visiting offset `k` around the flash in hand keeps the bookkeeping
      and hands the flash to one more neighbour. */
  lemma PokeStep(m: Map, os: seq<Octopus>, proc: seq<bool>, stack: seq<Pos>, f: Pos, k: nat)
    requires Placed(m) && Shape(m, os) && |proc| == |m.octopi| && k < 9
    requires Tracked(m, os, proc, stack, Some(f)) && Charged(m, os, proc, f, k, |os|)
    ensures var v := Visit(m, os, f, k);
      && Shape(m, v.0)
      && Tracked(m, v.0, proc, if v.1.Some? then stack + [v.1.value] else stack, Some(f))
      && Charged(m, v.0, proc, f, k + 1, |os|)
  {
    var d := Offset(k);
    var q := Pos(f.x + d.x, f.y + d.y);
    ShareOthers(m, proc, f, k);
    if d != Pos(0, 0) && InBounds(m, q) {
      PokeHit(m, os, proc, stack, f, k);
    } else {
      var k1 := k + 1;
      forall j | 0 <= j < |os|
        ensures ChargeOk(m, os, proc, f, k1, j)
      {
        assert ChargeOk(m, os, proc, f, k, j);
      }
    }
  }

  /** Offset `k` changes the share of no octopus but the one at that
      offset. */
  lemma ShareOthers(m: Map, proc: seq<bool>, f: Pos, k: nat)
    requires Placed(m) && |proc| == |m.octopi| && k < 9
    ensures var q := Pos(f.x + Offset(k).x, f.y + Offset(k).y);
      forall j :: 0 <= j < |m.octopi| && (m.octopi[j].pos != q || q == f) ==>
        Got(m, proc, f, k + 1, j) == Got(m, proc, f, k, j)
  {
    var q := Pos(f.x + Offset(k).x, f.y + Offset(k).y);
    forall j | 0 <= j < |m.octopi| && (m.octopi[j].pos != q || q == f)
      ensures Got(m, proc, f, k + 1, j) == Got(m, proc, f, k, j)
    {
      var p := m.octopi[j].pos;
      if Handled(f, k + 1, p) && !Handled(f, k, p) {
        RankOffset(f, p, k);
      }
    }
  }

  /** Offset `k` lands on the grid: the octopus there gets its share. */
  lemma PokeHit(m: Map, os: seq<Octopus>, proc: seq<bool>, stack: seq<Pos>, f: Pos, k: nat)
    requires Placed(m) && Shape(m, os) && |proc| == |m.octopi| && k < 9
    requires Tracked(m, os, proc, stack, Some(f)) && Charged(m, os, proc, f, k, |os|)
    requires Offset(k) != Pos(0, 0) && InBounds(m, Pos(f.x + Offset(k).x, f.y + Offset(k).y))
    requires var q := Pos(f.x + Offset(k).x, f.y + Offset(k).y);
      forall j :: 0 <= j < |m.octopi| && (m.octopi[j].pos != q || q == f) ==>
        Got(m, proc, f, k + 1, j) == Got(m, proc, f, k, j)
    ensures var (os2, pushed) := Poke(m, os, Pos(f.x + Offset(k).x, f.y + Offset(k).y));
      && Shape(m, os2)
      && Tracked(m, os2, proc, if pushed.Some? then stack + [pushed.value] else stack, Some(f))
      && Charged(m, os2, proc, f, k + 1, |os|)
  {
    var q := Pos(f.x + Offset(k).x, f.y + Offset(k).y);
    PosAt(m, q);
    var i := Idx(m, q);
    var p := m.octopi[i].pos;
    assert p == q && q != f;
    assert Rank(Pos(p.x - f.x, p.y - f.y)) == k;
    forall j | 0 <= j < |os| && j != i
      ensures Got(m, proc, f, k + 1, j) == Got(m, proc, f, k, j)
    {
      assert Idx(m, m.octopi[j].pos) == j;
    }
    if !os[i].flashed {
      TouchTracked(m, os, proc, stack, Some(f), i);
    }
    ChargeHit(m, os, Poke(m, os, q).0, proc, f, k, i);
  }

  /** The share of offset `k` goes to octopus `i` alone: a flagged one
      stays at 0, any other gains one energy and may flash. */
  lemma ChargeHit(m: Map, os: seq<Octopus>, os2: seq<Octopus>, proc: seq<bool>, f: Pos, k: nat, i: nat)
    requires |proc| == |m.octopi| && |os| == |m.octopi| && |os2| == |os| && i < |os|
    requires Charged(m, os, proc, f, k, |os|)
    requires forall j :: 0 <= j < |os| && j != i ==> os2[j] == os[j] && Got(m, proc, f, k + 1, j) == Got(m, proc, f, k, j)
    requires Got(m, proc, f, k + 1, i) == Got(m, proc, f, k, i) + 1
    requires os2[i] == if os[i].flashed then os[i] else MaybeFlash(IncreaseEnergy(os[i], 1)).0
    ensures Charged(m, os2, proc, f, k + 1, |os|)
  {
    var k1 := k + 1;
    forall j | 0 <= j < |os|
      ensures ChargeOk(m, os2, proc, f, k1, j)
    {
      assert ChargeOk(m, os, proc, f, k, j);
    }
  }

  /** Taking the last pending flash in hand. */
  lemma PopFlash(m: Map, os: seq<Octopus>, proc: seq<bool>, stack: seq<Pos>, g: Pos)
    requires Placed(m) && Shape(m, os) && |proc| == |m.octopi| && |stack| > 0
    requires Tracked(m, os, proc, stack, None) && Charged(m, os, proc, g, 0, |os|)
    ensures var f := stack[|stack| - 1];
      Tracked(m, os, proc, stack[..|stack| - 1], Some(f)) && Charged(m, os, proc, f, 0, |os|)
  {
    var f := stack[|stack| - 1];
    var rest := stack[..|stack| - 1];
    assert stack == rest + [f];
    assert f !in rest;
    forall j | 0 <= j < |os|
      ensures ChargeOk(m, os, proc, f, 0, j)
    {
      assert ChargeOk(m, os, proc, g, 0, j);
    }
  }

  /** All nine offsets visited: the flash in hand is handled. */
  lemma FlashDone(m: Map, os: seq<Octopus>, proc: seq<bool>, stack: seq<Pos>, f: Pos)
    requires Placed(m) && Shape(m, os) && |proc| == |m.octopi|
    requires Tracked(m, os, proc, stack, Some(f)) && Charged(m, os, proc, f, 9, |os|)
    ensures InBounds(m, f) && Idx(m, f) < |proc| && !proc[Idx(m, f)]
    ensures var proc2 := proc[Idx(m, f) := true];
      && Tracked(m, os, proc2, stack, None) && Charged(m, os, proc2, f, 0, |os|)
      && CountTrue(proc2) == CountTrue(proc) + 1
  {
    PosAt(m, f);
    var i := Idx(m, f);
    var proc2 := proc[i := true];
    CountTrueFlip(proc, i);
    forall j | 0 <= j < |os|
      ensures ChargeOk(m, os, proc2, f, 0, j)
    {
      var p := m.octopi[j].pos;
      ReceivedFlip(m.octopi, proc, p, |m.octopi|, i);
      assert Got(m, proc2, f, 0, j) == Got(m, proc, f, 9, j);
      assert ChargeOk(m, os, proc, f, 9, j);
    }
    forall q | q in stack
      ensures Idx(m, q) != i
    {
      if Idx(m, q) == i {
        IdxInjective(m, q, f);
      }
    }
    forall j | 0 <= j < |os|
      ensures os[j].flashed <==> proc2[j] || m.octopi[j].pos in stack
    {
      if j == i {
        assert m.octopi[j].pos == f;
      } else if m.octopi[j].pos == f {
        assert false;
      }
    }
    forall q | q in stack
      ensures InBounds(m, q) && (IdxInRange(m, q); os[Idx(m, q)].flashed && !proc2[Idx(m, q)])
    {
      IdxInRange(m, q);
    }
    assert Tracked(m, os, proc2, stack, None);
  }

  /** One more octopus of the first pass: one more energy, and a flash if
      that takes it over the threshold. */
  lemma RaiseStep(m: Map, os: seq<Octopus>, proc: seq<bool>, stack: seq<Pos>, order: seq<nat>, i: nat)
    requires Placed(m) && Resting(m) && i < |m.octopi|
    requires Rising(m, os, proc, stack, order, i)
    ensures var (o, fl) := MaybeFlash(IncreaseEnergy(os[i], 1));
      Rising(m, os[i := o], proc, if fl then stack + [o.pos] else stack, if fl then order + [i] else order, i + 1)
  {
    RaiseCharge(m, os, proc, stack, i);
    RaiseRecorded(m, os, order, i);
    var (o, fl) := MaybeFlash(IncreaseEnergy(os[i], 1));
    var os2 := os[i := o];
    assert Shape(m, os2);
    assert forall j :: i + 1 <= j < |os2| ==> os2[j] == m.octopi[j];
    assert Calm(m) ==> !fl;
  }

  /** The first pass's bookkeeping after one more octopus: its flash, if
      any, is pending, and it holds what it took in. */
  lemma RaiseCharge(m: Map, os: seq<Octopus>, proc: seq<bool>, stack: seq<Pos>, i: nat)
    requires Placed(m) && Shape(m, os) && |proc| == |m.octopi| && i < |os|
    requires forall j :: 0 <= j < |proc| ==> !proc[j]
    requires Tracked(m, os, proc, stack, None) && Charged(m, os, proc, Pos(0, 0), 0, i)
    requires os[i] == m.octopi[i] && !os[i].flashed
    ensures var (o, fl) := MaybeFlash(IncreaseEnergy(os[i], 1));
      && Tracked(m, os[i := o], proc, if fl then stack + [o.pos] else stack, None)
      && Charged(m, os[i := o], proc, Pos(0, 0), 0, i + 1)
  {
    TouchTracked(m, os, proc, stack, None, i);
    var (o, fl) := MaybeFlash(IncreaseEnergy(os[i], 1));
    ReceivedNone(m.octopi, proc, m.octopi[i].pos, |m.octopi|);
    assert Got(m, proc, Pos(0, 0), 0, i) == os[i].energy + 1;
    var os2 := os[i := o];
    var g := Pos(0, 0);
    forall j | 0 <= j < i + 1
      ensures ChargeOk(m, os2, proc, g, 0, j)
    {
      if j < i {
        assert ChargeOk(m, os, proc, Pos(0, 0), 0, j);
      }
    }
  }

  /** Every octopus was strictly below the threshold: no flash is
      possible in this step. */
  predicate Calm(m: Map)
  {
    forall j :: 0 <= j < |m.octopi| ==> m.octopi[j].energy < EnergyThreshold
  }

  /** Octopus `j` after a step: at energy 0 when it flashed, which it did
      only with more than the threshold taken in; otherwise holding
      exactly its old energy, one for the step and one per flashing
      neighbour, and no more than the threshold. */
  predicate Settled(m: Map, r: Map, j: nat)
    requires j < |m.octopi| && |r.octopi| == |m.octopi|
  {
    var got := m.octopi[j].energy + 1 + Received(m.octopi, Zeros(r.octopi), m.octopi[j].pos, |m.octopi|);
    if r.octopi[j].energy == 0 then got > EnergyThreshold
    else r.octopi[j].energy == got && got <= EnergyThreshold
  }

  /** What one step promises: the grid and positions are kept, no flag is
      left set, the count is the number of octopi that flashed (those at
      energy 0), and each octopus is settled. */
  predicate Stepped(m: Map, r: Map, count: nat)
  {
    && r.width == m.width && r.height == m.height && |r.octopi| == |m.octopi|
    && (forall j :: 0 <= j < |r.octopi| ==> r.octopi[j].pos == m.octopi[j].pos && !r.octopi[j].flashed)
    && count == CountTrue(Zeros(r.octopi))
    && forall j :: 0 <= j < |m.octopi| ==> Settled(m, r, j)
  }

  // ---------------------------------------------------------------------
  // The flashes of a step happen one after another, each caused by the
  // ones before it

  /** The flags of the octopi named in `order`, among the first `n`. */
  function FlagsOf(n: nat, order: seq<nat>): (z: seq<bool>)
    ensures |z| == n && forall j :: 0 <= j < n ==> (z[j] <==> j in order)
  {
    seq(n, j requires 0 <= j < n => j in order)
  }

  /** `order` lists flashes as they happen, each one caused: the octopus
      took in more than the threshold from its energy before the step,
      the step itself and the flashes next to it earlier in the list. */
  predicate Caused(m: Map, order: seq<nat>)
  {
    forall t :: 0 <= t < |order| ==>
      && order[t] < |m.octopi|
      && m.octopi[order[t]].energy + 1
         + Received(m.octopi, FlagsOf(|m.octopi|, order[..t]), m.octopi[order[t]].pos, |m.octopi|)
         > EnergyThreshold
  }

  /** The octopi at energy 0 after the step are those of a caused list:
      no flash happened without a cause. */
  ghost predicate Derived(m: Map, r: Map)
  {
    |r.octopi| == |m.octopi| && exists order :: Caused(m, order) && Zeros(r.octopi) == FlagsOf(|m.octopi|, order)
  }

  /** More flags, no fewer flashes received. */
  lemma {:induction false} ReceivedMono(os: seq<Octopus>, a: seq<bool>, b: seq<bool>, p: Pos, n: nat)
    requires n <= |os| && n <= |a| && n <= |b|
    requires forall j :: 0 <= j < n && a[j] ==> b[j]
    ensures Received(os, a, p, n) <= Received(os, b, p, n)
  {
    if n > 0 {
      ReceivedMono(os, a, b, p, n - 1);
    }
  }

  /** Every caused flash happens in every outcome `Stepped` allows: the
      flashes before it in the list have happened, so it takes in at least
      as much as the list gives it, which is over the threshold. */
  lemma {:induction false} CausedFlashes(m: Map, r: Map, count: nat, order: seq<nat>, t: nat)
    requires Stepped(m, r, count) && Caused(m, order) && t <= |order|
    ensures forall s :: 0 <= s < t ==> r.octopi[order[s]].energy == 0
  {
    if t > 0 {
      CausedFlashes(m, r, count, order, t - 1);
      var n := |m.octopi|;
      var i := order[t - 1];
      var before := FlagsOf(n, order[..t - 1]);
      var z := Zeros(r.octopi);
      forall j | 0 <= j < n && before[j]
        ensures z[j]
      {
        var s :| 0 <= s < t - 1 && order[..t - 1][s] == j;
        assert order[s] == j;
      }
      ReceivedMono(m.octopi, before, z, m.octopi[i].pos, n);
      assert Settled(m, r, i);
    }
  }

  /** `Stepped` with caused flashes fixes the outcome of a step: each
      one's flashes include the other's, so they are the same, and the
      energies and the count follow from them. */
  lemma StepUnique(m: Map, r1: Map, c1: nat, r2: Map, c2: nat)
    requires Stepped(m, r1, c1) && Derived(m, r1)
    requires Stepped(m, r2, c2) && Derived(m, r2)
    ensures r1 == r2 && c1 == c2
  {
    var n := |m.octopi|;
    var o1 :| Caused(m, o1) && Zeros(r1.octopi) == FlagsOf(n, o1);
    var o2 :| Caused(m, o2) && Zeros(r2.octopi) == FlagsOf(n, o2);
    CausedFlashes(m, r2, c2, o1, |o1|);
    CausedFlashes(m, r1, c1, o2, |o2|);
    forall j | 0 <= j < n
      ensures Zeros(r1.octopi)[j] == Zeros(r2.octopi)[j]
    {
      if Zeros(r1.octopi)[j] {
        var s :| 0 <= s < |o1| && o1[s] == j;
      }
      if Zeros(r2.octopi)[j] {
        var s :| 0 <= s < |o2| && o2[s] == j;
      }
    }
    assert Zeros(r1.octopi) == Zeros(r2.octopi);
    forall j | 0 <= j < n
      ensures r1.octopi[j] == r2.octopi[j]
    {
      assert Settled(m, r1, j) && Settled(m, r2, j);
    }
    assert r1.octopi == r2.octopi;
  }

  /** After the last pending flash the flags are exactly the handled
      flashes, which are exactly the octopi at energy 0. */
  lemma Drained(m: Map, os: seq<Octopus>, proc: seq<bool>, g: Pos)
    requires Placed(m) && Shape(m, os) && |proc| == |m.octopi|
    requires Tracked(m, os, proc, [], None) && Charged(m, os, proc, g, 0, |os|)
    ensures proc == Zeros(os)
    ensures forall j :: 0 <= j < |os| ==> (os[j].flashed <==> proc[j])
  {
    forall j | 0 <= j < |os|
      ensures proc[j] == Zeros(os)[j]
    {
      assert ChargeOk(m, os, proc, g, 0, j);
    }
  }

  /** Clearing the flags settles every octopus. */
  lemma Reset(m: Map, os: seq<Octopus>, proc: seq<bool>, g: Pos, r: Map)
    requires Placed(m) && Shape(m, os) && |proc| == |m.octopi|
    requires Tracked(m, os, proc, [], None) && Charged(m, os, proc, g, 0, |os|)
    requires r.width == m.width && r.height == m.height && |r.octopi| == |os|
    requires forall j :: 0 <= j < |os| ==>
      !r.octopi[j].flashed && r.octopi[j].energy == os[j].energy && r.octopi[j].pos == os[j].pos
    ensures Zeros(r.octopi) == proc
    ensures forall j :: 0 <= j < |m.octopi| ==> Settled(m, r, j)
  {
    Drained(m, os, proc, g);
    assert Zeros(r.octopi) == Zeros(os);
    forall j | 0 <= j < |m.octopi|
      ensures Settled(m, r, j)
    {
      assert ChargeOk(m, os, proc, g, 0, j);
    }
  }

  /** A share of no flash in hand is the same whichever flash is named. */
  lemma Rehome(m: Map, os: seq<Octopus>, proc: seq<bool>, f: Pos, g: Pos)
    requires |proc| == |m.octopi| && |os| == |m.octopi|
    requires Charged(m, os, proc, f, 0, |os|)
    ensures Charged(m, os, proc, g, 0, |os|)
  {
    forall j | 0 <= j < |os|
      ensures ChargeOk(m, os, proc, g, 0, j)
    {
      assert ChargeOk(m, os, proc, f, 0, j);
    }
  }

  /** The flags set so far are exactly those of `order`, a caused list. */
  predicate Recorded(m: Map, os: seq<Octopus>, order: seq<nat>)
    requires |os| == |m.octopi|
  {
    Caused(m, order) && forall j :: 0 <= j < |os| ==> (os[j].flashed <==> j in order)
  }

  /** An octopus taken over the threshold by the flashes listed so far may
      be listed after them. */
  lemma CausedPush(m: Map, order: seq<nat>, i: nat)
    requires Caused(m, order) && i < |m.octopi|
    requires m.octopi[i].energy + 1
      + Received(m.octopi, FlagsOf(|m.octopi|, order), m.octopi[i].pos, |m.octopi|) > EnergyThreshold
    ensures Caused(m, order + [i])
  {
    var o2 := order + [i];
    assert forall t :: 0 <= t < |order| ==> o2[..t] == order[..t];
    assert o2[..|order|] == order;
  }

  /** What octopus `j` has taken in so far is at most what the flashes
      listed so far can give it: the handled ones and the one in hand are
      all listed. */
  lemma GotBound(m: Map, os: seq<Octopus>, proc: seq<bool>, stack: seq<Pos>, f: Pos, order: seq<nat>, k: nat, j: nat)
    requires Placed(m) && Shape(m, os) && |proc| == |m.octopi| && j < |m.octopi|
    requires Tracked(m, os, proc, stack, Some(f)) && Recorded(m, os, order)
    ensures Got(m, proc, f, k, j)
      <= m.octopi[j].energy + 1 + Received(m.octopi, FlagsOf(|m.octopi|, order), m.octopi[j].pos, |m.octopi|)
  {
    var n := |m.octopi|;
    var p := m.octopi[j].pos;
    var all := FlagsOf(n, order);
    if Handled(f, k, p) {
      PosAt(m, f);
      var i := Idx(m, f);
      ReceivedFlip(m.octopi, proc, p, n, i);
      ReceivedMono(m.octopi, proc[i := true], all, p, n);
    } else {
      ReceivedMono(m.octopi, proc, all, p, n);
    }
  }

  /** Visiting offset `k` lists the octopus it takes over the threshold,
      if any, after the flashes that caused it. */
  lemma VisitRecorded(m: Map, os: seq<Octopus>, proc: seq<bool>, stack: seq<Pos>, f: Pos, k: nat, order: seq<nat>)
    requires Placed(m) && Shape(m, os) && |proc| == |m.octopi| && k < 9
    requires Tracked(m, os, proc, stack, Some(f)) && Charged(m, os, proc, f, k, |os|)
    requires Recorded(m, os, order)
    ensures var v := Visit(m, os, f, k);
      && (v.1.Some? ==> InBounds(m, v.1.value))
      && Recorded(m, v.0, if v.1.Some? then order + [Idx(m, v.1.value)] else order)
  {
    var d := Offset(k);
    var q := Pos(f.x + d.x, f.y + d.y);
    if d != Pos(0, 0) && InBounds(m, q) {
      PosAt(m, q);
      var i := Idx(m, q);
      if !os[i].flashed {
        PokeCaused(m, os, proc, stack, f, k, order, i);
      }
    }
  }

  /** The octopus at offset `k`, not yet flashed, is listed when the
      flash in hand takes it over the threshold. */
  lemma PokeCaused(m: Map, os: seq<Octopus>, proc: seq<bool>, stack: seq<Pos>, f: Pos, k: nat, order: seq<nat>, i: nat)
    requires Placed(m) && Shape(m, os) && |proc| == |m.octopi| && k < 9
    requires Tracked(m, os, proc, stack, Some(f)) && Charged(m, os, proc, f, k, |os|)
    requires Recorded(m, os, order)
    requires Offset(k) != Pos(0, 0) && i < |os| && m.octopi[i].pos == Pos(f.x + Offset(k).x, f.y + Offset(k).y)
    requires !os[i].flashed
    ensures var (o, fl) := MaybeFlash(IncreaseEnergy(os[i], 1));
      Recorded(m, os[i := o], if fl then order + [i] else order)
  {
    var q := m.octopi[i].pos;
    assert Rank(Pos(q.x - f.x, q.y - f.y)) == k;
    assert Handled(f, k + 1, q) && !Handled(f, k, q);
    assert ChargeOk(m, os, proc, f, k, i);
    GotBound(m, os, proc, stack, f, order, k + 1, i);
    var (o, fl) := MaybeFlash(IncreaseEnergy(os[i], 1));
    if fl {
      CausedPush(m, order, i);
    }
  }

  /** The first pass lists the octopus it takes over the threshold, if
      any: nothing else has reached it yet. */
  lemma RaiseRecorded(m: Map, os: seq<Octopus>, order: seq<nat>, i: nat)
    requires Shape(m, os) && i < |os| && os[i] == m.octopi[i]
    requires Recorded(m, os, order)
    ensures var (o, fl) := MaybeFlash(IncreaseEnergy(os[i], 1));
      Recorded(m, os[i := o], if fl then order + [i] else order)
  {
    var (o, fl) := MaybeFlash(IncreaseEnergy(os[i], 1));
    if fl {
      CausedPush(m, order, i);
    }
  }

  /** The state of the first pass after `i` octopi: the rest are as they
      were, nothing is handled yet, and the flashes so far are tracked,
      charged and listed. */
  predicate Rising(m: Map, os: seq<Octopus>, proc: seq<bool>, stack: seq<Pos>, order: seq<nat>, i: nat)
    requires Placed(m)
  {
    && i <= |m.octopi| && Shape(m, os) && |proc| == |m.octopi|
    && (forall j :: 0 <= j < |proc| ==> !proc[j])
    && (forall j :: i <= j < |os| ==> os[j] == m.octopi[j])
    && Tracked(m, os, proc, stack, None) && Charged(m, os, proc, Pos(0, 0), 0, i)
    && Recorded(m, os, order)
    && (Calm(m) ==> stack == [])
  }

  /** The first pass of `update`: each octopus in turn gains one energy
      and may flash, its position pushed when it does. */
  method Raise(m: Map) returns (os: seq<Octopus>, stack: seq<Pos>, ghost order: seq<nat>)
    requires Placed(m) && Resting(m)
    ensures Shape(m, os) && Recorded(m, os, order)
    ensures Tracked(m, os, seq(|m.octopi|, _ => false), stack, None)
    ensures Charged(m, os, seq(|m.octopi|, _ => false), Pos(0, 0), 0, |os|)
    ensures Calm(m) ==> stack == []
  {
    var n := |m.octopi|;
    os := m.octopi;
    stack := [];
    ghost var proc := seq(n, _ => false);
    order := [];
    var i: nat := 0;
    while i < n
      invariant Rising(m, os, proc, stack, order, i)
    {
      RaiseStep(m, os, proc, stack, order, i);
      var (o, fl) := MaybeFlash(IncreaseEnergy(os[i], 1));
      os, stack := os[i := o], if fl then stack + [o.pos] else stack;
      order := if fl then order + [i] else order;
      i := i + 1;
    }
  }

  /** The second pass of `update`: while a flash is pending, the last one
      is taken and each of its eight neighbours on the grid that has not
      flashed gains one energy and may flash in turn. The two inner loops
      over `dy` and `dx` are one loop over the nine offsets in the same
      order. `proc` and `proc'` are the handled flashes before and
      after, `order` and `order'` the flashes in the order they happen. */
  method Propagate(m: Map, os: seq<Octopus>, stack: seq<Pos>, count: nat, ghost proc: seq<bool>, ghost order: seq<nat>)
    returns (os': seq<Octopus>, count': nat, ghost proc': seq<bool>, ghost order': seq<nat>)
    requires Placed(m) && Shape(m, os) && |proc| == |m.octopi|
    requires Tracked(m, os, proc, stack, None) && Charged(m, os, proc, Pos(0, 0), 0, |os|)
    requires Recorded(m, os, order)
    requires count == |stack| + CountTrue(proc)
    ensures Shape(m, os') && |proc'| == |m.octopi| && Recorded(m, os', order')
    ensures Tracked(m, os', proc', [], None) && Charged(m, os', proc', Pos(0, 0), 0, |os'|)
    ensures count' == CountTrue(proc')
    ensures stack == [] ==> proc' == proc
  {
    var n := |m.octopi|;
    os', count', proc', order' := os, count, proc, order;
    var pending := stack;
    while |pending| > 0
      invariant Shape(m, os') && |proc'| == n && Recorded(m, os', order')
      invariant Tracked(m, os', proc', pending, None) && Charged(m, os', proc', Pos(0, 0), 0, n)
      invariant count' == |pending| + CountTrue(proc')
      invariant stack == [] ==> pending == [] && proc' == proc
      decreases n - CountTrue(proc')
    {
      PopFlash(m, os', proc', pending, Pos(0, 0));
      var f := pending[|pending| - 1];
      pending := pending[..|pending| - 1];
      var k := 0;
      while k < 9
        invariant k <= 9 && Shape(m, os') && Recorded(m, os', order')
        invariant Tracked(m, os', proc', pending, Some(f)) && Charged(m, os', proc', f, k, n)
        invariant count' == |pending| + CountTrue(proc') + 1
      {
        PokeStep(m, os', proc', pending, f, k);
        VisitRecorded(m, os', proc', pending, f, k, order');
        var v := Visit(m, os', f, k);
        os' := v.0;
        if v.1.Some? {
          pending := pending + [v.1.value];
          order' := order' + [Idx(m, v.1.value)];
          count' := count' + 1;
        }
        k := k + 1;
      }
      FlashDone(m, os', proc', pending, f);
      proc' := proc'[Idx(m, f) := true];
      Rehome(m, os', proc', f, Pos(0, 0));
    }
  }

  /** The last pass of `update`: every flag is cleared. */
  method ResetAll(os: seq<Octopus>) returns (reset: seq<Octopus>)
    ensures |reset| == |os|
    ensures forall j :: 0 <= j < |os| ==> !reset[j].flashed && reset[j].energy == os[j].energy && reset[j].pos == os[j].pos
  {
    reset := os;
    var i := 0;
    while i < |os|
      invariant i <= |os| && |reset| == |os|
      invariant forall j :: 0 <= j < i ==> reset[j] == ResetFlashStatus(os[j])
      invariant forall j :: i <= j < |os| ==> reset[j] == os[j]
    {
      reset := reset[i := ResetFlashStatus(reset[i])];
      i := i + 1;
    }
  }

  /** `update`: the two passes, then all flags are cleared. Returns the
      new map and the number of flashes. */
  method Update(m: Map) returns (r: Map, count: nat)
    requires Placed(m) && Resting(m)
    ensures Stepped(m, r, count) && Derived(m, r)
    ensures Placed(r) && Resting(r)
    ensures count <= m.width * m.height
    ensures Calm(m) ==> count == 0 && forall j :: 0 <= j < |m.octopi| ==> r.octopi[j].energy == m.octopi[j].energy + 1
  {
    var n := |m.octopi|;
    ghost var none := seq(n, _ => false);
    ghost var order;
    var os, stack;
    os, stack, order := Raise(m);
    assert CountTrue(none) == 0;
    ghost var proc;
    os, count, proc, order := Propagate(m, os, stack, |stack|, none, order);
    var reset := ResetAll(os);
    r := Map(m.width, m.height, reset);
    Reset(m, os, proc, Pos(0, 0), r);
    Drained(m, os, proc, Pos(0, 0));
    assert Zeros(r.octopi) == FlagsOf(n, order);
    MulIsProduct(m.height, m.width);
    if Calm(m) {
      CalmStep(m, r, proc);
    }
  }

  /** With no flash handled every octopus is one energy up. */
  lemma CalmStep(m: Map, r: Map, proc: seq<bool>)
    requires |r.octopi| == |m.octopi| == |proc| && Zeros(r.octopi) == proc
    requires forall j :: 0 <= j < |m.octopi| ==> !proc[j] && Settled(m, r, j)
    ensures forall j :: 0 <= j < |m.octopi| ==> r.octopi[j].energy == m.octopi[j].energy + 1
  {
    forall j | 0 <= j < |m.octopi|
      ensures r.octopi[j].energy == m.octopi[j].energy + 1
    {
      ReceivedNone(m.octopi, proc, m.octopi[j].pos, |m.octopi|);
      assert Settled(m, r, j);
    }
  }

  // ---------------------------------------------------------------------
  // The unit tests of the step, as consequences of `Stepped`

  /** Flags set only at `c`: the flashes that reached `p` are the one at
      `c`, if it is next to `p`. */
  lemma ReceivedOne(os: seq<Octopus>, flags: seq<bool>, p: Pos, c: nat)
    requires |flags| == |os| && c < |os|
    requires forall j :: 0 <= j < |os| ==> (flags[j] <==> j == c)
    ensures Received(os, flags, p, |os|) == if Adjacent(os[c].pos, p) then 1 else 0
  {
    var none := flags[c := false];
    ReceivedNone(os, none, p, |os|);
    ReceivedFlip(os, none, p, |os|, c);
    assert none[c := true] == flags;
  }

  /** An octopus never receives a flash from itself, so at most one fewer
      flashes reach it than there are octopi. */
  lemma {:induction false} ReceivedSelf(os: seq<Octopus>, flags: seq<bool>, p: Pos, n: nat, i: nat)
    requires n <= |os| && n <= |flags| && i < n && os[i].pos == p
    ensures Received(os, flags, p, n) < n
  {
    if i < n - 1 {
      ReceivedSelf(os, flags, p, n - 1, i);
    }
  }

  /** The map of the test `flash_induced_flash`: energies 8 and 9 side by
      side. */
  function PairMap(): Map
  {
    Map(2, 1, [Octopus(8, false, Pos(0, 0)), Octopus(9, false, Pos(1, 0))])
  }

  /** `create_map` builds `PairMap` with one `push_row`. */
  lemma PairMapBuilt()
    ensures PushRow(NewMap(2, 0), [8, 9]) == Ok(PairMap())
  {
    var m0 := NewMap(2, 0);
    assert m0 == Map(2, 0, []);
    var row := EnergyRow([8, 9], 0);
    assert row == PairMap().octopi;
    assert [] + row == row;
    assert PushRow(m0, [8, 9]) == Ok(Map(2, 1, [] + row));
  }

  /** `PairMap` is placed and at rest, so `update` applies to it. */
  lemma PairMapPlaced()
    ensures Placed(PairMap()) && Resting(PairMap())
  {
    var m := PairMap();
    assert Mul(1, 2) == 2;
    forall j | 0 <= j < 2
      ensures InBounds(m, m.octopi[j].pos) && Idx(m, m.octopi[j].pos) == j
    {
      assert m.octopi[j].pos == Pos(j, 0);
      assert Mul(0, 2) == 0;
    }
  }

  /** One step on `PairMap`: the 9 flashes, its flash takes the 8 over
      the threshold, and both end at 0 with two flashes counted. The
      test expects 1 for the octopus at `(1, 0)`; `update` does not give
      energy to an octopus that has already flashed in the step. */
  lemma InducedFlash(r: Map, count: nat)
    requires Stepped(PairMap(), r, count)
    ensures r.octopi == [Octopus(0, false, Pos(0, 0)), Octopus(0, false, Pos(1, 0))] && count == 2
  {
    var m := PairMap();
    var z := Zeros(r.octopi);
    assert Settled(m, r, 1);
    assert z[1];
    assert Received(m.octopi, z, Pos(0, 0), 1) == 0;
    assert Received(m.octopi, z, Pos(0, 0), 2) == 1;
    assert Settled(m, r, 0);
    assert z == [true, true];
    assert CountTrue(z) == 2;
  }

  /** The map of the test `flash_propagation`: a 3 × 3 grid at 0 with 10
      in the middle. */
  function CrossMap(): Map
  {
    Map(3, 3, seq(9, j => Octopus(if j == 4 then 10 else 0, false, Pos(j % 3, j / 3))))
  }

  /** `create_map` builds `CrossMap` with three `push_row`s. */
  lemma CrossMapBuilt()
    ensures var m1 := PushRow(NewMap(3, 0), [0, 0, 0]);
      m1.Ok? && var m2 := PushRow(m1.value, [0, 10, 0]);
      m2.Ok? && PushRow(m2.value, [0, 0, 0]) == Ok(CrossMap())
  {
    var m0 := NewMap(3, 0);
    assert m0 == Map(3, 0, []);
    var r0, r1, r2 := EnergyRow([0, 0, 0], 0), EnergyRow([0, 10, 0], 1), EnergyRow([0, 0, 0], 2);
    assert [] + r0 == r0;
    var m1 := Map(3, 1, r0);
    assert PushRow(m0, [0, 0, 0]) == Ok(m1);
    var m2 := Map(3, 2, r0 + r1);
    assert PushRow(m1, [0, 10, 0]) == Ok(m2);
    CrossRows();
    assert PushRow(m2, [0, 0, 0]) == Ok(Map(3, 3, r0 + r1 + r2));
  }

  /** The three rows of `CrossMap`, one after another. */
  lemma CrossRows()
    ensures EnergyRow([0, 0, 0], 0) + EnergyRow([0, 10, 0], 1) + EnergyRow([0, 0, 0], 2) == CrossMap().octopi
  {
    var r0, r1, r2 := EnergyRow([0, 0, 0], 0), EnergyRow([0, 10, 0], 1), EnergyRow([0, 0, 0], 2);
    var os := r0 + r1 + r2;
    forall j | 0 <= j < 9
      ensures os[j] == CrossMap().octopi[j]
    {
      if j < 3 {
        assert os[j] == r0[j];
      } else if j < 6 {
        assert os[j] == r1[j - 3];
      } else {
        assert os[j] == r2[j - 6];
      }
    }
  }

  /** `CrossMap` is placed and at rest, so `update` applies to it. */
  lemma CrossMapPlaced()
    ensures Placed(CrossMap()) && Resting(CrossMap())
  {
    var m := CrossMap();
    assert Mul(3, 3) == 9;
    forall j | 0 <= j < 9
      ensures InBounds(m, m.octopi[j].pos) && Idx(m, m.octopi[j].pos) == j
    {
      assert Mul(0, 3) == 0 && Mul(1, 3) == 3 && Mul(2, 3) == 6;
    }
  }

  /** One step on `CrossMap`: only the middle flashes, ending at 0, and
      each of the other eight ends at 2. */
  lemma Propagation(r: Map, count: nat)
    requires Stepped(CrossMap(), r, count)
    ensures r.octopi[4].energy == 0 && count == 1
    ensures forall j :: 0 <= j < 9 && j != 4 ==> r.octopi[j].energy == 2
  {
    var m := CrossMap();
    var z := Zeros(r.octopi);
    assert Settled(m, r, 4);
    forall j | 0 <= j < 9 && j != 4
      ensures !z[j]
    {
      ReceivedSelf(m.octopi, z, m.octopi[j].pos, 9, j);
      assert Settled(m, r, j);
    }
    forall j | 0 <= j < 9 && j != 4
      ensures r.octopi[j].energy == 2
    {
      ReceivedOne(m.octopi, z, m.octopi[j].pos, 4);
      assert Settled(m, r, j);
    }
    CountOne(z, 4);
  }

  lemma {:induction false} CountOne(s: seq<bool>, c: nat)
    requires c < |s| && forall j :: 0 <= j < |s| ==> (s[j] <==> j == c)
    ensures CountTrue(s) == 1
  {
    var none := s[c := false];
    CountTrueFlip(none, c);
    assert none[c := true] == s;
  }
}

=== FILE: day11_octopus.dfy ===
/** One dumbo octopus of day 11: its energy level, whether it has flashed
    during the current step, and its place on the grid. */
module Octopi {
  /** A grid position; the source stores both coordinates as `i8`. */
  datatype Pos = Pos(x: int, y: int)

  datatype Octopus = Octopus(energy: nat, flashed: bool, pos: Pos)

  /** `ENERGY_THRESHOLD`: an octopus with more energy than this flashes. */
  const EnergyThreshold: nat := 9

  /** `Octopus::new`: no energy, not flashed. */
  function New(x: int, y: int): Octopus
  {
    Octopus(0, false, Pos(x, y))
  }

  /** `increase_energy`: adds to the energy and to nothing else. */
  function IncreaseEnergy(o: Octopus, amount: nat): (r: Octopus)
    ensures r.energy == o.energy + amount && r.flashed == o.flashed && r.pos == o.pos
  {
    o.(energy := o.energy + amount)
  }

  /** `reset_flash_status`: clears the flag and nothing else. */
  function ResetFlashStatus(o: Octopus): (r: Octopus)
    ensures !r.flashed && r.energy == o.energy && r.pos == o.pos
  {
    o.(flashed := false)
  }

  /** `needs_to_flash`. */
  predicate NeedsToFlash(o: Octopus)
  {
    !o.flashed && o.energy > EnergyThreshold
  }

  /** `maybe_flash`: an octopus that needs to flash is marked flashed,
      drops to energy 0 and reports `true`; any other is left as it was
      and reports `false`. */
  function MaybeFlash(o: Octopus): (r: (Octopus, bool))
    ensures r.1 <==> !o.flashed && o.energy > EnergyThreshold
    ensures r.1 ==> r.0.flashed && r.0.energy == 0 && r.0.pos == o.pos
    ensures !r.1 ==> r.0 == o
  {
    if NeedsToFlash(o) then (o.(flashed := true, energy := 0), true)
    else (o, false)
  }

  /** Once flashed, an octopus does not flash again however much energy
      it gains, until its flag is reset. */
  lemma FlashOnce(o: Octopus, amount: nat)
    requires MaybeFlash(o).1
    ensures var o2 := IncreaseEnergy(MaybeFlash(o).0, amount);
      MaybeFlash(o2) == (o2, false)
  {
  }

  /** Resetting the flag lets a charged octopus flash again. */
  lemma ResetRearms(o: Octopus)
    requires o.energy > EnergyThreshold
    ensures MaybeFlash(ResetFlashStatus(o)).1
  {
  }
}

=== FILE: day12_caves.dfy ===
/** Day 12 (Passage Pathing): the cave system and the navigators that walk
    it. Caves are identified by their names; a cave system keeps its caves
    in insertion order, and every cave lists the names of the caves
    connected to it in the order the connections were made. */
module Caves {
  import opened Common

  datatype Kind = Big | Small

  datatype Cave = Cave(name: string, kind: Kind, connections: seq<string>)

  datatype CaveSystem = CaveSystem(caves: seq<Cave>)

  // ---------------------------------------------------------------------
  // Caves

  function LowerChar(c: char): char
  {
    if 'A' <= c <= 'Z' then (c as int + 32) as char else c
  }

  /** `str::to_lowercase`, for the ASCII letters. */
  function Lowercase(s: string): (r: string)
    ensures |r| == |s|
    ensures forall i :: 0 <= i < |s| ==> r[i] == LowerChar(s[i])
  {
    seq(|s|, i requires 0 <= i < |s| => LowerChar(s[i]))
  }

  predicate HasUpper(s: string)
  {
    exists i :: 0 <= i < |s| && 'A' <= s[i] <= 'Z'
  }

  /** A cave is small exactly when its name is its own lower-case form. */
  function KindOf(name: string): Kind
  {
    if Lowercase(name) == name then Small else Big
  }

  /** Small caves are the ones whose names hold no upper-case letter. */
  lemma KindOfUpper(name: string)
    ensures KindOf(name) == Small <==> !HasUpper(name)
  {
    if HasUpper(name) {
      var i :| 0 <= i < |name| && 'A' <= name[i] <= 'Z';
      assert Lowercase(name)[i] != name[i];
    } else {
      assert Lowercase(name) == name;
    }
  }

  /** `Cave::new`: a cave without connections whose kind follows its name. */
  function NewCave(name: string): (c: Cave)
    ensures c.name == name && c.connections == []
    ensures c.kind == Small <==> !HasUpper(name)
  {
    KindOfUpper(name);
    Cave(name, KindOf(name), [])
  }

  // ---------------------------------------------------------------------
  // Lookups

  /** Position of the first cave called `name`. */
  function Position(caves: seq<Cave>, name: string): (r: Option<nat>)
    ensures r.Some? ==> r.value < |caves| && caves[r.value].name == name
    ensures r.Some? ==> forall j :: 0 <= j < r.value ==> caves[j].name != name
    ensures r.None? ==> forall j :: 0 <= j < |caves| ==> caves[j].name != name
    decreases |caves|
  {
    if |caves| == 0 then None
    else if caves[0].name == name then Some(0)
    else
      match Position(caves[1..], name)
      case None => None
      case Some(i) => Some(i + 1)
  }

  /** `CaveSystem::contains`. */
  predicate Contains(sys: CaveSystem, name: string)
  {
    Position(sys.caves, name).Some?
  }

  /** `CaveSystem::cave_by_name`: the first cave with that name. */
  function CaveByName(sys: CaveSystem, name: string): (r: Option<Cave>)
    ensures r.Some? <==> Contains(sys, name)
    ensures r.Some? ==> r.value.name == name && r.value in sys.caves
  {
    match Position(sys.caves, name)
    case None => None
    case Some(i) => Some(sys.caves[i])
  }

  /** The names connected to `name`, in connection order (none for an
      unknown name). */
  function Neighbours(sys: CaveSystem, name: string): seq<string>
  {
    match CaveByName(sys, name)
    case None => []
    case Some(c) => c.connections
  }

  // ---------------------------------------------------------------------
  // Building the system

  /** What the search relies on: names are unique, kinds follow names,
      connections name known caves and never the cave itself. */
  ghost predicate WellFormed(sys: CaveSystem)
  {
    && (forall i, j :: 0 <= i < j < |sys.caves| ==> sys.caves[i].name != sys.caves[j].name)
    && (forall i :: 0 <= i < |sys.caves| ==> sys.caves[i].kind == KindOf(sys.caves[i].name))
    && (forall i, k :: 0 <= i < |sys.caves| && 0 <= k < |sys.caves[i].connections| ==>
          Contains(sys, sys.caves[i].connections[k]) && sys.caves[i].connections[k] != sys.caves[i].name)
  }

  /** No cave lists the same connection twice (the input repeats no
      edge). */
  ghost predicate NoRepeatedConnections(sys: CaveSystem)
  {
    forall i, k, l :: 0 <= i < |sys.caves| && 0 <= k < l < |sys.caves[i].connections| ==>
      sys.caves[i].connections[k] != sys.caves[i].connections[l]
  }

  /** Every connection is recorded at both ends, as often at one end as at
      the other. */
  ghost predicate Symmetric(sys: CaveSystem)
  {
    forall a, b :: multiset(Neighbours(sys, a))[b] == multiset(Neighbours(sys, b))[a]
  }

  /** `CaveSystem::insert`: appends a new cave, without looking for an
      existing one of the same name. */
  function Insert(sys: CaveSystem, name: string): (r: CaveSystem)
    ensures Contains(r, name)
    ensures |r.caves| == |sys.caves| + 1
    ensures forall n :: Contains(r, n) <==> Contains(sys, n) || n == name
    ensures forall n :: Contains(sys, n) ==> Contains(r, n) && Neighbours(r, n) == Neighbours(sys, n)
    ensures !Contains(sys, name) ==> Neighbours(r, name) == []
  {
    InsertNeighbours(sys, name);
    CaveSystem(sys.caves + [NewCave(name)])
  }

  lemma InsertNeighbours(sys: CaveSystem, name: string)
    ensures Contains(CaveSystem(sys.caves + [NewCave(name)]), name)
    ensures forall n :: Contains(CaveSystem(sys.caves + [NewCave(name)]), n) <==> Contains(sys, n) || n == name
    ensures !Contains(sys, name) ==> Neighbours(CaveSystem(sys.caves + [NewCave(name)]), name) == []
    ensures forall n :: Contains(sys, n) ==> Contains(CaveSystem(sys.caves + [NewCave(name)]), n) && Neighbours(CaveSystem(sys.caves + [NewCave(name)]), n) == Neighbours(sys, n)
  {
    var r := CaveSystem(sys.caves + [NewCave(name)]);
    assert r.caves[|sys.caves|].name == name;
    forall n
      ensures Position(r.caves, n) == (match Position(sys.caves, n)
        case Some(i) => Some(i)
        case None => if NewCave(name).name == n then Some(|sys.caves|) else None)
    {
      PositionAppend(sys.caves, NewCave(name), n);
    }
  }

  lemma PositionAppend(caves: seq<Cave>, c: Cave, name: string)
    ensures Position(caves + [c], name) ==
      match Position(caves, name)
      case Some(i) => Some(i)
      case None => if c.name == name then Some(|caves|) else None
  {
    match Position(caves, name)
    case Some(i) =>
      assert (caves + [c])[i] == caves[i];
      PositionUnique(caves + [c], name, i);
    case None =>
      if c.name == name {
        PositionUnique(caves + [c], name, |caves|);
      } else {
        assert forall j :: 0 <= j < |caves| + 1 ==> (caves + [c])[j].name != name;
      }
  }

  /** The first position of a name is determined by the sequence. */
  lemma PositionUnique(caves: seq<Cave>, name: string, i: nat)
    requires i < |caves| && caves[i].name == name
    requires forall j :: 0 <= j < i ==> caves[j].name != name
    ensures Position(caves, name) == Some(i)
    decreases |caves|
  {
    if i > 0 {
      PositionUnique(caves[1..], name, i - 1);
    }
  }

  /** `CaveSystem::connect`: equal names are refused; otherwise each cave
      gets the other appended to its connections (a repeated call appends
      again). Unknown names make the source panic, hence the
      precondition. */
  function Connect(sys: CaveSystem, a: string, b: string): (r: Result<CaveSystem>)
    requires Contains(sys, a) && Contains(sys, b)
    ensures r.Ok? <==> a != b
    ensures r.Err? <==> a == b
    ensures r.Ok? ==> |r.value.caves| == |sys.caves|
    ensures r.Ok? ==> forall n :: Contains(r.value, n) <==> Contains(sys, n)
    ensures r.Ok? ==> Neighbours(r.value, a) == Neighbours(sys, a) + [b]
    ensures r.Ok? ==> Neighbours(r.value, b) == Neighbours(sys, b) + [a]
    ensures r.Ok? ==> forall n :: n != a && n != b ==> Neighbours(r.value, n) == Neighbours(sys, n)
  {
    if a == b then Err("cannot connect a cave to itself")
    else
      var i := Position(sys.caves, a).value;
      var j := Position(sys.caves, b).value;
      var caves2 := AppendAt(AppendAt(sys.caves, i, b), j, a);
      var r := CaveSystem(caves2);
      assert forall k :: 0 <= k < |caves2| ==> caves2[k].name == sys.caves[k].name;
      forall n
        ensures Position(caves2, n) == Position(sys.caves, n)
      {
        SameNamesSamePosition(sys.caves, caves2, n);
      }
      Ok(r)
  }

  /** Cave `i` with `name` appended to its connections. */
  function AppendAt(caves: seq<Cave>, i: nat, name: string): (r: seq<Cave>)
    requires i < |caves|
    ensures |r| == |caves|
    ensures forall p :: 0 <= p < |r| ==> r[p].name == caves[p].name && r[p].kind == caves[p].kind
    ensures forall p :: 0 <= p < |r| && p != i ==> r[p].connections == caves[p].connections
    ensures r[i].connections == caves[i].connections + [name]
  {
    caves[i := caves[i].(connections := caves[i].connections + [name])]
  }

  lemma SameNamesSamePosition(xs: seq<Cave>, ys: seq<Cave>, name: string)
    requires |xs| == |ys|
    requires forall k :: 0 <= k < |xs| ==> xs[k].name == ys[k].name
    ensures Position(xs, name) == Position(ys, name)
    decreases |xs|
  {
    if |xs| > 0 {
      SameNamesSamePosition(xs[1..], ys[1..], name);
    }
  }

  /** Inserting a fresh name keeps a well-formed system well-formed and
      symmetric. */
  lemma InsertPreserves(sys: CaveSystem, name: string)
    requires WellFormed(sys) && Symmetric(sys)
    requires !Contains(sys, name)
    ensures WellFormed(Insert(sys, name)) && Symmetric(Insert(sys, name))
  {
    var r := Insert(sys, name);
    assert r.caves == sys.caves + [NewCave(name)];
    forall n
      ensures Neighbours(r, n) == Neighbours(sys, n)
    {
      PositionAppend(sys.caves, NewCave(name), n);
    }
    forall i, k | 0 <= i < |r.caves| && 0 <= k < |r.caves[i].connections|
      ensures Contains(r, r.caves[i].connections[k])
    {
      var n := r.caves[i].connections[k];
      assert i < |sys.caves|;
      assert Contains(sys, n);
      PositionAppend(sys.caves, NewCave(name), n);
    }
  }

  /** Connecting two distinct known caves keeps a well-formed system
      well-formed and symmetric. */
  lemma ConnectPreserves(sys: CaveSystem, a: string, b: string)
    requires WellFormed(sys) && Symmetric(sys)
    requires Contains(sys, a) && Contains(sys, b) && a != b
    ensures WellFormed(Connect(sys, a, b).value) && Symmetric(Connect(sys, a, b).value)
  {
    ConnectSymmetric(sys, a, b);
    ConnectWellFormed(sys, a, b);
  }

  lemma ConnectSymmetric(sys: CaveSystem, a: string, b: string)
    requires Symmetric(sys)
    requires Contains(sys, a) && Contains(sys, b) && a != b
    ensures Symmetric(Connect(sys, a, b).value)
  {
    var r := Connect(sys, a, b).value;
    forall x, y
      ensures multiset(Neighbours(r, x))[y] == multiset(Neighbours(r, y))[x]
    {
      assert multiset(Neighbours(sys, x))[y] == multiset(Neighbours(sys, y))[x];
      ConnectCount(sys, a, b, x, y);
      ConnectCount(sys, a, b, y, x);
    }
  }

  /** Connecting adds one to the count of `b` among the neighbours of `a`
      and of `a` among those of `b`, and changes no other count. */
  lemma ConnectCount(sys: CaveSystem, a: string, b: string, x: string, y: string)
    requires Contains(sys, a) && Contains(sys, b) && a != b
    ensures multiset(Neighbours(Connect(sys, a, b).value, x))[y]
      == multiset(Neighbours(sys, x))[y] + (if (x == a && y == b) || (x == b && y == a) then 1 else 0)
  {
    var r := Connect(sys, a, b).value;
    if x == a {
      assert multiset(Neighbours(r, x)) == multiset(Neighbours(sys, x)) + multiset{b};
    } else if x == b {
      assert multiset(Neighbours(r, x)) == multiset(Neighbours(sys, x)) + multiset{a};
    }
  }

  lemma ConnectWellFormed(sys: CaveSystem, a: string, b: string)
    requires WellFormed(sys)
    requires Contains(sys, a) && Contains(sys, b) && a != b
    ensures WellFormed(Connect(sys, a, b).value)
  {
    var r := Connect(sys, a, b).value;
    ConnectShape(sys, a, b);
    forall p, k | 0 <= p < |r.caves| && 0 <= k < |r.caves[p].connections|
      ensures Contains(r, r.caves[p].connections[k]) && r.caves[p].connections[k] != r.caves[p].name
    {
      ConnectEntry(sys, a, b, p, k);
    }
  }

  /** A connection after connecting is an old one or one of the two new
      ones; either way it names another known cave. */
  lemma ConnectEntry(sys: CaveSystem, a: string, b: string, p: nat, k: nat)
    requires WellFormed(sys)
    requires Contains(sys, a) && Contains(sys, b) && a != b
    requires p < |Connect(sys, a, b).value.caves| && k < |Connect(sys, a, b).value.caves[p].connections|
    ensures var n := Connect(sys, a, b).value.caves[p].connections[k];
      Contains(sys, n) && n != sys.caves[p].name
  {
    var r := Connect(sys, a, b).value;
    var i, j := Position(sys.caves, a).value, Position(sys.caves, b).value;
    ConnectShape(sys, a, b);
    var before := sys.caves[p].connections;
    var n := r.caves[p].connections[k];
    if k < |before| {
      assert n == before[k];
    } else if p == i {
      assert n == b;
    } else {
      assert n == a;
    }
  }

  /** Connecting keeps every cave's name and kind in place and appends one
      connection at each end. */
  lemma ConnectShape(sys: CaveSystem, a: string, b: string)
    requires Contains(sys, a) && Contains(sys, b) && a != b
    ensures var r := Connect(sys, a, b).value;
      var i, j := Position(sys.caves, a).value, Position(sys.caves, b).value;
      && |r.caves| == |sys.caves| && i != j
      && (forall p :: 0 <= p < |r.caves| ==>
            r.caves[p].name == sys.caves[p].name && r.caves[p].kind == sys.caves[p].kind)
      && (forall p :: 0 <= p < |r.caves| ==>
            r.caves[p].connections == sys.caves[p].connections + (if p == i then [b] else if p == j then [a] else []))
  {
    var i := Position(sys.caves, a).value;
    var j := Position(sys.caves, b).value;
    assert Connect(sys, a, b).value.caves == AppendAt(AppendAt(sys.caves, i, b), j, a);
  }

  /** The driver's insert-if-absent step: the only cave it can add is
      `name`, and no cave gains or loses a connection. */
  function Ensure(sys: CaveSystem, name: string): (r: CaveSystem)
    requires WellFormed(sys) && Symmetric(sys)
    ensures WellFormed(r) && Symmetric(r) && Contains(r, name)
    ensures forall n :: Contains(sys, n) ==> Contains(r, n) && Neighbours(r, n) == Neighbours(sys, n)
    ensures forall n :: Contains(r, n) <==> Contains(sys, n) || n == name
    ensures forall n :: Neighbours(r, n) == Neighbours(sys, n)
  {
    if Contains(sys, name) then sys
    else
      InsertPreserves(sys, name);
      var r := Insert(sys, name);
      assert forall n :: !Contains(r, n) ==> Neighbours(r, n) == [] == Neighbours(sys, n);
      r
  }

  /** The connections one line adds to cave `n`: the other end, when `n`
      is one of the two ends. */
  function Touching(e: (string, string), n: string): (r: seq<string>)
    ensures e.0 != e.1 ==> (n == e.0 <==> r == [e.1]) && (n == e.1 <==> r == [e.0])
    ensures n != e.0 && n != e.1 <==> r == []
  {
    if n == e.0 then [e.1] else if n == e.1 then [e.0] else []
  }

  /** One line of the input: both names are made known, then connected;
      a refused connection aborts the program. */
  function AddEdge(sys: CaveSystem, e: (string, string)): (r: Result<CaveSystem>)
    requires WellFormed(sys) && Symmetric(sys)
    ensures r.Ok? <==> e.0 != e.1
    ensures r.Ok? ==> WellFormed(r.value) && Symmetric(r.value)
    ensures r.Ok? ==> e.1 in Neighbours(r.value, e.0) && e.0 in Neighbours(r.value, e.1)
    ensures r.Ok? ==> forall n, m :: m in Neighbours(sys, n) ==> m in Neighbours(r.value, n)
    ensures r.Ok? ==> forall n :: Contains(r.value, n) <==> Contains(sys, n) || n == e.0 || n == e.1
    ensures r.Ok? ==> forall n :: Neighbours(r.value, n) == Neighbours(sys, n) + Touching(e, n)
  {
    if e.0 == e.1 then Panic("Could not connect caves")
    else
      AddEdgeKeeps(sys, e);
      EnsureBoth(sys, e);
      var sys2 := Ensure(Ensure(sys, e.0), e.1);
      ConnectEnds(sys, sys2, e);
      Connect(sys2, e.0, e.1)
  }

  /** Making both ends known and connecting them keeps the system well
      formed and symmetric. */
  lemma AddEdgeKeeps(sys: CaveSystem, e: (string, string))
    requires WellFormed(sys) && Symmetric(sys) && e.0 != e.1
    ensures var sys2 := Ensure(Ensure(sys, e.0), e.1);
      && Connect(sys2, e.0, e.1).Ok?
      && WellFormed(Connect(sys2, e.0, e.1).value) && Symmetric(Connect(sys2, e.0, e.1).value)
  {
    var sys1 := Ensure(sys, e.0);
    var sys2 := Ensure(sys1, e.1);
    assert Contains(sys2, e.0);
    ConnectPreserves(sys2, e.0, e.1);
  }

  /** Making both ends of a line known adds at most those two caves and
      no connection. */
  lemma EnsureBoth(sys: CaveSystem, e: (string, string))
    requires WellFormed(sys) && Symmetric(sys)
    ensures var sys2 := Ensure(Ensure(sys, e.0), e.1);
      && Contains(sys2, e.0) && Contains(sys2, e.1)
      && (forall n :: Contains(sys2, n) <==> Contains(sys, n) || n == e.0 || n == e.1)
      && (forall n :: Neighbours(sys2, n) == Neighbours(sys, n))
  {
  }

  /** Connecting the two ends adds exactly the one connection at each
      end, and no cave. */
  lemma ConnectEnds(sys: CaveSystem, sys2: CaveSystem, e: (string, string))
    requires e.0 != e.1 && Contains(sys2, e.0) && Contains(sys2, e.1)
    requires forall n :: Contains(sys2, n) <==> Contains(sys, n) || n == e.0 || n == e.1
    requires forall n :: Neighbours(sys2, n) == Neighbours(sys, n)
    ensures forall n :: Contains(Connect(sys2, e.0, e.1).value, n) <==> Contains(sys, n) || n == e.0 || n == e.1
    ensures forall n :: Neighbours(Connect(sys2, e.0, e.1).value, n) == Neighbours(sys, n) + Touching(e, n)
  {
  }

  /** Reading an edge list the way the solution's driver does, one edge
      after the other. The result is well-formed and symmetric, and it
      connects the two ends of every edge. */
  function Build(edges: seq<(string, string)>): (r: Result<CaveSystem>)
    ensures r.Ok? <==> forall e :: e in edges ==> e.0 != e.1
    ensures r.Ok? ==> WellFormed(r.value) && Symmetric(r.value)
    ensures r.Ok? ==> forall e :: e in edges ==> e.1 in Neighbours(r.value, e.0) && e.0 in Neighbours(r.value, e.1)
    decreases |edges|
  {
    if |edges| == 0 then
      EmptySymmetric();
      Ok(CaveSystem([]))
    else
      var init := edges[..|edges| - 1];
      var e := edges[|edges| - 1];
      assert forall x :: x in edges <==> x in init || x == e;
      match Build(init)
      case Ok(sys) => AddEdge(sys, e)
      case _ => Panic("Could not connect caves")
  }

  lemma EmptySymmetric()
    ensures Symmetric(CaveSystem([]))
  {
    forall a, b
      ensures multiset(Neighbours(CaveSystem([]), a))[b] == multiset(Neighbours(CaveSystem([]), b))[a]
    {
    }
  }

  /** Some line names cave `n`. */
  ghost predicate Mentions(edges: seq<(string, string)>, n: string)
  {
    exists k :: 0 <= k < |edges| && (edges[k].0 == n || edges[k].1 == n)
  }

  /** The caves the lines join `n` to, in line order, read off the lines
      alone. */
  function EdgeNeighbours(edges: seq<(string, string)>, n: string): seq<string>
    decreases |edges|
  {
    if |edges| == 0 then [] else Touching(edges[0], n) + EdgeNeighbours(edges[1..], n)
  }

  lemma {:induction false} EdgeNeighboursSnoc(edges: seq<(string, string)>, e: (string, string), n: string)
    ensures EdgeNeighbours(edges + [e], n) == EdgeNeighbours(edges, n) + Touching(e, n)
    decreases |edges|
  {
    if |edges| == 0 {
      assert EdgeNeighbours([e], n) == Touching(e, n) + EdgeNeighbours([], n);
    } else {
      assert (edges + [e])[1..] == edges[1..] + [e];
      EdgeNeighboursSnoc(edges[1..], e, n);
    }
  }

  lemma MentionsSnoc(edges: seq<(string, string)>, e: (string, string), n: string)
    ensures Mentions(edges + [e], n) <==> Mentions(edges, n) || n == e.0 || n == e.1
  {
    var all := edges + [e];
    if Mentions(edges, n) {
      var k :| 0 <= k < |edges| && (edges[k].0 == n || edges[k].1 == n);
      assert all[k] == edges[k];
    }
    if n == e.0 || n == e.1 {
      assert all[|edges|] == e;
    }
    if Mentions(all, n) && n != e.0 && n != e.1 {
      var k :| 0 <= k < |all| && (all[k].0 == n || all[k].1 == n);
      assert k < |edges| && edges[k] == all[k];
    }
  }

  /** The last line adds its ends to the caves named and to the
      neighbours listed. */
  lemma EdgesLast(edges: seq<(string, string)>, n: string)
    requires |edges| > 0
    ensures var init, e := edges[..|edges| - 1], edges[|edges| - 1];
      && (Mentions(edges, n) <==> Mentions(init, n) || n == e.0 || n == e.1)
      && EdgeNeighbours(edges, n) == EdgeNeighbours(init, n) + Touching(e, n)
  {
    var init, e := edges[..|edges| - 1], edges[|edges| - 1];
    assert edges == init + [e];
    MentionsSnoc(init, e, n);
    EdgeNeighboursSnoc(init, e, n);
  }

  /** A successful build is the build of all lines but the last, with the
      last line added. */
  lemma BuildLast(edges: seq<(string, string)>)
    requires |edges| > 0 && Build(edges).Ok?
    ensures Build(edges[..|edges| - 1]).Ok?
    ensures Build(edges) == AddEdge(Build(edges[..|edges| - 1]).value, edges[|edges| - 1])
  {
  }

  /** The system read from a list of lines holds exactly the caves the
      lines name, and each cave lists exactly the caves the lines join it
      to, in line order. */
  lemma {:induction false} BuildExact(edges: seq<(string, string)>)
    ensures var r := Build(edges);
      r.Ok? ==> forall n :: (Contains(r.value, n) <==> Mentions(edges, n))
                         && Neighbours(r.value, n) == EdgeNeighbours(edges, n)
    decreases |edges|
  {
    var r := Build(edges);
    if |edges| > 0 && r.Ok? {
      BuildLast(edges);
      BuildExact(edges[..|edges| - 1]);
      forall n
        ensures Contains(r.value, n) <==> Mentions(edges, n)
        ensures Neighbours(r.value, n) == EdgeNeighbours(edges, n)
      {
        EdgesLast(edges, n);
      }
    }
  }

  /** A line of the input split at '-'; anything but two parts fails the
      driver's `assert_eq!`. */
  function EdgeOf(line: string): (r: Result<(string, string)>)
    ensures !r.Err?
    ensures r.Ok? <==> |Split(line, "-")| == 2
    ensures r.Ok? ==> line == r.value.0 + "-" + r.value.1
  {
    var parts := Split(line, "-");
    if |parts| == 2 then
      JoinSplit(line, "-");
      assert Join(parts, "-") == parts[0] + "-" + parts[1];
      Ok((parts[0], parts[1]))
    else Panic("assertion `left == right` failed")
  }

  /** Two names without '-' joined by '-' split back into those names. */
  lemma EdgeOfShow(a: string, b: string)
    requires '-' !in a && '-' !in b
    ensures EdgeOf(a + "-" + b) == Ok((a, b))
  {
    assert Join([a, b], "-") == a + "-" + b;
    SplitJoin([a, b], '-');
  }

  /** A line the driver accepts: two parts naming different caves. */
  predicate Joins(line: string)
  {
    EdgeOf(line).Ok? && EdgeOf(line).value.0 != EdgeOf(line).value.1
  }

  /** The pairs of names of lines the driver accepts. */
  function EdgesOf(lines: seq<string>): (edges: seq<(string, string)>)
    requires forall k :: 0 <= k < |lines| ==> Joins(lines[k])
    ensures |edges| == |lines|
    ensures forall k :: 0 <= k < |lines| ==> Ok(edges[k]) == EdgeOf(lines[k])
  {
    seq(|lines|, k requires 0 <= k < |lines| && Joins(lines[k]) => EdgeOf(lines[k]).value)
  }

  /** The driver's reading loop: line after line is split, its parts made
      known, and connected. The first line that does not split in two or
      that joins a cave to itself aborts the program. */
  function ReadCaves(lines: seq<string>): (r: Result<CaveSystem>)
    ensures !r.Err?
    ensures r.Ok? ==> WellFormed(r.value) && Symmetric(r.value)
    decreases |lines|
  {
    if |lines| == 0 then
      EmptySymmetric();
      Ok(CaveSystem([]))
    else
      match ReadCaves(lines[..|lines| - 1])
      case Ok(sys) =>
        (match EdgeOf(lines[|lines| - 1])
         case Ok(e) => AddEdge(sys, e)
         case Panic(m) => Panic(m))
      case Panic(m) => Panic(m)
  }

  /** Reading succeeds exactly when every line splits into two different
      names. */
  lemma {:induction false} ReadCavesOk(lines: seq<string>)
    ensures ReadCaves(lines).Ok? <==> forall k :: 0 <= k < |lines| ==> Joins(lines[k])
    decreases |lines|
  {
    if |lines| > 0 {
      var init := lines[..|lines| - 1];
      ReadCavesLast(lines);
      ReadCavesOk(init);
      if ReadCaves(lines).Ok? {
        forall k | 0 <= k < |lines|
          ensures Joins(lines[k])
        {
          if k < |init| {
            assert init[k] == lines[k];
          } else {
            assert k == |lines| - 1;
          }
        }
      } else if !ReadCaves(init).Ok? {
        var k :| 0 <= k < |init| && !Joins(init[k]);
        assert init[k] == lines[k];
      }
    }
  }

  /** Reading succeeds when reading all lines but the last does and the
      last line splits into two different names. */
  lemma ReadCavesLast(lines: seq<string>)
    requires |lines| > 0
    ensures ReadCaves(lines).Ok? <==> ReadCaves(lines[..|lines| - 1]).Ok? && Joins(lines[|lines| - 1])
  {
  }

  lemma EdgesOfLast(lines: seq<string>)
    requires |lines| > 0 && forall k :: 0 <= k < |lines| ==> Joins(lines[k])
    ensures var edges := EdgesOf(lines);
      && edges[..|edges| - 1] == EdgesOf(lines[..|lines| - 1])
      && EdgeOf(lines[|lines| - 1]) == Ok(edges[|edges| - 1])
  {
  }

  /** Every line before the last of a list of joining lines joins. */
  lemma InitJoins(lines: seq<string>, init: seq<string>)
    requires |lines| > 0 && forall k :: 0 <= k < |lines| ==> Joins(lines[k])
    requires init == lines[..|lines| - 1]
    ensures forall k :: 0 <= k < |init| ==> Joins(init[k])
  {
    assert forall k :: 0 <= k < |init| ==> init[k] == lines[k];
  }

  /** One more joining line adds the same connection to both readings. */
  lemma ReadCavesStep(lines: seq<string>, init: seq<string>)
    requires |lines| > 0 && forall k :: 0 <= k < |lines| ==> Joins(lines[k])
    requires init == lines[..|lines| - 1] && forall k :: 0 <= k < |init| ==> Joins(init[k])
    requires ReadCaves(init).Ok? && ReadCaves(init) == Build(EdgesOf(init))
    ensures ReadCaves(lines) == Build(EdgesOf(lines))
  {
    EdgesOfLast(lines);
  }

  /** Reading lines that all split into two different names gives the
      system built from those pairs. */
  lemma {:induction false} ReadCavesBuild(lines: seq<string>)
    requires forall k :: 0 <= k < |lines| ==> Joins(lines[k])
    ensures ReadCaves(lines) == Build(EdgesOf(lines))
    decreases |lines|
  {
    if |lines| > 0 {
      var init := lines[..|lines| - 1];
      InitJoins(lines, init);
      ReadCavesBuild(init);
      ReadCavesOk(init);
      ReadCavesStep(lines, init);
    }
  }

  // ---------------------------------------------------------------------
  // Navigators

  /** A walk in progress: the cave it stands in, the caves it came
      through (oldest first), and how many times it has re-entered an
      already visited small cave. Navigators are values, so a clone is a
      copy that shares nothing with the original. */
  datatype Navigator = Navigator(current: string, history: seq<string>, smallCaveRevisits: nat)

  /** `Navigator::new`. */
  function NewNavigator(cave: Cave): (nav: Navigator)
    ensures Report(nav) == [cave.name] && nav.smallCaveRevisits == 0
  {
    Navigator(cave.name, [], 0)
  }

  /** `Navigator::report`: the caves in visiting order, current last. */
  function Report(nav: Navigator): seq<string>
  {
    nav.history + [nav.current]
  }

  /** The report as the source prints it, comma-separated. */
  function Render(report: seq<string>): string
  {
    Join(report, ",")
  }

  /** When no cave name holds a comma, the printed report determines the
      walk. */
  lemma RenderInjective(p: seq<string>, q: seq<string>)
    requires |p| >= 1 && |q| >= 1
    requires forall k :: 0 <= k < |p| ==> ',' !in p[k]
    requires forall k :: 0 <= k < |q| ==> ',' !in q[k]
    requires Render(p) == Render(q)
    ensures p == q
  {
    SplitJoin(p, ',');
    SplitJoin(q, ',');
  }

  /** No cave's name holds a comma. */
  ghost predicate CommaFree(sys: CaveSystem)
  {
    forall i :: 0 <= i < |sys.caves| ==> ',' !in sys.caves[i].name
  }

  /** A comma in a name lets two different walks print alike. */
  lemma RenderCollides()
    ensures var p, q := ["start", "b,c", "end"], ["start", "b", "c", "end"];
      p != q && Render(p) == Render(q)
  {
    var p, q := ["start", "b,c", "end"], ["start", "b", "c", "end"];
    assert |p| != |q|;
    assert Render(p) == "start" + "," + ("b,c" + "," + "end");
    assert Render(q) == "start" + "," + ("b" + "," + ("c" + "," + "end"));
  }

  /** `Navigator::is_interested`. */
  function IsInterested(nav: Navigator, cave: Cave, maxSmallCaveRevisits: nat): bool
  {
    match cave.kind
    case Big => true
    case Small =>
      if cave.name == "start" then false
      else if cave.name !in nav.history then true
      else nav.smallCaveRevisits < maxSmallCaveRevisits
  }

  /** `Navigator::walk_in`: the old current cave moves to the history and
      the counter goes up exactly when a small cave is re-entered. */
  function WalkIn(nav: Navigator, cave: Cave): (r: Navigator)
    ensures Report(r) == Report(nav) + [cave.name]
    ensures r.smallCaveRevisits == nav.smallCaveRevisits + (if cave.kind == Small && cave.name in Report(nav) then 1 else 0)
  {
    var history := nav.history + [nav.current];
    var revisits := if cave.kind == Small && cave.name in history then nav.smallCaveRevisits + 1 else nav.smallCaveRevisits;
    Navigator(cave.name, history, revisits)
  }

  /** The number of steps of a walk that enter a small cave already on the
      walk. */
  ghost function Revisits(p: seq<string>): nat
    decreases |p|
  {
    if |p| == 0 then 0
    else Revisits(p[..|p| - 1]) + (if KindOf(p[|p| - 1]) == Small && p[|p| - 1] in p[..|p| - 1] then 1 else 0)
  }

  /** Walking into a cave whose kind follows its name keeps the counter
      equal to the number of revisits on the report. */
  lemma WalkInCountsRevisits(nav: Navigator, cave: Cave)
    requires nav.smallCaveRevisits == Revisits(Report(nav))
    requires cave.kind == KindOf(cave.name)
    ensures WalkIn(nav, cave).smallCaveRevisits == Revisits(Report(WalkIn(nav, cave)))
  {
    var p := Report(nav) + [cave.name];
    assert p[..|p| - 1] == Report(nav);
  }

  /** A prefix of a walk has no more revisits than the walk. */
  lemma {:induction false} RevisitsPrefix(p: seq<string>, n: nat)
    requires n <= |p|
    ensures Revisits(p[..n]) <= Revisits(p)
    decreases |p|
  {
    if n < |p| {
      assert p[..|p| - 1][..n] == p[..n];
      RevisitsPrefix(p[..|p| - 1], n);
    } else {
      assert p[..n] == p;
    }
  }

  /** Without revisits, no small cave occurs twice on a walk. */
  lemma {:induction false} NoRevisitsNoRepeats(p: seq<string>)
    requires Revisits(p) == 0
    ensures forall i, j :: 0 <= i < j < |p| && p[i] == p[j] ==> KindOf(p[i]) == Big
    decreases |p|
  {
    if |p| > 0 {
      var init := p[..|p| - 1];
      NoRevisitsNoRepeats(init);
      forall i, j | 0 <= i < j < |p| && p[i] == p[j]
        ensures KindOf(p[i]) == Big
      {
        if j < |p| - 1 {
          assert init[i] == p[i] && init[j] == p[j];
        } else {
          assert p[i] == init[i];
          assert p[i] in init;
        }
      }
    }
  }
}

=== FILE: day12_search.dfy ===
/** Day 12 (Passage Pathing): the path search. A stack of navigators is
    worked off one at a time; a navigator standing in the end cave is
    retired, any other one is replaced by one copy for every neighbour it
    is interested in. The walks the search may report are described
    independently by `IsWalk`, and `FindPaths` is proved to report only
    such walks and, when it is not cut short, all of them. */
module CaveSearch {
  import opened Common
  import opened Caves

  /** The iteration cap of the search. */
  const MaxIterations: nat := 1000000

  /** Walks never re-enter the start cave, and never enter a cave named
      "start" (which is always small). */
  predicate MayEnter(start: string, name: string)
  {
    name != start && name != "start"
  }

  /** `p` is the beginning of a walk from `start` that the search may
      still extend: it leaves `start`, follows connections, passes the
      end cave at most as its last step, and re-enters small caves at most
      `budget` times. */
  ghost predicate IsPartialWalk(sys: CaveSystem, start: string, end: string, budget: nat, p: seq<string>)
  {
    && |p| > 0
    && p[0] == start
    && Contains(sys, start)
    && (forall i :: 0 < i < |p| ==> MayEnter(start, p[i]))
    && (forall i :: 0 <= i < |p| - 1 ==> p[i] != end && p[i + 1] in Neighbours(sys, p[i]))
    && Revisits(p) <= budget
  }

  /** A complete walk: a partial walk that has arrived in the end cave. */
  ghost predicate IsWalk(sys: CaveSystem, start: string, end: string, budget: nat, p: seq<string>)
  {
    IsPartialWalk(sys, start, end, budget, p) && p[|p| - 1] == end
  }

  /** A navigator whose report is a partial walk and whose counter is
      that walk's number of revisits. */
  ghost predicate Tracks(sys: CaveSystem, start: string, end: string, budget: nat, nav: Navigator)
  {
    IsPartialWalk(sys, start, end, budget, Report(nav)) && nav.smallCaveRevisits == Revisits(Report(nav))
  }

  // ---------------------------------------------------------------------
  // Facts about walks

  /** Every beginning of a partial walk is itself a partial walk. */
  lemma PartialWalkPrefix(sys: CaveSystem, start: string, end: string, budget: nat, p: seq<string>, n: nat)
    requires IsPartialWalk(sys, start, end, budget, p)
    requires 0 < n <= |p|
    ensures IsPartialWalk(sys, start, end, budget, p[..n])
  {
    RevisitsPrefix(p, n);
  }

  /** A partial walk ends in a known cave. */
  lemma PartialWalkKnown(sys: CaveSystem, start: string, end: string, budget: nat, p: seq<string>)
    requires WellFormed(sys)
    requires IsPartialWalk(sys, start, end, budget, p)
    ensures Contains(sys, p[|p| - 1])
  {
    if |p| > 1 {
      var prev := p[|p| - 2];
      assert p[|p| - 1] in Neighbours(sys, prev);
      var c := CaveByName(sys, prev).value;
      var i := Position(sys.caves, prev).value;
      assert sys.caves[i] == c;
      var k :| 0 <= k < |c.connections| && c.connections[k] == p[|p| - 1];
    }
  }

  /** A partial walk that has reached the end cave cannot be extended. */
  lemma WalkMaximal(sys: CaveSystem, start: string, end: string, budget: nat, p: seq<string>, w: seq<string>)
    requires IsWalk(sys, start, end, budget, w)
    requires |p| > 0 && p <= w && p[|p| - 1] == end
    ensures p == w
  {
  }

  /** A walk that passes through the last cave of `p` before reaching the
      end continues with one more step. */
  lemma WalkContinues(sys: CaveSystem, start: string, end: string, budget: nat, p: seq<string>, w: seq<string>)
    requires IsWalk(sys, start, end, budget, w)
    requires |p| > 0 && p <= w && p[|p| - 1] != end
    ensures |p| < |w|
    ensures w[|p|] in Neighbours(sys, p[|p| - 1]) && MayEnter(start, w[|p|])
    ensures w[..|p| + 1] == p + [w[|p|]]
    ensures IsPartialWalk(sys, start, end, budget, p + [w[|p|]])
  {
    assert w[|p| - 1] == p[|p| - 1];
    assert w[..|p| + 1] == p + [w[|p|]];
    PartialWalkPrefix(sys, start, end, budget, w, |p| + 1);
  }

  /** With a larger budget, every walk is still a walk. */
  lemma WalkBudgetMonotone(sys: CaveSystem, start: string, end: string, budget: nat, more: nat, w: seq<string>)
    requires budget <= more
    requires IsWalk(sys, start, end, budget, w)
    ensures IsWalk(sys, start, end, more, w)
  {
  }

  /** With no revisits allowed, a walk passes each small cave at most
      once. */
  lemma NoBudgetSimple(sys: CaveSystem, start: string, end: string, w: seq<string>)
    requires IsWalk(sys, start, end, 0, w)
    ensures forall i, j :: 0 <= i < j < |w| && w[i] == w[j] ==> KindOf(w[i]) == Big
  {
    NoRevisitsNoRepeats(w);
  }

  /** A cave found by name carries the kind its name gives it. */
  lemma FoundKind(sys: CaveSystem, c: Cave)
    requires WellFormed(sys)
    requires CaveByName(sys, c.name) == Some(c)
    ensures c.kind == KindOf(c.name)
  {
    var i := Position(sys.caves, c.name).value;
    assert sys.caves[i] == c;
  }

  /** No cave is its own neighbour. */
  lemma NeighbourOther(sys: CaveSystem, name: string, other: string)
    requires WellFormed(sys)
    requires other in Neighbours(sys, name)
    ensures other != name
  {
    var cur := CaveByName(sys, name).value;
    var i := Position(sys.caves, name).value;
    assert sys.caves[i] == cur;
    var k :| 0 <= k < |cur.connections| && cur.connections[k] == other;
  }

  /** A partial walk that has not reached the end cave extends by a
      neighbour of its last cave that may be entered, as long as the
      revisits stay within the budget. */
  lemma ExtendWalk(sys: CaveSystem, start: string, end: string, budget: nat, p: seq<string>, name: string)
    requires IsPartialWalk(sys, start, end, budget, p)
    requires p[|p| - 1] != end && name in Neighbours(sys, p[|p| - 1])
    requires MayEnter(start, name) && Revisits(p + [name]) <= budget
    ensures IsPartialWalk(sys, start, end, budget, p + [name])
  {
    var q := p + [name];
    assert q[0] == start;
    forall i | 0 < i < |q|
      ensures MayEnter(start, q[i])
    {
      if i < |q| - 1 {
        assert q[i] == p[i];
      }
    }
    forall i | 0 <= i < |q| - 1
      ensures q[i] != end && q[i + 1] in Neighbours(sys, q[i])
    {
      if i < |q| - 2 {
        assert q[i] == p[i] && q[i + 1] == p[i + 1];
      } else {
        assert q[i] == p[|p| - 1] && q[i + 1] == name;
      }
    }
  }

  /** The cave a partial walk last stepped into may be entered. */
  lemma ExtendedWalkEnters(sys: CaveSystem, start: string, end: string, budget: nat, p: seq<string>, name: string)
    requires |p| > 0 && IsPartialWalk(sys, start, end, budget, p + [name])
    ensures MayEnter(start, name) && Revisits(p + [name]) <= budget
  {
    var q := p + [name];
    assert q[|q| - 1] == name;
  }

  /** A partial walk that has not reached the end cave extends by a
      neighbour of its last cave exactly when that neighbour may be
      entered and the revisits stay within the budget. */
  lemma ExtendPartialWalk(sys: CaveSystem, start: string, end: string, budget: nat, p: seq<string>, name: string)
    requires IsPartialWalk(sys, start, end, budget, p)
    requires p[|p| - 1] != end && name in Neighbours(sys, p[|p| - 1])
    ensures IsPartialWalk(sys, start, end, budget, p + [name]) <==>
      MayEnter(start, name) && Revisits(p + [name]) <= budget
  {
    if MayEnter(start, name) && Revisits(p + [name]) <= budget {
      ExtendWalk(sys, start, end, budget, p, name);
    }
    if IsPartialWalk(sys, start, end, budget, p + [name]) {
      ExtendedWalkEnters(sys, start, end, budget, p, name);
    }
  }

  /** `Navigator::is_interested` accepts a neighbour exactly when the walk
      extended by it is still a partial walk; walking in keeps the
      navigator's counter accurate. */
  lemma InterestedIffExtends(sys: CaveSystem, start: string, end: string, budget: nat, nav: Navigator, c: Cave)
    requires WellFormed(sys)
    requires Tracks(sys, start, end, budget, nav)
    requires nav.current != end
    requires c.name in Neighbours(sys, nav.current) && c.name != start
    requires CaveByName(sys, c.name) == Some(c)
    ensures IsInterested(nav, c, budget) <==> IsPartialWalk(sys, start, end, budget, Report(nav) + [c.name])
    ensures IsInterested(nav, c, budget) ==> Tracks(sys, start, end, budget, WalkIn(nav, c))
  {
    var p := Report(nav);
    var q := p + [c.name];
    assert q[..|q| - 1] == p;
    FoundKind(sys, c);
    NeighbourOther(sys, nav.current, c.name);
    assert c.name in nav.history <==> c.name in p;
    assert "start" == Lowercase("start");
    ExtendPartialWalk(sys, start, end, budget, p, c.name);
    if IsInterested(nav, c, budget) {
      WalkInCountsRevisits(nav, c);
    }
  }

  // ---------------------------------------------------------------------
  // One step of the search

  /** The neighbours a navigator standing in a cave with connections
      `conns` may move to: the connections other than the start cave, in
      order, resolved to caves. */
  function Candidates(sys: CaveSystem, conns: seq<string>, start: string): (cs: seq<Cave>)
    requires forall k :: 0 <= k < |conns| ==> Contains(sys, conns[k])
    ensures |cs| <= |conns|
    ensures forall k :: 0 <= k < |cs| ==> cs[k].name in conns && cs[k].name != start && CaveByName(sys, cs[k].name) == Some(cs[k])
    ensures forall n :: n in conns && n != start ==> exists k :: 0 <= k < |cs| && cs[k].name == n
    decreases |conns|
  {
    if |conns| == 0 then []
    else
      var rest := Candidates(sys, conns[1..], start);
      if conns[0] == start then
        CandidatesCover(None, rest, conns, start);
        rest
      else
        var c := CaveByName(sys, conns[0]).value;
        CandidatesCover(Some(c), rest, conns, start);
        assert ([c] + rest)[0] == c;
        [c] + rest
  }

  /** Every connection but the start cave, `conns[0]` included, is named
      by a candidate once the candidates of `conns[1..]` are preceded by
      the cave of `conns[0]`, or by nothing when `conns[0]` is the start. */
  lemma CandidatesCover(head: Option<Cave>, rest: seq<Cave>, conns: seq<string>, start: string)
    requires |conns| > 0
    requires head.None? <==> conns[0] == start
    requires head.Some? ==> head.value.name == conns[0]
    requires forall n :: n in conns[1..] && n != start ==> exists k :: 0 <= k < |rest| && rest[k].name == n
    ensures var cs := if head.Some? then [head.value] + rest else rest;
      forall n :: n in conns && n != start ==> exists k :: 0 <= k < |cs| && cs[k].name == n
  {
    var cs := if head.Some? then [head.value] + rest else rest;
    forall n | n in conns && n != start
      ensures exists k :: 0 <= k < |cs| && cs[k].name == n
    {
      if n == conns[0] {
        assert cs[0].name == n;
      } else {
        assert n in conns[1..];
        var k :| 0 <= k < |rest| && rest[k].name == n;
        if head.Some? {
          assert cs[k + 1] == rest[k];
        } else {
          assert cs[k] == rest[k];
        }
      }
    }
  }

  predicate DistinctNames(cs: seq<Cave>)
  {
    forall k, l :: 0 <= k < l < |cs| ==> cs[k].name != cs[l].name
  }

  predicate DistinctCurrents(kids: seq<Navigator>)
  {
    forall k, l :: 0 <= k < l < |kids| ==> kids[k].current != kids[l].current
  }

  /** Without repeated connections, no neighbour is listed twice. */
  lemma {:induction false} CandidatesDistinct(sys: CaveSystem, conns: seq<string>, start: string)
    requires forall k :: 0 <= k < |conns| ==> Contains(sys, conns[k])
    ensures (forall k, l :: 0 <= k < l < |conns| ==> conns[k] != conns[l]) ==> DistinctNames(Candidates(sys, conns, start))
    decreases |conns|
  {
    if |conns| > 0 && forall k, l :: 0 <= k < l < |conns| ==> conns[k] != conns[l] {
      CandidatesDistinct(sys, conns[1..], start);
      var rest := Candidates(sys, conns[1..], start);
      if conns[0] != start {
        assert conns[0] !in conns[1..];
        ConsDistinct(CaveByName(sys, conns[0]).value, rest);
      }
    }
  }

  lemma ConsDistinct(c: Cave, rest: seq<Cave>)
    requires DistinctNames(rest)
    requires forall k :: 0 <= k < |rest| ==> rest[k].name != c.name
    ensures DistinctNames([c] + rest)
  {
    var cs := [c] + rest;
    forall k, l | 0 <= k < l < |cs|
      ensures cs[k].name != cs[l].name
    {
      assert cs[l] == rest[l - 1];
      if k > 0 {
        assert cs[k] == rest[k - 1];
      }
    }
  }

  /** The copies that walk into `cs`, in order, skipping the neighbours
      the navigator is not interested in. */
  function Spawn(nav: Navigator, cs: seq<Cave>, budget: nat): (kids: seq<Navigator>)
    ensures forall kid :: kid in kids ==> exists k :: 0 <= k < |cs| && IsInterested(nav, cs[k], budget) && kid == WalkIn(nav, cs[k])
    ensures forall k :: 0 <= k < |cs| && IsInterested(nav, cs[k], budget) ==> WalkIn(nav, cs[k]) in kids
    decreases |cs|
  {
    if |cs| == 0 then []
    else
      var init := cs[..|cs| - 1];
      var last := cs[|cs| - 1];
      var kids := Spawn(nav, init, budget) + (if IsInterested(nav, last, budget) then [WalkIn(nav, last)] else []);
      assert forall k :: 0 <= k < |init| ==> init[k] == cs[k];
      kids
  }

  /** What replaces a navigator outside the end cave: copies for the
      second neighbour onwards, then the navigator itself walking into the
      first neighbour (when interested). No neighbours, no successors. */
  function Children(nav: Navigator, cs: seq<Cave>, budget: nat): (kids: seq<Navigator>)
    ensures forall kid :: kid in kids ==> exists k :: 0 <= k < |cs| && IsInterested(nav, cs[k], budget) && kid == WalkIn(nav, cs[k])
    ensures forall k :: 0 <= k < |cs| && IsInterested(nav, cs[k], budget) ==> WalkIn(nav, cs[k]) in kids
  {
    if |cs| == 0 then []
    else
      var tail := cs[1..];
      assert forall k :: 0 <= k < |tail| ==> tail[k] == cs[k + 1];
      Spawn(nav, tail, budget) + (if IsInterested(nav, cs[0], budget) then [WalkIn(nav, cs[0])] else [])
  }

  /** Distinct neighbours give successors standing in distinct caves. */
  lemma {:induction false} SpawnDistinct(nav: Navigator, cs: seq<Cave>, budget: nat)
    requires DistinctNames(cs)
    ensures DistinctCurrents(Spawn(nav, cs, budget))
    decreases |cs|
  {
    if |cs| > 0 {
      var init := cs[..|cs| - 1];
      var last := cs[|cs| - 1];
      SpawnDistinct(nav, init, budget);
      var before := Spawn(nav, init, budget);
      var kids := Spawn(nav, cs, budget);
      forall kid | kid in before
        ensures kid.current != last.name
      {
        var k :| 0 <= k < |init| && IsInterested(nav, init[k], budget) && kid == WalkIn(nav, init[k]);
        assert init[k] == cs[k];
      }
      forall k, l | 0 <= k < l < |kids|
        ensures kids[k].current != kids[l].current
      {
        if l < |before| {
          assert kids[k] == before[k] && kids[l] == before[l];
        } else {
          assert kids[k] in before;
          assert kids[l] == WalkIn(nav, last);
        }
      }
    }
  }

  lemma ChildrenDistinct(nav: Navigator, cs: seq<Cave>, budget: nat)
    requires DistinctNames(cs)
    ensures DistinctCurrents(Children(nav, cs, budget))
  {
    if |cs| > 0 {
      var tail := cs[1..];
      SpawnDistinct(nav, tail, budget);
      var before := Spawn(nav, tail, budget);
      var kids := Children(nav, cs, budget);
      forall kid | kid in before
        ensures kid.current != cs[0].name
      {
        var k :| 0 <= k < |tail| && IsInterested(nav, tail[k], budget) && kid == WalkIn(nav, tail[k]);
        assert tail[k] == cs[k + 1];
      }
      forall k, l | 0 <= k < l < |kids|
        ensures kids[k].current != kids[l].current
      {
        if l < |before| {
          assert kids[k] == before[k] && kids[l] == before[l];
        } else {
          assert kids[k] in before;
        }
      }
    }
  }

  /** The successors of a navigator track partial walks. */
  lemma ChildrenTrack(sys: CaveSystem, start: string, end: string, budget: nat, nav: Navigator, cs: seq<Cave>)
    requires WellFormed(sys)
    requires Tracks(sys, start, end, budget, nav)
    requires nav.current != end
    requires Contains(sys, nav.current)
    requires cs == Candidates(sys, Neighbours(sys, nav.current), start)
    ensures forall kid :: kid in Children(nav, cs, budget) ==> Tracks(sys, start, end, budget, kid)
  {
    forall kid | kid in Children(nav, cs, budget)
      ensures Tracks(sys, start, end, budget, kid)
    {
      var k :| 0 <= k < |cs| && IsInterested(nav, cs[k], budget) && kid == WalkIn(nav, cs[k]);
      InterestedIffExtends(sys, start, end, budget, nav, cs[k]);
    }
  }

  /** Every walk through a navigator's report goes through one of its
      successors. */
  lemma ChildrenCover(sys: CaveSystem, start: string, end: string, budget: nat, nav: Navigator, cs: seq<Cave>)
    requires WellFormed(sys)
    requires Tracks(sys, start, end, budget, nav)
    requires nav.current != end
    requires Contains(sys, nav.current)
    requires cs == Candidates(sys, Neighbours(sys, nav.current), start)
    ensures forall w :: IsWalk(sys, start, end, budget, w) && Report(nav) <= w ==>
      exists kid :: kid in Children(nav, cs, budget) && Report(kid) <= w
  {
    forall w | IsWalk(sys, start, end, budget, w) && Report(nav) <= w
      ensures exists kid :: kid in Children(nav, cs, budget) && Report(kid) <= w
    {
      ChildCovers(sys, start, end, budget, nav, cs, w);
    }
  }

  lemma ChildCovers(sys: CaveSystem, start: string, end: string, budget: nat, nav: Navigator, cs: seq<Cave>, w: seq<string>)
    requires WellFormed(sys)
    requires Tracks(sys, start, end, budget, nav)
    requires nav.current != end
    requires Contains(sys, nav.current)
    requires cs == Candidates(sys, Neighbours(sys, nav.current), start)
    requires IsWalk(sys, start, end, budget, w) && Report(nav) <= w
    ensures exists kid :: kid in Children(nav, cs, budget) && Report(kid) <= w
  {
    var p := Report(nav);
    WalkContinues(sys, start, end, budget, p, w);
    var x := w[|p|];
    var k :| 0 <= k < |cs| && cs[k].name == x;
    InterestedIffExtends(sys, start, end, budget, nav, cs[k]);
    var kid := WalkIn(nav, cs[k]);
    assert kid in Children(nav, cs, budget);
    assert Report(kid) <= w;
  }

  /** The neighbour list of `find_paths`: the current cave's connections
      without the start cave, looked up in the system. */
  function NeighbourCaves(sys: CaveSystem, current: string, start: string): (cs: seq<Cave>)
    requires WellFormed(sys) && Contains(sys, current)
    ensures cs == Candidates(sys, Neighbours(sys, current), start)
    ensures NoRepeatedConnections(sys) ==> DistinctNames(cs)
  {
    var cave := CaveByName(sys, current).value;
    var i := Position(sys.caves, current).value;
    assert sys.caves[i] == cave;
    assert forall k :: 0 <= k < |cave.connections| ==> Contains(sys, cave.connections[k]);
    CandidatesDistinct(sys, cave.connections, start);
    Candidates(sys, cave.connections, start)
  }

  /** The branching step of `find_paths`: copies of the navigator walk into
      the second neighbour onwards, then the navigator itself walks into the
      first one, each only when interested. */
  method Successors(nav: Navigator, neighbours: seq<Cave>, revisits: nat) returns (kids: seq<Navigator>)
    ensures kids == Children(nav, neighbours, revisits)
  {
    kids := [];
    if |neighbours| > 1 {
      var j := 1;
      while j < |neighbours|
        invariant 1 <= j <= |neighbours|
        invariant kids == Spawn(nav, neighbours[1..j], revisits)
      {
        assert neighbours[1..j + 1][..j - 1] == neighbours[1..j];
        var copy := nav;
        if IsInterested(copy, neighbours[j], revisits) {
          copy := WalkIn(copy, neighbours[j]);
          kids := kids + [copy];
        }
        j := j + 1;
      }
      assert neighbours[1..j] == neighbours[1..];
    }
    if |neighbours| > 0 && IsInterested(nav, neighbours[0], revisits) {
      kids := kids + [WalkIn(nav, neighbours[0])];
    }
  }

  // ---------------------------------------------------------------------
  // The search

  /** `w` is retired already, or some active navigator is on its way. */
  ghost predicate Covered(w: seq<string>, active: seq<Navigator>, exited: seq<Navigator>)
  {
    (exists i :: 0 <= i < |exited| && Report(exited[i]) == w)
    || (exists k :: 0 <= k < |active| && Report(active[k]) <= w)
  }

  ghost predicate AllCovered(sys: CaveSystem, start: string, end: string, budget: nat, active: seq<Navigator>, exited: seq<Navigator>)
  {
    forall w :: IsWalk(sys, start, end, budget, w) ==> Covered(w, active, exited)
  }

  /** Retiring a navigator that stands in the end cave keeps every walk
      covered. */
  lemma ExitKeepsCoverage(sys: CaveSystem, start: string, end: string, budget: nat, active: seq<Navigator>, exited: seq<Navigator>)
    requires |active| > 0
    requires active[|active| - 1].current == end
    requires AllCovered(sys, start, end, budget, active, exited)
    ensures AllCovered(sys, start, end, budget, active[..|active| - 1], exited + [active[|active| - 1]])
  {
    var nav := active[|active| - 1];
    var rest := active[..|active| - 1];
    var exited' := exited + [nav];
    forall w | IsWalk(sys, start, end, budget, w)
      ensures Covered(w, rest, exited')
    {
      if exists i :: 0 <= i < |exited| && Report(exited[i]) == w {
        var i :| 0 <= i < |exited| && Report(exited[i]) == w;
        assert exited'[i] == exited[i];
      } else {
        var k :| 0 <= k < |active| && Report(active[k]) <= w;
        if k < |rest| {
          assert rest[k] == active[k];
        } else {
          WalkMaximal(sys, start, end, budget, Report(nav), w);
          assert exited'[|exited|] == nav;
        }
      }
    }
  }

  /** Replacing the last navigator by its successors keeps every walk
      covered. */
  lemma BranchKeepsCoverage(sys: CaveSystem, start: string, end: string, budget: nat, active: seq<Navigator>, exited: seq<Navigator>, kids: seq<Navigator>)
    requires |active| > 0
    requires forall w :: IsWalk(sys, start, end, budget, w) && Report(active[|active| - 1]) <= w ==>
      exists kid :: kid in kids && Report(kid) <= w
    requires AllCovered(sys, start, end, budget, active, exited)
    ensures AllCovered(sys, start, end, budget, active[..|active| - 1] + kids, exited)
  {
    var nav := active[|active| - 1];
    var rest := active[..|active| - 1];
    var active' := rest + kids;
    forall w | IsWalk(sys, start, end, budget, w)
      ensures Covered(w, active', exited)
    {
      if !(exists i :: 0 <= i < |exited| && Report(exited[i]) == w) {
        var k :| 0 <= k < |active| && Report(active[k]) <= w;
        if k < |rest| {
          assert active'[k] == active[k];
        } else {
          var kid :| kid in kids && Report(kid) <= w;
          var j :| 0 <= j < |kids| && kids[j] == kid;
          assert active'[|rest| + j] == kid;
        }
      }
    }
  }

  /** No active report is a beginning of another one. */
  ghost predicate Incomparable(navs: seq<Navigator>)
  {
    forall i, j :: 0 <= i < |navs| && 0 <= j < |navs| && i != j ==> !(Report(navs[i]) <= Report(navs[j]))
  }

  /** Active reports are pairwise incomparable, retired reports pairwise
      different, and no active report begins a retired one. */
  ghost predicate Separate(active: seq<Navigator>, exited: seq<Navigator>)
  {
    && Incomparable(active)
    && (forall i, j :: 0 <= i < j < |exited| ==> Report(exited[i]) != Report(exited[j]))
    && (forall k, i :: 0 <= k < |active| && 0 <= i < |exited| ==> !(Report(active[k]) <= Report(exited[i])))
  }

  lemma ExitKeepsSeparate(active: seq<Navigator>, exited: seq<Navigator>)
    requires |active| > 0
    requires Separate(active, exited)
    ensures Separate(active[..|active| - 1], exited + [active[|active| - 1]])
  {
    var nav := active[|active| - 1];
    var rest := active[..|active| - 1];
    var exited' := exited + [nav];
    forall i, j | 0 <= i < j < |exited'|
      ensures Report(exited'[i]) != Report(exited'[j])
    {
      if j == |exited| {
        assert !(Report(active[|active| - 1]) <= Report(exited[i]));
      } else {
        assert exited'[i] == exited[i] && exited'[j] == exited[j];
      }
    }
    forall k, i | 0 <= k < |rest| && 0 <= i < |exited'|
      ensures !(Report(rest[k]) <= Report(exited'[i]))
    {
      assert rest[k] == active[k];
      if i < |exited| {
        assert exited'[i] == exited[i];
      } else {
        assert k != |active| - 1;
      }
    }
    forall i, j | 0 <= i < |rest| && 0 <= j < |rest| && i != j
      ensures !(Report(rest[i]) <= Report(rest[j]))
    {
      assert rest[i] == active[i] && rest[j] == active[j];
    }
  }

  /** One-step extensions of a report that nothing else begins or is
      begun by stay apart from everything else. */
  lemma ExtensionApart(r: seq<string>, x: string, o: seq<string>)
    requires !(r <= o) && !(o <= r)
    ensures !(r + [x] <= o) && !(o <= r + [x])
  {
  }

  lemma BranchKeepsSeparate(active: seq<Navigator>, exited: seq<Navigator>, kids: seq<Navigator>)
    requires |active| > 0
    requires Separate(active, exited)
    requires DistinctCurrents(kids)
    requires forall kid :: kid in kids ==> Report(kid) == Report(active[|active| - 1]) + [kid.current]
    ensures Separate(active[..|active| - 1] + kids, exited)
  {
    var nav := active[|active| - 1];
    var r := Report(nav);
    var rest := active[..|active| - 1];
    var active' := rest + kids;
    forall i, j | 0 <= i < |active'| && 0 <= j < |active'| && i != j
      ensures !(Report(active'[i]) <= Report(active'[j]))
    {
      if i < |rest| && j < |rest| {
        assert active'[i] == active[i] && active'[j] == active[j];
      } else if i < |rest| {
        assert active'[i] == active[i];
        assert active'[j] in kids;
        ExtensionApart(r, active'[j].current, Report(active[i]));
      } else if j < |rest| {
        assert active'[j] == active[j];
        assert active'[i] in kids;
        ExtensionApart(r, active'[i].current, Report(active[j]));
      } else {
        var a, b := active'[i], active'[j];
        assert a == kids[i - |rest|] && b == kids[j - |rest|];
        assert a.current != b.current;
        assert a in kids && b in kids;
        assert Report(a)[|r|] == a.current;
      }
    }
    forall k, i | 0 <= k < |active'| && 0 <= i < |exited|
      ensures !(Report(active'[k]) <= Report(exited[i]))
    {
      if k < |rest| {
        assert active'[k] == active[k];
      } else {
        assert active'[k] in kids;
        assert !(r <= Report(exited[i]));
      }
    }
  }

  /** What holds of the navigators before and after every round of the
      search. */
  ghost predicate SearchInvariant(sys: CaveSystem, start: string, end: string, budget: nat, active: seq<Navigator>, exited: seq<Navigator>)
  {
    && (forall k :: 0 <= k < |active| ==> Tracks(sys, start, end, budget, active[k]))
    && (forall i :: 0 <= i < |exited| ==> IsWalk(sys, start, end, budget, Report(exited[i])))
    && AllCovered(sys, start, end, budget, active, exited)
    && (NoRepeatedConnections(sys) ==> Separate(active, exited))
  }

  /** A navigator that reached the end leaves the stack for the list of
      walks found, and the search invariant survives. */
  lemma ExitStep(sys: CaveSystem, start: string, end: string, revisits: nat, active: seq<Navigator>, exited: seq<Navigator>)
    requires |active| > 0 && active[|active| - 1].current == end
    requires SearchInvariant(sys, start, end, revisits, active, exited)
    ensures SearchInvariant(sys, start, end, revisits, active[..|active| - 1], exited + [active[|active| - 1]])
  {
    var nav := active[|active| - 1];
    var exited' := exited + [nav];
    assert Tracks(sys, start, end, revisits, nav);
    ExitKeepsCoverage(sys, start, end, revisits, active, exited);
    if NoRepeatedConnections(sys) {
      ExitKeepsSeparate(active, exited);
    }
    assert forall i :: 0 <= i < |exited| ==> exited'[i] == exited[i];
  }

  /** The navigator on top of the stack is not in the end cave, so it
      stands in a known cave. */
  lemma TopKnown(sys: CaveSystem, start: string, end: string, revisits: nat, active: seq<Navigator>, exited: seq<Navigator>)
    requires WellFormed(sys) && |active| > 0
    requires SearchInvariant(sys, start, end, revisits, active, exited)
    ensures Contains(sys, active[|active| - 1].current)
  {
    var nav := active[|active| - 1];
    assert Tracks(sys, start, end, revisits, nav);
    PartialWalkKnown(sys, start, end, revisits, Report(nav));
  }

  /** A navigator elsewhere is replaced by its successors, and the search
      invariant survives. */
  lemma BranchStep(sys: CaveSystem, start: string, end: string, revisits: nat, active: seq<Navigator>, exited: seq<Navigator>)
    requires WellFormed(sys)
    requires |active| > 0 && active[|active| - 1].current != end
    requires SearchInvariant(sys, start, end, revisits, active, exited)
    ensures Contains(sys, active[|active| - 1].current)
    ensures var nav := active[|active| - 1];
      var kids := Children(nav, NeighbourCaves(sys, nav.current, start), revisits);
      SearchInvariant(sys, start, end, revisits, active[..|active| - 1] + kids, exited)
  {
    var nav := active[|active| - 1];
    var rest := active[..|active| - 1];
    TopKnown(sys, start, end, revisits, active, exited);
    var neighbours := NeighbourCaves(sys, nav.current, start);
    var kids := Children(nav, neighbours, revisits);
    ChildrenCover(sys, start, end, revisits, nav, neighbours);
    BranchKeepsCoverage(sys, start, end, revisits, active, exited, kids);
    BranchTracks(sys, start, end, revisits, active, neighbours);
    if NoRepeatedConnections(sys) {
      BranchSeparate(active, exited, neighbours, revisits);
    }
  }

  /** Every navigator of the stack follows a partial walk. */
  ghost predicate AllTrack(sys: CaveSystem, start: string, end: string, budget: nat, navs: seq<Navigator>)
  {
    forall k :: 0 <= k < |navs| ==> Tracks(sys, start, end, budget, navs[k])
  }

  /** The navigators below the top and the top's successors all follow
      partial walks. */
  lemma BranchTracks(sys: CaveSystem, start: string, end: string, revisits: nat, active: seq<Navigator>, neighbours: seq<Cave>)
    requires WellFormed(sys)
    requires |active| > 0 && active[|active| - 1].current != end
    requires forall k :: 0 <= k < |active| ==> Tracks(sys, start, end, revisits, active[k])
    requires Contains(sys, active[|active| - 1].current)
    requires neighbours == Candidates(sys, Neighbours(sys, active[|active| - 1].current), start)
    ensures AllTrack(sys, start, end, revisits, active[..|active| - 1] + Children(active[|active| - 1], neighbours, revisits))
  {
    var nav := active[|active| - 1];
    var rest := active[..|active| - 1];
    var kids := Children(nav, neighbours, revisits);
    ChildrenTrack(sys, start, end, revisits, nav, neighbours);
    forall k | 0 <= k < |rest + kids|
      ensures Tracks(sys, start, end, revisits, (rest + kids)[k])
    {
      if k >= |rest| {
        assert (rest + kids)[k] == kids[k - |rest|];
      } else {
        assert (rest + kids)[k] == active[k];
      }
    }
  }

  /** With distinct neighbours, the successors keep the walks of the
      navigators and of the walks found apart. */
  lemma BranchSeparate(active: seq<Navigator>, exited: seq<Navigator>, neighbours: seq<Cave>, revisits: nat)
    requires |active| > 0
    requires Separate(active, exited)
    requires DistinctNames(neighbours)
    ensures Separate(active[..|active| - 1] + Children(active[|active| - 1], neighbours, revisits), exited)
  {
    var nav := active[|active| - 1];
    var kids := Children(nav, neighbours, revisits);
    ChildrenDistinct(nav, neighbours, revisits);
    forall kid | kid in kids
      ensures Report(kid) == Report(nav) + [kid.current]
    {
      var k :| 0 <= k < |neighbours| && IsInterested(nav, neighbours[k], revisits) && kid == WalkIn(nav, neighbours[k]);
    }
    BranchKeepsSeparate(active, exited, kids);
  }

  /** One round of `find_paths`: the last navigator is taken off the
      stack; in the end cave it retires, otherwise its successors are
      pushed. */
  method SearchStep(sys: CaveSystem, start: string, end: string, revisits: nat, active: seq<Navigator>, exited: seq<Navigator>)
    returns (active': seq<Navigator>, exited': seq<Navigator>)
    requires WellFormed(sys)
    requires |active| > 0
    requires SearchInvariant(sys, start, end, revisits, active, exited)
    ensures SearchInvariant(sys, start, end, revisits, active', exited')
  {
    var nav := active[|active| - 1];
    var rest := active[..|active| - 1];
    if nav.current == end {
      ExitStep(sys, start, end, revisits, active, exited);
      active', exited' := rest, exited + [nav];
    } else {
      BranchStep(sys, start, end, revisits, active, exited);
      var kids := Successors(nav, NeighbourCaves(sys, nav.current, start), revisits);
      active', exited' := rest + kids, exited;
    }
  }

  /** The search starts from one navigator at the start cave, which
      begins every walk. */
  lemma SearchStart(sys: CaveSystem, start: string, end: string, revisits: nat)
    requires WellFormed(sys) && Contains(sys, start)
    ensures SearchInvariant(sys, start, end, revisits, [NewNavigator(CaveByName(sys, start).value)], [])
  {
    var active := [NewNavigator(CaveByName(sys, start).value)];
    assert Report(active[0]) == [start];
    assert [start][..0] == [];
    assert Revisits([start]) == 0;
    forall w | IsWalk(sys, start, end, revisits, w)
      ensures Covered(w, active, [])
    {
      assert Report(active[0]) <= w;
    }
  }

  /** What the search invariant gives once the loop stops: the reports of
      the retired navigators are walks; with no navigator left, every walk
      is among them; with no connection recorded twice, they differ. */
  lemma SearchResults(sys: CaveSystem, start: string, end: string, revisits: nat,
                      active: seq<Navigator>, exited: seq<Navigator>, paths: seq<seq<string>>)
    requires SearchInvariant(sys, start, end, revisits, active, exited)
    requires |paths| == |exited| && forall i :: 0 <= i < |exited| ==> paths[i] == Report(exited[i])
    ensures forall k :: 0 <= k < |paths| ==> IsWalk(sys, start, end, revisits, paths[k])
    ensures |active| == 0 ==> forall w :: IsWalk(sys, start, end, revisits, w) ==> w in paths
    ensures NoRepeatedConnections(sys) ==> forall i, j :: 0 <= i < j < |paths| ==> paths[i] != paths[j]
  {
    if |active| == 0 {
      forall w | IsWalk(sys, start, end, revisits, w)
        ensures w in paths
      {
        assert Covered(w, active, exited);
        var i :| 0 <= i < |exited| && Report(exited[i]) == w;
        assert paths[i] == w;
      }
    }
  }

  /** Every cave a partial walk passes through is a known cave. */
  lemma WalkKnown(sys: CaveSystem, start: string, end: string, budget: nat, p: seq<string>)
    requires WellFormed(sys) && IsPartialWalk(sys, start, end, budget, p)
    ensures forall k :: 0 <= k < |p| ==> Contains(sys, p[k])
  {
    forall k | 0 <= k < |p|
      ensures Contains(sys, p[k])
    {
      PartialWalkPrefix(sys, start, end, budget, p, k + 1);
      PartialWalkKnown(sys, start, end, budget, p[..k + 1]);
    }
  }

  /** A walk through caves whose names hold no comma is made of
      comma-free names. */
  lemma CommaFreeWalk(sys: CaveSystem, start: string, end: string, budget: nat, p: seq<string>)
    requires WellFormed(sys) && CommaFree(sys) && IsPartialWalk(sys, start, end, budget, p)
    ensures forall k :: 0 <= k < |p| ==> ',' !in p[k]
  {
    WalkKnown(sys, start, end, budget, p);
    forall k | 0 <= k < |p|
      ensures ',' !in p[k]
    {
      var i := Position(sys.caves, p[k]).value;
      assert sys.caves[i].name == p[k];
    }
  }

  /** Different walks through caves whose names hold no comma print as
      different lines. */
  lemma RenderedDistinct(sys: CaveSystem, start: string, end: string, budget: nat, paths: seq<seq<string>>)
    requires WellFormed(sys) && CommaFree(sys)
    requires forall k :: 0 <= k < |paths| ==> IsWalk(sys, start, end, budget, paths[k])
    requires forall i, j :: 0 <= i < j < |paths| ==> paths[i] != paths[j]
    ensures forall i, j :: 0 <= i < j < |paths| ==> Render(paths[i]) != Render(paths[j])
  {
    forall i, j | 0 <= i < j < |paths|
      ensures Render(paths[i]) != Render(paths[j])
    {
      CommaFreeWalk(sys, start, end, budget, paths[i]);
      CommaFreeWalk(sys, start, end, budget, paths[j]);
      if Render(paths[i]) == Render(paths[j]) {
        RenderInjective(paths[i], paths[j]);
        assert false;
      }
    }
  }

  /** `CaveSystem::find_paths`. Unknown end points are an error. Every
      reported walk leads from `start` to `end` along connections, never
      re-enters `start` (nor a cave named "start"), and re-enters small
      caves at most `revisits` times; when the search finishes below the
      iteration cap, every such walk is reported. When no connection is
      recorded twice, no walk is reported twice. Reaching the cap is not
      an error: the walks found so far are returned. */
  method FindPaths(sys: CaveSystem, start: string, end: string, revisits: nat)
    returns (r: Result<seq<seq<string>>>, iterations: nat)
    requires WellFormed(sys)
    ensures r.Ok? <==> Contains(sys, start) && Contains(sys, end)
    ensures !r.Panic?
    ensures iterations <= MaxIterations
    ensures r.Ok? ==> forall k :: 0 <= k < |r.value| ==> IsWalk(sys, start, end, revisits, r.value[k])
    ensures r.Ok? && iterations < MaxIterations ==>
      forall w :: IsWalk(sys, start, end, revisits, w) ==> w in r.value
    ensures r.Ok? && NoRepeatedConnections(sys) ==>
      forall i, j :: 0 <= i < j < |r.value| ==> r.value[i] != r.value[j]
    ensures r.Ok? && NoRepeatedConnections(sys) && CommaFree(sys) ==>
      forall i, j :: 0 <= i < j < |r.value| ==> Render(r.value[i]) != Render(r.value[j])
  {
    iterations := 0;
    if !Contains(sys, start) || !Contains(sys, end) {
      r := Err("unknown cave");
      return;
    }
    var active := [NewNavigator(CaveByName(sys, start).value)];
    var exited: seq<Navigator> := [];
    SearchStart(sys, start, end, revisits);
    while |active| > 0 && iterations < MaxIterations
      invariant iterations <= MaxIterations
      invariant SearchInvariant(sys, start, end, revisits, active, exited)
      decreases MaxIterations - iterations
    {
      active, exited := SearchStep(sys, start, end, revisits, active, exited);
      iterations := iterations + 1;
    }
    var paths := seq(|exited|, i requires 0 <= i < |exited| => Report(exited[i]));
    SearchResults(sys, start, end, revisits, active, exited, paths);
    if NoRepeatedConnections(sys) && CommaFree(sys) {
      RenderedDistinct(sys, start, end, revisits, paths);
    }
    r := Ok(paths);
  }
}

=== FILE: day13_main.dfy ===
/** Day 13's input and its folds: dot lines `x,y` up to the first empty
    line, then fold lines `fold along x=5` or `fold along y=7`. */
module Origami {
  import opened Common
  import opened TransparentPaper

  /** `Fold::Left(x)` folds along the vertical line `x`, `Fold::Up(y)`
      along the horizontal line `y`. */
  datatype Fold = Left(x: int) | Up(y: int)

  const FoldPrefix: string := "fold along "

  // ---------------------------------------------------------------------
  // Fold lines

  /** `Fold::from_str`: the prefix is required and something must follow
      it; the next character picks the axis, and the number is read from
      two characters further on, so the character in between is never
      looked at. A missing number panics on the slice, a malformed or
      out-of-range one on `expect`. The error carries no message. */
  function ParseFold(s: string): (r: Result<Fold>)
    ensures r.Err? <==> !(FoldPrefix <= s) || |s| == |FoldPrefix| || s[|FoldPrefix|] !in {'x', 'y'}
    ensures r.Panic? <==>
      && FoldPrefix <= s && |s| > |FoldPrefix| && s[|FoldPrefix|] in {'x', 'y'}
      && (|s| < |FoldPrefix| + 2 || ParseIntIn(s[|FoldPrefix| + 2..], I32Lo, I32Hi).None?)
    ensures r.Ok? ==> (r.value.Left? <==> s[|FoldPrefix|] == 'x')
    ensures r.Ok? ==> ParseIntIn(s[|FoldPrefix| + 2..], I32Lo, I32Hi) == Some(Line(r.value))
  {
    match StripPrefix(s, FoldPrefix)
    case None => Err("")
    case Some(t) =>
      if |t| == 0 || (t[0] != 'x' && t[0] != 'y') then Err("")
      else if |t| < 2 then Panic("byte index 2 is out of range")
      else
        match ParseIntIn(t[2..], I32Lo, I32Hi)
        case None => Panic("Could not parse fold")
        case Some(n) => Ok(if t[0] == 'x' then Left(n) else Up(n))
  }

  /** The line a fold is made along. */
  function Line(f: Fold): int
  {
    match f
    case Left(x) => x
    case Up(y) => y
  }

  /** The fold as the puzzle writes it. */
  function ShowFold(f: Fold): string
  {
    FoldPrefix + (if f.Left? then "x=" else "y=") + ShowInt(Line(f))
  }

  /** A fold written out parses back to itself. */
  lemma ParseShowFold(f: Fold)
    requires I32Lo <= Line(f) < I32Hi
    ensures ParseFold(ShowFold(f)) == Ok(f)
  {
    var s := ShowFold(f);
    assert s[..|FoldPrefix|] == FoldPrefix;
    assert s[|FoldPrefix| + 2..] == ShowInt(Line(f));
    ParseShowIntIn(Line(f), I32Lo, I32Hi);
  }

  // ---------------------------------------------------------------------
  // Dot lines

  /** A dot line `x,y`: the text is split at commas and the first two
      pieces read as `i32`; a bad first number panics before a missing
      second piece is noticed, and pieces past the second are ignored. */
  function ParseDot(line: string): (r: Result<Dot>)
    ensures !r.Err?
    ensures var parts := Split(line, ",");
      r.Ok? <==> ParseIntIn(parts[0], I32Lo, I32Hi).Some? && |parts| >= 2 && ParseIntIn(parts[1], I32Lo, I32Hi).Some?
    ensures r.Ok? ==> var parts := Split(line, ",");
      ParseIntIn(parts[0], I32Lo, I32Hi) == Some(r.value.x) && ParseIntIn(parts[1], I32Lo, I32Hi) == Some(r.value.y)
  {
    var parts := Split(line, ",");
    match ParseIntIn(parts[0], I32Lo, I32Hi)
    case None => Panic("Could not read number")
    case Some(x) =>
      if |parts| < 2 then Panic("index out of bounds")
      else
        match ParseIntIn(parts[1], I32Lo, I32Hi)
        case None => Panic("Could not read number")
        case Some(y) => Ok(Dot(x, y))
  }

  function ShowDot(d: Dot): string
  {
    ShowInt(d.x) + "," + ShowInt(d.y)
  }

  predicate InRange(d: Dot)
  {
    I32Lo <= d.x < I32Hi && I32Lo <= d.y < I32Hi
  }

  /** A dot written out parses back to itself. */
  lemma ParseShowDot(d: Dot)
    requires InRange(d)
    ensures ParseDot(ShowDot(d)) == Ok(d)
  {
    var parts := [ShowInt(d.x), ShowInt(d.y)];
    assert ',' !in parts[0] && ',' !in parts[1];
    SplitJoin(parts, ',');
    assert Join(parts, ",") == ShowDot(d);
    ParseShowIntIn(d.x, I32Lo, I32Hi);
    ParseShowIntIn(d.y, I32Lo, I32Hi);
  }

  // ---------------------------------------------------------------------
  // The whole input

  /** The first empty line, or the end. */
  function FirstBlank(lines: seq<string>): (k: nat)
    ensures k <= |lines|
    ensures forall i :: 0 <= i < k ==> lines[i] != ""
    ensures k < |lines| ==> lines[k] == ""
  {
    if |lines| == 0 || lines[0] == "" then 0 else 1 + FirstBlank(lines[1..])
  }

  /** The lines before the first empty one. */
  function DotLines(lines: seq<string>): seq<string>
  {
    lines[..FirstBlank(lines)]
  }

  /** The lines after the first empty one; later empty lines are read as
      fold lines too. */
  function FoldLines(lines: seq<string>): seq<string>
  {
    var k := FirstBlank(lines);
    if k < |lines| then lines[k + 1..] else []
  }

  /** `parse`: every dot is added to a new paper and every fold kept in
      order. Any line that does not read panics, a fold line through
      `expect`. */
  function Parse(lines: seq<string>): (r: Result<(Paper, seq<Fold>)>)
    ensures !r.Err?
    ensures r.Ok? <==>
      && (forall i :: 0 <= i < |DotLines(lines)| ==> ParseDot(DotLines(lines)[i]).Ok?)
      && (forall i :: 0 <= i < |FoldLines(lines)| ==> ParseFold(FoldLines(lines)[i]).Ok?)
    ensures r.Ok? ==> forall e :: e in r.value.0.dots <==>
      exists i :: 0 <= i < |DotLines(lines)| && ParseDot(DotLines(lines)[i]) == Ok(e)
    ensures r.Ok? ==>
      && |r.value.1| == |FoldLines(lines)|
      && forall i :: 0 <= i < |FoldLines(lines)| ==> ParseFold(FoldLines(lines)[i]) == Ok(r.value.1[i])
  {
    var dotLines := DotLines(lines);
    var dots := ParseLines(dotLines, ParseDot);
    if !dots.Ok? then Panic(dots.msg)
    else
      var folds := ParseLines(FoldLines(lines), ParseFold);
      if folds.Err? then Panic("Could not parse fold")
      else if folds.Panic? then Panic(folds.msg)
      else
        ParsedValues(dotLines, ParseDot, dots.value);
        Ok((AddDots(New(), dots.value), folds.value))
  }

  function ShowDots(ds: seq<Dot>): (lines: seq<string>)
    ensures |lines| == |ds| && forall i :: 0 <= i < |ds| ==> lines[i] == ShowDot(ds[i])
  {
    seq(|ds|, i requires 0 <= i < |ds| => ShowDot(ds[i]))
  }

  function ShowFolds(fs: seq<Fold>): (lines: seq<string>)
    ensures |lines| == |fs| && forall i :: 0 <= i < |fs| ==> lines[i] == ShowFold(fs[i])
  {
    seq(|fs|, i requires 0 <= i < |fs| => ShowFold(fs[i]))
  }

  /** The input as the puzzle writes it. */
  function ShowInput(ds: seq<Dot>, fs: seq<Fold>): seq<string>
  {
    ShowDots(ds) + [""] + ShowFolds(fs)
  }

  /** The empty line written after the dots splits the input back into
      the dot lines and the fold lines. */
  lemma ShowInputParts(ds: seq<Dot>, fs: seq<Fold>)
    ensures DotLines(ShowInput(ds, fs)) == ShowDots(ds)
    ensures FoldLines(ShowInput(ds, fs)) == ShowFolds(fs)
  {
    var lines := ShowInput(ds, fs);
    forall i | 0 <= i < |ds|
      ensures lines[i] != ""
    {
      assert lines[i] == ShowDot(ds[i]);
    }
    FirstBlankAt(lines, |ds|);
    assert lines[..|ds|] == ShowDots(ds);
    assert lines[|ds| + 1..] == ShowFolds(fs);
  }

  lemma ParseShowDots(ds: seq<Dot>)
    requires forall i :: 0 <= i < |ds| ==> InRange(ds[i])
    ensures ParseLines(ShowDots(ds), ParseDot) == Ok(ds)
  {
    forall i | 0 <= i < |ds|
      ensures ParseDot(ShowDots(ds)[i]) == Ok(ds[i])
    {
      ParseShowDot(ds[i]);
    }
    var parsed := ParseLines(ShowDots(ds), ParseDot);
    assert parsed.Ok?;
    assert parsed.value == ds;
  }

  lemma ParseShowFolds(fs: seq<Fold>)
    requires forall i :: 0 <= i < |fs| ==> I32Lo <= Line(fs[i]) < I32Hi
    ensures ParseLines(ShowFolds(fs), ParseFold) == Ok(fs)
  {
    forall i | 0 <= i < |fs|
      ensures ParseFold(ShowFolds(fs)[i]) == Ok(fs[i])
    {
      ParseShowFold(fs[i]);
    }
    var parsed := ParseLines(ShowFolds(fs), ParseFold);
    assert parsed.Ok?;
    assert parsed.value == fs;
  }

  /** Reading a written input gives back the paper of its dots and its
      folds. */
  lemma ParseShowInput(ds: seq<Dot>, fs: seq<Fold>)
    requires forall i :: 0 <= i < |ds| ==> InRange(ds[i])
    requires forall i :: 0 <= i < |fs| ==> I32Lo <= Line(fs[i]) < I32Hi
    ensures Parse(ShowInput(ds, fs)) == Ok((AddDots(New(), ds), fs))
  {
    ShowInputParts(ds, fs);
    ParseShowDots(ds);
    ParseShowFolds(fs);
  }

  /** The first empty line is the first line that is empty. */
  lemma FirstBlankAt(lines: seq<string>, k: nat)
    requires k < |lines| && lines[k] == ""
    requires forall i :: 0 <= i < k ==> lines[i] != ""
    ensures FirstBlank(lines) == k
  {
  }

  // ---------------------------------------------------------------------
  // Folding

  /** A fold as `part1` and `part2` make it: `Up` folds along `y`, `Left`
      along `x`. */
  function Apply(p: Paper, f: Fold): (r: Paper)
    ensures |r.dots| <= |p.dots|
    ensures Bounded(r, f)
  {
    match f
    case Up(y) => FoldY(p, y)
    case Left(x) => FoldX(p, x)
  }

  /** A dot lies on the side of the line the fold keeps. */
  predicate Kept(d: Dot, f: Fold)
  {
    match f
    case Left(x) => d.x <= x
    case Up(y) => d.y <= y
  }

  /** Every dot of the paper lies on the side the fold keeps. */
  predicate Bounded(p: Paper, f: Fold)
  {
    forall d :: d in p.dots ==> Kept(d, f)
  }

  /** A later fold leaves every dot on the side an earlier fold kept. */
  lemma ApplyKeeps(p: Paper, g: Fold, f: Fold)
    requires Bounded(p, f)
    ensures Bounded(Apply(p, g), f)
  {
    var r := Apply(p, g);
    forall e | e in r.dots
      ensures Kept(e, f)
    {
      match g
      case Left(x) =>
        var d :| d in p.dots && FlipX(d, x) == e;
        assert Kept(d, f);
      case Up(y) =>
        var d :| d in p.dots && FlipY(d, y) == e;
        assert Kept(d, f);
    }
  }

  /** The folds in order, as `part2` makes them. */
  function ApplyAll(p: Paper, fs: seq<Fold>): (r: Paper)
    ensures |r.dots| <= |p.dots|
    decreases |fs|
  {
    if |fs| == 0 then p else ApplyAll(Apply(p, fs[0]), fs[1..])
  }

  /** Folding keeps a paper on the kept side of a line it already was. */
  lemma {:induction false} ApplyAllKeeps(p: Paper, fs: seq<Fold>, f: Fold)
    requires Bounded(p, f)
    ensures Bounded(ApplyAll(p, fs), f)
    decreases |fs|
  {
    if |fs| > 0 {
      ApplyKeeps(p, fs[0], f);
      ApplyAllKeeps(Apply(p, fs[0]), fs[1..], f);
    }
  }

  /** After all the folds, every dot lies on the kept side of every fold
      line. */
  lemma {:induction false} ApplyAllBounded(p: Paper, fs: seq<Fold>)
    ensures forall i :: 0 <= i < |fs| ==> Bounded(ApplyAll(p, fs), fs[i])
    decreases |fs|
  {
    if |fs| > 0 {
      var q := Apply(p, fs[0]);
      ApplyAllBounded(q, fs[1..]);
      ApplyAllKeeps(q, fs[1..], fs[0]);
      assert forall i :: 1 <= i < |fs| ==> fs[i] == fs[1..][i - 1];
    }
  }

  /** `part1` on the parsed input: the number of dots after the first
      fold; with no fold line the index panics, and a parse failure
      panics as the source's `expect` does. */
  function FirstFold(parsed: Result<(Paper, seq<Fold>)>): (r: Result<nat>)
    requires !parsed.Err?
    ensures !r.Err?
    ensures r.Ok? <==> parsed.Ok? && |parsed.value.1| > 0
    ensures r.Ok? ==> var (paper, folds) := parsed.value;
      r.value == |Apply(paper, folds[0]).dots| && r.value <= |paper.dots|
  {
    if !parsed.Ok? then Panic(parsed.msg)
    else
      var (paper, folds) := parsed.value;
      if |folds| == 0 then Panic("index out of bounds")
      else Ok(|Apply(paper, folds[0]).dots|)
  }

  /** `part1` from the lines of the input. */
  function Part1(lines: seq<string>): Result<nat>
  {
    FirstFold(Parse(lines))
  }

  /** `part2`: the paper after every fold, in order; it is then drawn,
      which is not part of this model. */
  function Part2(lines: seq<string>): (r: Result<Paper>)
    ensures !r.Err?
    ensures r.Ok? <==> Parse(lines).Ok?
    ensures r.Ok? ==> |r.value.dots| <= |Parse(lines).value.0.dots|
    ensures r.Ok? ==> forall i :: 0 <= i < |Parse(lines).value.1| ==> Bounded(r.value, Parse(lines).value.1[i])
  {
    var parsed := Parse(lines);
    if !parsed.Ok? then Panic(parsed.msg)
    else
      ApplyAllBounded(parsed.value.0, parsed.value.1);
      Ok(ApplyAll(parsed.value.0, parsed.value.1))
  }
}

=== FILE: day13_paper.dfy ===
/** Day 13: the transparent paper, a set of dots kept in a vector sorted
    by the dots' order and searched by bisection, and folded along a
    vertical or a horizontal line. */
module TransparentPaper {

  datatype Dot = Dot(x: int, y: int)

  datatype Ordering = Less | Equal | Greater

  /** `dot_order`: by `x` first, and by `y` between dots of the same
      `x`. */
  function DotOrder(d1: Dot, d2: Dot): (r: Ordering)
    ensures r == Equal <==> d1 == d2
    ensures r == Less <==> d1.x < d2.x || (d1.x == d2.x && d1.y < d2.y)
    ensures r == Greater <==> d2.x < d1.x || (d1.x == d2.x && d2.y < d1.y)
  {
    if d1.x < d2.x then Less
    else if d1.x > d2.x then Greater
    else if d1.y < d2.y then Less
    else if d1.y > d2.y then Greater
    else Equal
  }

  /** `a` comes strictly before `b` in the dots' order. */
  predicate Before(a: Dot, b: Dot)
  {
    DotOrder(a, b) == Less
  }

  /** The order the vector is kept in. `index_dot` hands the comparator
      the dot sought first and the element second, the reverse of what a
      bisection expects, so every dot is followed only by dots before it:
      the vector is strictly descending, hence free of repeats. */
  predicate Descending(ds: seq<Dot>)
  {
    forall i, j :: 0 <= i < j < |ds| ==> Before(ds[j], ds[i])
  }

  type Dots = ds: seq<Dot> | Descending(ds) witness []

  datatype Paper = Paper(dots: Dots)

  /** `Paper::new`. */
  function New(): (p: Paper)
    ensures forall d :: d !in p.dots
  {
    Paper([])
  }

  /** `num_dots`. */
  function NumDots(p: Paper): nat
  {
    |p.dots|
  }

  // ---------------------------------------------------------------------
  // Bisection

  /** `Ok(index)` of a dot found, or `Err(index)` of the place a missing
      dot goes to keep the order. */
  datatype Position = Found(index: nat) | InsertAt(index: nat)

  /** The place of `d` among `ds`: every dot before it comes after `d` in
      the dots' order, and every dot from it on comes before `d`. */
  predicate Gap(ds: seq<Dot>, d: Dot, i: int)
  {
    && 0 <= i <= |ds|
    && (forall j :: 0 <= j < i ==> Before(d, ds[j]))
    && (forall j :: i <= j < |ds| ==> Before(ds[j], d))
  }

  /** `binary_search_by` between `left` and `right`, with the comparator
      `dot_order(d, element)`: a `Less` answer moves the search right of
      the middle, `Greater` left of it. */
  function Bisect(ds: Dots, d: Dot, left: nat, right: nat): (r: Position)
    requires left <= right <= |ds|
    requires forall j :: 0 <= j < left ==> Before(d, ds[j])
    requires forall j :: right <= j < |ds| ==> Before(ds[j], d)
    ensures r.Found? ==> r.index < |ds| && ds[r.index] == d
    ensures r.InsertAt? ==> Gap(ds, d, r.index)
    decreases right - left
  {
    if left >= right then InsertAt(left)
    else
      var mid := left + (right - left) / 2;
      match DotOrder(d, ds[mid])
      case Less => Bisect(ds, d, mid + 1, right)
      case Greater => Bisect(ds, d, left, mid)
      case Equal => Found(mid)
  }

  /** `index_dot`: found exactly when the paper holds the dot. */
  function IndexDot(p: Paper, d: Dot): (r: Position)
    ensures r.Found? <==> d in p.dots
    ensures r.Found? ==> r.index < |p.dots| && p.dots[r.index] == d
    ensures r.InsertAt? ==> Gap(p.dots, d, r.index)
  {
    var r := Bisect(p.dots, d, 0, |p.dots|);
    assert r.InsertAt? ==> d !in p.dots by {
      if r.InsertAt? {
        assert forall j :: 0 <= j < |p.dots| ==> p.dots[j] != d;
      }
    }
    r
  }

  // ---------------------------------------------------------------------
  // Adding, finding and removing a dot

  /** `add_dot`: a dot not on the paper is inserted at its place; a dot
      already there changes nothing. */
  function AddDot(p: Paper, d: Dot): (r: Paper)
    ensures forall e :: e in r.dots <==> e in p.dots || e == d
    ensures |r.dots| == |p.dots| + (if d in p.dots then 0 else 1)
  {
    match IndexDot(p, d)
    case Found(_) => p
    case InsertAt(i) =>
      var ds := p.dots[..i] + [d] + p.dots[i..];
      assert forall j :: 0 <= j < |ds| ==> ds[j] == if j < i then p.dots[j] else if j == i then d else p.dots[j - 1];
      Paper(ds)
  }

  /** `has_dot`. */
  function HasDot(p: Paper, d: Dot): (r: bool)
    ensures r <==> d in p.dots
  {
    IndexDot(p, d).Found?
  }

  /** `remove_dot`: true exactly when the dot was there; afterwards it is
      gone and every other dot stays. */
  function RemoveDot(p: Paper, d: Dot): (r: (bool, Paper))
    ensures r.0 <==> d in p.dots
    ensures forall e :: e in r.1.dots <==> e in p.dots && e != d
    ensures |r.1.dots| == |p.dots| - (if r.0 then 1 else 0)
  {
    match IndexDot(p, d)
    case Found(i) =>
      var ds := p.dots[..i] + p.dots[i + 1..];
      assert forall j :: 0 <= j < |ds| ==> ds[j] == if j < i then p.dots[j] else p.dots[j + 1];
      (true, Paper(ds))
    case InsertAt(_) => (false, p)
  }

  /** Adding each dot of `ds` in turn. */
  function AddDots(p: Paper, ds: seq<Dot>): (r: Paper)
    ensures forall e :: e in r.dots <==> e in p.dots || e in ds
    ensures |r.dots| <= |p.dots| + |ds|
    decreases |ds|
  {
    if |ds| == 0 then p else AddDots(AddDot(p, ds[0]), ds[1..])
  }

  // ---------------------------------------------------------------------
  // A paper is its set of dots

  lemma HeadIn(ds: seq<Dot>)
    ensures |ds| > 0 ==> ds[0] in ds
  {
  }

  /** Two descending vectors with the same dots are the same vector. */
  lemma {:induction false} DescendingUnique(a: Dots, b: Dots)
    requires forall e :: e in a <==> e in b
    ensures a == b
    decreases |a|
  {
    if |a| == 0 {
      HeadIn(b);
    } else {
      assert a[0] in b;
      assert |b| > 0;
      assert b[0] in a;
      assert a[0] == b[0];
      forall e
        ensures e in a[1..] <==> e in b[1..]
      {
        if e in a[1..] {
          var i :| 1 <= i < |a| && a[i] == e;
          assert Before(e, a[0]);
          assert a[i] in a;
          var k :| 0 <= k < |b| && b[k] == e;
          assert b[1..][k - 1] == e;
        }
        if e in b[1..] {
          var i :| 1 <= i < |b| && b[i] == e;
          assert Before(e, b[0]);
          assert b[i] in b;
          var k :| 0 <= k < |a| && a[k] == e;
          assert a[1..][k - 1] == e;
        }
      }
      DescendingUnique(a[1..], b[1..]);
      assert a == [a[0]] + a[1..];
      assert b == [b[0]] + b[1..];
    }
  }

  /** A paper is fixed by the dots on it, whatever the order of the calls
      that put them there. */
  lemma SameDots(p: Paper, q: Paper)
    requires forall e :: e in p.dots <==> e in q.dots
    ensures p == q
  {
    DescendingUnique(p.dots, q.dots);
  }

  /** Adding a dot twice is adding it once. */
  lemma AddDotIdempotent(p: Paper, d: Dot)
    ensures AddDot(AddDot(p, d), d) == AddDot(p, d)
  {
    SameDots(AddDot(AddDot(p, d), d), AddDot(p, d));
  }

  /** Dots added in either order give the same paper. */
  lemma AddDotCommutes(p: Paper, a: Dot, b: Dot)
    ensures AddDot(AddDot(p, a), b) == AddDot(AddDot(p, b), a)
  {
    SameDots(AddDot(AddDot(p, a), b), AddDot(AddDot(p, b), a));
  }

  /** Removing a dot just added gives the paper back. */
  lemma RemoveAdded(p: Paper, d: Dot)
    requires d !in p.dots
    ensures RemoveDot(AddDot(p, d), d) == (true, p)
  {
    SameDots(RemoveDot(AddDot(p, d), d).1, p);
  }

  /** Adding back a dot just removed gives the paper back. */
  lemma AddRemoved(p: Paper, d: Dot)
    requires d in p.dots
    ensures AddDot(RemoveDot(p, d).1, d) == p
  {
    SameDots(AddDot(RemoveDot(p, d).1, d), p);
  }

  // ---------------------------------------------------------------------
  // Folding

  /** Where a dot lands when the paper is folded left along `x = f`: a
      dot right of the line is mirrored across it. */
  function FlipX(d: Dot, f: int): (e: Dot)
    ensures e.x <= f && e.y == d.y
    ensures d.x <= f ==> e == d
    ensures d.x > f ==> f - e.x == d.x - f
  {
    if d.x > f then Dot(f - (d.x - f), d.y) else d
  }

  /** Where a dot lands when the paper is folded up along `y = f`. */
  function FlipY(d: Dot, f: int): (e: Dot)
    ensures e.y <= f && e.x == d.x
    ensures d.y <= f ==> e == d
    ensures d.y > f ==> f - e.y == d.y - f
  {
    if d.y > f then Dot(d.x, f - (d.y - f)) else d
  }

  function FlippedX(ds: seq<Dot>, f: int): (r: seq<Dot>)
    ensures |r| == |ds| && forall i :: 0 <= i < |ds| ==> r[i] == FlipX(ds[i], f)
  {
    seq(|ds|, i requires 0 <= i < |ds| => FlipX(ds[i], f))
  }

  function FlippedY(ds: seq<Dot>, f: int): (r: seq<Dot>)
    ensures |r| == |ds| && forall i :: 0 <= i < |ds| ==> r[i] == FlipY(ds[i], f)
  {
    seq(|ds|, i requires 0 <= i < |ds| => FlipY(ds[i], f))
  }

  /** `fold_x`: the dots are taken off and put back where the fold takes
      them; dots that land on each other merge, so there are never more
      dots than before, and none is left right of the line. */
  function FoldX(p: Paper, f: int): (r: Paper)
    ensures forall d :: d in p.dots ==> FlipX(d, f) in r.dots
    ensures forall e :: e in r.dots ==> exists d :: d in p.dots && FlipX(d, f) == e
    ensures forall e :: e in r.dots ==> e.x <= f
    ensures |r.dots| <= |p.dots|
  {
    var moved := FlippedX(p.dots, f);
    assert forall e :: e in moved ==> exists d :: d in p.dots && FlipX(d, f) == e by {
      forall e | e in moved
        ensures exists d :: d in p.dots && FlipX(d, f) == e
      {
        var i :| 0 <= i < |moved| && moved[i] == e;
        assert p.dots[i] in p.dots;
      }
    }
    assert forall d :: d in p.dots ==> FlipX(d, f) in moved by {
      forall d | d in p.dots
        ensures FlipX(d, f) in moved
      {
        var i :| 0 <= i < |p.dots| && p.dots[i] == d;
        assert moved[i] == FlipX(d, f);
      }
    }
    AddDots(New(), moved)
  }

  /** `fold_y`: as `fold_x`, along a horizontal line. */
  function FoldY(p: Paper, f: int): (r: Paper)
    ensures forall d :: d in p.dots ==> FlipY(d, f) in r.dots
    ensures forall e :: e in r.dots ==> exists d :: d in p.dots && FlipY(d, f) == e
    ensures forall e :: e in r.dots ==> e.y <= f
    ensures |r.dots| <= |p.dots|
  {
    var moved := FlippedY(p.dots, f);
    assert forall e :: e in moved ==> exists d :: d in p.dots && FlipY(d, f) == e by {
      forall e | e in moved
        ensures exists d :: d in p.dots && FlipY(d, f) == e
      {
        var i :| 0 <= i < |moved| && moved[i] == e;
        assert p.dots[i] in p.dots;
      }
    }
    assert forall d :: d in p.dots ==> FlipY(d, f) in moved by {
      forall d | d in p.dots
        ensures FlipY(d, f) in moved
      {
        var i :| 0 <= i < |p.dots| && p.dots[i] == d;
        assert moved[i] == FlipY(d, f);
      }
    }
    AddDots(New(), moved)
  }

  /** A paper with no dot right of the line is left as it is. */
  lemma FoldXLeftOnly(p: Paper, f: int)
    requires forall d :: d in p.dots ==> d.x <= f
    ensures FoldX(p, f) == p
  {
    forall e
      ensures e in FoldX(p, f).dots <==> e in p.dots
    {
      if e in FoldX(p, f).dots {
        var d :| d in p.dots && FlipX(d, f) == e;
      }
      if e in p.dots {
        assert FlipX(e, f) == e;
      }
    }
    SameDots(FoldX(p, f), p);
  }

  /** A paper with no dot below the line is left as it is. */
  lemma FoldYAboveOnly(p: Paper, f: int)
    requires forall d :: d in p.dots ==> d.y <= f
    ensures FoldY(p, f) == p
  {
    forall e
      ensures e in FoldY(p, f).dots <==> e in p.dots
    {
      if e in FoldY(p, f).dots {
        var d :| d in p.dots && FlipY(d, f) == e;
      }
      if e in p.dots {
        assert FlipY(e, f) == e;
      }
    }
    SameDots(FoldY(p, f), p);
  }

  /** Folding again along the same line changes nothing. */
  lemma FoldXTwice(p: Paper, f: int)
    ensures FoldX(FoldX(p, f), f) == FoldX(p, f)
  {
    FoldXLeftOnly(FoldX(p, f), f);
  }

  lemma FoldYTwice(p: Paper, f: int)
    ensures FoldY(FoldY(p, f), f) == FoldY(p, f)
  {
    FoldYAboveOnly(FoldY(p, f), f);
  }
}

=== FILE: day14_main.dfy ===
/** Day 14's input and its two parts: a template line, a spacer line and
    one insertion rule per line, then ten or forty steps of growth. */
module PolymerMain {
  import opened Common
  import opened Polymerization
  import opened PolymerResult

  /** An insertion rule: the pair and the element put between its two. */
  type Rule = (Pair, char)

  /** The number of steps of each part. */
  const PartOneSteps: nat := 10
  const PartTwoSteps: nat := 40

  // ---------------------------------------------------------------------
  // One rule line

  /** A rule line `AB -> C`: it must hold exactly one `->`. Both sides are
      trimmed; the element is the first character of the right side and
      the pair the first two of the left side. A right side with nothing
      in it panics on the index, and so, after it, does a left side
      shorter than two characters. Anything further is ignored. */
  function ParseRule(line: string): (r: Result<Rule>)
    ensures r.Err? <==> |Split(line, "->")| != 2
    ensures var parts := Split(line, "->");
      r.Panic? <==> |parts| == 2 && (|Trim(parts[1])| == 0 || |Trim(parts[0])| < 2)
    ensures r.Ok? ==> !IsSpace(r.value.0.0) && !IsSpace(r.value.1)
  {
    var parts := Split(line, "->");
    if |parts| != 2 then Err("Invalid line formatting")
    else
      var pair := Trim(parts[0]);
      var element := Trim(parts[1]);
      if |element| == 0 || |pair| < 2 then Panic("index out of bounds")
      else Ok(((pair[0], pair[1]), element[0]))
  }

  /** The rule as the puzzle writes it. */
  function ShowRule(rule: Rule): string
  {
    [rule.0.0, rule.0.1] + " -> " + [rule.1]
  }

  /** A rule whose line reads back: no white space in it, and a pair that
      is not itself the arrow. */
  predicate Writable(rule: Rule)
  {
    && !IsSpace(rule.0.0) && !IsSpace(rule.0.1) && !IsSpace(rule.1)
    && !(rule.0.0 == '-' && rule.0.1 == '>')
  }

  /** The arrow is found after the pair and the space, and the right side
      holds no second one. */
  lemma SplitShowRule(rule: Rule)
    requires Writable(rule)
    ensures Split(ShowRule(rule), "->") == [[rule.0.0, rule.0.1, ' '], [' ', rule.1]]
  {
    var s := ShowRule(rule);
    assert s[0..2] == [rule.0.0, rule.0.1];
    assert s[1..3] == [rule.0.1, ' '];
    assert s[2..4] == [' ', '-'];
    assert OccursAt(s, "->", 3);
    var i := IndexOf(s, "->");
    assert i == Some(3);
    var rest := s[5..];
    assert rest == [' ', rule.1];
    assert rest[0..2] == rest;
    assert !OccursAt(rest, "->", 0);
    assert IndexOf(rest, "->") == None;
    assert s[..3] == [rule.0.0, rule.0.1, ' '];
  }

  /** A rule written out parses back to itself. */
  lemma ParseShowRule(rule: Rule)
    requires Writable(rule)
    ensures ParseRule(ShowRule(rule)) == Ok(rule)
  {
    SplitShowRule(rule);
    var left: string := [rule.0.0, rule.0.1, ' '];
    var right: string := [' ', rule.1];
    assert TrimStart(left) == left;
    assert TrimEnd(left) == TrimEnd(left[..2]);
    assert left[..2] == [rule.0.0, rule.0.1];
    assert Trim(left) == [rule.0.0, rule.0.1];
    assert TrimStart(right) == TrimStart(right[1..]);
    assert right[1..] == [rule.1];
    assert Trim(right) == [rule.1];
  }

  // ---------------------------------------------------------------------
  // The rule table

  /** Rule `i` is the last one in `rs` for the pair `k`. */
  predicate LastFor(rs: seq<Rule>, k: Pair, i: int)
  {
    0 <= i < |rs| && rs[i].0 == k && forall j :: i < j < |rs| ==> rs[j].0 != k
  }

  /** Inserting the rules in order into a hash map: every pair of a rule is
      a key, no other pair is, and a pair named twice keeps the element of
      its last rule. */
  function RulesOf(rs: seq<Rule>): (r: Rules)
    ensures forall i :: 0 <= i < |rs| ==> rs[i].0 in r
    ensures forall k :: k in r ==> exists i :: 0 <= i < |rs| && rs[i].0 == k
    ensures forall k, i :: LastFor(rs, k, i) ==> r[k] == rs[i].1
  {
    if |rs| == 0 then map[]
    else
      var init := rs[..|rs| - 1];
      var last := rs[|rs| - 1];
      var r := RulesOf(init)[last.0 := last.1];
      assert forall k, i :: LastFor(rs, k, i) && i < |rs| - 1 ==> LastFor(init, k, i);
      r
  }

  // ---------------------------------------------------------------------
  // The whole input

  /** The template line; with no line at all, nothing. */
  function Template(lines: seq<string>): string
  {
    if |lines| == 0 then "" else lines[0]
  }

  /** The lines after the spacer. */
  function RuleLines(lines: seq<string>): seq<string>
  {
    if |lines| < 2 then [] else lines[2..]
  }

  /** `read_data`: the pairs of the first line, the second line skipped,
      and every further line a rule, a later rule for a pair replacing an
      earlier one. The first rule line that does not parse ends the
      reading with its error or panic. */
  function ReadData(lines: seq<string>): (r: Result<(Polymer, Rules)>)
    ensures r.Ok? <==> forall i :: 2 <= i < |lines| ==> ParseRule(lines[i]).Ok?
    ensures r.Ok? ==> r.value.0 == Pairs(Template(lines))
    ensures r.Ok? ==> forall i :: 2 <= i < |lines| ==> ParseRule(lines[i]).value.0 in r.value.1
    ensures r.Ok? ==> forall k :: k in r.value.1 ==>
      exists i :: 2 <= i < |lines| && ParseRule(lines[i]).Ok? && ParseRule(lines[i]).value.0 == k
  {
    RuleLinesParse(lines);
    match ParseLines(RuleLines(lines), ParseRule)
    case Ok(rs) =>
      RuleLinesKeys(lines, rs);
      Ok((Pairs(Template(lines)), RulesOf(rs)))
    case Err(m) => Err(m)
    case Panic(m) => Panic(m)
  }

  /** Every rule line parses exactly when every line after the spacer
      does. */
  lemma RuleLinesParse(lines: seq<string>)
    ensures ParseLines(RuleLines(lines), ParseRule).Ok? <==> forall i :: 2 <= i < |lines| ==> ParseRule(lines[i]).Ok?
  {
    var ruleLines := RuleLines(lines);
    assert forall i :: 2 <= i < |lines| ==> lines[i] == ruleLines[i - 2];
    assert forall k :: 0 <= k < |ruleLines| ==> ruleLines[k] == lines[k + 2];
  }

  /** The keys of the table built from the parsed rule lines are the pairs
      those lines name. */
  lemma RuleLinesKeys(lines: seq<string>, rs: seq<Rule>)
    requires ParseLines(RuleLines(lines), ParseRule) == Ok(rs)
    ensures forall i :: 2 <= i < |lines| ==> ParseRule(lines[i]).Ok? && ParseRule(lines[i]).value.0 in RulesOf(rs)
    ensures forall k :: k in RulesOf(rs) ==>
      exists i :: 2 <= i < |lines| && ParseRule(lines[i]).Ok? && ParseRule(lines[i]).value.0 == k
  {
    forall i | 2 <= i < |lines|
      ensures ParseRule(lines[i]).Ok? && ParseRule(lines[i]).value.0 in RulesOf(rs)
    {
      RuleLineParsed(lines, rs, i);
    }
    forall k | k in RulesOf(rs)
      ensures exists i :: 2 <= i < |lines| && ParseRule(lines[i]).Ok? && ParseRule(lines[i]).value.0 == k
    {
      var j :| 0 <= j < |rs| && rs[j].0 == k;
      RuleLineParsed(lines, rs, j + 2);
    }
  }

  /** Line `i` after the spacer parsed to rule `i - 2`. */
  lemma RuleLineParsed(lines: seq<string>, rs: seq<Rule>, i: nat)
    requires ParseLines(RuleLines(lines), ParseRule) == Ok(rs)
    requires 2 <= i < |lines|
    ensures |rs| == |lines| - 2 && ParseRule(lines[i]) == Ok(rs[i - 2])
  {
    assert RuleLines(lines)[i - 2] == lines[i];
  }

  /** The input as the puzzle writes it: the template, an empty line, and
      the rules one per line. */
  function ShowInput(template: string, rs: seq<Rule>): (lines: seq<string>)
    ensures |lines| == |rs| + 2
  {
    [template, ""] + seq(|rs|, i requires 0 <= i < |rs| => ShowRule(rs[i]))
  }

  /** Reading a written input gives back the template's pairs and the
      table of its rules. */
  lemma ReadShowInput(template: string, rs: seq<Rule>)
    requires forall i :: 0 <= i < |rs| ==> Writable(rs[i])
    ensures ReadData(ShowInput(template, rs)) == Ok((Pairs(template), RulesOf(rs)))
  {
    var lines := ShowInput(template, rs);
    var ruleLines := RuleLines(lines);
    assert |ruleLines| == |rs|;
    forall i | 0 <= i < |rs|
      ensures ParseRule(ruleLines[i]) == Ok(rs[i])
    {
      assert ruleLines[i] == ShowRule(rs[i]);
      ParseShowRule(rs[i]);
    }
    var parsed := ParseLines(ruleLines, ParseRule);
    assert parsed.Ok?;
    assert parsed.value == rs;
  }

  // ---------------------------------------------------------------------
  // The parts

  /** The template after `n` steps. */
  function InsertSteps(s: string, rules: Rules, n: nat): (t: string)
    ensures |t| >= |s|
    ensures |s| > 0 ==> t[0] == s[0] && t[|t| - 1] == s[|s| - 1]
  {
    if n == 0 then s else InsertStep(InsertSteps(s, rules, n - 1), rules)
  }

  /** The loop of `part1` and `part2` without the answer: read the input,
      a failure to read panics, and `extend` runs `steps` times. Each round
      leaves the pair counts of the template grown by one more step. */
  method Polymerize(lines: seq<string>, steps: nat) returns (r: Result<Polymer>)
    ensures !r.Err?
    ensures r.Ok? <==> ReadData(lines).Ok?
    ensures r.Ok? ==> r.value == Pairs(InsertSteps(Template(lines), ReadData(lines).value.1, steps))
  {
    var data := ReadData(lines);
    if !data.Ok? {
      return Panic("Could not read data");
    }
    var p := data.value.0;
    var rules := data.value.1;
    for i := 0 to steps
      invariant p == Pairs(InsertSteps(Template(lines), rules, i))
    {
      var next := Extend(p, rules);
      ExtendIsInsertion(InsertSteps(Template(lines), rules, i), rules, next);
      p := next;
    }
    r := Ok(p);
  }

  /** `part1` (ten steps) and `part2` (forty steps) as written: the
      answer is the spread of the 25-slot table of the grown polymer. */
  method Part(lines: seq<string>, steps: nat) returns (r: Result<nat>)
    ensures !r.Err?
    ensures !ReadData(lines).Ok? ==> r.Panic?
    ensures ReadData(lines).Ok? ==>
      var grown := Pairs(InsertSteps(Template(lines), ReadData(lines).value.1, steps));
      && (r.Ok? ==> Fits(grown, SlotsAsWritten))
      && (Fits(grown, SlotsAsWritten) ==> r == Spread(SlotCounts(grown, SlotsAsWritten)))
  {
    var p := Polymerize(lines, steps);
    if !p.Ok? {
      return Panic(p.msg);
    }
    r := GetResult(p.value);
  }

  /** The parts as intended: the answer is the spread of the letter counts
      of the grown polymer string, its first element included. */
  method PartIntended(lines: seq<string>, steps: nat) returns (r: Result<nat>)
    ensures !r.Err?
    ensures !ReadData(lines).Ok? || |Template(lines)| == 0 ==> r.Panic?
    ensures ReadData(lines).Ok? && |Template(lines)| > 0 ==>
      var s := InsertSteps(Template(lines), ReadData(lines).value.1, steps);
      && (r.Ok? ==> Fits(Pairs(s), SlotsIntended) && Slot(s[0], SlotsIntended).Ok?)
      && (Fits(Pairs(s), SlotsIntended) && Slot(s[0], SlotsIntended).Ok? ==>
            r == Spread(ElementCounts(Pairs(s), s[0])))
  {
    var p := Polymerize(lines, steps);
    if !p.Ok? {
      return Panic(p.msg);
    }
    var template := Template(lines);
    if |template| == 0 {
      return Panic("called `Option::unwrap()` on a `None` value");
    }
    r := GetResultIntended(p.value, template[0]);
  }
}

=== FILE: day14_polymer.dfy ===
/** Day 14: a polymer kept as the count of each adjacent pair of elements,
    grown by insertion rules that put an element between the two of a
    pair. */
module Polymerization {
  import opened Common
  import opened Tally

  type Pair = (char, char)
  type Polymer = map<Pair, nat>
  type Rules = map<Pair, char>

  /** Every pair that is present is counted at least once. */
  predicate Positive(p: Polymer)
  {
    forall q :: q in p ==> p[q] > 0
  }

  // ---------------------------------------------------------------------
  // From a string

  /** How often `q` occurs as two adjacent characters of `s`. */
  function PairCount(s: string, q: Pair): nat
  {
    if |s| < 2 then 0
    else PairCount(s[..|s| - 1], q) + (if (s[|s| - 2], s[|s| - 1]) == q then 1 else 0)
  }

  /** `string_to_polymer`: each adjacent pair counted once per occurrence,
      so a string of `n > 0` elements holds `n - 1` pairs. */
  function Pairs(s: string): (r: Polymer)
    ensures Positive(r)
  {
    if |s| < 2 then map[]
    else
      var before := Pairs(s[..|s| - 1]);
      var q := (s[|s| - 2], s[|s| - 1]);
      Add(before, q, 1)
  }

  /** Each pair is counted once per occurrence. */
  lemma {:induction false} PairsCount(s: string)
    ensures forall q :: Get(Pairs(s), q) == PairCount(s, q)
  {
    if |s| >= 2 {
      PairsCount(s[..|s| - 1]);
    }
  }

  /** A string of `n > 0` elements holds `n - 1` pairs. */
  lemma {:induction false} PairsTotal(s: string)
    ensures Total(Pairs(s)) == if |s| == 0 then 0 else |s| - 1
  {
    if |s| >= 2 {
      PairsTotal(s[..|s| - 1]);
      TotalOfAdd(Pairs(s[..|s| - 1]), (s[|s| - 2], s[|s| - 1]), 1);
    }
  }

  // ---------------------------------------------------------------------
  // One insertion step

  /** What the pair `k`, counted `n` times, leaves of the pair `q` after a
      step: a ruled pair `(a, b)` with element `e` turns into `(a, e)` and
      `(e, b)`; any other pair stays as it is. */
  function Yield(k: Pair, n: nat, rules: Rules, q: Pair): nat
  {
    if k in rules then
      (if (k.0, rules[k]) == q then n else 0) + (if (rules[k], k.1) == q then n else 0)
    else if k == q then n
    else 0
  }

  /** The contributions of every pair of `p` to the pair `q`. */
  function Yields(p: Polymer, rules: Rules, q: Pair): map<Pair, nat>
  {
    map k | k in p :: Yield(k, p[k], rules, q)
  }

  /** The count of `q` after a step. */
  ghost function Produced(p: Polymer, rules: Rules, q: Pair): nat
  {
    Total(Yields(p, rules, q))
  }

  /** The pairs of `p` that a rule applies to. */
  function Ruled(p: Polymer, rules: Rules): Polymer
  {
    map k | k in p && k in rules :: p[k]
  }

  /** What `extend` promises, whatever order it visits the pairs in. */
  ghost predicate Extended(p: Polymer, rules: Rules, r: Polymer)
  {
    && (forall q :: Get(r, q) == Produced(p, rules, q))
    && (Positive(p) ==> Positive(r))
  }

  lemma YieldsUpdate(d: Polymer, rules: Rules, k: Pair, n: nat, q: Pair)
    requires k !in d
    ensures k !in Yields(d, rules, q)
    ensures Yields(d[k := n], rules, q) == Yields(d, rules, q)[k := Yield(k, n, rules, q)]
  {
  }

  lemma YieldsStep(d: Polymer, rules: Rules, k: Pair, n: nat, q: Pair)
    requires k !in d
    ensures Total(Yields(d[k := n], rules, q)) == Total(Yields(d, rules, q)) + Yield(k, n, rules, q)
  {
    YieldsUpdate(d, rules, k, n, q);
    TotalInsert(Yields(d, rules, q), k, Yield(k, n, rules, q));
  }

  lemma RuledUpdate(d: Polymer, rules: Rules, k: Pair, n: nat)
    requires k !in d
    ensures k !in Ruled(d, rules)
    ensures Ruled(d[k := n], rules) == if k in rules then Ruled(d, rules)[k := n] else Ruled(d, rules)
  {
  }

  lemma RuledStep(d: Polymer, rules: Rules, k: Pair, n: nat)
    requires k !in d
    ensures Total(Ruled(d[k := n], rules)) == Total(Ruled(d, rules)) + (if k in rules then n else 0)
  {
    RuledUpdate(d, rules, k, n);
    if k in rules {
      TotalInsert(Ruled(d, rules), k, n);
    }
  }

  /** The body of `extend`'s loop: the counts a single pair passes on,
      added to `r`; a ruled pair `(a, b)` with element `e` adds to `(a, e)`
      and to `(e, b)`, any other pair to itself. */
  function Pass(r: Polymer, pair: Pair, quantity: nat, rules: Rules): Polymer
  {
    if pair in rules then
      Add(Add(r, (pair.0, rules[pair]), quantity), (rules[pair], pair.1), quantity)
    else Add(r, pair, quantity)
  }

  lemma PassCounts(r: Polymer, pair: Pair, quantity: nat, rules: Rules)
    ensures forall q :: Get(Pass(r, pair, quantity, rules), q) == Get(r, q) + Yield(pair, quantity, rules, q)
    ensures Positive(r) && quantity > 0 ==> Positive(Pass(r, pair, quantity, rules))
  {
  }

  /** Each pair passes its count on once, or twice when it is ruled. */
  lemma PassTotal(r: Polymer, pair: Pair, quantity: nat, rules: Rules)
    ensures Total(Pass(r, pair, quantity, rules)) == Total(r) + quantity + (if pair in rules then quantity else 0)
  {
    if pair in rules {
      var e := rules[pair];
      var r1 := Add(r, (pair.0, e), quantity);
      TotalOfAdd(r, (pair.0, e), quantity);
      TotalOfAdd(r1, (e, pair.1), quantity);
      assert Pass(r, pair, quantity, rules) == Add(r1, (e, pair.1), quantity);
    } else {
      TotalOfAdd(r, pair, quantity);
    }
  }

  /** `r` holds what the pairs of `done` pass on. */
  ghost predicate PassedOn(done: Polymer, rules: Rules, r: Polymer)
  {
    && (forall q :: Get(r, q) == Produced(done, rules, q))
    && Total(r) == Total(done) + Total(Ruled(done, rules))
  }

  /** `done` holds the pairs of `p` already visited, `todo` the rest. */
  ghost predicate Visited(p: Polymer, done: Polymer, todo: set<Pair>)
  {
    && todo <= p.Keys
    && (forall k :: k in done <==> k in p && k !in todo)
    && (forall k :: k in done ==> done[k] == p[k])
  }

  lemma VisitedStep(p: Polymer, done: Polymer, todo: set<Pair>, pair: Pair)
    requires Visited(p, done, todo) && pair in todo
    ensures pair in p && pair !in done
    ensures Visited(p, done[pair := p[pair]], todo - {pair})
  {
  }

  lemma VisitedAll(p: Polymer, done: Polymer)
    requires Visited(p, done, {})
    ensures done == p
  {
  }

  /** Before any pair is visited, nothing has been passed on. */
  lemma PassedOnNothing(rules: Rules)
    ensures PassedOn(map[], rules, map[])
  {
    forall q
      ensures Get(map[], q) == Produced(map[], rules, q)
    {
      assert Yields(map[], rules, q) == map[];
    }
    assert Ruled(map[], rules) == map[];
  }

  lemma PassStep(done: Polymer, rules: Rules, r: Polymer, pair: Pair, quantity: nat)
    requires pair !in done && PassedOn(done, rules, r)
    ensures PassedOn(done[pair := quantity], rules, Pass(r, pair, quantity, rules))
    ensures Positive(r) && quantity > 0 ==> Positive(Pass(r, pair, quantity, rules))
  {
    var r2 := Pass(r, pair, quantity, rules);
    PassCounts(r, pair, quantity, rules);
    PassTotal(r, pair, quantity, rules);
    forall q
      ensures Get(r2, q) == Produced(done[pair := quantity], rules, q)
    {
      YieldsStep(done, rules, pair, quantity, q);
    }
    TotalInsert(done, pair, quantity);
    RuledStep(done, rules, pair, quantity);
  }

  /** `extend`: every pair of the polymer, in the map's own order, passes
      its count on to the pairs it becomes. The step adds one pair per
      ruled pair: the total grows by the count of the ruled pairs. */
  method Extend(p: Polymer, rules: Rules) returns (r: Polymer)
    ensures Extended(p, rules, r)
    ensures Total(r) == Total(p) + Total(Ruled(p, rules))
  {
    r := map[];
    var todo := p.Keys;
    ghost var done: Polymer := map[];
    PassedOnNothing(rules);
    while todo != {}
      invariant Visited(p, done, todo)
      invariant PassedOn(done, rules, r)
      invariant Positive(p) ==> Positive(r)
      decreases |todo|
    {
      var pair :| pair in todo;
      var quantity := p[pair];
      VisitedStep(p, done, todo, pair);
      PassStep(done, rules, r, pair, quantity);
      r := Pass(r, pair, quantity, rules);
      done := done[pair := quantity];
      todo := todo - {pair};
    }
    VisitedAll(p, done);
  }

  /** The counts after a step are fixed by the counts before it: the order
      in which `extend` visits the pairs does not matter. */
  lemma ExtendedUnique(p: Polymer, rules: Rules, r1: Polymer, r2: Polymer)
    requires Positive(p) && Extended(p, rules, r1) && Extended(p, rules, r2)
    ensures r1 == r2
  {
    forall q | q in r1
      ensures q in r2 && r1[q] == r2[q]
    {
      assert Get(r1, q) == Get(r2, q);
    }
    forall q | q in r2
      ensures q in r1
    {
      assert Get(r1, q) == Get(r2, q);
    }
  }

  // ---------------------------------------------------------------------
  // The step on strings

  /** The polymer string after one step: between every two adjacent
      elements of a ruled pair, the rule's element is inserted. The first
      and the last element stay where they are. */
  function InsertStep(s: string, rules: Rules): (t: string)
    ensures |t| >= |s|
    ensures |s| > 0 ==> t[0] == s[0] && t[|t| - 1] == s[|s| - 1]
  {
    if |s| < 2 then s
    else
      var init := InsertStep(s[..|s| - 1], rules);
      var a, c := s[|s| - 2], s[|s| - 1];
      init + (if (a, c) in rules then [rules[(a, c)], c] else [c])
  }

  /** Appending an element counts one more pair. */
  lemma PairCountSnoc(t: string, x: char, q: Pair)
    ensures PairCount(t + [x], q) == PairCount(t, q) + (if |t| > 0 && (t[|t| - 1], x) == q then 1 else 0)
  {
    assert (t + [x])[..|t|] == t;
  }

  /** The pair counts are additive in each pair's count. */
  lemma YieldLinear(k: Pair, a: nat, n: nat, rules: Rules, q: Pair)
    ensures Yield(k, a + n, rules, q) == Yield(k, a, rules, q) + Yield(k, n, rules, q)
    ensures Yield(k, 0, rules, q) == 0
  {
  }

  lemma YieldsAdd(p: Polymer, rules: Rules, k: Pair, n: nat, q: Pair)
    ensures Yields(Add(p, k, n), rules, q) - {k} == Yields(p, rules, q) - {k}
    ensures Get(Yields(Add(p, k, n), rules, q), k) == Get(Yields(p, rules, q), k) + Yield(k, n, rules, q)
  {
    YieldLinear(k, Get(p, k), n, rules, q);
  }

  /** Counting a pair `n` more times adds what it passes on to every pair
      of the next step. */
  lemma ProducedAdd(p: Polymer, rules: Rules, k: Pair, n: nat, q: Pair)
    ensures Produced(Add(p, k, n), rules, q) == Produced(p, rules, q) + Yield(k, n, rules, q)
  {
    var before := Yields(p, rules, q);
    var after := Yields(Add(p, k, n), rules, q);
    YieldsAdd(p, rules, k, n, q);
    TotalDrop(before, k);
    TotalDrop(after, k);
  }

  /** One step on the pair counts is one step on the string: the count
      a step gives each pair is how often it occurs in the string with the
      rules' elements inserted. */
  lemma {:induction false} StepCounts(s: string, rules: Rules)
    ensures forall q :: PairCount(InsertStep(s, rules), q) == Produced(Pairs(s), rules, q)
  {
    if |s| < 2 {
      forall q
        ensures PairCount(s, q) == Produced(map[], rules, q)
      {
        assert Yields(map[], rules, q) == map[];
      }
    } else {
      StepCounts(s[..|s| - 1], rules);
      forall q
        ensures PairCount(InsertStep(s, rules), q) == Produced(Pairs(s), rules, q)
      {
        StepCountsAt(s, rules, q);
      }
    }
  }

  /** The inductive step of `StepCounts` for one pair `q`. */
  lemma StepCountsAt(s: string, rules: Rules, q: Pair)
    requires |s| >= 2
    requires PairCount(InsertStep(s[..|s| - 1], rules), q) == Produced(Pairs(s[..|s| - 1]), rules, q)
    ensures PairCount(InsertStep(s, rules), q) == Produced(Pairs(s), rules, q)
  {
    var init := s[..|s| - 1];
    var a, c := s[|s| - 2], s[|s| - 1];
    ProducedAdd(Pairs(init), rules, (a, c), 1, q);
    var t := InsertStep(init, rules);
    SnocCounts(t, a, c, rules, q);
  }

  /** Growing the string by `c` after `a`: the pairs the step makes of
      `(a, c)` join those of the string before. */
  lemma SnocCounts(t: string, a: char, c: char, rules: Rules, q: Pair)
    requires |t| > 0 && t[|t| - 1] == a
    ensures PairCount(t + (if (a, c) in rules then [rules[(a, c)], c] else [c]), q)
         == PairCount(t, q) + Yield((a, c), 1, rules, q)
  {
    if (a, c) in rules {
      var e := rules[(a, c)];
      PairCountSnoc(t, e, q);
      PairCountSnoc(t + [e], c, q);
      assert t + [e, c] == t + [e] + [c];
    } else {
      PairCountSnoc(t, c, q);
    }
  }

  /** Whatever order `extend` takes, the counts it leaves are the pairs of
      the string grown by one step. */
  lemma ExtendIsInsertion(s: string, rules: Rules, r: Polymer)
    requires Extended(Pairs(s), rules, r)
    ensures r == Pairs(InsertStep(s, rules))
  {
    StepCounts(s, rules);
    PairsCount(InsertStep(s, rules));
    SameCounts(r, Pairs(InsertStep(s, rules)));
  }

  // ---------------------------------------------------------------------
  // The step of the unit test, rule by rule

  function TestRules(): Rules
  {
    map[('A', 'B') := 'B', ('B', 'B') := 'A']
  }

  /** Only the pairs `AB`, `BB` and `BA` occur. */
  predicate OfThree(p: Polymer)
  {
    forall k :: k in p ==> k == ('A', 'B') || k == ('B', 'B') || k == ('B', 'A')
  }

  /** The count a step gives `q`, from a polymer of the three pairs. */
  lemma ProducedOfThree(p: Polymer, rules: Rules, q: Pair)
    requires OfThree(p)
    ensures Produced(p, rules, q) ==
      Yield(('A', 'B'), Get(p, ('A', 'B')), rules, q) + Yield(('B', 'B'), Get(p, ('B', 'B')), rules, q)
      + Yield(('B', 'A'), Get(p, ('B', 'A')), rules, q)
  {
    var y := Yields(p, rules, q);
    assert y.Keys <= {('A', 'B'), ('B', 'B'), ('B', 'A')};
    TotalAtMostThree(y, ('A', 'B'), ('B', 'B'), ('B', 'A'));
    GetYields(p, rules, q, ('A', 'B'));
    GetYields(p, rules, q, ('B', 'B'));
    GetYields(p, rules, q, ('B', 'A'));
  }

  /** The contribution of `k`, present in `p` or not. */
  lemma GetYields(p: Polymer, rules: Rules, q: Pair, k: Pair)
    ensures Get(Yields(p, rules, q), k) == Yield(k, Get(p, k), rules, q)
  {
  }

  /** One step under the rules `AB -> B` and `BB -> A` of a polymer made
      of the pairs `AB`, `BB` and `BA`. */
  lemma TestStep(p: Polymer, r: Polymer)
    requires OfThree(p)
    requires Extended(p, TestRules(), r)
    ensures Get(r, ('A', 'B')) == Get(p, ('A', 'B')) + Get(p, ('B', 'B'))
    ensures Get(r, ('B', 'B')) == Get(p, ('A', 'B'))
    ensures Get(r, ('B', 'A')) == Get(p, ('B', 'B')) + Get(p, ('B', 'A'))
    ensures forall q :: q != ('A', 'B') && q != ('B', 'B') && q != ('B', 'A') ==> Get(r, q) == 0
    ensures Positive(p) ==> Positive(r) && OfThree(r)
  {
    forall q
      ensures Get(r, q) == Produced(p, TestRules(), q)
    {
    }
    forall q
      ensures Produced(p, TestRules(), q) == Yield(('A', 'B'), Get(p, ('A', 'B')), TestRules(), q)
        + Yield(('B', 'B'), Get(p, ('B', 'B')), TestRules(), q) + Yield(('B', 'A'), Get(p, ('B', 'A')), TestRules(), q)
    {
      ProducedOfThree(p, TestRules(), q);
    }
    if Positive(p) {
      forall k | k in r
        ensures k == ('A', 'B') || k == ('B', 'B') || k == ('B', 'A')
      {
        assert Get(r, k) > 0;
      }
    }
  }

  /** A polymer with positive counts is fixed by its counts. */
  lemma SameCounts(a: Polymer, b: Polymer)
    requires Positive(a) && Positive(b)
    requires forall q :: Get(a, q) == Get(b, q)
    ensures a == b
  {
    forall q | q in a
      ensures q in b && a[q] == b[q]
    {
      assert Get(a, q) == Get(b, q);
    }
    forall q | q in b
      ensures q in a
    {
      assert Get(a, q) == Get(b, q);
    }
  }

  lemma PolymerABB()
    ensures Pairs("ABB") == map[('A', 'B') := 1, ('B', 'B') := 1]
  {
    var ab, bb := ('A', 'B'), ('B', 'B');
    assert Pairs("AB") == map[ab := 1];
    assert "ABB"[..2] == "AB";
  }

  lemma PolymerABBAB()
    ensures Pairs("ABBAB") == map[('A', 'B') := 2, ('B', 'B') := 1, ('B', 'A') := 1]
  {
    var ab, bb, ba := ('A', 'B'), ('B', 'B'), ('B', 'A');
    PolymerABB();
    assert "ABBA"[..3] == "ABB";
    assert Pairs("ABBA") == map[ab := 1, bb := 1, ba := 1];
    assert "ABBAB"[..4] == "ABBA";
  }

  lemma PolymerABBABAB()
    ensures Pairs("ABBABAB") == map[('A', 'B') := 3, ('B', 'B') := 1, ('B', 'A') := 2]
  {
    var ab, bb, ba := ('A', 'B'), ('B', 'B'), ('B', 'A');
    PolymerABBAB();
    assert "ABBABA"[..5] == "ABBAB";
    assert Pairs("ABBABA") == map[ab := 2, bb := 1, ba := 2];
    assert "ABBABAB"[..6] == "ABBABA";
  }

  lemma PolymerABBABABB()
    ensures Pairs("ABBABABB") == map[('A', 'B') := 3, ('B', 'B') := 2, ('B', 'A') := 2]
  {
    PolymerABBABAB();
    assert "ABBABABB"[..7] == "ABBABAB";
  }

  lemma PolymerABBABABBAB()
    ensures Pairs("ABBABABBAB") == map[('A', 'B') := 4, ('B', 'B') := 2, ('B', 'A') := 3]
  {
    var ab, bb, ba := ('A', 'B'), ('B', 'B'), ('B', 'A');
    PolymerABBABABB();
    assert "ABBABABBA"[..8] == "ABBABABB";
    assert Pairs("ABBABABBA") == map[ab := 3, bb := 2, ba := 3];
    assert "ABBABABBAB"[..9] == "ABBABABBA";
  }

  lemma PolymerABBABABBABB()
    ensures Pairs("ABBABABBABB") == map[('A', 'B') := 4, ('B', 'B') := 3, ('B', 'A') := 3]
  {
    PolymerABBABABBAB();
    assert "ABBABABBABB"[..10] == "ABBABABBAB";
  }

  lemma PolymerABBABABBABBAB()
    ensures Pairs("ABBABABBABBAB") == map[('A', 'B') := 5, ('B', 'B') := 3, ('B', 'A') := 4]
  {
    var ab, bb, ba := ('A', 'B'), ('B', 'B'), ('B', 'A');
    PolymerABBABABBABB();
    assert "ABBABABBABBA"[..11] == "ABBABABBABB";
    assert Pairs("ABBABABBABBA") == map[ab := 4, bb := 3, ba := 4];
    assert "ABBABABBABBAB"[..12] == "ABBABABBABBA";
  }

  /** Two polymers of the three pairs with the same three counts are
      equal. */
  lemma SameThree(a: Polymer, b: Polymer)
    requires Positive(a) && Positive(b) && OfThree(a) && OfThree(b)
    requires Get(a, ('A', 'B')) == Get(b, ('A', 'B'))
    requires Get(a, ('B', 'B')) == Get(b, ('B', 'B'))
    requires Get(a, ('B', 'A')) == Get(b, ('B', 'A'))
    ensures a == b
  {
    forall q
      ensures Get(a, q) == Get(b, q)
    {
      if q != ('A', 'B') && q != ('B', 'B') && q != ('B', 'A') {
        assert q !in a && q !in b;
      }
    }
    SameCounts(a, b);
  }

  /** A step of the unit test lands on the polymer `e` with the counts
      the rules give. */
  lemma TestStepTo(p: Polymer, r: Polymer, e: Polymer)
    requires Positive(p) && OfThree(p) && Extended(p, TestRules(), r)
    requires Positive(e) && OfThree(e)
    requires Get(e, ('A', 'B')) == Get(p, ('A', 'B')) + Get(p, ('B', 'B'))
    requires Get(e, ('B', 'B')) == Get(p, ('A', 'B'))
    requires Get(e, ('B', 'A')) == Get(p, ('B', 'B')) + Get(p, ('B', 'A'))
    ensures r == e
  {
    TestStep(p, r);
    SameThree(r, e);
  }

  lemma PolymerAB()
    ensures Pairs("AB") == map[('A', 'B') := 1]
  {
    assert "AB"[..1] == "A";
  }

  /** `p` holds `ab` pairs `AB`, `bb` pairs `BB` and `ba` pairs `BA`, and
      nothing else. */
  predicate ThreeCounts(p: Polymer, ab: nat, bb: nat, ba: nat)
  {
    && Positive(p) && OfThree(p)
    && Get(p, ('A', 'B')) == ab && Get(p, ('B', 'B')) == bb && Get(p, ('B', 'A')) == ba
  }

  /** A step of the unit test, in counts. */
  lemma TestStepCounts(p: Polymer, r: Polymer, e: Polymer, ab: nat, bb: nat, ba: nat)
    requires ThreeCounts(p, ab, bb, ba) && Extended(p, TestRules(), r)
    requires ThreeCounts(e, ab + bb, ab, bb + ba)
    ensures r == e
  {
    TestStepTo(p, r, e);
  }

  lemma CountsAB()
    ensures ThreeCounts(Pairs("AB"), 1, 0, 0)
  {
    PolymerAB();
  }

  lemma CountsABB()
    ensures ThreeCounts(Pairs("ABB"), 1, 1, 0)
  {
    PolymerABB();
  }

  lemma CountsABBAB()
    ensures ThreeCounts(Pairs("ABBAB"), 2, 1, 1)
  {
    PolymerABBAB();
  }

  lemma CountsABBABABB()
    ensures ThreeCounts(Pairs("ABBABABB"), 3, 2, 2)
  {
    PolymerABBABABB();
  }

  lemma CountsABBABABBABBAB()
    ensures ThreeCounts(Pairs("ABBABABBABBAB"), 5, 3, 4)
  {
    PolymerABBABABBABBAB();
  }

  lemma ExtendTestFirst(r: Polymer)
    requires Extended(Pairs("AB"), TestRules(), r)
    ensures r == Pairs("ABB")
  {
    CountsAB();
    CountsABB();
    TestStepCounts(Pairs("AB"), r, Pairs("ABB"), 1, 0, 0);
  }

  lemma ExtendTestSecond(r: Polymer)
    requires Extended(Pairs("ABB"), TestRules(), r)
    ensures r == Pairs("ABBAB")
  {
    CountsABB();
    CountsABBAB();
    TestStepCounts(Pairs("ABB"), r, Pairs("ABBAB"), 1, 1, 0);
  }

  lemma ExtendTestThird(r: Polymer)
    requires Extended(Pairs("ABBAB"), TestRules(), r)
    ensures r == Pairs("ABBABABB")
  {
    CountsABBAB();
    CountsABBABABB();
    TestStepCounts(Pairs("ABBAB"), r, Pairs("ABBABABB"), 2, 1, 1);
  }

  lemma ExtendTestFourth(r: Polymer)
    requires Extended(Pairs("ABBABABB"), TestRules(), r)
    ensures r == Pairs("ABBABABBABBAB")
  {
    CountsABBABABB();
    CountsABBABABBABBAB();
    TestStepCounts(Pairs("ABBABABB"), r, Pairs("ABBABABBABBAB"), 3, 2, 2);
  }

  /** The unit test `extend`: from `AB`, four steps give the pairs of
      `ABB`, `ABBAB`, `ABBABABB` and `ABBABABBABBAB`. */
  lemma ExtendTest(r1: Polymer, r2: Polymer, r3: Polymer, r4: Polymer)
    requires Extended(Pairs("AB"), TestRules(), r1)
    requires Extended(r1, TestRules(), r2)
    requires Extended(r2, TestRules(), r3)
    requires Extended(r3, TestRules(), r4)
    ensures r1 == Pairs("ABB") && r2 == Pairs("ABBAB")
    ensures r3 == Pairs("ABBABABB") && r4 == Pairs("ABBABABBABBAB")
  {
    ExtendTestFirst(r1);
    ExtendTestSecond(r2);
    ExtendTestThird(r3);
    ExtendTestFourth(r4);
  }

  lemma TotalAtMostOne(m: map<Pair, nat>, a: Pair)
    requires m.Keys <= {a}
    ensures Total(m) == Get(m, a)
  {
    if a in m {
      TotalRemove(m, a);
      assert m - {a} == map[];
    } else {
      assert m == map[];
    }
  }

  lemma TotalAtMostTwo(m: map<Pair, nat>, a: Pair, b: Pair)
    requires m.Keys <= {a, b} && a != b
    ensures Total(m) == Get(m, a) + Get(m, b)
  {
    if a in m {
      TotalRemove(m, a);
      TotalAtMostOne(m - {a}, b);
    } else {
      TotalAtMostOne(m, b);
    }
  }

  /** The sum over a map with at most the three keys `a`, `b`, `c`. */
  lemma TotalAtMostThree(m: map<Pair, nat>, a: Pair, b: Pair, c: Pair)
    requires m.Keys <= {a, b, c} && a != b && b != c && a != c
    ensures Total(m) == Get(m, a) + Get(m, b) + Get(m, c)
  {
    if a in m {
      TotalRemove(m, a);
      TotalAtMostTwo(m - {a}, b, c);
    } else {
      TotalAtMostTwo(m, b, c);
    }
  }
}

=== FILE: day14_result.dfy ===
/** Day 14's answer: the polymer's elements are tallied in a table indexed
    by letter, and the answer is the largest non-zero tally minus the
    smallest. */
module PolymerResult {
  import opened Common
  import opened Tally
  import opened Polymerization

  /** The table size as written, `'Z' as u8 - 'A' as u8`: one slot short
      of the alphabet. */
  const SlotsAsWritten: nat := 25

  /** The table size the solution evidently intends: one slot per letter. */
  const SlotsIntended: nat := 26

  /** The table slot of `c`: `(c as u8 - 'A' as u8)`. The conversion keeps
      the low byte of the code point; a byte below `'A'` underflows and
      aborts, and a slot past the table's end aborts on the index. */
  function Slot(c: char, size: nat): (r: Result<nat>)
    ensures !r.Err?
    ensures r.Ok? <==> 65 <= LowByte(c) < 65 + size
    ensures r.Ok? ==> r.value < size && r.value + 65 == LowByte(c)
  {
    var b := LowByte(c);
    if b < 65 then Panic("attempt to subtract with overflow")
    else if b - 65 < size then Ok(b - 65)
    else Panic("index out of bounds")
  }

  /** `c as u8`: the low byte of the code point. */
  function LowByte(c: char): (b: nat)
    ensures b < 256
    ensures (c as int) < 256 ==> b == c as int
  {
    (c as int) % 256
  }

  /** With one slot per letter, every upper-case letter has the slot of
      its place in the alphabet, and no two letters share one. */
  lemma UppercaseSlots(c: char, d: char)
    requires 'A' <= c <= 'Z' && 'A' <= d <= 'Z'
    ensures Slot(c, SlotsIntended) == Ok(c as int - 'A' as int)
    ensures Slot(c, SlotsIntended) == Slot(d, SlotsIntended) <==> c == d
  {
  }

  /** As written, the letter `Z` falls off the end of the table. */
  lemma NoSlotForZ()
    ensures Slot('Z', SlotsAsWritten).Panic?
    ensures forall c :: 'A' <= c < 'Z' ==> Slot(c, SlotsAsWritten) == Slot(c, SlotsIntended)
  {
  }

  // ---------------------------------------------------------------------
  // The table

  /** Every pair's second element has a slot. */
  predicate Fits(p: Polymer, size: nat)
  {
    forall q :: q in p ==> Slot(q.1, size).Ok?
  }

  /** The pairs whose second element lands in slot `i`. */
  function SlotPart(p: Polymer, i: nat, size: nat): (r: Polymer)
    ensures forall q :: q in r <==> q in p && Slot(q.1, size) == Ok(i)
    ensures forall q :: q in r ==> r[q] == p[q]
  {
    map q | q in p && Slot(q.1, size) == Ok(i) :: p[q]
  }

  /** The tally of slot `i`: the counts of the pairs ending in it. */
  ghost function SlotCount(p: Polymer, i: nat, size: nat): nat
  {
    Total(SlotPart(p, i, size))
  }

  /** The whole table. */
  ghost function SlotCounts(p: Polymer, size: nat): (t: seq<nat>)
    ensures |t| == size
  {
    seq(size, i requires 0 <= i < size => SlotCount(p, i, size))
  }

  /** Adding a pair to the visited ones adds its count to its own slot. */
  lemma SlotCountInsert(done: Polymer, k: Pair, n: nat, i: nat, size: nat)
    requires k !in done
    ensures SlotCount(done[k := n], i, size) == SlotCount(done, i, size) + (if Slot(k.1, size) == Ok(i) then n else 0)
  {
    if Slot(k.1, size) == Ok(i) {
      assert SlotPart(done[k := n], i, size) == SlotPart(done, i, size)[k := n];
      TotalInsert(SlotPart(done, i, size), k, n);
    } else {
      assert SlotPart(done[k := n], i, size) == SlotPart(done, i, size);
    }
  }

  /** `values` tallies the pairs of `done` by slot. */
  ghost predicate Tallied(values: seq<nat>, done: Polymer, size: nat)
  {
    |values| == size && forall i :: 0 <= i < size ==> values[i] == SlotCount(done, i, size)
  }

  lemma TalliedStep(values: seq<nat>, done: Polymer, k: Pair, n: nat, size: nat, i: nat)
    requires Tallied(values, done, size) && k !in done && Slot(k.1, size) == Ok(i)
    ensures Tallied(values[i := values[i] + n], done[k := n], size)
  {
    var next := values[i := values[i] + n];
    forall j | 0 <= j < size
      ensures next[j] == SlotCount(done[k := n], j, size)
    {
      SlotCountInsert(done, k, n, j, size);
    }
  }

  /** The first loop of `get_result`: each pair, in the map's own order,
      adds its count to the slot of its second element. A pair without a
      slot aborts, whichever order the pairs come in. */
  method Tabulate(p: Polymer, size: nat) returns (r: Result<seq<nat>>)
    ensures !r.Err?
    ensures r.Ok? <==> Fits(p, size)
    ensures r.Ok? ==> r.value == SlotCounts(p, size)
  {
    var values := seq(size, _ => 0);
    var todo := p.Keys;
    ghost var done: Polymer := map[];
    assert Tallied(values, done, size) by {
      forall i | 0 <= i < size
        ensures values[i] == SlotCount(done, i, size)
      {
        assert SlotPart(done, i, size) == map[];
      }
    }
    while todo != {}
      invariant forall k :: k in done <==> k in p && k !in todo
      invariant forall k :: k in done ==> done[k] == p[k]
      invariant todo <= p.Keys
      invariant Fits(done, size)
      invariant Tallied(values, done, size)
      decreases |todo|
    {
      var pair :| pair in todo;
      var quantity := p[pair];
      var slot := Slot(pair.1, size);
      if slot.Panic? {
        return Panic(slot.msg);
      }
      TalliedStep(values, done, pair, quantity, size, slot.value);
      values := values[slot.value := values[slot.value] + quantity];
      done := done[pair := quantity];
      todo := todo - {pair};
    }
    assert done == p;
    r := Ok(values);
  }

  // ---------------------------------------------------------------------
  // Largest minus smallest

  /** The largest tally; zero when there is none. */
  function Largest(v: seq<nat>): (m: nat)
    ensures forall k :: 0 <= k < |v| ==> v[k] <= m
    ensures m > 0 ==> exists k :: 0 <= k < |v| && v[k] == m
    ensures m == 0 <==> forall k :: 0 <= k < |v| ==> v[k] == 0
  {
    if |v| == 0 then 0
    else
      var m := Largest(v[..|v| - 1]);
      assert forall k :: 0 <= k < |v| - 1 ==> v[..|v| - 1][k] == v[k];
      if v[|v| - 1] > m then v[|v| - 1] else m
  }

  /** The smallest non-zero tally; zero when there is none. */
  function Smallest(v: seq<nat>): (m: nat)
    ensures forall k :: 0 <= k < |v| && v[k] > 0 ==> m <= v[k]
    ensures m > 0 ==> exists k :: 0 <= k < |v| && v[k] == m
    ensures m == 0 <==> forall k :: 0 <= k < |v| ==> v[k] == 0
  {
    if |v| == 0 then 0
    else
      var m := Smallest(v[..|v| - 1]);
      var x := v[|v| - 1];
      assert forall k :: 0 <= k < |v| - 1 ==> v[..|v| - 1][k] == v[k];
      if x > 0 && (m == 0 || x < m) then x else m
  }

  /** `v[i]` is the largest tally and `v[j]` the smallest non-zero one. */
  predicate Extremes(v: seq<nat>, i: int, j: int)
  {
    && 0 <= i < |v| && 0 <= j < |v| && v[i] > 0 && v[j] > 0
    && forall k :: 0 <= k < |v| && v[k] > 0 ==> v[j] <= v[k] <= v[i]
  }

  /** The second half of `get_result`: the zero tallies are dropped and
      the rest sorted; the last minus the first is the answer, and with
      nothing left the `unwrap` aborts. */
  function Spread(v: seq<nat>): (r: Result<nat>)
    ensures !r.Err?
    ensures r.Panic? <==> forall k :: 0 <= k < |v| ==> v[k] == 0
    ensures r.Ok? ==> exists i, j :: Extremes(v, i, j) && r.value == v[i] - v[j]
  {
    var hi, lo := Largest(v), Smallest(v);
    if hi == 0 then Panic("called `Option::unwrap()` on a `None` value")
    else
      assert lo <= hi && exists i, j :: Extremes(v, i, j) && hi - lo == v[i] - v[j] by {
        var i :| 0 <= i < |v| && v[i] == hi;
        var j :| 0 <= j < |v| && v[j] == lo;
        assert Extremes(v, i, j);
      }
      var d: nat := hi - lo;
      Ok(d)
  }

  /** `get_result` as written: second elements only, in a table of 25
      slots. */
  method GetResult(p: Polymer) returns (r: Result<nat>)
    ensures !r.Err?
    ensures r.Ok? ==> Fits(p, SlotsAsWritten)
    ensures Fits(p, SlotsAsWritten) ==> r == Spread(SlotCounts(p, SlotsAsWritten))
  {
    var table := Tabulate(p, SlotsAsWritten);
    if table.Panic? {
      return Panic(table.msg);
    }
    r := Spread(table.value);
  }

  // ---------------------------------------------------------------------
  // What the table counts

  /** The positions of `t` whose element lands in slot `i`. */
  function CountSlot(t: string, i: nat, size: nat): nat
  {
    if |t| == 0 then 0
    else CountSlot(t[..|t| - 1], i, size) + (if Slot(t[|t| - 1], size) == Ok(i) then 1 else 0)
  }

  lemma SlotPartAdd(p: Polymer, k: Pair, i: nat, size: nat)
    ensures SlotPart(Add(p, k, 1), i, size) == if Slot(k.1, size) == Ok(i) then Add(SlotPart(p, i, size), k, 1) else SlotPart(p, i, size)
  {
  }

  /** The table of a string's pairs counts every element but the first:
      each pair brings in its second element only. */
  lemma {:induction false} SlotCountPairs(s: string, i: nat, size: nat)
    requires |s| > 0
    ensures SlotCount(Pairs(s), i, size) == CountSlot(s[1..], i, size)
  {
    if |s| < 2 {
      assert SlotPart(map[], i, size) == map[];
    } else {
      var init := s[..|s| - 1];
      SlotCountPairs(init, i, size);
      var k := (s[|s| - 2], s[|s| - 1]);
      SlotPartAdd(Pairs(init), k, i, size);
      if Slot(k.1, size) == Ok(i) {
        TotalOfAdd(SlotPart(Pairs(init), i, size), k, 1);
      }
      assert s[1..][..|s[1..]| - 1] == init[1..];
    }
  }

  /** Counting the element in front of the rest. */
  lemma {:induction false} CountSlotCons(t: string, i: nat, size: nat)
    requires |t| > 0
    ensures CountSlot(t, i, size) == CountSlot(t[1..], i, size) + (if Slot(t[0], size) == Ok(i) then 1 else 0)
  {
    if |t| > 1 {
      var init := t[..|t| - 1];
      CountSlotCons(init, i, size);
      assert init[1..] == t[1..][..|t[1..]| - 1];
    }
  }

  // ---------------------------------------------------------------------
  // The answer as intended

  /** The table the puzzle asks for: one slot per letter, and the first
      element of the polymer, which no pair ends in, counted too. Insertions
      never change the first element, so it is the template's. */
  ghost function ElementCounts(p: Polymer, first: char): (t: seq<nat>)
    requires Slot(first, SlotsIntended).Ok?
    ensures |t| == SlotsIntended
  {
    var table := SlotCounts(p, SlotsIntended);
    var f := Slot(first, SlotsIntended).value;
    table[f := table[f] + 1]
  }

  /** For the pairs of a polymer string, the intended table holds how often
      each slot occurs in the string, every element counted once. */
  lemma ElementCountsPairs(s: string, i: nat)
    requires |s| > 0 && Slot(s[0], SlotsIntended).Ok? && i < SlotsIntended
    ensures ElementCounts(Pairs(s), s[0])[i] == CountSlot(s, i, SlotsIntended)
  {
    SlotCountPairs(s, i, SlotsIntended);
    CountSlotCons(s, i, SlotsIntended);
  }

  /** `get_result` as intended: one slot per letter, and the polymer's
      first element counted along with the second elements of its pairs. */
  method GetResultIntended(p: Polymer, first: char) returns (r: Result<nat>)
    ensures !r.Err?
    ensures r.Ok? ==> Fits(p, SlotsIntended) && Slot(first, SlotsIntended).Ok?
    ensures Fits(p, SlotsIntended) && Slot(first, SlotsIntended).Ok? ==> r == Spread(ElementCounts(p, first))
  {
    var table := Tabulate(p, SlotsIntended);
    if table.Panic? {
      return Panic(table.msg);
    }
    var f := Slot(first, SlotsIntended);
    if f.Panic? {
      return Panic(f.msg);
    }
    var counts := table.value[f.value := table.value[f.value] + 1];
    assert counts == ElementCounts(p, first);
    r := Spread(counts);
  }

  /** The table of the polymer `AAB`: one `A` and one `B` end a pair. */
  lemma TableOfAAB(s: string, i: nat, size: nat)
    requires s == "AAB" && 2 <= size
    ensures SlotCount(Pairs(s), i, size) == if i < 2 then 1 else 0
  {
    SlotCountPairs(s, i, size);
    assert s[1..] == "AB";
    CountAB(i, size);
  }

  lemma CountAB(i: nat, size: nat)
    requires 2 <= size
    ensures CountSlot("AB", i, size) == if i < 2 then 1 else 0
  {
    assert Slot('A', size) == Ok(0) && Slot('B', size) == Ok(1);
    assert "AB"[..1] == "A" && "A"[..0] == "";
    assert CountSlot("A", i, size) == CountSlot("", i, size) + (if i == 0 then 1 else 0);
    assert CountSlot("AB", i, size) == CountSlot("A", i, size) + (if i == 1 then 1 else 0);
  }

  lemma AsWrittenOfAAB(s: string)
    requires s == "AAB"
    ensures Spread(SlotCounts(Pairs(s), SlotsAsWritten)) == Ok(0)
  {
    var t := SlotCounts(Pairs(s), SlotsAsWritten);
    forall i | 0 <= i < SlotsAsWritten
      ensures t[i] == (if i < 2 then 1 else 0)
    {
      TableOfAAB(s, i, SlotsAsWritten);
    }
    Spread01(t);
  }

  lemma IntendedOfAAB(s: string)
    requires s == "AAB"
    ensures Spread(ElementCounts(Pairs(s), 'A')) == Ok(1)
  {
    var e := ElementCounts(Pairs(s), 'A');
    forall i | 0 <= i < SlotsIntended
      ensures e[i] == (if i == 0 then 2 else if i == 1 then 1 else 0)
    {
      TableOfAAB(s, i, SlotsIntended);
    }
    Spread21(e);
  }

  /** As written, the answer for the polymer `AAB` is 0, but `AAB` has two
      `A` and one `B`, so the intended answer is 1: the first `A` is never
      counted. */
  lemma FirstElementMissed(s: string)
    requires s == "AAB"
    ensures Spread(SlotCounts(Pairs(s), SlotsAsWritten)) == Ok(0)
    ensures Spread(ElementCounts(Pairs(s), 'A')) == Ok(1)
  {
    AsWrittenOfAAB(s);
    IntendedOfAAB(s);
  }

  lemma Spread01(t: seq<nat>)
    requires |t| >= 2 && forall i :: 0 <= i < |t| ==> t[i] == (if i < 2 then 1 else 0)
    ensures Spread(t) == Ok(0)
  {
    assert t[0] > 0;
  }

  lemma Spread21(t: seq<nat>)
    requires |t| >= 2 && forall i :: 0 <= i < |t| ==> t[i] == (if i == 0 then 2 else if i == 1 then 1 else 0)
    ensures Spread(t) == Ok(1)
  {
    assert t[0] == 2 && t[1] == 1;
  }
}

=== FILE: tally.dfy ===
/** Sums over the values of finite maps. The solutions keep counts in
    hash maps and iterate over them in an unspecified order; `Total` is the
    order-independent sum such an iteration computes. */
module Tally {

  /** Some key of a non-empty map. */
  ghost function Pick<K>(m: map<K, nat>): (k: K)
    requires |m| > 0
    ensures k in m
  {
    var k :| k in m; k
  }

  /** The sum of all values of `m`. */
  ghost function Total<K>(m: map<K, nat>): nat
    decreases |m|
  {
    if |m| == 0 then 0
    else
      var k := Pick(m);
      m[k] + Total(m - {k})
  }

  /** Any key may be taken out first: the sum does not depend on the order
      in which the keys are visited. */
  lemma {:induction false} TotalRemove<K>(m: map<K, nat>, k: K)
    requires k in m
    ensures Total(m) == m[k] + Total(m - {k})
    decreases |m|
  {
    var j := Pick(m);
    if j != k {
      assert (m - {j}).Keys == m.Keys - {j};
      TotalRemove(m - {j}, k);
      assert (m - {k}).Keys == m.Keys - {k};
      TotalRemove(m - {k}, j);
      assert m - {j} - {k} == m - {k} - {j};
    }
  }

  /** Adding to the entry of `k` adds to the sum. */
  lemma TotalAdd<K>(m: map<K, nat>, k: K, n: nat)
    ensures Total(m[k := Get(m, k) + n]) == Total(m) + n
  {
    var m' := m[k := Get(m, k) + n];
    TotalRemove(m', k);
    assert m' - {k} == m - {k};
    if k in m {
      TotalRemove(m, k);
    } else {
      assert m - {k} == m;
    }
  }

  /** The same, for an entry added with `Add`. */
  lemma TotalOfAdd<K(!new)>(m: map<K, nat>, k: K, n: nat)
    ensures Total(Add(m, k, n)) == Total(m) + n
  {
    assert Add(m, k, n) == m[k := Get(m, k) + n];
    TotalAdd(m, k, n);
  }

  /** A new key adds its value to the sum. */
  lemma TotalInsert<K>(m: map<K, nat>, k: K, n: nat)
    requires k !in m
    ensures Total(m[k := n]) == Total(m) + n
  {
    assert m[k := n] == m[k := Get(m, k) + n];
    TotalAdd(m, k, n);
  }

  /** The entries of `m` whose keys are in `s`. */
  function Within<K(!new)>(m: map<K, nat>, s: set<K>): (r: map<K, nat>)
    ensures forall k :: k in r <==> k in m && k in s
    ensures forall k :: k in r ==> r[k] == m[k]
  {
    map k | k in m && k in s :: m[k]
  }

  /** Adding a new key adds its count to the part of `m` in `s` exactly
      when the key is in `s`. */
  lemma TotalWithinInsert<K(!new)>(m: map<K, nat>, s: set<K>, k: K, n: nat)
    requires k !in m
    ensures Total(Within(m[k := n], s)) == Total(Within(m, s)) + (if k in s then n else 0)
  {
    if k in s {
      assert Within(m[k := n], s) == Within(m, s)[k := n];
      TotalInsert(Within(m, s), k, n);
    } else {
      assert Within(m[k := n], s) == Within(m, s);
    }
  }

  /** The entries of `m` whose keys are not in `s`. */
  function Without<K(!new)>(m: map<K, nat>, s: set<K>): (r: map<K, nat>)
    ensures forall k :: k in r <==> k in m && k !in s
    ensures forall k :: k in r ==> r[k] == m[k]
  {
    map k | k in m && k !in s :: m[k]
  }

  /** Taking out a key, present or not, takes out its count. */
  lemma TotalDrop<K>(m: map<K, nat>, k: K)
    ensures Total(m) == Get(m, k) + Total(m - {k})
  {
    if k in m {
      TotalRemove(m, k);
    } else {
      assert m - {k} == m;
    }
  }

  lemma PartsRemove<K(!new)>(m: map<K, nat>, s: set<K>, k: K)
    ensures Within(m - {k}, s) == Within(m, s) - {k}
    ensures Without(m - {k}, s) == Without(m, s) - {k}
    ensures Get(Within(m, s), k) + Get(Without(m, s), k) == Get(m, k)
  {
  }

  /** Any set of keys splits the sum in two. */
  lemma {:induction false} TotalPartition<K(!new)>(m: map<K, nat>, s: set<K>)
    ensures Total(m) == Total(Within(m, s)) + Total(Without(m, s))
    decreases |m|
  {
    if |m| == 0 {
      assert Within(m, s) == map[] && Without(m, s) == map[];
    } else {
      var k := Pick(m);
      var rest := m - {k};
      assert |rest| < |m| by {
        assert rest.Keys == m.Keys - {k};
      }
      TotalPartition(rest, s);
      TotalDrop(m, k);
      PartsRemove(m, s, k);
      TotalDrop(Within(m, s), k);
      TotalDrop(Without(m, s), k);
    }
  }

  /** A map with no keys sums to zero, and only such a map among those with
      positive values. */
  lemma TotalPositive<K>(m: map<K, nat>)
    requires forall k :: k in m ==> m[k] > 0
    ensures Total(m) == 0 <==> |m| == 0
  {
    if |m| > 0 {
      TotalRemove(m, Pick(m));
    }
  }

  /** The value of `k` in a count map, zero when absent (Rust's
      `entry(k).or_insert(0)` reading). */
  function Get<K>(m: map<K, nat>, k: K): nat
  {
    if k in m then m[k] else 0
  }

  /** Rust's `*m.entry(k).or_insert(0) += n`. */
  function Add<K(!new)>(m: map<K, nat>, k: K, n: nat): (r: map<K, nat>)
    ensures forall j :: j in r <==> j in m || j == k
    ensures Get(r, k) == Get(m, k) + n
    ensures forall j :: j != k ==> Get(r, j) == Get(m, j)
  {
    m[k := Get(m, k) + n]
  }
}
